=== FILE: README.md ===
# Praise-songs site: a Dafny model of its core rules

The site is a Next.js application for a church's praise songs. It stores songs with their audio,
cover image, lyric files and sheet music, plays them in a browser player, projects sheet music on
a presentation screen, and keeps playlists, videos and user accounts. This project models the
rules behind it as pure Dafny functions over immutable values, and proves what they promise.

The modules follow the program's files:

- `Text`, `Seqs` and `Js` hold the shared vocabulary: white space, trimming, lower case, search
  in strings, generic sequence helpers, a JSON value, JavaScript truthiness, `parseInt` and the
  `slice` end rule.
- `ParamsStore` is the presentation parameter route: the one-level merge of a request into the
  stored document, and the empty-document fallback.
- `PresentationView` is the presentation page: reading and editing a half's offset and zoom, the
  slide navigator, hiding a bottom half, the key handler and buttons, and the load precedence of
  server and browser values. `PresentationList` is the list of items chosen for presenting.
  `PresentationSync` is how the page reads the stored items.
- `Player` is the player context: the queue, the play modes, next and previous, the volume and
  the cross-window `PLAY_SONG` message.
- `UploadGroups` is the upload page: grouping files into songs, merging and removing groups,
  selection, and the batch-upload tally. `SongBatch` is the batch delete route.
- `Sanitize`, `Titles`, `StoredFiles` and `SongUpload` are the song upload route: name
  sanitisers, `normalizeTitle`, the stored file lists, matching an existing song, the conflict
  report and the update or creation of a song. `VideoUpload` is the video upload route, with its
  file naming and its conflict, update and create decision.
- `MergeDuplicates` is the duplicate merge script: grouping, choosing the song kept and merging
  the file lists.
- `Permissions` is the permission sets and the permission decision.
- `SheetCategory`, `SheetIndex` and `SheetList` are the sheet-music helpers, the sheet page's
  filter and index letter, and the sheet list's flattening, numbering and grouping.
- `PlaylistAccess`, `PlaylistClient` and `AdminPlaylists` are the playlist route's visibility and
  creation rules, the playlist page's filters and selection, and the admin page's status actions.
- `VideoList`, `RandomSongs`, `AlbumCatalog`, `Artists` and `Search` are the video list route,
  the random songs route with its Fisher–Yates shuffle, the album page, the artist page and the
  search page.

Storage, the network and the browser are not modelled: database rows, stored files, form fields,
the clock and random draws are passed in as values, and each route is modelled as the decision
it makes and the values it would write.

The parameter route merges each sent item into the stored one a single level deep, with no lock
and no clamp on the zoom. A sent item that is an array or a string spreads its index keys, as
JavaScript's object spread does.

## Model

| member | source | states |
|---|---|---|
| Js.JsRem | web/context/PlayerContext.tsx:205 | JavaScript's remainder by a positive divisor: it has the dividend's sign, is smaller in size than the divisor, and divides the dividend exactly |
| Js.RandomIndex | web/app/api/songs/random/route.ts:20 | a position drawn from `Math.random()` always lies inside the list |
| Js.SliceStop | web/app/api/songs/random/route.ts:25 | a slice never runs past the list; `NaN` gives none, and a limit of 0 or more gives the smaller of the limit and the length |
| Js.FieldText | web/app/api/video/upload/route.ts:74-76 | a missing form field reads as empty, and a present one trimmed |
| Js.IndexProps | web/app/api/presentation/params/route.ts:48-49 | spreading an array or string puts each element under its decimal index |
| Js.IndexPropsKeys | web/app/api/presentation/params/route.ts:48-49 | every key a spread array or string contributes is some index written in decimal |
| Text.Trim | web/app/api/upload/route.ts:96 | a trimmed text neither starts nor ends with white space and is no longer than the text |
| Text.TrimIdempotent | web/app/api/upload/route.ts:96 | trimming twice is trimming once |
| Text.TrimEmptyIffBlank | web/app/playlist/PlaylistClient.tsx:60 | a text trims to nothing exactly when it is all white space |
| ParamsStore.LoadExisting | web/app/api/presentation/params/route.ts:35-42 | a missing or unparsable file is merged into as the empty document, and an object's own properties are copied |
| ParamsStore.MergeItem | web/app/api/presentation/params/route.ts:47-50 | one item's fields after a save are its stored fields together with the sent ones |
| ParamsStore.MergeItems | web/app/api/presentation/params/route.ts:45-51 | the merged items cover exactly the stored ids and the sent ids |
| ParamsStore.Merge | web/app/api/presentation/params/route.ts:42-59 | every stored top-level key survives and only `items`, `bgUrl` and `updatedAt` may change; the stamp is set on every save; items change only for a truthy `items` and the background only for a truthy `bgUrl` |
| ParamsStore.UntransmittedItemUnchanged | web/app/api/presentation/params/route.ts:44-52 | a stored item whose id the request does not send is left exactly as it was |
| ParamsStore.TransmittedItemFieldwise | web/app/api/presentation/params/route.ts:46-51 | the merge is one level deep: each sent field replaces the stored field wholesale and each unsent field keeps its stored value |
| ParamsStore.MergeItemsIdempotent | web/app/api/presentation/params/route.ts:45-51 | merging the same items a second time changes nothing |
| ParamsStore.MergeIdempotent | web/app/api/presentation/params/route.ts:42-59 | saving the same payload twice leaves the same items and background as saving it once |
| ParamsStore.SequentialSavesBothSurvive | web/app/api/presentation/params/route.ts:42-62 | two saves of different items, one after the other, both keep their items |
| ParamsStore.Post | web/app/api/presentation/params/route.ts:30-69 | a body that is not JSON, or is `null`, and a failed write answer 500 and write nothing; a success writes the merged document and echoes its new stamp |
| ParamsStore.UnreadableStoreIsEmpty | web/app/api/presentation/params/route.ts:37-41 | a missing or unreadable file makes the save start from the empty document |
| ParamsStore.Get | web/app/api/presentation/params/route.ts:16-28 | no file answers `{}`, an unreadable file answers 500, and otherwise the stored document is returned |
| PresentationSync.Encode | web/app/presentation/page.tsx:43-51 | an item is sent as an object with `top` and `bottom`, and with `hideBottom` exactly when the flag is set |
| PresentationSync.Decode | web/app/presentation/page.tsx:111-112 | only an object with `top` and `bottom` reads back as an item |
| PresentationSync.DecodeEncode | web/app/presentation/page.tsx:43-51 | reading an item back after encoding it gives the item |
| PresentationSync.EncodeCache | web/app/presentation/page.tsx:44 | the sent items have exactly the page's ids |
| PresentationSync.DecodeCache | web/app/presentation/page.tsx:111-112 | the items read back are exactly the stored items of the expected shape, each decoded |
| PresentationSync.SavePayload | web/app/presentation/page.tsx:43-46 | the payload carries the encoded items, and `bgUrl` exactly when the background is non-empty |
| PresentationSync.ServerItems | web/app/presentation/page.tsx:111-113 | the fetched items are used exactly when the document's `items` is truthy |
| PresentationSync.ServerBackground | web/app/presentation/page.tsx:114-116 | only a non-empty fetched background is used |
| PresentationSync.DecodeOverlay | web/app/api/presentation/params/route.ts:47-50 | an encoded item laid over any stored fields reads back with the item's halves, and as the whole item when its flag is set |
| PresentationSync.StoredItemAfterSave | web/app/api/presentation/params/route.ts:44-52 | after a save the stored item for a sent id is the sent encoding laid over what was stored for it |
| PresentationSync.SaveThenLoad | web/app/presentation/page.tsx:40-116 | saving and reading back gives every item whose flag was set exactly as saved, and every read-back item its saved halves |
| PresentationSync.SavedBackgroundReadBack | web/app/presentation/page.tsx:43-116 | a saved non-empty background is the one read back |
| PresentationSync.FreshPageSeesSavedParams | web/app/presentation/page.tsx:106-133 | a page that starts empty with no local copy shows, after a save, the saved parameters of every item whose flag was set |
| PresentationView.GetParams | web/app/presentation/page.tsx:155-161 | an unknown item's half is offset 0 and zoom 1; a known item's is its stored top or bottom half |
| PresentationView.UpdateParams | web/app/presentation/page.tsx:163-180 | only the chosen half of the chosen item changes, and in it only the given fields; every other item, the other half and the hide flag stay |
| PresentationView.NextSlide | web/app/presentation/page.tsx:183-197 | the next view is one the navigator can show; it is the bottom of the same sheet or the top of the next sheet, wrapping around |
| PresentationView.PrevSlide | web/app/presentation/page.tsx:199-214 | the previous view is one the navigator can show; from a bottom half it is the top of the same sheet, from a top half a half of the previous sheet, wrapping around |
| PresentationView.PrevUndoesNext | web/app/presentation/page.tsx:183-214 | from every view the navigator can show, going forward and then back returns to it |
| PresentationView.NextUndoesPrev | web/app/presentation/page.tsx:183-214 | from every view the navigator can show, going back and then forward returns to it |
| PresentationView.BackAfterForward | web/app/presentation/page.tsx:183-214 | stepping one position forward around a ring and then one back lands where it started |
| PresentationView.ForwardAfterBack | web/app/presentation/page.tsx:183-214 | stepping one position back around a ring and then one forward lands where it started |
| PresentationView.ToggleHideBottom | web/app/presentation/page.tsx:274-301 | with no current item nothing changes; otherwise the current item's hide flag flips, its halves and every other item stay, and the top half is shown |
| PresentationView.ToggleTwice | web/app/presentation/page.tsx:274-301 | toggling twice restores whether the bottom half is hidden, and with no current item changes nothing |
| PresentationView.ZoomIn | web/app/presentation/page.tsx:243 | zooming in adds 0.01 while that stays within 5, and otherwise gives exactly 5 |
| PresentationView.ZoomOut | web/app/presentation/page.tsx:246 | zooming out takes 0.01 away while that stays at or above 0.1, and otherwise gives exactly 0.1 |
| PresentationView.ZoomStepsCancel | web/app/presentation/page.tsx:242-246 | away from the bounds, `+` then `-` and `-` then `+` give the zoom back; at 5 and at 0.1 the key that would pass the bound changes nothing |
| PresentationView.ZoomStepsMonotone | web/app/presentation/page.tsx:242-246 | both keys keep the order of zoom values, and a zoom between 0.1 and 5 stays between them |
| PresentationView.CtrlSMovesDownInsteadOfSaving | web/app/presentation/page.tsx:237-251 | as written, Ctrl+S does not save: the plain `s` branch comes first and moves the current half down by 0.5 vh |
| PresentationView.SpaceBarDoesNothing | web/app/presentation/page.tsx:221 | as written, the space bar (whose key is `" "`, not `Space`) changes nothing |
| PresentationView.HandleKey | web/app/presentation/page.tsx:218-253 | corrected handler: Ctrl/Cmd+S saves and changes nothing else; the arrows and the space bar move to a view the navigator can show and edit nothing; zoom keys stay within 0.1 and 5; without a current item nothing happens |
| PresentationView.HandleKeyAgreesElsewhere | web/app/presentation/page.tsx:218-253 | every key other than the space bar and Ctrl/Cmd+S behaves as written |
| PresentationView.PressButton | web/app/presentation/page.tsx:420-452 | the buttons move the current half up or down by 0.25 vh, reset its offset to 0, or zoom within 0.1 and 5, changing only that one field and not the view |
| PresentationView.ResetKeyRestoresDefaults | web/app/presentation/page.tsx:247-248 | `r` and `0` put the current half back to offset 0 and zoom 1 |
| PresentationView.LoadParams | web/app/presentation/page.tsx:106-133 | the server's items win over memory, memory wins over the locally stored items, local items fill only ids not yet present, and no other id appears |
| PresentationView.LoadBackground | web/app/presentation/page.tsx:114-139 | a non-empty local background beats the server's non-empty one, which beats `/bj.jpg` |
| PresentationList.AddItem | web/context/PresentationContext.tsx:42-47 | afterwards the id is queued; an item whose id is queued already changes nothing, any other is appended; distinct ids stay distinct |
| PresentationList.RemoveItem | web/context/PresentationContext.tsx:49-51 | afterwards the id is not queued, exactly the items with other ids remain, and a list without the id is unchanged |
| PresentationList.RemoveItemAppend | web/context/PresentationContext.tsx:49-51 | removing works item by item in list order: on a joined list it is the join of the removals, and a single item stays exactly when its id differs |
| PresentationList.RemoveUndoesAdd | web/context/PresentationContext.tsx:42-51 | adding an item that was not queued and removing its id gives the list back |
| PresentationList.AddIdempotent | web/context/PresentationContext.tsx:42-47 | adding the same item twice is adding it once |
| PresentationList.RemoveKeepsUnique | web/context/PresentationContext.tsx:49-51 | removing keeps the ids distinct |
| PresentationList.FilterKeepsUnique | web/context/PresentationContext.tsx:50 | filtering a list with distinct ids keeps them distinct |
| PresentationList.ClearList | web/context/PresentationContext.tsx:53-55 | afterwards no id is queued |
| PresentationList.RemoveAt | web/context/PresentationContext.tsx:60 | removing one position keeps the elements before it and shifts those after it down by one |
| PresentationList.Reorder | web/context/PresentationContext.tsx:57-64 | the moved list has the same length, the moved element at the target position, and without it the same elements in the same order as the old list without it |
| PresentationList.ReorderSource | web/context/PresentationContext.tsx:57-64 | every position of the moved list holds the element of its source position in the old list |
| PresentationList.ReorderPermutes | web/context/PresentationContext.tsx:57-64 | moving an element keeps every element, as often as it was there |
| PresentationList.ReorderInverse | web/context/PresentationContext.tsx:57-64 | moving from `from` to `to` and back from `to` to `from` gives the list back |
| PresentationList.SourceInjective | web/context/PresentationContext.tsx:57-64 | different positions of the moved list come from different positions of the old one |
| PresentationList.ReorderKeepsUnique | web/context/PresentationContext.tsx:57-64 | moving an element keeps the ids distinct |
| Player.IndexOfId | web/context/PlayerContext.tsx:177 | the position found is that of the first song with the id, and -1 exactly when no queued song has it |
| Player.IndexOfIdUnique | web/context/PlayerContext.tsx:177 | in a playlist without repeated ids every song is found at its own position |
| Player.Enqueue | web/context/PlayerContext.tsx:94-104 | afterwards the song's id is queued; a queued id leaves the playlist as it was, otherwise the song is appended; a playlist without repeated ids keeps none |
| Player.PlaySong | web/context/PlayerContext.tsx:93-107 | the song becomes current and playing; a queued id leaves the playlist as it was, any other song is appended at the end; no queued song is lost, ids stay distinct, and volume and mode stay |
| Player.AddToPlaylist | web/context/PlayerContext.tsx:109-114 | the song is queued and the current song, playing flag, volume and mode stay; an already queued id changes nothing, any other song is appended at the end |
| Player.RemoveFromPlaylist | web/context/PlayerContext.tsx:116-118 | no song with the id is left, every other song stays, and the current song, playing flag, volume and mode stay |
| Player.RemoveFromPlaylistAppend | web/context/PlayerContext.tsx:116-118 | removing works song by song in playlist order: on a joined playlist it is the join of the removals, and a single song stays exactly when its id differs |
| Player.RemoveUndoesAdd | web/context/PlayerContext.tsx:109-118 | adding a song whose id was not queued and then removing that id gives the state back |
| Player.PlaySongQueuesLikeAdd | web/context/PlayerContext.tsx:93-114 | playing a song queues it exactly as adding it does, and removing its id afterwards leaves what removing it before would |
| Player.ReplacePlaylist | web/context/PlayerContext.tsx:120-129 | the playlist becomes the given list, playing its first song, or stopped when it is empty |
| Player.ClearPlaylist | web/context/PlayerContext.tsx:131-135 | the playlist is empty, nothing is current or playing, and volume and mode stay |
| Player.ClearIsReplaceWithNothing | web/context/PlayerContext.tsx:120-135 | clearing is the same as replacing with the empty list |
| Player.TogglePlay | web/context/PlayerContext.tsx:137-147 | only the playing flag changes, and it flips |
| Player.NextMode | web/context/PlayerContext.tsx:149-153 | pressing the mode button always changes the mode |
| Player.ModeCycle | web/context/PlayerContext.tsx:149-153 | three presses come back to the starting mode, and the three modes are visited in turn |
| Player.PlayNext | web/context/PlayerContext.tsx:155-181 | with no current song or an empty playlist nothing happens; single mode restarts the song and changes nothing else; otherwise a queued song becomes current and plays, and playlist, mode and volume stay |
| Player.PlayPrev | web/context/PlayerContext.tsx:183-208 | the same guarantees as next, stepping backwards |
| Player.NextOfUnqueuedIsFirst | web/context/PlayerContext.tsx:177-179 | in sequence mode a current song that is no longer queued is followed by the first song |
| Player.NextInSequence | web/context/PlayerContext.tsx:177-180 | in sequence mode next plays the following song, wrapping from the last to the first |
| Player.PrevInSequence | web/context/PlayerContext.tsx:204-207 | in sequence mode previous plays the preceding song, wrapping from the first to the last |
| Player.PrevUndoesNext | web/context/PlayerContext.tsx:155-208 | in sequence mode previous after next returns to the song that was current |
| Player.SetVolume | web/context/PlayerContext.tsx:217-223 | the volume is clamped into [0, 1], a volume inside is kept exactly, and nothing else changes |
| Player.SetVolumeIdempotent | web/context/PlayerContext.tsx:217-223 | setting the volume to the volume just set changes nothing |
| Player.OnMessage | web/context/PlayerContext.tsx:292-342 | a ping and only a ping is answered; a song sent to play is queued and plays unless another song is playing; a queued song plays only when nothing is current; a replacement list replaces the playlist only when it is an array |
| Player.OnMessageKeepsUnique | web/context/PlayerContext.tsx:292-342 | every message keeps the playlist free of repeated ids, given a replacement list is |
| UploadGroups.Extension | web/app/upload/page.tsx:64 | the extension is no longer than the name and holds no dot |
| UploadGroups.NameWithoutExt | web/app/upload/page.tsx:65 | the base name is a prefix of the name, and differs from it only by a final dot and a non-empty run without `.` or `/` |
| UploadGroups.StripCoverMarker | web/app/upload/page.tsx:72-76 | a name ending in `_封面` or `-封面` loses one marker's worth of characters, and any other name is kept |
| UploadGroups.ReplaceFirstFound | web/app/upload/page.tsx:73-75 | removing the first occurrence of a marker the name ends with shortens it by the marker's length and agrees with replacing the first occurrence by nothing |
| UploadGroups.CoverMarkerCutAtEnd | web/app/upload/page.tsx:72-76 | when the marker occurs only at the end, just the marker is cut off |
| UploadGroups.NewGroup | web/app/upload/page.tsx:89-101 | a new group is titled by its key, pending, empty, and has the default artist or `未分类歌手` |
| UploadGroups.IndexOfTitle | web/app/upload/page.tsx:89 | the group found has the key as its title, and -1 means no group has it |
| UploadGroups.GroupFiles | web/app/upload/page.tsx:60-127 | the groups offered are exactly the collected groups that hold audio, a sheet or a lyric |
| UploadGroups.KeyList | web/app/upload/page.tsx:63-87 | one key per file, in picking order |
| UploadGroups.LastIn | web/app/upload/page.tsx:105-116 | the file found is the last one of that key and slot, and there is none exactly when no file has both |
| UploadGroups.RefGroupOther | web/app/upload/page.tsx:103-123 | a file leaves every group of another key as it was |
| UploadGroups.RefGroupSame | web/app/upload/page.tsx:103-123 | a file changes its own key's group exactly by being placed in its slot |
| UploadGroups.RefGroupAbsent | web/app/upload/page.tsx:89-101 | a key no file has gives a fresh empty group |
| UploadGroups.ReferenceTitles | web/app/upload/page.tsx:89-92 | the groups are titled by the distinct keys, in the order they first appear |
| UploadGroups.KeysAppend | web/app/upload/page.tsx:63-89 | a further file keeps the distinct keys and adds its own at the end if it is new |
| UploadGroups.RefOthers | web/app/upload/page.tsx:63-124 | a further file leaves the groups of the other keys where and as they were |
| UploadGroups.RefIndexOfTitle | web/app/upload/page.tsx:89 | a key is found at its position among the distinct keys, and a new key is not found |
| UploadGroups.RefNewLast | web/app/upload/page.tsx:89-103 | a file with a new key adds one group at the end holding just that file |
| UploadGroups.AddToKnownGroup | web/app/upload/page.tsx:89-123 | a file whose key has a group joins that group and the result is the reference grouping of the longer list |
| UploadGroups.AddToNewGroup | web/app/upload/page.tsx:89-123 | a file with a new key opens a new group at the end and the result is the reference grouping of the longer list |
| UploadGroups.CollectIsReference | web/app/upload/page.tsx:60-124 | grouping file by file builds exactly the groups described directly from the whole list |
| UploadGroups.GroupsCoverKeys | web/app/upload/page.tsx:60-124 | group titles are distinct, and every file's key has its group |
| UploadGroups.FilesLandInTheirGroup | web/app/upload/page.tsx:103-123 | every sheet and lyric sits in the group of its own key and no other, and a group's audio and cover are the last of its key |
| UploadGroups.CoverOnlyGroupDropped | web/app/upload/page.tsx:126 | a group holding only a cover is not offered for upload |
| UploadGroups.ToggleSelection | web/app/upload/page.tsx:195-203 | the id's membership flips and every other id keeps its own |
| UploadGroups.ToggleTwice | web/app/upload/page.tsx:195-203 | toggling twice restores the selection |
| UploadGroups.RemoveGroup | web/app/upload/page.tsx:186-193 | the id leaves both the list and the selection, and every other group stays |
| UploadGroups.RemoveGroupAppend | web/app/upload/page.tsx:186-193 | removal works group by group in list order: on a joined list it is the join of the removals, and a single group stays exactly when its id differs, so the others keep their order and repeats |
| UploadGroups.Primary | web/app/upload/page.tsx:213 | the primary is one of the selected groups, and has audio whenever one of them has |
| UploadGroups.AbsorbAll | web/app/upload/page.tsx:222-246 | only the files change: the others' sheets and lyrics are appended in list order, and audio and cover are taken from another group only when missing |
| UploadGroups.Merged | web/app/upload/page.tsx:213-246 | the merged group has the primary's title, artist, album and status under a fresh id, the primary's sheets and lyrics followed by the others', and the others' audio or cover only where the primary lacks them |
| UploadGroups.MergedAudio | web/app/upload/page.tsx:213-230 | the merged group's audio is the first selected group's audio, and it has none exactly when no selected group has |
| UploadGroups.FirstAudioIsFound | web/app/upload/page.tsx:213 | the first audio is that of the first group holding one |
| UploadGroups.NoAudioAnywhere | web/app/upload/page.tsx:226 | groups without audio give no audio |
| UploadGroups.CollapseInserted | web/app/upload/page.tsx:265-274 | once the merged group is placed, the selected groups are dropped and the others kept in order |
| UploadGroups.CollapseFirst | web/app/upload/page.tsx:249-274 | the merged group takes the place of the first selected group, and with none selected the list is unchanged |
| UploadGroups.CollapseNone | web/app/upload/page.tsx:265-274 | with no group selected the list is unchanged |
| UploadGroups.CollapseAt | web/app/upload/page.tsx:265-274 | the list is the groups before the first selected one, the merged group, then the unselected groups after it |
| UploadGroups.FilterSplit | web/app/upload/page.tsx:209-253 | the selected and the unselected groups add up to the list |
| UploadGroups.MergeSelected | web/app/upload/page.tsx:205-279 | fewer than two selected ids change nothing; otherwise the merged group replaces the selected ones at the first selected position, the others stay in order, and the selection is cleared |
| UploadGroups.SplitAtFirstPicked | web/app/upload/page.tsx:249-253 | the unselected groups are those before the first selected one followed by the unselected ones after it |
| UploadGroups.KeptAround | web/app/upload/page.tsx:253 | the unselected groups are those before the first selected position followed by the unselected ones after it |
| UploadGroups.PickedAround | web/app/upload/page.tsx:209 | the selected groups are the first selected one and the selected ones after it |
| UploadGroups.KeptPickedAppend | web/app/upload/page.tsx:209-253 | selecting from two lists joined is selecting from each, joined |
| UploadGroups.CollapseShape | web/app/upload/page.tsx:262-274 | k selected groups out of n leave n - k + 1 groups, with the unselected ones around the merged group in their order |
| UploadGroups.MergeLength | web/app/upload/page.tsx:205-277 | a merge of k selected groups out of n leaves n - k + 1 groups: the merged group at the first selected position and the unselected ones around it in order |
| UploadGroups.Settle | web/app/upload/page.tsx:344-362 | every group ends uploaded or failed, a group already uploaded is skipped, and only the status changes |
| UploadGroups.CountSuccess | web/app/upload/page.tsx:341-357 | no more successes than groups |
| UploadGroups.CountSuccessAppend | web/app/upload/page.tsx:341-357 | successes of two lists add up |
| UploadGroups.BatchUpload | web/app/upload/page.tsx:335-372 | every group is settled in order, the successes are the groups that end uploaded, and successes and failures add up to the number of groups |
| SongBatch.PathsOf | web/app/api/song/batch/route.ts:42-46 | the paths are exactly the non-empty strings among the values, each with one leading slash removed |
| SongBatch.AllPaths | web/app/api/song/batch/route.ts:33-60 | every path of every song is unlinked, and every unlinked path is some song's |
| SongBatch.ObjectPaths | web/app/api/song/batch/route.ts:34-55 | for an object, a path is unlinked exactly when a key other than `category` holds it, or an array holding it, as a non-empty string less one leading slash |
| SongBatch.CategoryIgnored | web/app/api/song/batch/route.ts:39 | the `category` key never contributes a path, whatever it holds |
| SongBatch.StripsOneSlash | web/app/api/song/batch/route.ts:46 | exactly one leading slash is removed, so `//a` becomes `/a` |
| SongBatch.IdStrings | web/app/api/song/batch/route.ts:26-30 | the ids fail exactly when one of them is not a string; otherwise they are the strings, in order |
| SongBatch.Post | web/app/api/song/batch/route.ts:11-78 | every refusal unlinks nothing and leaves the table alone; a delete happens only for a signed-in caller with a non-empty array of ids |
| SongBatch.InvalidIdsRejected | web/app/api/song/batch/route.ts:19-23 | a missing, non-array or empty `ids` is a 400 for a caller who may delete |
| SongBatch.ValidRequestDeletes | web/app/api/song/batch/route.ts:25-73 | a permitted caller with string ids deletes exactly the rows those ids name |
| SongBatch.DefaultUserRefused | web/app/api/song/batch/route.ts:16-17 | a user with the default permissions is refused, because the batch delete names no creator |
| SongBatch.RemoveEffect | web/app/api/song/batch/route.ts:25-73 | the rows left are exactly those whose id is not a key; the count and the rows left add up to the table; the unlinked paths are exactly those of the deleted rows |
| SongBatch.FilterSplits | web/app/api/song/batch/route.ts:67-73 | the deleted and the kept rows add up to the table |
| SongBatch.UnparsableStillDeleted | web/app/api/song/batch/route.ts:56-58 | a song whose `files` does not parse is still deleted; it only adds no path |
| SongBatch.CountAtMostIds | web/app/api/song/batch/route.ts:67-73 | with unique row ids the count is at most the number of ids, and smaller when some id names no row |
| SongBatch.SetOfSeqSize | web/app/api/song/batch/route.ts:28 | a list of ids names no more distinct ids than it has entries |
| SongBatch.CountBound | web/app/api/song/batch/route.ts:67-73 | with unique row ids no more rows are deleted than there are distinct ids |
| Sanitize.Underscore | web/app/api/upload/route.ts:19-20 | the replacement keeps the length and puts `_` exactly where the character is in the class |
| Sanitize.Take | web/app/api/upload/route.ts:23 | `slice(0, n)` keeps the first `n` characters, or all of a shorter string |
| Sanitize.StripLeadingDots | web/app/api/upload/route.ts:21 | removes exactly the leading run of dots: what is left is a suffix that does not start with a dot, and everything removed was a dot |
| Sanitize.FolderName | web/app/api/upload/route.ts:11-14 | the folder name is 1 to 80 folder characters; an empty input gives `default`; otherwise position by position a folder character is kept and any other becomes `_`, cut to 80 |
| Sanitize.FolderNameFixed | web/app/api/upload/route.ts:11-14 | a name of 1 to 80 folder characters is its own folder name |
| Sanitize.FolderNameIdempotent | web/app/api/upload/route.ts:11-14 | sanitising a folder name twice gives the same name as sanitising it once |
| Sanitize.FileName | web/app/api/upload/route.ts:16-25 | as written: the file name is 1 to 180 characters long and holds no NUL, `/`, `\`, `%`, `?` or `#` |
| Sanitize.CleanedIsSafe | web/app/api/upload/route.ts:18-23 | after replacing, stripping dots, trimming and cutting, no unsafe character is left |
| Sanitize.FileNameOfBlank | web/app/api/upload/route.ts:24 | a blank name becomes `file` |
| Sanitize.FileNameFixed | web/app/api/upload/route.ts:16-25 | a name of at most 180 characters without unsafe characters, leading dot or surrounding white space is kept unchanged |
| Sanitize.SpaceBeforeDotsKeepsThem | web/app/api/upload/route.ts:21-22 | as written, ` ..` is sanitised to `..`: the dots are stripped before the white space is trimmed |
| Sanitize.StripLeadingDotsAndSpace | web/app/api/upload/route.ts:21-22 | removes exactly the leading run of dots and white space |
| Sanitize.SafeFileName | web/app/api/upload/route.ts:16-25 | corrected rule: 1 to 180 characters, no unsafe character, and it never starts with a dot or white space |
| Sanitize.SafeCleanedFacts | web/app/api/upload/route.ts:18-23 | the corrected steps leave at most 180 characters, none unsafe, with no dot or white space in front |
| Sanitize.SafeFileNameAgrees | web/app/api/upload/route.ts:16-25 | the corrected rule gives the same name as the source's rule exactly when the source's name does not start with a dot |
| Sanitize.FirstOfFileName | web/app/api/upload/route.ts:21-24 | unless the name falls back to `file`, its first character is the first one left after stripping dots and leading white space |
| Sanitize.StripBothIsTrimmed | web/app/api/upload/route.ts:21-22 | when stripping dots and then leading white space leaves no dot in front, stripping both together removes the same prefix |
| Sanitize.DotsThenSpace | web/app/api/upload/route.ts:21-22 | stripping dots and then leading white space removes a run made only of dots and white space |
| Titles.StripExt | web/app/api/upload/route.ts:45 | a trailing extension (a dot followed by characters other than `/` and `.` up to the end) is cut at that dot; a title without one is kept |
| Titles.RemarkFrom | web/app/api/upload/route.ts:46 | the leftmost position from which white space, an opening bracket, a line-break-free run and a closing last character match, or -1 when none does |
| Titles.StripRemark | web/app/api/upload/route.ts:46 | the remark replacement keeps a prefix of the title |
| Titles.NormalizeTitle | web/app/api/upload/route.ts:43-48 | the normalised title has no white space at either end |
| Titles.StripRemarkOneLine | web/app/api/upload/route.ts:46 | on a title without line breaks the remark is removed exactly when the title ends in a closing bracket with an opening bracket before it, from the first such opening bracket and the white space before it |
| Titles.NormalizeOneLine | web/app/api/upload/route.ts:43-48 | a one-line title normalises to its extension-less, remark-less text, trimmed |
| StoredFiles.SplitExt | web/app/api/video/upload/route.ts:44 | the name and extension put back together are the file name, and the extension is empty or starts with a dot |
| StoredFiles.Candidate | web/app/api/video/upload/route.ts:46-48 | the first attempt uses the file name; later attempts use the name, `_`, the timestamp, `_`, the attempt number and the extension |
| StoredFiles.FolderNames | web/app/api/video/upload/route.ts:40 | each directory part is sanitised as a folder name, position by position |
| StoredFiles.TryFrom | web/app/api/video/upload/route.ts:46-60 | a save from attempt `k` succeeds at the first attempt the disk writes, after only taken names, and its path names that attempt's candidate; it fails exactly when it does not succeed, and then either every name up to attempt 4 was taken or a write error came after only taken names |
| StoredFiles.SaveFile | web/app/api/video/upload/route.ts:31-61 | exactly an empty file is skipped; a first write that succeeds returns the path of the sanitised name; a saved file was written at an attempt below 5 after only taken names |
| StoredFiles.AtMostFiveAttempts | web/app/api/video/upload/route.ts:46-60 | five taken names in a row make the save throw; there is no sixth attempt |
| StoredFiles.OtherErrorsAreThrown | web/app/api/video/upload/route.ts:54-57 | a write error other than a taken name is thrown at once, not retried |
| StoredFiles.TriesUpTo | web/app/api/video/upload/route.ts:46-57 | taken names up to an attempt that fails otherwise make the whole save throw |
| StoredFiles.CandidateNoSlash | web/app/api/video/upload/route.ts:48 | no attempted name holds a `/` when the file name holds none |
| StoredFiles.SafeFileNameNoSlash | web/app/api/video/upload/route.ts:16-25 | a sanitised file name holds no `/` |
| StoredFiles.JoinedFolderNames | web/app/api/video/upload/route.ts:53 | the joined directory part of a path holds only folder characters and `/` |
| StoredFiles.UrlPathShape | web/app/api/video/upload/route.ts:53 | in a returned path the candidate follows the last `/`, and everything before it is folder characters and `/` |
| StoredFiles.SavedUrlNamesTheFile | web/app/api/video/upload/route.ts:51-53 | the path a save returns ends, after its last `/`, with exactly the name that was written |
| StoredFiles.SongPathIsOneDirectory | web/app/api/upload/route.ts:76 | the song route's path `/type/folder/name` is the general path with the one directory `type` |
| SongUpload.ArtistName | web/app/api/upload/route.ts:97 | the artist is never empty: a non-blank trimmed field is kept, a blank one becomes `未知歌手` |
| SongUpload.AlbumKey | web/app/api/upload/route.ts:123 | an empty album is stored and matched as null, any other album as itself |
| SongUpload.FindExisting | web/app/api/upload/route.ts:120-128 | -1 exactly when no song has this artist, album and normalised title; otherwise the first song that does |
| SongUpload.FilesObject | web/app/api/upload/route.ts:31-41 | a stored document that parses to an object is read as that object; anything else (unparsable, an array, a scalar) as `{}` |
| SongUpload.FilterOpt | web/app/api/upload/route.ts:136-139 | filtering an optional one-type list by a test keeps the type exactly when it was there and passes the test |
| SongUpload.FilterOpts | web/app/api/upload/route.ts:136-153 | filtering the four optional type lists at once is filtering each of them, in order |
| SongUpload.ConflictsAsFilter | web/app/api/upload/route.ts:133-153 | the conflict list is the uploaded-type list filtered by "the song already holds this type" |
| SongUpload.ConflictsAreUploadedAndPresent | web/app/api/upload/route.ts:136-153 | a type is reported as a conflict exactly when the form uploads it and the stored song holds a file of it (a truthy single field, or a non-empty list for sheets and lrcs) |
| SongUpload.SaveAll | web/app/api/upload/route.ts:177-204 | one save per sent file, the i-th save being that of the i-th file |
| SongUpload.SavedUrls | web/app/api/upload/route.ts:182 | a path is collected exactly when some save returned it; skipped files contribute nothing |
| SongUpload.FirstFailed | web/app/api/upload/route.ts:79 | the position of a failed save with no failed save before it |
| SongUpload.WrittenBeforeFailure | web/app/api/upload/route.ts:348-350 | the files the error handler unlinks: all saved files when no save throws, otherwise exactly those saved before the first save that throws |
| SongUpload.Strs | web/app/api/upload/route.ts:186 | the saved paths as JSON strings, position by position |
| SongUpload.Chars | web/app/api/upload/route.ts:293 | spreading a string gives its characters, one one-character string per position |
| SongUpload.SpreadList | web/app/api/upload/route.ts:293-295 | a missing or falsy stored list spreads to nothing, an array to its elements, a string to its characters; any other truthy value throws |
| SongUpload.SetSaved | web/app/api/upload/route.ts:289-290 | a saved path replaces the key's value and no other key changes; a null or absent save changes nothing |
| SongUpload.MergeList | web/app/api/upload/route.ts:292-310 | with new paths, the list becomes the stored entries followed by the new paths with repeats dropped and the single key becomes the first new path, and only those keys change; with none the document is unchanged; it fails exactly when the stored list cannot be spread |
| SongUpload.SetCategory | web/app/api/upload/route.ts:312 | a non-empty category replaces the stored one and nothing else changes; an empty one changes nothing |
| SongUpload.UpdateFiles | web/app/api/upload/route.ts:287-312 | the merge fails exactly when a stored lrc or sheet list that receives new paths cannot be spread; otherwise every stored key stays and every key the route does not write keeps its value |
| SongUpload.NewFiles | web/app/api/upload/route.ts:328-331 | the new document has a category (`简谱` when none is given), an audio or image key exactly when that field was sent, list keys exactly when some file of that list was saved, and no key the route does not write |
| SongUpload.NewFilesValues | web/app/api/upload/route.ts:173-204 | a sent single file is stored as its path, or null when it was skipped; a saved list is stored in upload order with its first path as the default |
| SongUpload.ReadFields | web/app/api/upload/route.ts:96-99 | the title, album and category are the trimmed fields, the artist defaults to the unknown artist, and the match uses the normalised title |
| SongUpload.MatchOf | web/app/api/upload/route.ts:117-128 | the matched song is the first whose artist, album and normalised title equal the form's, and -1 means none does |
| SongUpload.Post | web/app/api/upload/route.ts:86-113 | no user gives 401 and no upload permission 403, with nothing changed; every response other than success leaves the rows unchanged and keeps no file; a success removes no file |
| SongUpload.Store | web/app/api/upload/route.ts:168-352 | an accepted upload ends in success or a server error, never anything else; a server error leaves the rows unchanged and keeps no file |
| SongUpload.BlankTitleRejected | web/app/api/upload/route.ts:111-113 | a title blank after trimming gives 400 before any file is written or row changed |
| SongUpload.ConflictIff | web/app/api/upload/route.ts:128-130 | a conflict is reported exactly when the upload is not forced and a matching song exists |
| SongUpload.AcceptedIsNoConflict | web/app/api/upload/route.ts:130 | a forced upload, or one that matches nothing, is never answered with a conflict |
| SongUpload.StoreNeverConflicts | web/app/api/upload/route.ts:168-352 | storing never answers with a conflict |
| SongUpload.ConflictReported | web/app/api/upload/route.ts:130-165 | the conflict names the first matching song, lists the uploaded types in the order audio, sheet, lrc, image and as conflicts exactly those the song holds, and writes and changes nothing |
| SongUpload.ConflictOutcome | web/app/api/upload/route.ts:130-165 | an unforced upload that matches a song is answered with that song's conflict report and no other effect |
| SongUpload.AcceptedIsStored | web/app/api/upload/route.ts:166-168 | an authorised upload with a title that is forced or matches nothing goes on to be stored |
| SongUpload.FailedSaveRollsBack | web/app/api/upload/route.ts:348-352 | when a save throws, the answer is 500, no row changes and exactly the files saved before the failure are removed |
| SongUpload.ForcedUploadUpdates | web/app/api/upload/route.ts:281-326 | storing onto a matched song replaces that row only, keeping its id and a non-empty storage id, with the normalised title and the merged files; when the merge throws, the answer is 500 and the saved files are removed |
| SongUpload.NewSongCreated | web/app/api/upload/route.ts:328-343 | an upload that matches nothing appends exactly one row under the fresh storage id, with the normalised title, the unknown artist for a blank one, a null album for an empty one and the category defaulting to `简谱` |
| SongUpload.UpdateMergesLrcs | web/app/api/upload/route.ts:292-300 | a duplicate-free stored lrc list stays as the prefix of the merged list, the merged list has no repeats and holds exactly the stored and new paths, and the default lrc is the first new path |
| SongUpload.UpdateMergesSheets | web/app/api/upload/route.ts:302-310 | the same for sheets: stored prefix kept, no repeats, exactly the stored and new paths, the first new path as the default sheet |
| SongUpload.UpdateReplacesSingles | web/app/api/upload/route.ts:289-312 | a saved audio or cover replaces the stored one and otherwise the stored one stays; a given category replaces the stored one and an empty one leaves it |
| VideoUpload.FindVideo | web/app/api/video/upload/route.ts:122-128 | -1 exactly when no video has this title, artist and song; otherwise a video that does |
| VideoUpload.Post | web/app/api/video/upload/route.ts:63-99 | no user gives 401 and no upload permission 403, with nothing changed; a response other than success changes no video and keeps no file; a success removes no file |
| VideoUpload.Accept | web/app/api/video/upload/route.ts:91-162 | past the field checks, a response other than success changes no video and keeps no file, and a success removes none |
| VideoUpload.SongKey | web/app/api/video/upload/route.ts:126 | an empty song id links the video to no song; any other links it to that song |
| VideoUpload.Record | web/app/api/video/upload/route.ts:101-174 | the transaction ends in a conflict or a success; it finds or creates the artist and never touches the songs; a conflict changes no video, keeps nothing and removes every file written; a success keeps them |
| VideoUpload.MissingFieldsRejected | web/app/api/video/upload/route.ts:82-84 | a blank title, a blank artist or no video file gives 400 before anything is written |
| VideoUpload.UnknownSongRejected | web/app/api/video/upload/route.ts:86-89 | a song id that names no song gives 400 before anything is written |
| VideoUpload.ChecksPassed | web/app/api/video/upload/route.ts:82-93 | a request with all fields and a known or empty song id goes on to save and record |
| VideoUpload.FailedSaveRollsBack | web/app/api/video/upload/route.ts:190-194 | a failed video save answers 500 having written nothing; a failed cover save answers 500 and removes the saved video; no row changes |
| VideoUpload.EmptyVideoRejected | web/app/api/video/upload/route.ts:93-96 | an empty video file is not saved and the request gets 400 |
| VideoUpload.SavedUploadIsRecorded | web/app/api/video/upload/route.ts:93-101 | once the video and cover are saved, the transaction records the saved paths with the trimmed fields |
| VideoUpload.ConflictRemovesWrittenFiles | web/app/api/video/upload/route.ts:130-132 | without `force` a conflict is reported exactly when a video with the title, artist and song exists; it names that video, changes no video and removes every written file |
| VideoUpload.ForceUpdatesInPlace | web/app/api/video/upload/route.ts:134-147 | with `force` the matching video is replaced in place and no other changes: same id, its storage id when it had one, the new source, and its old cover unless a new one was saved |
| VideoUpload.NewVideoCreated | web/app/api/video/upload/route.ts:150-161 | without a match one video is appended with the new ids, the title, artist, song link and exactly the saved files |
| VideoUpload.VideoArtistHasTheName | web/app/api/video/upload/route.ts:103-120 | a recorded video points at an artist row carrying the sent artist name |
| VideoUpload.VideoPath | web/app/api/video/upload/route.ts:93 | a saved video's path is `/videos/<storage id>/<name>` |
| VideoUpload.CoverPath | web/app/api/video/upload/route.ts:97-98 | a saved cover's path is `/images/videos/<storage id>/<name>` |
| Artists.NewIndex | web/app/api/video/upload/route.ts:104-111 | a new artist's index is `#` or one upper-case letter A–Z; it is `#` for an empty name and when pinyin is unsupported |
| Artists.FindByName | web/app/api/video/upload/route.ts:103 | -1 exactly when no artist has the name; otherwise the first artist with it |
| Artists.FindOrCreate | web/app/api/upload/route.ts:207-228 | afterwards an artist with the name and the returned id exists; an existing artist is reused with the rows unchanged, otherwise exactly one artist with the new id and its index is appended |
| Artists.SectionOf | web/app/artist/page.tsx:14 | every artist has a non-empty section: its index, or `#` without one |
| Artists.SectionKeys | web/app/artist/page.tsx:26-33 | the section key of each artist, position by position |
| Artists.Sections | web/app/artist/page.tsx:36 | the section list is strictly sorted and holds exactly the section keys of the artists |
| Artists.EachArtistInOneSection | web/app/artist/page.tsx:26-36 | every artist's section is listed, and an artist is in a section exactly when it is its own |
| Artists.SectionIsOrderedSubList | web/app/artist/page.tsx:26-33 | a section holds exactly the artists whose section it is, in the order of the artist list: on a joined list it is the join of the sections, and a single artist is in it exactly when its section is the key |
| Artists.Navigation | web/app/artist/page.tsx:37-38 | the navigation is the 26 letters A to Z followed by `其他`, whatever the data |
| Artists.OtherSectionHasNoNavigation | web/app/artist/page.tsx:36-38 | the `#` section is shown but no navigation entry points at it |
| Artists.StrLessIrreflexive | web/app/artist/page.tsx:36 | no string sorts before itself |
| Artists.StrLessTotal | web/app/artist/page.tsx:36 | of two different strings one sorts before the other |
| Artists.StrLessTrans | web/app/artist/page.tsx:36 | the string order is transitive |
| Artists.Insert | web/app/artist/page.tsx:36 | inserting a new key into a strictly sorted list keeps it strictly sorted and adds exactly that key |
| Artists.Sort | web/app/artist/page.tsx:36 | sorting distinct keys gives a strictly sorted list of exactly those keys, as many as there were |
| Artists.SortedHasNoDups | web/app/artist/page.tsx:36 | a strictly sorted list has no repeats |
| MergeDuplicates.ArtistOf | web/scripts/merge-duplicates.ts:33 | the grouping artist is never empty: the song's own artist name, or `Unknown` without one |
| MergeDuplicates.SameGroupIff | web/scripts/merge-duplicates.ts:29-43 | corrected grouping: two songs share a group exactly when their normalised titles and their artists agree |
| MergeDuplicates.KeyAsWrittenIsCoarser | web/scripts/merge-duplicates.ts:37 | the key as written never separates two songs the pair key puts together |
| MergeDuplicates.KeysAgreeWithoutPipe | web/scripts/merge-duplicates.ts:37-42 | when neither normalised title holds a `|`, two songs share the written key exactly when they share title and artist |
| MergeDuplicates.PlainTitleIsNormal | web/scripts/merge-duplicates.ts:6-11 | a title without dots or opening brackets and with no white space at either end is its own normal form |
| MergeDuplicates.KeyAsWrittenCollides | web/scripts/merge-duplicates.ts:37 | as written, a song titled `p`, pipe, `q` by artist `r` and a song titled `p` by artist `q`, pipe, `r` share a key although their titles and artists differ; the corrected key tells them apart |
| MergeDuplicates.GroupKeys | web/scripts/merge-duplicates.ts:29-43 | the groups' keys have no repeats, and a key is listed exactly when some song has it |
| MergeDuplicates.KeysDomain | web/scripts/merge-duplicates.ts:31-37 | a key is among the songs' keys exactly when some song has it |
| MergeDuplicates.Keys | web/scripts/merge-duplicates.ts:31-37 | each song's key, position by position |
| MergeDuplicates.Members | web/scripts/merge-duplicates.ts:39-42 | a group holds exactly the songs with its key |
| MergeDuplicates.InsertPos | web/scripts/merge-duplicates.ts:55-60 | a song is inserted after every song that comes before it and in front of the first that does not |
| MergeDuplicates.InsertSong | web/scripts/merge-duplicates.ts:55-60 | inserting into an ordered group keeps it ordered and adds exactly that song |
| MergeDuplicates.InsertKeepsOrder | web/scripts/merge-duplicates.ts:55-60 | a song inserted at its place keeps the group ordered |
| MergeDuplicates.InsertKeepsSongs | web/scripts/merge-duplicates.ts:55-60 | inserting adds the song and loses none |
| MergeDuplicates.SortGroup | web/scripts/merge-duplicates.ts:55-60 | the sorted group is ordered by title length, then creation time, and holds exactly the group's songs |
| MergeDuplicates.TargetIsFirst | web/scripts/merge-duplicates.ts:62-63 | the target has the shortest title in the group and, among those, the earliest creation time; the others are the rest of the group |
| MergeDuplicates.ParseFiles | web/scripts/merge-duplicates.ts:13-20 | a stored document that parses to an object or an array is kept; anything else reads as `{}` |
| MergeDuplicates.Contributions | web/scripts/merge-duplicates.ts:74-92 | a path is contributed exactly when some member's document contributes it |
| MergeDuplicates.MergedListContents | web/scripts/merge-duplicates.ts:70-92 | a merged list has no repeats, holds exactly the target's and the others' sheets (or lyrics), and begins with the target's own in their order |
| MergeDuplicates.FirstWith | web/scripts/merge-duplicates.ts:95-102 | -1 exactly when no other member has a truthy value for the key; otherwise the first that has |
| MergeDuplicates.Fill | web/scripts/merge-duplicates.ts:95-102 | a truthy value of the target is kept; a falsy one takes the first truthy value among the others, if any; no other key changes |
| MergeDuplicates.DefaultTo | web/scripts/merge-duplicates.ts:110-111 | a falsy default becomes the list's first element when the list is not empty, and otherwise nothing changes |
| MergeDuplicates.SetList | web/scripts/merge-duplicates.ts:106-107 | the list key holds the merged list and no other key changes |
| MergeDuplicates.PropsOf | web/scripts/merge-duplicates.ts:84 | each member's document read as its properties, position by position |
| MergeDuplicates.FinishContents | web/scripts/merge-duplicates.ts:105-111 | both merged lists are written, each default is kept when truthy and otherwise becomes the first of a non-empty list, and no other key changes |
| MergeDuplicates.MergedDocLists | web/scripts/merge-duplicates.ts:70-111 | the target's document holds both merged lists, and each default is the target's own when truthy, otherwise the first of its merged list |
| MergeDuplicates.MergedDocOtherKeys | web/scripts/merge-duplicates.ts:95-118 | every key other than the six file keys is exactly as the target had it |
| MergeDuplicates.Filled | web/scripts/merge-duplicates.ts:94-102 | filling audio and image changes no other key and leaves the target's defaults as truthy as they were |
| MergeDuplicates.MergedDocAudio | web/scripts/merge-duplicates.ts:94-102 | the audio (and likewise the image) is the target's own when truthy, otherwise the first truthy one among the others, otherwise as the target had it |
| MergeDuplicates.DocsOf | web/scripts/merge-duplicates.ts:84 | each member's parsed document, position by position |
| MergeDuplicates.PlanOf | web/scripts/merge-duplicates.ts:47-63 | a group of one is left alone; a larger group has a plan whose target and deleted songs are exactly the group's songs |
| MergeDuplicates.GroupsFor | web/scripts/merge-duplicates.ts:29-47 | one group per key, holding exactly the songs with that key |
| MergeDuplicates.CollectMembers | web/scripts/merge-duplicates.ts:47-48 | a collected result comes from some element, and every element's result is collected |
| MergeDuplicates.PlansOfGroups | web/scripts/merge-duplicates.ts:47-48 | every plan is that of a group of two or more, and every such group has its plan |
| MergeDuplicates.PlanCoversGroup | web/scripts/merge-duplicates.ts:62-63 | a song is in a group exactly when it is the plan's target or among its deleted songs |
| MergeDuplicates.SingletonGroupUntouched | web/scripts/merge-duplicates.ts:48 | a song with no duplicate is neither a target nor deleted by any plan |
| MergeDuplicates.NotInOtherPlan | web/scripts/merge-duplicates.ts:48-63 | a song alone in its group appears in no other group's plan |
| MergeDuplicates.EveryDuplicateIsPlanned | web/scripts/merge-duplicates.ts:47-126 | every song with a duplicate is kept as a target or deleted by the plan of its group |
| Permissions.UserPermissions | web/lib/auth-utils.ts:47-58 | without custom permissions (empty, `{}` or unparsable) the role's base set; otherwise every custom key wins and every base key the custom object leaves out is kept |
| Permissions.BaseByRole | web/lib/auth-utils.ts:48 | the base set is the admin set exactly for the role `admin`, the default set for every other role |
| Permissions.NoOverlayKeepsBase | web/lib/auth-utils.ts:50-56 | empty, `{}` and unparsable custom text leave the base set unchanged |
| Permissions.PermissionSets | web/lib/auth-utils.ts:28-45 | the default set deletes `self` only and has no private view or admin panel; the admin set deletes `all` and has both; the two sets have the same keys |
| Permissions.CheckPermission | web/lib/permission-check.ts:19-25 | a user id with no user row is refused |
| Permissions.DecisionTable | web/lib/permission-check.ts:27-41 | a boolean permission is the answer; for delete `all` allows, `none` denies, `self` allows exactly a non-empty creator equal to the user; every other value denies |
| Permissions.DefaultUserDeletesOwn | web/lib/permission-check.ts:33-38 | a non-admin with no custom permissions may delete exactly what they created, and never a resource with a null creator |
| Permissions.AdminMayDoAll | web/lib/auth-utils.ts:38-48 | an admin with no custom permissions is allowed every action on every resource |
| Permissions.CustomBooleanDecides | web/lib/permission-check.ts:27-31 | a custom boolean for the action decides it, whatever the role |
| SheetIndex.IndexLetter | web/app/sheet/page.tsx:36-46 | the index is `#` or one upper-case letter A–Z |
| SheetIndex.IndexLetterIff | web/app/sheet/page.tsx:36-46 | a title gets a letter exactly when its trimmed form starts with an ASCII letter, or with a CJK ideograph whose pinyin starts with one; an ASCII first letter is its own index, upper-cased |
| SheetIndex.PinyinOnlyForCjk | web/app/sheet/page.tsx:39-45 | the pinyin converter decides nothing for a title that does not start with a CJK ideograph |
| SheetIndex.Sheets | web/app/sheet/page.tsx:26-54 | the listed sheets are exactly the rows whose files hold a sheet or a non-empty sheet list, each with its index and parsed files, and every index is `#` or a letter |
| SheetCategory.DetectWith | web/utils/sheetUtils.ts:2-11 | the empty string exactly when no rule matches; otherwise the category of the first rule that matches |
| SheetCategory.Detect | web/utils/sheetUtils.ts:2-11 | the detected category is one of the five the detector names, or empty |
| SheetCategory.RulesHaveCategories | web/utils/sheetUtils.ts:3-9 | every rule gives a non-empty category |
| SheetCategory.FirstRuleWins | web/utils/sheetUtils.ts:3-9 | when a rule matches and no earlier one does, its category is the answer (so `钢琴` gives `五线谱` and `官方` gives `和弦谱`) |
| SheetCategory.NoKeywordIsEmpty | web/utils/sheetUtils.ts:10 | the answer is empty exactly when no keyword matches |
| SheetCategory.DetectIgnoresCase | web/utils/sheetUtils.ts:3-9 | names equal up to ASCII case get the same category |
| SheetCategory.DetectSameHits | web/utils/sheetUtils.ts:2-11 | names matched by the same rules get the same category |
| SheetCategory.Normalize | web/utils/sheetUtils.ts:13-18 | the normalised category is never empty, `钢琴谱`, `简谱` or `官方谱`, and any other category is kept |
| SheetCategory.NormalizeFixedPoints | web/utils/sheetUtils.ts:13-18 | a category is kept exactly when it is not empty, `钢琴谱`, `简谱` or `官方谱` |
| SheetCategory.NormalizeIdempotent | web/utils/sheetUtils.ts:13-18 | normalising twice is normalising once |
| SheetCategory.DetectedNormalizedIsNamed | web/utils/sheetUtils.ts:2-18 | a detected category, normalised, is one of the five shown names; no match normalises to `和弦谱` |
| SheetList.LastSegmentShape | web/app/sheet/SheetListClient.tsx:52 | the last segment holds no `/`, ends the path, and is preceded by `/` unless it is the whole path |
| SheetList.Parts | web/app/sheet/SheetListClient.tsx:46-66 | one entry per sheet path, the i-th built from the i-th path |
| SheetList.FlattenOne | web/app/sheet/SheetListClient.tsx:44-70 | a song with at most one sheet stays one entry; a sheet list of two or more gives one entry per path; a sheet string of two or more characters throws |
| SheetList.FlattenFails | web/app/sheet/SheetListClient.tsx:40-74 | flattening fails exactly when some song's flattening throws |
| SheetList.SplitEntries | web/app/sheet/SheetListClient.tsx:46-65 | the k-th part of a split song has id `id_k`, the k-th path as its one sheet and no list, the song's index, and the path's file name without extension as its title |
| SheetList.FlattenAppends | web/app/sheet/SheetListClient.tsx:43-71 | flattening a list of songs appends the songs' entries in order |
| SheetList.NumbersDomain | web/app/sheet/SheetListClient.tsx:77-84 | an id is numbered exactly when some entry has it |
| SheetList.NumbersLast | web/app/sheet/SheetListClient.tsx:80-82 | an id's number is the 1-based position of its last entry |
| SheetList.NumbersBijective | web/app/sheet/SheetListClient.tsx:77-84 | with distinct ids the i-th entry in title order is numbered i+1 and no two ids share a number |
| SheetList.NumbersPositions | web/app/sheet/SheetListClient.tsx:80-82 | with distinct ids the i-th entry is numbered i+1 |
| SheetList.NumbersInjective | web/app/sheet/SheetListClient.tsx:77-84 | no two ids share a number |
| SheetList.KeyOf | web/app/sheet/SheetListClient.tsx:93 | every entry has a non-empty group key: its index, or `#` |
| SheetList.Keys | web/app/sheet/SheetListClient.tsx:92-99 | a key is listed exactly when some entry has it |
| SheetList.LetterKeys | web/app/sheet/SheetListClient.tsx:102-105 | the letter keys are strictly sorted, without repeats, and exactly the entries' keys other than `#` |
| SheetList.GroupKeysComplete | web/app/sheet/SheetListClient.tsx:87-110 | each group key of an entry is shown exactly once, and no other key |
| SheetList.GroupKeysOrder | web/app/sheet/SheetListClient.tsx:102-105 | the letter keys are in order and `#`, when shown, comes last |
| SheetList.EachEntryInOneGroup | web/app/sheet/SheetListClient.tsx:92-99 | every entry is in exactly one group, the one of its key, and that group is shown |
| SheetList.BeforeUnderscore | web/app/sheet/SheetListClient.tsx:121 | the text before the first `_`: a prefix without `_`, followed by `_` unless it is the whole id |
| SheetList.RealIdOfPart | web/app/sheet/SheetListClient.tsx:121 | a part's id leads back to its song exactly when the song's id holds no `_` |
| SheetList.RealIdOfSong | web/app/sheet/SheetListClient.tsx:121 | an id without `_` is its own song |
| SheetList.Toggle | web/app/sheet/SheetListClient.tsx:145-155 | a queued entry is taken off; an unqueued one is appended when it has a sheet and otherwise nothing changes |
| SheetList.ToggleTwice | web/app/sheet/SheetListClient.tsx:145-155 | toggling an unqueued sheet entry twice gives the list back |
| PlaylistAccess.List | web/app/api/playlist/route.ts:6-50 | the listing holds exactly the table's playlists that the built filter admits |
| PlaylistAccess.AdminViewSeesAll | web/app/api/playlist/route.ts:20-24 | an admin asking for the admin view sees every playlist, narrowed only by a given status |
| PlaylistAccess.RegularVisibility | web/app/api/playlist/route.ts:25-38 | everyone else sees a playlist exactly when it is public or, signed in, their own, and it has the given status if one is given |
| PlaylistAccess.NonAdminNeverSeesOthersPrivate | web/app/api/playlist/route.ts:18-38 | a non-admin never sees another user's non-public playlist, whatever they ask for |
| PlaylistAccess.SongIds | web/app/api/playlist/route.ts:74 | the ids fail exactly when some entry has none; otherwise there is one id per entry, in order, each the entry's own |
| PlaylistAccess.TextOr | web/app/api/playlist/route.ts:82-84 | a missing or falsy value gives the default, a truthy string is kept, and any other truthy value is refused |
| PlaylistAccess.Post | web/app/api/playlist/route.ts:57-107 | without a signed-in user the answer is 401; a saved playlist has a non-empty title, belongs to the user, and is public exactly for admins |
| PlaylistAccess.TitleRequired | web/app/api/playlist/route.ts:70-72 | a signed-in request without a truthy title is refused as missing its title |
| PlaylistAccess.CreatedDefaults | web/app/api/playlist/route.ts:79-88 | without description, tags or cover the playlist gets empty ones and the default cover, and the ids of the given songs in order |
| PlaylistAccess.SongIdsMapping | web/app/api/playlist/route.ts:74 | a string entry is its own id and an object entry gives its `id` |
| PlaylistAccess.NewPlaylistOfUserHidden | web/app/api/playlist/route.ts:6-88 | a playlist a non-admin creates is seen by no other non-admin |
| PlaylistClient.FilteredPlaylists | web/app/playlist/PlaylistClient.tsx:43-46 | without a category every playlist is shown; with one, exactly the playlists whose tags include it |
| PlaylistClient.CategoryIsExact | web/app/playlist/page.tsx:26 | with tags split at commas, a category selects the playlists holding exactly that tag, not a tag that merely contains it |
| PlaylistClient.FilteredSongs | web/app/playlist/PlaylistClient.tsx:48-51 | a song is offered exactly when its lower-cased title or artist contains the lower-cased query |
| PlaylistClient.EmptyQueryKeepsAll | web/app/playlist/PlaylistClient.tsx:48-51 | an empty query offers every song, in order |
| PlaylistClient.SongSearchIgnoresCase | web/app/playlist/PlaylistClient.tsx:48-51 | two queries that differ only in the case of ASCII letters offer the same songs |
| PlaylistClient.Toggle | web/app/playlist/PlaylistClient.tsx:53-57 | the id's membership flips, every other id keeps its membership, and a selection without repeats keeps none |
| PlaylistClient.ToggleTwice | web/app/playlist/PlaylistClient.tsx:53-57 | toggling twice restores the selected ids, and restores the list itself when the id was not selected |
| PlaylistClient.Submitted | web/app/playlist/PlaylistClient.tsx:66 | the songs sent are exactly the selected ones among all songs |
| PlaylistClient.CoverOf | web/app/playlist/PlaylistClient.tsx:74-76 | the cover is the default exactly when the first song has no non-empty image, and otherwise that image under `/api/file` |
| PlaylistClient.Create | web/app/playlist/PlaylistClient.tsx:59-78 | a blank title, and only a blank title, sends nothing; otherwise the title as typed and exactly the selected songs are sent, and the cover differs from the default exactly when the first sent song has a non-empty image, which it then names under `/api/file` |
| PlaylistClient.SubmittedInListOrder | web/app/playlist/PlaylistClient.tsx:66 | the songs go out in the order of all songs: for a joined song list the sent songs are the join, and a single song is sent exactly when it is selected |
| PlaylistClient.SubmittedIgnoresPickOrder | web/app/playlist/PlaylistClient.tsx:66 | two selections holding the same ids, in any order or with repeats, send the same songs in the same order |
| PlaylistClient.CoverFromFirstSelected | web/app/playlist/PlaylistClient.tsx:66-76 | the cover comes from the earliest selected song in the order of all songs, whichever was picked first |
| PlaylistClient.NothingSelectedDefaultCover | web/app/playlist/PlaylistClient.tsx:66-76 | with no song selected nothing is sent and the cover is the default |
| PlaylistClient.SongsJson | web/app/playlist/PlaylistClient.tsx:73 | one JSON object per song, in order |
| PlaylistClient.Ids | web/app/playlist/PlaylistClient.tsx:66 | one id per song, in order |
| PlaylistClient.ServerReadsIds | web/app/api/playlist/route.ts:74 | the server reads the sent songs back as their ids, in the same order |
| AdminPlaylists.FetchUrlQuery | web/app/admin/playlists/page.tsx:33-36 | read back by the route, every tab's URL gives `admin_view=true`, `status` equal to the tab's name for every tab but `all` and no `status` for `all`, and no other parameter |
| AdminPlaylists.TabListing | web/app/admin/playlists/page.tsx:30-41 | for an admin, the query the route reads from a tab's URL lists every playlist for the `all` tab and exactly those of the tab's status for the others |
| AdminPlaylists.Actions | web/app/admin/playlists/page.tsx:144-181 | every offered status is public or private and differs from the playlist's own |
| AdminPlaylists.Transitions | web/app/admin/playlists/page.tsx:144-181 | the offered changes are exactly pending to public or private, public to private, and private to public |
| AdminPlaylists.NeverBackToPending | web/app/admin/playlists/page.tsx:52-58 | no button ever sends a playlist back to review |
| AdminPlaylists.ReviewedToggles | web/app/admin/playlists/page.tsx:163-181 | a reviewed playlist has one button, and pressing it twice returns to the start |
| AdminPlaylists.BadgeLabel | web/app/admin/playlists/page.tsx:194-205 | any status other than the three known ones is shown verbatim |
| AdminPlaylists.BadgesDistinct | web/app/admin/playlists/page.tsx:194-205 | the three known statuses get three different labels, none of which is itself a status name |
| VideoList.Limit | web/app/api/video/route.ts:11-12 | the page size is always between 1 and 200 |
| VideoList.LimitDefault | web/app/api/video/route.ts:11-12 | a missing or empty limit, or one without leading digits, gives 50 |
| VideoList.LimitClamps | web/app/api/video/route.ts:12 | a finite parsed limit is clamped into [1, 200], and one already inside is kept |
| VideoList.HugeLimitFallsBack | web/app/api/video/route.ts:11-12 | a number too large for a double is infinite and gives 50, not 200 |
| VideoList.QueryOf | web/app/api/video/route.ts:7-9 | an id filter is used only when it is non-empty |
| VideoList.InsertByDateKeeps | web/app/api/video/route.ts:28 | inserting adds the video and keeps every other one |
| VideoList.InsertByDateSorted | web/app/api/video/route.ts:28 | inserting into a newest-first list keeps it newest first |
| VideoList.ByDate | web/app/api/video/route.ts:28 | the ordered list is newest first and holds the same videos, as often as before |
| VideoList.FilterNewestFirst | web/app/api/video/route.ts:14-28 | filtering a newest-first list keeps it newest first |
| VideoList.Present | web/app/api/video/route.ts:37-48 | id and title are kept; a non-empty own artist name is shown, else a non-empty artist row's name, and the name is empty exactly when neither is non-empty; a non-empty song title is shown and an empty or missing one is `null` |
| VideoList.PresentAllAppend | web/app/api/video/route.ts:37 | listing is video by video: the listing of joined lists is the join of their listings, and the listed ids are the videos' ids in order |
| VideoList.PresentAll | web/app/api/video/route.ts:37 | one item per video, in order |
| VideoList.Admissible | web/app/api/video/route.ts:14-28 | the candidates are newest first and are exactly the admitted videos, as often as in the table |
| VideoList.Take | web/app/api/video/route.ts:29 | at most the limit, taken from the front |
| VideoList.ChosenAdmitted | web/app/api/video/route.ts:14-34 | as many videos come back as the limit allows, newest first, each in the table and admitted by every given filter |
| VideoList.ChosenAreNewest | web/app/api/video/route.ts:28-29 | no admitted video left out is newer than a video returned |
| VideoList.FilterPermutes | web/app/api/video/route.ts:14-28 | filtering lists with the same videos gives lists with the same videos |
| VideoList.FilterMultiset | web/app/api/video/route.ts:14-27 | a filter keeps each passing video exactly as often as it occurs and drops every other |
| RandomSongs.Swap | web/app/api/songs/random/route.ts:21 | the list keeps its length |
| RandomSongs.SwapElements | web/app/api/songs/random/route.ts:21 | the two positions trade their songs and every other position keeps its own |
| RandomSongs.SwapPermutes | web/app/api/songs/random/route.ts:21 | a swap keeps every song, as often as it was there |
| RandomSongs.ShuffleDown | web/app/api/songs/random/route.ts:19-22 | the shuffle keeps the list's length |
| RandomSongs.FisherYates | web/app/api/songs/random/route.ts:18-22 | the loop computes the shuffle and keeps every song, as often as it was there |
| RandomSongs.ShufflePermutes | web/app/api/songs/random/route.ts:19-22 | the shuffle only reorders: every song stays, as often as it was there |
| RandomSongs.ShuffleKeepsTop | web/app/api/songs/random/route.ts:19-22 | the steps from position i down leave every position above i alone |
| RandomSongs.LastPicksFirstDraw | web/app/api/songs/random/route.ts:19-21 | the last position receives the song the first random draw picks |
| RandomSongs.HexPrefix | web/app/api/songs/random/route.ts:7 | the hexadecimal digits read are a prefix of the text, all of them hex digits |
| RandomSongs.ShowHexValue | web/app/api/songs/random/route.ts:7 | the hexadecimal digits of a number have that number as their value |
| RandomSongs.ParseIntAnyRadix | web/app/api/songs/random/route.ts:7 | without a `0x` mark, reading the limit without a radix agrees with decimal parsing |
| RandomSongs.HexRoundTrip | web/app/api/songs/random/route.ts:7 | any number written in hexadecimal after `0x` reads back as itself |
| RandomSongs.HexSignedRead | web/app/api/songs/random/route.ts:7 | hexadecimal digits after `-0x` read as the negation of their value |
| RandomSongs.FilesOf | web/app/api/songs/random/route.ts:35-45 | a song's files are its parsed `files` text, or `{}` when that text does not parse |
| RandomSongs.Process | web/app/api/songs/random/route.ts:35-45 | one response song per song, in order, each with its files |
| RandomSongs.SongsOf | web/app/api/songs/random/route.ts:41-44 | one song per response song, in order |
| RandomSongs.Prefix | web/app/api/songs/random/route.ts:25 | the first n songs, each from the list |
| RandomSongs.SongsOfProcess | web/app/api/songs/random/route.ts:35-45 | processing keeps the songs, in order |
| RandomSongs.Get | web/app/api/songs/random/route.ts:4-47 | the answer has as many songs as the slice allows, each with its parsed files, and every song comes from the table no more often than it is there |
| AlbumCatalog.Letters | web/app/album/page.tsx:12 | one one-character string per character, in order |
| AlbumCatalog.Or | web/app/album/page.tsx:36-40 | a filled column is used as it is, and a missing or empty one gives the default |
| AlbumCatalog.OrUndefined | web/app/album/page.tsx:38-39 | a column is shown exactly when it is filled, and then as it is |
| AlbumCatalog.Shape | web/app/album/page.tsx:34-42 | an album keeps its name and song count, always has an artist and a type, and has a genre or language only when it is non-empty |
| AlbumCatalog.ShapeDefaults | web/app/album/page.tsx:34-42 | empty columns show an unknown artist, a full-length album and no cover; filled columns are shown as they are |
| AlbumCatalog.ShapeAll | web/app/album/page.tsx:34 | one album per row, in order |
| AlbumCatalog.GetAlbums | web/app/album/page.tsx:24-47 | a failing query shows no albums, and otherwise one per row |
| AlbumCatalog.Lookup | web/app/album/page.tsx:97-100 | a key is missing exactly when no entry has it, and a found value is that of an entry with the key |
| AlbumCatalog.Shown | web/app/album/page.tsx:103-114 | an album is shown exactly when it is one of the albums and passes the type, genre and language filters |
| AlbumCatalog.FilterMeaning | web/app/album/page.tsx:104-106 | a filter set to one value other than empty or `全部` keeps exactly the albums whose field equals it; unset, empty or `全部`, it keeps every album |
| AlbumCatalog.MissingFieldExcluded | web/app/album/page.tsx:105-106 | an album without a genre or language is dropped by any real filter on it |
| AlbumCatalog.UntypedIsFullLength | web/app/album/page.tsx:40-104 | an album without a type counts as a full-length album under the type filter |
| AlbumCatalog.InitialNeverExcludes | web/app/album/page.tsx:109-112 | the initial letter never changes which albums are shown |
| AlbumCatalog.RepeatedKeyShowsNothing | web/app/album/page.tsx:98-105 | a repeated genre key arrives as an array and empties the page |
| AlbumCatalog.CoverSrc | web/app/album/page.tsx:148-152 | an empty cover, or one naming the default cover, shows the default cover; a shown root-relative source is the default cover or lies under `/api/file` |
| AlbumCatalog.CoverCases | web/app/album/page.tsx:148-152 | a root-relative cover not under `/api/file` is served from there and ends in the cover; any other cover is used as it is |
| AlbumCatalog.PrefixAddsNoDefault | web/app/album/page.tsx:149-151 | adding `/api/file` in front of a root-relative path never makes it name the default cover |
| AlbumCatalog.CoverIdempotent | web/app/album/page.tsx:148-152 | applying the cover rule to a source it produced changes nothing |
| AlbumCatalog.ValuesAppend | web/app/album/page.tsx:62 | appending a pair adds its value to the end of that name's values and changes no other name's values |
| AlbumCatalog.ValuesAppendAll | web/app/album/page.tsx:61-62 | appending an array adds all its values, in order, to that name only |
| AlbumCatalog.ValuesDelete | web/app/album/page.tsx:70 | deleting a name removes all its values and keeps every other name's |
| AlbumCatalog.ValuesSet | web/app/album/page.tsx:64 | setting a name leaves it exactly one value and keeps every other name's values |
| AlbumCatalog.CopyIntoValues | web/app/album/page.tsx:58-67 | the copy gives every current parameter its values: a non-empty string once, an array all of its values |
| AlbumCatalog.LinkValues | web/app/album/page.tsx:54-78 | a filter link keeps every other parameter's values, and leaves its own key absent for `全部` and holding exactly the option otherwise |
| AlbumCatalog.AtMostOneActive | web/app/album/page.tsx:55 | among distinct non-empty options at most one is highlighted: the current value, or `全部` when nothing is chosen |
| Search.Find | web/app/search/SearchClient.tsx:34-35 | an empty query gives no results in any list |
| Search.TabMembership | web/app/search/SearchClient.tsx:34-53 | a song is in a tab exactly when it is one of the songs, matches the query in title, artist or album, and has that tab's file |
| Search.TabsKeepOrder | web/app/search/SearchClient.tsx:38-50 | every tab lists its songs in the order the page received them |
| Search.CaseInsensitive | web/app/search/SearchClient.tsx:36-42 | two queries that differ only in the case of ASCII letters give the same results |
| Search.DashFindsAlbumless | web/app/search/page.tsx:28 | the `-` that stands for a missing album is searched like any other text, so the query `-` finds every song without an album |
| Search.Tabs | web/app/search/SearchClient.tsx:55-63 | seven tabs in display order; the song, lyric and sheet tabs count their lists and the others always count zero |
| Search.EmptyQueryCountsZero | web/app/search/SearchClient.tsx:35-63 | an empty query shows zero on every tab |

## Left out

- Storage and the network: Prisma queries and transactions, file reads, writes, `mkdir` and `unlink`, `fetch`, cookies, `localStorage`, `BroadcastChannel` and `window.open`. Rows, stored documents and form fields are values, and the model computes the decision and the values written.
- Concurrency and timing: the parameter route's unlocked read, merge and write, React's batching of state updates, and the player's one-second heartbeat with its two-second liveness window. One request or event is modelled at a time.
- Libraries the code calls are parameters or input values: tiny-pinyin, `JSON.parse` (its result comes with the text), `decodeURIComponent` (its `URIError` is not modelled), `Date.now`, the upload page's suffix regular expression, bcrypt, jwt and uuid.
- `localeCompare('zh-CN')`: the album page's sort and the sheet list's sort by title are not modelled; only the order of keys the code compares with `<` is.
- Unicode `toLowerCase` is a parameter where the search and playlist filters use it; the sheet category's keywords use ASCII lower case, which is exact for them.
- Floating point: zoom, offsets and volume are `real` and only their bounds and steps are claimed; `toFixed` display and time formatting are not modelled.
- PresentationView.ZoomStepsCancel: the cancellation of `+` and `-` holds for the real-number model only; in the page's doubles a step up and a step down can miss the start by a rounding error (0.12 comes back as 0.12000000000000001).
- JavaScript string length counts UTF-16 code units, and the model counts characters; the merge script's shortest-title choice and the 80- and 180-character limits of the sanitisers agree with the source only for characters of the Basic Multilingual Plane.
- `parseInt` loses precision in JavaScript beyond about twenty significant digits; the model reads every digit exactly.
- Spreading a string into an array is modelled for strings and arrays only; a number or other value stored where a file list is expected is not modelled, nor is a numeric `length` field, a sheet that is not a string when the sheet URL is built, or a non-string `files.image`.
- The song upload route's artist and album bookkeeping (web/app/api/upload/route.ts:206-279) is modelled only through `Artists.FindOrCreate`; the album rows are not.
- The song batch route's removal of `_PlaylistSongs` links (web/app/api/song/batch/route.ts:62-64) is not modelled; only the deletion count is.
- The upload page's `updateGroupMetadata` (web/app/upload/page.tsx:281-283) only copies form input into a group and is not modelled.
- The playlist route's ordering by `createdAt` descending is left to the database; only which playlists are visible is modelled. Prisma's `contains` in the video route is a parameter.
- `URLSearchParams.toString` percent-encoding is not modelled; links are modelled as the map of parameters they carry.
- The album page's `FilterSection` is modelled although the page never renders it.
- The admin playlists page's `PUT` request is outside the model; only the URL it fetches, the actions it offers and the status badge are modelled.
- The player's audio element, seeking, the heartbeat and the recovery from a blocked autoplay are outside the model.
- `Math.random` in the shuffle play mode is an oracle: `Player.PlayNext` and `Player.PlayPrev` take the drawn value `draw` in [0, 1) as a parameter, and the pick is `floor(draw * n)`.
- `Math.random` in the random songs route is an oracle `draw(k)` of values in [0, 1).
- The register and image upload routes, the auth and user routes, UI-only components, one-off scripts and the debug route are not part of this model.
- Titles.NormalizeTitle: its own contract only says the result is trimmed; what it removes is stated by `Titles.NormalizeOneLine` for titles without line breaks, and titles with line breaks are covered only by the definition.
- PresentationList.Reorder: requires both positions to be in the list, as the drop handler passes them for a drag that started in the list (web/components/PresentationPanel.tsx:97-104). Outside the list `splice` behaves in two ways the model does not follow. A `from` past the end removes nothing, and `undefined` is then inserted at `to`, which a list of items cannot hold. A `to` past the end with a valid `from` is clamped, so the moved item goes to the end of the list. Negative positions, which `splice` counts from the end, are not modelled either; a drop of foreign text that parses as a number could pass one.
- Artists.NewIndex: only ASCII letters are upper-cased as letters; `ı` and `ſ`, which JavaScript upper-cases to `I` and `S`, give `#` here.
- MergeDuplicates.MergedListContents: duplicates are dropped by value; a JavaScript `Set` drops repeated strings by value but keeps equal objects and arrays, so non-string entries that look alike are not merged by the script.
- SongUpload.MergeList: repeats are dropped by value; the route's `new Set` drops repeated strings by value but keeps equal-looking objects and arrays, which it compares by reference, so such entries in a stored list are merged here but not by the route.
- StoredFiles.SaveFile: uses the corrected file-name rule of `Sanitize.SafeFileName`; `path.basename` is modelled by passing the base name.
- VideoUpload: the files of a forced update are saved under the new uuid's folder even though the video keeps its old uuid, as the route does.
- UploadGroups.GroupFiles: lists groups in the order they were first seen; `Object.values` lists keys that look like integers (such as `5` from `5(1).jpg`) first, in numeric order, and a `__proto__` key makes the page throw. A key naming a member every object inherits (`constructor`, `toString`, `valueOf`, `hasOwnProperty`) finds that member at web/app/upload/page.tsx:89 instead of a new group; its `files` is `undefined`, so an audio, image or lyric file with such a base name makes the page throw at web/app/upload/page.tsx:108, 115-121.
- PlaylistClient: the songs sent when creating a playlist carry id, title and artist only; the route reads only the id.
- PresentationSync: `hideBottom` is read only when it is a JSON boolean.
- PresentationSync.ServerBackground: a truthy `bgUrl` that is not a string, which the page would still hand to `setBgUrl`, is not used here.
- ParamsStore.MergeItems: an item id of `__proto__` is an ordinary key here; in the route, assigning it sets the items object's prototype instead of adding an item, so that item is not saved.
- Artists.Sections: keys are compared by Unicode code point; the page's default `sort()` compares UTF-16 code units, which orders characters outside the Basic Multilingual Plane before those from U+E000 to U+FFFF.
- PresentationSync.DecodeCache and PresentationSync.ServerItems: drop a stored item that lacks a half or is not of the stored shape; the page keeps every stored item as sent (web/app/presentation/page.tsx:112), and reading a missing half then gives `undefined`, which the page dereferences.
- MergeDuplicates.GroupKeys, MergeDuplicates.Keys, MergeDuplicates.Members, MergeDuplicates.GroupsFor and MergeDuplicates.Plans: group by the corrected pair key of the Findings row, not the script's written key; the two group alike whenever no normalised title holds a `|` (`MergeDuplicates.KeysAgreeWithoutPipe`).
- VideoList.Get: carries no contract of its own; its result is described by `VideoList.ChosenAdmitted` and `VideoList.ChosenAreNewest`.

## Findings

| source | as written | input that shows it | evidently intended | confidence | as-written member | corrected member |
|---|---|---|---|---|---|---|
| web/app/presentation/page.tsx:237-251 | the plain `s` branch comes before the Ctrl/Cmd+S branch | Ctrl+S on any current item moves its half down by 0.5 vh and does not save | Ctrl/Cmd+S saves the parameters to the server | not executed | PresentationView.CtrlSMovesDownInsteadOfSaving | PresentationView.HandleKey |
| web/app/presentation/page.tsx:221 | the space bar is matched as the key `Space`, but its key value is `" "` | pressing the space bar does nothing | the space bar advances like the right arrow | not executed | PresentationView.SpaceBarDoesNothing | PresentationView.HandleKeyAgreesElsewhere |
| web/app/api/upload/route.ts:21-22 | leading dots are stripped before white space is trimmed | the base name ` ..` is sanitised to `..` | a sanitised name never starts with a dot | not executed | Sanitize.SpaceBeforeDotsKeepsThem | Sanitize.SafeFileNameAgrees |
| web/scripts/merge-duplicates.ts:37 | the group key joins title and artist with a pipe | title `a` plus pipe plus `b` by artist `c`, and title `a` by artist `b` plus pipe plus `c` | songs are grouped only when both their titles and their artists agree | not executed | MergeDuplicates.KeyAsWrittenCollides | MergeDuplicates.SameGroupIff |

=== FILE: admin_playlists.dfy ===
/** The admin's playlist review page: the listing it asks for on each tab, the
    status changes it offers for each playlist, and the badge it shows. */
module AdminPlaylists {
  import opened Js
  import PlaylistAccess

  datatype Tab = PendingTab | PublicTab | AllTab

  function TabName(t: Tab): string
  {
    match t
    case PendingTab => "pending"
    case PublicTab => "public"
    case AllTab => "all"
  }

  /** The query a tab sends: always the admin view, and the tab as the status unless it
      is the `all` tab. */
  function StatusParam(t: Tab): Option<string>
  {
    if t == AllTab then None else Some(TabName(t))
  }

  const ListPath := "/api/playlist"

  /** `fetchPlaylists`'s URL: `/api/playlist?admin_view=true`, followed by
      `&status=` and the tab's name unless it is the `all` tab. */
  function FetchUrl(t: Tab): (url: string)
  {
    var base := ListPath + "?" + "admin_view" + "=" + "true";
    if t == AllTab then base else base + "&" + "status" + "=" + TabName(t)
  }

  /** What the listing route reads from the URL: `admin_view` is always `true`, and
      `status` is the tab's name except on the `all` tab, which sends none. */
  lemma FetchUrlQuery(t: Tab)
    ensures SearchParam(FetchUrl(t), "admin_view") == Some("true")
    ensures SearchParam(FetchUrl(t), "status") == StatusParam(t)
    ensures forall n :: n != "admin_view" && n != "status" ==> SearchParam(FetchUrl(t), n).None?
  {
    NoMarks();
    if t == AllTab {
      SearchOneParam(ListPath, "admin_view", "true");
    } else {
      TabNameNoMarks(t);
      SearchTwoParams(ListPath, "admin_view", "true", "status", TabName(t));
    }
  }

  lemma NoMarks()
    ensures '?' !in ListPath
    ensures '=' !in "admin_view" && '&' !in "admin_view" && '&' !in "true"
    ensures '=' !in "status" && '&' !in "status"
  {
  }

  lemma TabNameNoMarks(t: Tab)
    ensures '&' !in TabName(t)
  {
  }

  /** For an admin, the request a tab sends lists every playlist on the `all` tab and
      exactly those of the tab's status on the others. */
  lemma TabListing(admin: PlaylistAccess.TokenUser, t: Tab, p: PlaylistAccess.Playlist)
    requires admin.role == "admin"
    ensures var url := FetchUrl(t);
            PlaylistAccess.Satisfies(
              PlaylistAccess.BuildWhere(Some(admin), SearchParam(url, "status"), SearchParam(url, "admin_view")), p)
            <==> t == AllTab || p.status == TabName(t)
  {
    FetchUrlQuery(t);
    PlaylistAccess.AdminViewSeesAll(Some(admin), StatusParam(t), p);
  }

  /** The statuses the action buttons offer for a playlist of the given status, in the
      order they are shown. */
  function Actions(status: string): (r: seq<string>)
    ensures forall i :: 0 <= i < |r| ==> r[i] in {"public", "private"} && r[i] != status
  {
    if status == "pending" then ["public", "private"]
    else if status == "public" then ["private"]
    else if status == "private" then ["public"]
    else []
  }

  /** The offered transitions: pending to public or private, public to private, private
      to public, and none from any other status. */
  lemma Transitions(status: string, target: string)
    ensures target in Actions(status) <==>
      || (status == "pending" && target in {"public", "private"})
      || (status == "public" && target == "private")
      || (status == "private" && target == "public")
  {
  }

  /** No action ever sends a playlist back to review. */
  lemma NeverBackToPending(status: string)
    ensures "pending" !in Actions(status)
  {
  }

  /** A reviewed playlist can always be switched back: two actions return to the start. */
  lemma ReviewedToggles(status: string)
    requires status in {"public", "private"}
    ensures |Actions(status)| == 1 && Actions(Actions(status)[0]) == [status]
  {
  }

  /** `StatusBadge`'s text: fixed labels for the three known statuses, any other status
      verbatim. */
  function BadgeLabel(status: string): (text: string)
    ensures status !in {"public", "pending", "private"} ==> text == status
  {
    if status == "public" then "已公开"
    else if status == "pending" then "待审核"
    else if status == "private" then "私有"
    else status
  }

  /** The three known statuses get three different labels, none of them a status name. */
  lemma BadgesDistinct()
    ensures BadgeLabel("public") != BadgeLabel("pending")
    ensures BadgeLabel("pending") != BadgeLabel("private")
    ensures BadgeLabel("public") != BadgeLabel("private")
    ensures forall s :: s in {"public", "pending", "private"} ==> BadgeLabel(s) !in {"public", "pending", "private"}
  {
  }
}

=== FILE: album_catalog.dfy ===
/** The album catalogue page: the album rows with their display defaults, the
    type, genre, language and initial filters read from the query, the cover
    each album shows, and the links of a filter section. The database read is an
    input (`None` when it throws). */
module AlbumCatalog {
  import opened Text
  import opened Js
  import Seqs

  /** The option that stands for "no filter". */
  const All := "全部"
  const UnknownArtist := "未知歌手"
  const DefaultType := "全长专辑"
  const DefaultCover := "/images/default_cover.png"
  const FilePrefix := "/api/file"

  const Types := [All, "全长专辑", "单曲EP", "现场Live", "精选集", "原创集", "伴奏集", "诗歌本", "经文诗歌", "有声读物"]
  const Genres := [All, "古典/传统", "现代流行", "乡村民谣", "中国风", "器乐/纯音乐", "R&B/Hip-Hop", "戏曲",
                   "爵士/布鲁斯", "以色列", "舞曲/电子", "古风", "其它"]
  const Languages := [All, "国语", "闽南语", "粤语", "韩语", "英语", "地方", "希伯来语", "少数民族语", "德语",
                      "拉丁语", "法语", "西班牙语", "其它"]
  const Initials := [All] + Letters("ABCDEFGHIJKLMNOPQRSTUVWXYZ")

  /** `'…'.split('')`: one one-character string per character. */
  function Letters(s: string): (r: seq<string>)
    ensures |r| == |s| && forall i :: 0 <= i < |s| ==> r[i] == [s[i]]
  {
    if s == [] then [] else [[s[0]]] + Letters(s[1..])
  }

  // -------------------------------------------------------------------- albums

  /** An album row as the database returns it; `None` is `null`. */
  datatype Row = Row(name: string, artistName: Option<string>, cover: Option<string>, genre: Option<string>,
                     language: Option<string>, albumType: Option<string>, songCount: nat)

  /** An album as the page shows it; `None` is `undefined`. */
  datatype Album = Album(name: string, artist: string, cover: string, genre: Option<string>,
                         language: Option<string>, albumType: string, songCount: nat)

  predicate Filled(v: Option<string>)
  {
    v.Some? && v.value != ""
  }

  /** `v || d` for a nullable text column. */
  function Or(v: Option<string>, d: string): (r: string)
    ensures Filled(v) ==> r == v.value
    ensures !Filled(v) ==> r == d
  {
    if Filled(v) then v.value else d
  }

  /** `v || undefined`. */
  function OrUndefined(v: Option<string>): (r: Option<string>)
    ensures r.Some? <==> Filled(v)
    ensures r.Some? ==> r == v
  {
    if Filled(v) then v else None
  }

  /** The shape `getAlbums` gives a row. */
  function Shape(row: Row): (a: Album)
    ensures a.name == row.name && a.songCount == row.songCount
    ensures a.artist != "" && a.albumType != ""
    ensures a.genre.Some? ==> a.genre.value != ""
    ensures a.language.Some? ==> a.language.value != ""
  {
    Album(row.name, Or(row.artistName, UnknownArtist), Or(row.cover, ""), OrUndefined(row.genre),
          OrUndefined(row.language), Or(row.albumType, DefaultType), row.songCount)
  }

  /** A row with empty or missing columns shows an unknown artist, a full-length album and
      no cover; filled columns are shown as they are. */
  lemma ShapeDefaults(row: Row)
    ensures !Filled(row.artistName) ==> Shape(row).artist == UnknownArtist
    ensures !Filled(row.albumType) ==> Shape(row).albumType == DefaultType
    ensures !Filled(row.cover) ==> Shape(row).cover == ""
    ensures Filled(row.artistName) ==> Shape(row).artist == row.artistName.value
    ensures Filled(row.albumType) ==> Shape(row).albumType == row.albumType.value
    ensures Shape(row).genre == (if Filled(row.genre) then row.genre else None)
  {
  }

  function ShapeAll(rows: seq<Row>): (r: seq<Album>)
    ensures |r| == |rows| && forall i :: 0 <= i < |rows| ==> r[i] == Shape(rows[i])
  {
    if rows == [] then [] else [Shape(rows[0])] + ShapeAll(rows[1..])
  }

  /** `getAlbums`: every row shaped, or nothing when the query throws. */
  function GetAlbums(rows: Option<seq<Row>>): (r: seq<Album>)
    ensures rows.None? ==> r == []
    ensures rows.Some? ==> |r| == |rows.value|
  {
    if rows.None? then [] else ShapeAll(rows.value)
  }

  // ------------------------------------------------------------------- filters

  /** A query parameter: one value, or several when the key is repeated. */
  datatype Param = Str(s: string) | Arr(vs: seq<string>)

  /** The query, as `Object.entries` lists it. */
  type Query = seq<(string, Param)>

  predicate UniqueKeys(q: Query)
  {
    forall i, j :: 0 <= i < j < |q| ==> q[i].0 != q[j].0
  }

  function Lookup(q: Query, key: string): (r: Option<Param>)
    ensures r.None? <==> forall i :: 0 <= i < |q| ==> q[i].0 != key
    ensures r.Some? ==> exists i :: 0 <= i < |q| && q[i] == (key, r.value)
  {
    if q == [] then None
    else if q[0].0 == key then Some(q[0].1)
    else
      var r := Lookup(q[1..], key);
      assert r.Some? ==> exists i :: 0 <= i < |q[1..]| && q[1..][i] == (key, r.value);
      r
  }

  /** One filter: `(params.k as string) || ''` is the current value; an empty value or
      `全部` admits everything; any other string must equal the album's field; a repeated
      key gives an array, which is truthy, is not `全部` and equals no string, so it
      admits nothing. */
  predicate Passes(current: Option<Param>, field: Option<string>)
  {
    match current
    case None => true
    case Some(Str(s)) => s == "" || s == All || field == Some(s)
    case Some(Arr(_)) => false
  }

  /** The page's filter; the initial letter is read but never excludes an album. */
  predicate Admits(q: Query, a: Album)
  {
    && Passes(Lookup(q, "type"), Some(a.albumType))
    && Passes(Lookup(q, "genre"), a.genre)
    && Passes(Lookup(q, "language"), a.language)
  }

  function Admitted(q: Query): Album -> bool
  {
    (a: Album) => Admits(q, a)
  }

  /** The albums shown, in table order (the page then sorts them by name with the
      Chinese collation, which is outside the model). */
  function Shown(rows: Option<seq<Row>>, q: Query): (r: seq<Album>)
    ensures forall a :: a in r <==> a in GetAlbums(rows) && Admits(q, a)
  {
    Seqs.Filter(GetAlbums(rows), Admitted(q))
  }

  /** A filter set to a single non-empty value other than `全部` keeps exactly the albums
      whose field equals it; unset, empty or `全部`, it keeps every album. */
  lemma FilterMeaning(current: Option<Param>, field: Option<string>)
    ensures current.Some? && current.value.Str? && current.value.s !in {"", All}
            ==> (Passes(current, field) <==> field == Some(current.value.s))
    ensures current.None? || current == Some(Str("")) || current == Some(Str(All)) ==> Passes(current, field)
  {
  }

  /** An album without a genre (or language) is dropped by any real genre filter. */
  lemma MissingFieldExcluded(s: string)
    requires s != "" && s != All
    ensures !Passes(Some(Str(s)), None)
  {
  }

  /** A row without a type counts as a full-length album under the type filter. */
  lemma UntypedIsFullLength(row: Row)
    requires !Filled(row.albumType)
    ensures Passes(Some(Str(DefaultType)), Some(Shape(row).albumType))
  {
  }

  /** The query `initial` changes nothing: the albums shown are the same whatever it is. */
  lemma InitialNeverExcludes(q: Query, v: Param, a: Album)
    ensures Admits([("initial", v)] + q, a) == Admits(q, a)
  {
    var q' := [("initial", v)] + q;
    assert q'[1..] == q;
    assert Lookup(q', "type") == Lookup(q, "type");
    assert Lookup(q', "genre") == Lookup(q, "genre");
    assert Lookup(q', "language") == Lookup(q, "language");
  }

  /** A repeated filter key empties the page. */
  lemma RepeatedKeyShowsNothing(rows: Option<seq<Row>>, q: Query, vs: seq<string>)
    requires Lookup(q, "genre") == Some(Arr(vs))
    ensures Shown(rows, q) == []
  {
    Seqs.FilterNone(GetAlbums(rows), Admitted(q));
  }

  // --------------------------------------------------------------------- cover

  /** The image source of an album: the default cover when the cover is empty or names
      the default cover; a root-relative path not yet under `/api/file` is served from
      there; anything else is used as it is. */
  function CoverSrc(cover: string): (src: string)
    ensures cover == "" || Contains(cover, "default_cover") ==> src == DefaultCover
    ensures src != "" && (StartsWith(src, "/") ==> src == DefaultCover || StartsWith(src, FilePrefix))
  {
    if cover == "" || Contains(cover, "default_cover") then DefaultCover
    else if StartsWith(cover, "/") && !StartsWith(cover, FilePrefix) then FilePrefix + cover
    else cover
  }

  /** The three cases of the rule, each stated without the others. */
  lemma CoverCases(cover: string)
    ensures cover != "" && !Contains(cover, "default_cover") && StartsWith(cover, "/") && !StartsWith(cover, FilePrefix)
            ==> CoverSrc(cover) == FilePrefix + cover && EndsWith(CoverSrc(cover), cover)
    ensures cover != "" && !Contains(cover, "default_cover") && !(StartsWith(cover, "/") && !StartsWith(cover, FilePrefix))
            ==> CoverSrc(cover) == cover
  {
  }

  /** The default cover names itself. */
  lemma DefaultCoverNamesDefault()
    ensures Contains(DefaultCover, "default_cover")
  {
    assert OccursAt(DefaultCover, "default_cover", 8);
  }

  /** Prefixing `/api/file` to a path starting with `/` cannot create an occurrence of
      `default_cover`: the occurrence would have to cover the `/`. */
  lemma {:induction false} PrefixAddsNoDefault(cover: string)
    requires StartsWith(cover, "/") && !Contains(cover, "default_cover")
    ensures !Contains(FilePrefix + cover, "default_cover")
  {
    var s := FilePrefix + cover;
    var p := "default_cover";
    if Contains(s, p) {
      var i :| 0 <= i <= |s| - |p| && OccursAt(s, p, i);
      if i >= |FilePrefix| {
        assert s[i..i + |p|] == cover[i - |FilePrefix|..i - |FilePrefix| + |p|];
        assert OccursAt(cover, p, i - |FilePrefix|);
        assert false;
      } else {
        var k := |FilePrefix| - i;
        assert s[i + k] == cover[0] == '/';
        assert p[k] == s[i..i + |p|][k];
        NoSlashInDefault(k);
      }
    }
  }

  lemma NoSlashInDefault(k: nat)
    requires k < 13
    ensures "default_cover"[k] != '/'
  {
  }

  /** The rule is idempotent: a source it produced is left as it is. */
  lemma CoverIdempotent(cover: string)
    ensures CoverSrc(CoverSrc(cover)) == CoverSrc(cover)
  {
    if cover == "" || Contains(cover, "default_cover") {
      DefaultCoverNamesDefault();
    } else if StartsWith(cover, "/") && !StartsWith(cover, FilePrefix) {
      PrefixAddsNoDefault(cover);
      var s := FilePrefix + cover;
      assert s[..|FilePrefix|] == FilePrefix;
    }
  }

  // ------------------------------------------------------------ filter section

  /** `URLSearchParams`: an ordered list of name–value pairs. */
  type Pairs = seq<(string, string)>

  /** The values of a name, in order. */
  function Values(ps: Pairs, k: string): seq<string>
  {
    if ps == [] then [] else (if ps[0].0 == k then [ps[0].1] else []) + Values(ps[1..], k)
  }

  function Append(ps: Pairs, k: string, v: string): Pairs
  {
    ps + [(k, v)]
  }

  function AppendAll(ps: Pairs, k: string, vs: seq<string>): Pairs
    decreases |vs|
  {
    if vs == [] then ps else AppendAll(Append(ps, k, vs[0]), k, vs[1..])
  }

  function Without(k: string): ((string, string)) -> bool
  {
    (p: (string, string)) => p.0 != k
  }

  /** `delete(k)`: every pair of that name goes. */
  function Delete(ps: Pairs, k: string): Pairs
  {
    Seqs.Filter(ps, Without(k))
  }

  /** `set(k, v)`: the first pair of that name takes the value and the others go; with no
      such pair, one is appended. */
  function Set(ps: Pairs, k: string, v: string): Pairs
  {
    if ps == [] then [(k, v)]
    else if ps[0].0 == k then [(k, v)] + Delete(ps[1..], k)
    else [ps[0]] + Set(ps[1..], k, v)
  }

  lemma {:induction false} ValuesAppend(ps: Pairs, k: string, v: string, j: string)
    ensures Values(Append(ps, k, v), j) == Values(ps, j) + (if j == k then [v] else [])
  {
    if ps != [] {
      assert Append(ps, k, v)[1..] == Append(ps[1..], k, v);
      ValuesAppend(ps[1..], k, v, j);
    } else {
      assert Append(ps, k, v)[1..] == [];
    }
  }

  lemma {:induction false} ValuesAppendAll(ps: Pairs, k: string, vs: seq<string>, j: string)
    ensures Values(AppendAll(ps, k, vs), j) == Values(ps, j) + (if j == k then vs else [])
    decreases |vs|
  {
    if vs != [] {
      ValuesAppend(ps, k, vs[0], j);
      ValuesAppendAll(Append(ps, k, vs[0]), k, vs[1..], j);
      assert vs == [vs[0]] + vs[1..];
    }
  }

  lemma {:induction false} ValuesDelete(ps: Pairs, k: string, j: string)
    ensures Values(Delete(ps, k), j) == if j == k then [] else Values(ps, j)
  {
    if ps != [] {
      ValuesDelete(ps[1..], k, j);
    }
  }

  lemma {:induction false} ValuesSet(ps: Pairs, k: string, v: string, j: string)
    ensures Values(Set(ps, k, v), j) == if j == k then [v] else Values(ps, j)
  {
    if ps == [] {
      assert Values([(k, v)], j) == (if j == k then [v] else []) + Values([], j);
    } else if ps[0].0 == k {
      ValuesDelete(ps[1..], k, j);
      assert ([(k, v)] + Delete(ps[1..], k))[1..] == Delete(ps[1..], k);
    } else {
      ValuesSet(ps[1..], k, v, j);
      assert ([ps[0]] + Set(ps[1..], k, v))[1..] == Set(ps[1..], k, v);
    }
  }

  /** What the copy gives a parameter: a non-empty string once, an array all its values. */
  function ParamValues(p: Option<Param>): seq<string>
  {
    match p
    case None => []
    case Some(Str(s)) => if s != "" then [s] else []
    case Some(Arr(vs)) => vs
  }

  /** The copy of the current query, entry by entry. */
  function CopyInto(acc: Pairs, q: Query): Pairs
    decreases |q|
  {
    if q == [] then acc
    else
      var (k, p) := q[0];
      var next := match p
        case Str(s) => if s != "" then Set(acc, k, s) else acc
        case Arr(vs) => AppendAll(acc, k, vs);
      CopyInto(next, q[1..])
  }

  lemma {:induction false} CopyIntoValues(acc: Pairs, q: Query, j: string)
    requires UniqueKeys(q)
    requires forall i :: 0 <= i < |q| ==> Values(acc, q[i].0) == []
    ensures Values(CopyInto(acc, q), j) == Values(acc, j) + ParamValues(Lookup(q, j))
    decreases |q|
  {
    if q != [] {
      var (k, p) := q[0];
      var next := match p
        case Str(s) => if s != "" then Set(acc, k, s) else acc
        case Arr(vs) => AppendAll(acc, k, vs);
      forall j' ensures Values(next, j') == Values(acc, j') + (if j' == k then ParamValues(Some(p)) else []) {
        match p
        case Str(s) => if s != "" { ValuesSet(acc, k, s, j'); }
        case Arr(vs) => ValuesAppendAll(acc, k, vs, j');
      }
      var rest := q[1..];
      assert UniqueKeys(rest) by {
        forall a, b | 0 <= a < b < |rest| ensures rest[a].0 != rest[b].0 {
          assert rest[a] == q[a + 1] && rest[b] == q[b + 1];
        }
      }
      forall i | 0 <= i < |rest| ensures Values(next, rest[i].0) == [] {
        assert rest[i] == q[i + 1] && q[i + 1].0 != k;
      }
      CopyIntoValues(next, rest, j);
      if j == k {
        assert Lookup(rest, j).None?;
      }
    }
  }

  /** The link of one option of a section: every current parameter copied, then the
      section's key removed for `全部` and set to the option otherwise. */
  function Link(q: Query, key: string, opt: string): Pairs
  {
    var copied := CopyInto([], q);
    if opt == All then Delete(copied, key) else Set(copied, key, opt)
  }

  /** A link keeps the values of every other parameter, and leaves the section's own key
      absent for `全部` and holding exactly the option otherwise. */
  lemma LinkValues(q: Query, key: string, opt: string, j: string)
    requires UniqueKeys(q)
    ensures j != key ==> Values(Link(q, key, opt), j) == ParamValues(Lookup(q, j))
    ensures j == key ==> Values(Link(q, key, opt), j) == if opt == All then [] else [opt]
  {
    CopyIntoValues([], q, j);
    if opt == All {
      ValuesDelete(CopyInto([], q), key, j);
    } else {
      ValuesSet(CopyInto([], q), key, opt, j);
    }
  }

  /** `isActive`: the option is the current value, or `全部` when nothing is chosen. */
  predicate Active(current: string, opt: string)
  {
    current == opt || (opt == All && current == "")
  }

  /** In a list of distinct non-empty options at most one is active, and the one active
      is the current value, or `全部` when the value is empty. */
  lemma AtMostOneActive(options: seq<string>, current: string, i: nat, j: nat)
    requires Seqs.NoDups(options) && "" !in options
    requires i < |options| && j < |options| && Active(current, options[i]) && Active(current, options[j])
    ensures i == j
    ensures options[i] == (if current == "" then All else current)
  {
    if current == "" {
      assert options[i] == All && options[j] == All;
    }
  }

  /** Each section's options start with `全部`; the initials are `全部` and the 26 capital
      letters. */
  lemma OptionLists()
    ensures Types[0] == All && Genres[0] == All && Languages[0] == All && Initials[0] == All
    ensures |Initials| == 27
  {
  }
}

=== FILE: artists.dfy ===
/** Artists: the index letter an upload gives a new artist, finding or creating
    the artist row by name, and the artist page's sections: artists grouped by
    index, the sections in sorted order, and the fixed A–Z navigation. */
module Artists {
  import opened Text
  import opened Js
  import Seqs

  /** An artist row; an empty `index` stands for a missing one. */
  datatype Artist = Artist(id: string, name: string, index: string)

  const OtherSection := "#"
  const OtherNav := "其他"

  // ---------------------------------------------------- index of a new artist

  /** The upload routes' index for a new artist: the first letter of the pinyin of the
      name's first character, upper-cased, when it is a letter A–Z; `#` otherwise, and
      when pinyin is not supported. `pinyin` is the pinyin converter, `None` when it
      reports itself unsupported. */
  function NewIndex(name: string, pinyin: Option<char -> string>): (r: string)
    ensures r == OtherSection || (|r| == 1 && IsAsciiUpper(r[0]))
    ensures name == [] || pinyin.None? ==> r == OtherSection
  {
    if name == [] || pinyin.None? then OtherSection
    else
      var py := pinyin.value(name[0]);
      if py != [] && IsAsciiLetter(py[0]) then [UpperChar(py[0])] else OtherSection
  }

  /** The first artist with this exact name, or -1. */
  function FindByName(artists: seq<Artist>, name: string): (i: int)
    ensures -1 <= i < |artists|
    ensures i == -1 <==> forall j :: 0 <= j < |artists| ==> artists[j].name != name
    ensures i != -1 ==> artists[i].name == name && forall j :: 0 <= j < i ==> artists[j].name != name
  {
    Seqs.FindIndex(artists, (a: Artist) => a.name == name)
  }

  /** Finds the artist by name, or appends a new one with `newId`; returns the artists
      afterwards and the artist's id. */
  function FindOrCreate(artists: seq<Artist>, name: string, newId: string, pinyin: Option<char -> string>): (r: (seq<Artist>, string))
    ensures exists j :: 0 <= j < |r.0| && r.0[j].name == name && r.0[j].id == r.1
    ensures FindByName(artists, name) != -1 ==> r.0 == artists && r.1 == artists[FindByName(artists, name)].id
    ensures FindByName(artists, name) == -1 ==> r.0 == artists + [Artist(newId, name, NewIndex(name, pinyin))] && r.1 == newId
  {
    var i := FindByName(artists, name);
    if i != -1 then (artists, artists[i].id)
    else
      var created := artists + [Artist(newId, name, NewIndex(name, pinyin))];
      assert created[|artists|].name == name;
      (created, newId)
  }

  // ------------------------------------------------------------ the artist page

  /** `a.index || '#'`. */
  function SectionOf(a: Artist): (k: string)
    ensures k != []
  {
    if a.index == [] then OtherSection else a.index
  }

  function InSection(k: string): Artist -> bool
  {
    a => SectionOf(a) == k
  }

  /** The artists of one section, in the order of the query. */
  function Section(artists: seq<Artist>, k: string): seq<Artist>
  {
    Seqs.Filter(artists, InSection(k))
  }

  function SectionKeys(artists: seq<Artist>): (ks: seq<string>)
    ensures |ks| == |artists|
    ensures forall i :: 0 <= i < |artists| ==> ks[i] == SectionOf(artists[i])
  {
    if artists == [] then [] else [SectionOf(artists[0])] + SectionKeys(artists[1..])
  }

  /** `Object.keys(grouped).sort()`: each section key once, in code-unit order. */
  function Sections(artists: seq<Artist>): (ks: seq<string>)
    ensures StrictlySorted(ks)
    ensures forall k :: k in ks <==> exists a :: a in artists && SectionOf(a) == k
  {
    var keys := SectionKeys(artists);
    var ks := Sort(Seqs.Dedup(keys));
    assert forall k :: k in keys <==> exists a :: a in artists && SectionOf(a) == k by {
      forall k | k in keys ensures exists a :: a in artists && SectionOf(a) == k {
        var i :| 0 <= i < |keys| && keys[i] == k;
        assert artists[i] in artists;
      }
      forall k | exists a :: a in artists && SectionOf(a) == k ensures k in keys {
        var a :| a in artists && SectionOf(a) == k;
        var i :| 0 <= i < |artists| && artists[i] == a;
        assert keys[i] == k;
      }
    }
    ks
  }

  /** Every artist is in exactly one section, the one of its index, and that section is
      listed. */
  lemma EachArtistInOneSection(artists: seq<Artist>, a: Artist, k: string)
    requires a in artists
    ensures SectionOf(a) in Sections(artists)
    ensures a in Section(artists, k) <==> k == SectionOf(a)
  {
    assert InSection(k)(a) <==> k == SectionOf(a);
  }

  /** A section holds exactly the artists with that index, in the order of the query:
      the section of two lists joined is their sections joined, and a single artist is
      in the section of its own index only. */
  lemma {:induction false} SectionIsOrderedSubList(artists: seq<Artist>, more: seq<Artist>, k: string)
    ensures forall a :: a in Section(artists, k) <==> a in artists && SectionOf(a) == k
    ensures Section(artists + more, k) == Section(artists, k) + Section(more, k)
    ensures forall a :: Section([a], k) == if SectionOf(a) == k then [a] else []
  {
    forall a ensures a in Section(artists, k) <==> a in artists && SectionOf(a) == k {
      assert InSection(k)(a) <==> SectionOf(a) == k;
    }
    Seqs.FilterAppend(artists, more, InSection(k));
    forall a ensures Section([a], k) == if SectionOf(a) == k then [a] else [] {
      Seqs.FilterSingle(a, InSection(k));
    }
  }

  /** The navigation: `A`–`Z`, then `其他`, whatever the data. */
  function Navigation(): (nav: seq<string>)
    ensures |nav| == 27
    ensures forall i :: 0 <= i < 26 ==> nav[i] == [(65 + i) as char]
    ensures nav[26] == OtherNav
  {
    seq(26, i requires 0 <= i < 26 => [(65 + i) as char]) + [OtherNav]
  }

  /** The `#` section is shown but no navigation entry points at it. */
  lemma OtherSectionHasNoNavigation()
    ensures OtherSection !in Navigation()
  {
    var nav := Navigation();
    forall i | 0 <= i < |nav| ensures nav[i] != OtherSection {
      if i < 26 {
        assert nav[i][0] == (65 + i) as char;
      } else {
        assert nav[i] == OtherNav;
        assert OtherNav[0] != '#';
      }
    }
  }

  // -------------------------------------------------- code-unit string order

  /** `a < b` for JavaScript strings: lexicographic by character. */
  predicate StrLess(a: string, b: string)
  {
    if a == [] then b != []
    else if b == [] then false
    else if a[0] != b[0] then a[0] < b[0]
    else StrLess(a[1..], b[1..])
  }

  lemma {:induction false} StrLessIrreflexive(a: string)
    ensures !StrLess(a, a)
  {
    if a != [] {
      StrLessIrreflexive(a[1..]);
    }
  }

  lemma {:induction false} StrLessTotal(a: string, b: string)
    ensures a == b || StrLess(a, b) || StrLess(b, a)
  {
    if a != [] && b != [] && a[0] == b[0] {
      StrLessTotal(a[1..], b[1..]);
      if a[1..] == b[1..] {
        assert a == [a[0]] + a[1..] && b == [b[0]] + b[1..];
      }
    }
  }

  lemma {:induction false} StrLessTrans(a: string, b: string, c: string)
    requires StrLess(a, b) && StrLess(b, c)
    ensures StrLess(a, c)
  {
    if a != [] && a[0] == b[0] && b[0] == c[0] {
      StrLessTrans(a[1..], b[1..], c[1..]);
    }
  }

  predicate StrictlySorted(ks: seq<string>)
  {
    forall i, j :: 0 <= i < j < |ks| ==> StrLess(ks[i], ks[j])
  }

  /** Inserts a new key into a strictly sorted list. */
  function Insert(x: string, ks: seq<string>): (r: seq<string>)
    requires StrictlySorted(ks) && x !in ks
    ensures StrictlySorted(r)
    ensures forall k :: k in r <==> k == x || k in ks
    ensures |r| == |ks| + 1
  {
    if ks == [] then [x]
    else
      StrLessTotal(x, ks[0]);
      if StrLess(x, ks[0]) then
        assert forall j :: 0 <= j < |ks| ==> StrLess(x, ks[j]) by {
          forall j | 0 < j < |ks| ensures StrLess(x, ks[j]) {
            StrLessTrans(x, ks[0], ks[j]);
          }
        }
        [x] + ks
      else
        var rest := Insert(x, ks[1..]);
        assert forall k :: k in rest ==> StrLess(ks[0], k) by {
          forall k | k in rest ensures StrLess(ks[0], k) {
            if k != x {
              var j :| 0 <= j < |ks[1..]| && ks[1..][j] == k;
              assert ks[j + 1] == k;
            }
          }
        }
        [ks[0]] + rest
  }

  /** Sorts distinct keys. */
  function Sort(ks: seq<string>): (r: seq<string>)
    requires Seqs.NoDups(ks)
    ensures StrictlySorted(r)
    ensures forall k :: k in r <==> k in ks
    ensures |r| == |ks|
  {
    if ks == [] then []
    else
      assert Seqs.NoDups(ks[1..]);
      assert ks[0] !in ks[1..];
      Insert(ks[0], Sort(ks[1..]))
  }

  /** Sorted keys are distinct. */
  lemma SortedHasNoDups(ks: seq<string>)
    requires StrictlySorted(ks)
    ensures Seqs.NoDups(ks)
  {
    forall i, j | 0 <= i < j < |ks| ensures ks[i] != ks[j] {
      if ks[i] == ks[j] {
        StrLessIrreflexive(ks[i]);
      }
    }
  }
}

=== FILE: js.dfy ===
/** The JavaScript values and built-ins the model needs: an optional value,
    JSON values with JavaScript truthiness, object spread, `parseInt` with
    radix 10 and `Array.prototype.slice(0, end)`. */
module Js {
  import opened Text

  datatype Option<T> = None | Some(value: T)

  /** A parsed JSON value; numbers are JavaScript numbers read as reals. */
  datatype Json =
    | JNull
    | JBool(b: bool)
    | JNum(n: real)
    | JStr(s: string)
    | JArr(elems: seq<Json>)
    | JObj(fields: map<string, Json>)

  /** JavaScript truthiness of a present value (`NaN` is not modelled). */
  predicate Truthy(j: Json)
  {
    match j
    case JNull => false
    case JBool(b) => b
    case JNum(n) => n != 0.0
    case JStr(s) => s != ""
    case JArr(_) => true
    case JObj(_) => true
  }

  /** Truthiness of an object property that may be missing (`undefined` is falsy). */
  predicate TruthyField(m: map<string, Json>, k: string)
  {
    k in m && Truthy(m[k])
  }

  /** The own enumerable properties that `{...j}` copies and `Object.keys(j)` lists:
      an object's fields, the index keys `"0"`, `"1"`, … of an array's elements or of a
      string's characters, and none for `null`, booleans and numbers. */
  function Props(j: Json): (m: map<string, Json>)
    ensures j.JObj? ==> m == j.fields
    ensures j.JArr? ==> m == IndexProps(j.elems)
    ensures j.JStr? ==> m == IndexProps(CharStrings(j.s))
    ensures j.JNull? || j.JBool? || j.JNum? ==> m == map[]
  {
    match j
    case JObj(f) => f
    case JArr(xs) => IndexProps(xs)
    case JStr(s) => IndexProps(CharStrings(s))
    case _ => map[]
  }

  /** The one-character strings of a string, as indexing it gives them. */
  function CharStrings(s: string): (r: seq<Json>)
    ensures |r| == |s| && forall i :: 0 <= i < |s| ==> r[i] == JStr([s[i]])
  {
    seq(|s|, i requires 0 <= i < |s| => JStr([s[i]]))
  }

  /** Each element under its index written in decimal. */
  function IndexProps(xs: seq<Json>): (m: map<string, Json>)
    ensures forall i :: 0 <= i < |xs| ==> ShowNat(i) in m && m[ShowNat(i)] == xs[i]
  {
    if xs == [] then map[]
    else
      var n := |xs| - 1;
      var m := IndexProps(xs[..n]);
      assert forall i :: 0 <= i < n ==> ShowNat(i) != ShowNat(n) by {
        forall i | 0 <= i < n ensures ShowNat(i) != ShowNat(n) {
          ShowNatInjective(i, n);
        }
      }
      m[ShowNat(n) := xs[n]]
  }

  /** Every key is an index of the sequence, written in decimal. */
  lemma {:induction false} IndexPropsKeys(xs: seq<Json>, k: string)
    requires k in IndexProps(xs)
    ensures ParseInt(k).Some? && 0 <= ParseInt(k).value < |xs|
    ensures k == ShowNat(ParseInt(k).value)
    decreases |xs|
  {
    var n := |xs| - 1;
    if k == ShowNat(n) {
      ParseShowRoundTrip(n);
    } else {
      IndexPropsKeys(xs[..n], k);
    }
  }

  /** Different numbers are spelled differently. */
  lemma ShowNatInjective(i: nat, j: nat)
    requires i != j
    ensures ShowNat(i) != ShowNat(j)
  {
    ParseShowRoundTrip(i);
    ParseShowRoundTrip(j);
  }

  /** The `length` of an array or a string; other values have none. */
  function JsLength(j: Json): (n: Option<nat>)
    ensures j.JArr? ==> n == Some(|j.elems|)
    ensures j.JStr? ==> n == Some(|j.s|)
    ensures !j.JArr? && !j.JStr? ==> n.None?
  {
    match j
    case JArr(xs) => Some(|xs|)
    case JStr(s) => Some(|s|)
    case _ => None
  }

  /** The string a property holds, if it holds one. */
  function StrField(m: map<string, Json>, k: string): Option<string>
  {
    if k in m && m[k].JStr? then Some(m[k].s) else None
  }

  // ---------------------------------------------------------------- parseInt

  function DigitValue(c: char): nat
    requires IsAsciiDigit(c)
  {
    c as int - '0' as int
  }

  function DigitChar(d: nat): (c: char)
    requires d < 10
    ensures IsAsciiDigit(c) && DigitValue(c) == d
  {
    ('0' as int + d) as char
  }

  predicate AllDigits(s: string)
  {
    forall i :: 0 <= i < |s| ==> IsAsciiDigit(s[i])
  }

  /** The longest prefix made of decimal digits. */
  function DigitPrefix(s: string): (r: string)
    ensures |r| <= |s| && r == s[..|r|]
    ensures AllDigits(r)
    ensures |r| < |s| ==> !IsAsciiDigit(s[|r|])
  {
    if s == [] || !IsAsciiDigit(s[0]) then [] else [s[0]] + DigitPrefix(s[1..])
  }

  function DigitsValue(s: string): nat
    requires AllDigits(s)
  {
    if s == [] then 0 else 10 * DigitsValue(s[..|s| - 1]) + DigitValue(s[|s| - 1])
  }

  /** `parseInt(s, 10)`: leading white space, an optional sign, then the longest run of
      decimal digits; `None` stands for `NaN` (no digit at all). */
  function ParseInt(s: string): (r: Option<int>)
  {
    var t := TrimStart(s);
    var neg := |t| > 0 && t[0] == '-';
    var body := if |t| > 0 && (t[0] == '-' || t[0] == '+') then t[1..] else t;
    var ds := DigitPrefix(body);
    if ds == [] then None
    else if neg then Some(-(DigitsValue(ds) as int))
    else Some(DigitsValue(ds))
  }

  /** The decimal spelling of a natural number, without sign or leading zeros. */
  function ShowNat(n: nat): (r: string)
    ensures |r| > 0 && AllDigits(r)
    decreases n
  {
    if n < 10 then [DigitChar(n)] else ShowNat(n / 10) + [DigitChar(n % 10)]
  }

  lemma {:induction false} ShowNatValue(n: nat)
    ensures DigitsValue(ShowNat(n)) == n
    decreases n
  {
    if n >= 10 {
      var s := ShowNat(n);
      assert s[..|s| - 1] == ShowNat(n / 10);
      ShowNatValue(n / 10);
    }
  }

  lemma DigitPrefixOfDigits(s: string)
    requires AllDigits(s)
    ensures DigitPrefix(s) == s
  {
  }

  /** Reading back a spelled-out number gives the number: `parseInt(String(n), 10) == n`. */
  lemma ParseShowRoundTrip(n: nat)
    ensures ParseInt(ShowNat(n)) == Some(n)
  {
    var s := ShowNat(n);
    assert IsAsciiDigit(s[0]);
    assert !IsSpace(s[0]) && s[0] != '-' && s[0] != '+';
    assert TrimStart(s) == s;
    DigitPrefixOfDigits(s);
    ShowNatValue(n);
  }

  /** JavaScript's `a % n` for a positive `n`: the remainder takes the sign of `a`
      (Dafny's `%` is Euclidean). */
  function JsRem(a: int, n: int): (r: int)
    requires n > 0
    ensures a >= 0 ==> r == a % n
    ensures a >= 0 ==> 0 <= r < n
    ensures a < 0 ==> -n < r <= 0
    ensures exists q :: a == q * n + r
  {
    if a >= 0 then
      assert a == (a / n) * n + a % n;
      a % n
    else
      var m := (-a) % n;
      assert -a == ((-a) / n) * n + m;
      assert a == (-((-a) / n)) * n + (-m);
      -m
  }

  /** `Math.floor(u * n)` for a draw `u` of `Math.random()` (which lies in [0, 1)). */
  function RandomIndex(u: real, n: nat): (r: nat)
    requires 0.0 <= u < 1.0 && n > 0
    ensures r < n
  {
    var x := u * n as real;
    assert x < n as real;
    x.Floor
  }

  // ------------------------------------------------------------- URL queries

  /** The query of a URL: what follows its first `?`, or nothing. */
  function QueryOf(url: string): (q: string)
    ensures |q| <= |url|
    ensures '?' !in url ==> q == ""
  {
    if url == [] then "" else if url[0] == '?' then url[1..] else QueryOf(url[1..])
  }

  /** `s.split(c)` for one character: the pieces between the occurrences of `c`. */
  function Split(s: string, c: char): (parts: seq<string>)
    ensures |parts| >= 1
    ensures forall i :: 0 <= i < |parts| ==> c !in parts[i]
  {
    if s == [] then [""]
    else
      var rest := Split(s[1..], c);
      if s[0] == c then [""] + rest else [[s[0]] + rest[0]] + rest[1..]
  }

  /** One `name=value` piece of a query, split at its first `=`; a piece without `=`
      is a name with the empty value. */
  function PairOf(piece: string): (nv: (string, string))
    ensures '=' !in nv.0
  {
    var i := IndexOf(piece, "=");
    if i == -1 then
      assert '=' !in piece by {
        forall j | 0 <= j < |piece| ensures piece[j] != '=' {
          assert !OccursAt(piece, "=", j);
        }
      }
      (piece, "")
    else
      assert '=' !in piece[..i] by {
        forall j | 0 <= j < i ensures piece[j] != '=' {
          assert !OccursAt(piece, "=", j);
        }
      }
      (piece[..i], piece[i + 1..])
  }

  /** The value of the first non-empty piece with that name. */
  function FirstValue(pieces: seq<string>, name: string): Option<string>
  {
    if pieces == [] then None
    else if pieces[0] != "" && PairOf(pieces[0]).0 == name then Some(PairOf(pieces[0]).1)
    else FirstValue(pieces[1..], name)
  }

  /** `new URL(url).searchParams.get(name)` for a URL without a fragment, whose names
      and values need no percent-decoding. */
  function SearchParam(url: string, name: string): Option<string>
  {
    FirstValue(Split(QueryOf(url), '&'), name)
  }

  /** The query is what follows the first `?`. */
  lemma {:induction false} QueryAfterMark(a: string, b: string)
    requires '?' !in a
    ensures QueryOf(a + "?" + b) == b
  {
    if a != [] {
      assert (a + "?" + b)[1..] == a[1..] + "?" + b;
      QueryAfterMark(a[1..], b);
    }
  }

  /** Splitting at the first separator gives the piece before it, then the pieces of
      the rest; a text without the separator is one piece. */
  lemma {:induction false} SplitAtFirst(a: string, b: string, c: char)
    requires c !in a
    ensures Split(a + [c] + b, c) == [a] + Split(b, c)
    ensures Split(a, c) == [a]
  {
    if a != [] {
      assert (a + [c] + b)[1..] == a[1..] + [c] + b;
      SplitAtFirst(a[1..], b, c);
      assert [a[0]] + a[1..] == a;
    }
  }

  /** A piece splits into the name before its first `=` and the value after it. */
  lemma PairOfNamed(name: string, value: string)
    requires '=' !in name
    ensures PairOf(name + "=" + value) == (name, value)
  {
    var s := name + "=" + value;
    assert OccursAt(s, "=", |name|);
    forall j | 0 <= j < |name| ensures !OccursAt(s, "=", j) {
      assert s[j] == name[j];
    }
    assert s[..|name|] == name && s[|name| + 1..] == value;
  }

  /** A named piece is found under its own name and under no other. */
  lemma FirstValueNamed(name: string, value: string, rest: seq<string>, n: string)
    requires '=' !in name && name != ""
    ensures FirstValue([name + "=" + value] + rest, n)
            == if n == name then Some(value) else FirstValue(rest, n)
  {
    PairOfNamed(name, value);
    assert ([name + "=" + value] + rest)[1..] == rest;
  }

  /** Reading a parameter back from a query of two pieces: the first is found under its
      name, the second under its own name when the names differ, and no other name is
      found. */
  lemma SearchTwoParams(base: string, n1: string, v1: string, n2: string, v2: string)
    requires '?' !in base && n1 != "" && n2 != "" && n1 != n2
    requires '=' !in n1 && '&' !in n1 && '&' !in v1 && '=' !in n2 && '&' !in n2 && '&' !in v2
    ensures var url := base + "?" + n1 + "=" + v1 + "&" + n2 + "=" + v2;
            && SearchParam(url, n1) == Some(v1)
            && SearchParam(url, n2) == Some(v2)
            && forall n :: n != n1 && n != n2 ==> SearchParam(url, n).None?
  {
    var p1 := n1 + "=" + v1;
    var p2 := n2 + "=" + v2;
    var url := base + "?" + n1 + "=" + v1 + "&" + n2 + "=" + v2;
    assert url == base + "?" + (p1 + ['&'] + p2);
    QueryAfterMark(base, p1 + ['&'] + p2);
    assert '&' !in p1 && '&' !in p2;
    SplitAtFirst(p1, p2, '&');
    SplitAtFirst(p2, [], '&');
    assert Split(QueryOf(url), '&') == [p1] + [p2];
    forall n ensures SearchParam(url, n) == if n == n1 then Some(v1) else if n == n2 then Some(v2) else None {
      FirstValueNamed(n1, v1, [p2], n);
      FirstValueNamed(n2, v2, [], n);
    }
  }

  /** Reading a parameter back from a query of one piece. */
  lemma SearchOneParam(base: string, n1: string, v1: string)
    requires '?' !in base && n1 != ""
    requires '=' !in n1 && '&' !in n1 && '&' !in v1
    ensures var url := base + "?" + n1 + "=" + v1;
            && SearchParam(url, n1) == Some(v1)
            && forall n :: n != n1 ==> SearchParam(url, n).None?
  {
    var p1 := n1 + "=" + v1;
    var url := base + "?" + n1 + "=" + v1;
    assert url == base + "?" + p1;
    QueryAfterMark(base, p1);
    assert '&' !in p1;
    SplitAtFirst(p1, [], '&');
    assert Split(QueryOf(url), '&') == [p1] + [];
    forall n ensures SearchParam(url, n) == if n == n1 then Some(v1) else None {
      FirstValueNamed(n1, v1, [], n);
    }
  }

  // ------------------------------------------------------------------- slice

  /** Where `slice(0, end)` stops on a list of length `n`; `None` is `NaN`, read as 0,
      and a negative end counts back from the end of the list. */
  function SliceStop(n: nat, end: Option<int>): (r: nat)
    ensures r <= n
    ensures end.None? ==> r == 0
    ensures end.Some? && end.value >= 0 ==> r == if end.value < n then end.value else n
  {
    match end
    case None => 0
    case Some(e) =>
      if e >= 0 then (if e < n then e else n)
      else if n + e > 0 then n + e else 0
  }

  function SliceTo<T>(xs: seq<T>, end: Option<int>): seq<T>
  {
    xs[..SliceStop(|xs|, end)]
  }

  /** A text form field, `((formData.get(k) as string) || '').trim()`: a missing field
      reads as empty. */
  function FieldText(v: Option<string>): (r: string)
    ensures v.None? ==> r == []
    ensures v.Some? ==> r == Trim(v.value)
  {
    Trim(if v.Some? then v.value else "")
  }
}

=== FILE: merge_duplicates.dfy ===
/** The duplicate-merge script: songs (in creation order) are grouped by normalised
    title and artist; each group of two or more keeps one target, whose files document
    receives every member's sheets and lyrics and any audio or image it lacks, and the
    other members are deleted. */
module MergeDuplicates {
  import opened Text
  import opened Js
  import Seqs
  import Titles

  const UnknownArtist := "Unknown"

  /** A song row; `files` is the stored document as `JSON.parse` reads it, `None` when it
      does not parse. An empty `artistName` stands for a missing one. */
  datatype Song = Song(id: string, title: string, artistName: string, createdAt: int, files: Option<Json>)

  /** `song.artistName || 'Unknown'`. */
  function ArtistOf(s: Song): (a: string)
    ensures a != []
    ensures s.artistName != [] ==> a == s.artistName
  {
    if s.artistName == [] then UnknownArtist else s.artistName
  }

  // -------------------------------------------------------------- grouping key

  /** The key as the script writes it: `${normTitle}|${artist}`. */
  function KeyAsWritten(s: Song): string
  {
    Titles.NormalizeTitle(s.title) + "|" + ArtistOf(s)
  }

  /** The key the grouping means: the pair of normalised title and artist. */
  datatype GroupKey = GroupKey(title: string, artist: string)

  function Key(s: Song): GroupKey
  {
    GroupKey(Titles.NormalizeTitle(s.title), ArtistOf(s))
  }

  /** Two songs share a group exactly when their normalised titles and their artists
      agree. */
  lemma SameGroupIff(a: Song, b: Song)
    ensures Key(a) == Key(b) <==>
      Titles.NormalizeTitle(a.title) == Titles.NormalizeTitle(b.title) && ArtistOf(a) == ArtistOf(b)
  {
  }

  /** The written key never separates songs the pair key puts together. */
  lemma KeyAsWrittenIsCoarser(a: Song, b: Song)
    requires Key(a) == Key(b)
    ensures KeyAsWritten(a) == KeyAsWritten(b)
  {
  }

  /** Without a `|` in either normalised title, the written key and the pair key group
      alike: the first `|` of a written key ends its title. */
  lemma KeysAgreeWithoutPipe(a: Song, b: Song)
    requires '|' !in Titles.NormalizeTitle(a.title) && '|' !in Titles.NormalizeTitle(b.title)
    ensures KeyAsWritten(a) == KeyAsWritten(b) <==> Key(a) == Key(b)
  {
    if KeyAsWritten(a) == KeyAsWritten(b) {
      SplitAtFirstPipe(Titles.NormalizeTitle(a.title), ArtistOf(a), Titles.NormalizeTitle(b.title), ArtistOf(b));
    }
  }

  lemma SplitAtFirstPipe(ta: string, xa: string, tb: string, xb: string)
    requires '|' !in ta && '|' !in tb
    requires ta + "|" + xa == tb + "|" + xb
    ensures ta == tb && xa == xb
  {
    var k := ta + "|" + xa;
    BeforePipeOf(ta, xa);
    BeforePipeOf(tb, xb);
    assert xa == k[|ta| + 1..] == xb;
  }

  /** The text before the first `|`, or all of it without one. */
  function BeforePipe(k: string): (t: string)
    ensures |t| <= |k| && t == k[..|t|] && '|' !in t
  {
    if k == [] || k[0] == '|' then [] else [k[0]] + BeforePipe(k[1..])
  }

  lemma {:induction false} BeforePipeOf(t: string, x: string)
    requires '|' !in t
    ensures BeforePipe(t + "|" + x) == t
  {
    if t != [] {
      assert (t + "|" + x)[1..] == t[1..] + "|" + x;
      assert t[0] in t;
      BeforePipeOf(t[1..], x);
      assert [t[0]] + t[1..] == t;
    }
  }

  /** A title with no dot, no opening bracket and no white space at either end. */
  predicate Plain(s: string)
  {
    && s != [] && !IsSpace(s[0]) && !IsSpace(s[|s| - 1])
    && forall i :: 0 <= i < |s| ==> s[i] != '.' && !Titles.IsOpen(s[i])
  }

  /** A plain title is its own normal form. */
  lemma PlainTitleIsNormal(s: string)
    requires Plain(s)
    ensures Titles.NormalizeTitle(s) == s
  {
    assert Titles.StripExt(s) == s;
    forall k | 0 <= k <= |s| ensures !Titles.RemarkAt(s, k) {
    }
    Titles.NoRemark(s);
    assert TrimStart(s) == s;
    assert TrimEnd(s) == s;
  }

  /** The written key lets a `|` in a title or an artist name merge songs of different
      titles and artists: "a|b" by "c" and "a" by "b|c" both get the key "a|b|c". */
  lemma KeyAsWrittenCollides(p: string, q: string, r: string)
    requires Plain(p + "|" + q) && Plain(p) && r != []
    ensures var x := Song("1", p + "|" + q, r, 0, None);
            var y := Song("2", p, q + "|" + r, 0, None);
            && KeyAsWritten(x) == KeyAsWritten(y)
            && Titles.NormalizeTitle(x.title) != Titles.NormalizeTitle(y.title)
            && ArtistOf(x) != ArtistOf(y)
            && Key(x) != Key(y)
  {
    PlainTitleIsNormal(p + "|" + q);
    PlainTitleIsNormal(p);
    PipeRegroups(p, q, r);
    assert |p + "|" + q| != |p|;
  }

  lemma PipeRegroups(p: string, q: string, r: string)
    ensures (p + "|" + q) + "|" + r == p + "|" + (q + "|" + r)
  {
  }

  /** The groups' keys, in the order their first song appears. */
  function GroupKeys(songs: seq<Song>): (ks: seq<GroupKey>)
    ensures Seqs.NoDups(ks)
    ensures forall k :: k in ks <==> exists s :: s in songs && Key(s) == k
  {
    var keys := Keys(songs);
    KeysDomain(songs);
    var ks := Seqs.Dedup(keys);
    assert forall k :: k in ks <==> k in keys;
    ks
  }

  lemma KeysDomain(songs: seq<Song>)
    ensures forall k :: k in Keys(songs) <==> exists s :: s in songs && Key(s) == k
  {
    var keys := Keys(songs);
    forall k | k in keys ensures exists s :: s in songs && Key(s) == k {
      var i :| 0 <= i < |keys| && keys[i] == k;
      assert songs[i] in songs;
    }
    forall k | exists s :: s in songs && Key(s) == k ensures k in keys {
      var s :| s in songs && Key(s) == k;
      var i :| 0 <= i < |songs| && songs[i] == s;
      assert keys[i] == k;
    }
  }

  function Keys(songs: seq<Song>): (ks: seq<GroupKey>)
    ensures |ks| == |songs|
    ensures forall i :: 0 <= i < |songs| ==> ks[i] == Key(songs[i])
  {
    seq(|songs|, i requires 0 <= i < |songs| => Key(songs[i]))
  }

  function InGroup(k: GroupKey): Song -> bool
  {
    s => Key(s) == k
  }

  /** The songs of one group, in the order of the query. */
  function Members(songs: seq<Song>, k: GroupKey): (g: seq<Song>)
    ensures forall s :: s in g <==> s in songs && Key(s) == k
  {
    var g := Seqs.Filter(songs, InGroup(k));
    assert forall s :: InGroup(k)(s) <==> Key(s) == k;
    g
  }

  // ---------------------------------------------------------- the kept target

  /** The group's order: shorter title first, then earlier creation. */
  predicate Before(a: Song, b: Song)
  {
    |a.title| < |b.title| || (|a.title| == |b.title| && a.createdAt < b.createdAt)
  }

  predicate Ordered(g: seq<Song>)
  {
    forall i, j :: 0 <= i < j < |g| ==> !Before(g[j], g[i])
  }

  /** Where `x` goes: in front of the first song that does not come before it. */
  function InsertPos(x: Song, g: seq<Song>): (p: nat)
    ensures p <= |g|
    ensures forall i :: 0 <= i < p ==> Before(g[i], x)
    ensures p < |g| ==> !Before(g[p], x)
  {
    if g == [] || !Before(g[0], x) then 0 else 1 + InsertPos(x, g[1..])
  }

  function InsertSong(x: Song, g: seq<Song>): (r: seq<Song>)
    requires Ordered(g)
    ensures Ordered(r)
    ensures multiset(r) == multiset(g) + multiset{x}
  {
    var p := InsertPos(x, g);
    InsertKeepsOrder(x, g, p);
    InsertKeepsSongs(x, g, p);
    g[..p] + [x] + g[p..]
  }

  lemma InsertKeepsOrder(x: Song, g: seq<Song>, p: nat)
    requires Ordered(g) && p == InsertPos(x, g)
    ensures Ordered(g[..p] + [x] + g[p..])
  {
    var r := g[..p] + [x] + g[p..];
    forall i, j | 0 <= i < j < |r| ensures !Before(r[j], r[i]) {
      if j < p {
        assert r[i] == g[i] && r[j] == g[j];
      } else if j == p {
        assert r[i] == g[i] && r[j] == x;
      } else if i > p {
        assert r[i] == g[i - 1] && r[j] == g[j - 1];
      } else if i == p {
        assert r[i] == x && r[j] == g[j - 1];
        assert !Before(g[j - 1], g[p]);
      } else {
        assert r[i] == g[i] && r[j] == g[j - 1];
      }
    }
  }

  lemma InsertKeepsSongs(x: Song, g: seq<Song>, p: nat)
    requires p <= |g|
    ensures multiset(g[..p] + [x] + g[p..]) == multiset(g) + multiset{x}
  {
    assert g == g[..p] + g[p..];
  }

  /** The group sorted by title length, then creation time; the sort is stable. */
  function SortGroup(g: seq<Song>): (r: seq<Song>)
    ensures Ordered(r)
    ensures multiset(r) == multiset(g)
    ensures |r| == |g|
  {
    if g == [] then []
    else
      assert g == [g[0]] + g[1..];
      var r := InsertSong(g[0], SortGroup(g[1..]));
      assert |r| == |multiset(r)|;
      r
  }

  /** The first song after sorting has the shortest title, and among the shortest the
      earliest creation time; the others are the rest of the group. */
  lemma TargetIsFirst(g: seq<Song>)
    requires |g| > 1
    ensures var r := SortGroup(g);
            && r[0] in g
            && (forall s :: s in g ==> |r[0].title| <= |s.title|)
            && (forall s :: s in g && |s.title| == |r[0].title| ==> r[0].createdAt <= s.createdAt)
            && multiset(r[1..]) + multiset{r[0]} == multiset(g)
  {
    var r := SortGroup(g);
    assert r == [r[0]] + r[1..];
    assert r[0] in multiset(g);
    forall s | s in g ensures !Before(s, r[0]) {
      assert s in multiset(r);
      var j :| 0 <= j < |r| && r[j] == s;
    }
  }

  // ------------------------------------------------------- the merged document

  /** `parseFiles`: a parsed object or array is kept; anything else, and a document
      that does not parse, reads as `{}`. */
  function ParseFiles(files: Option<Json>): (j: Json)
    ensures j.JObj? || j.JArr?
    ensures files.Some? && (files.value.JObj? || files.value.JArr?) ==> j == files.value
  {
    if files.Some? && (files.value.JObj? || files.value.JArr?) then files.value else JObj(map[])
  }

  /** What one document adds to a merged list: its truthy `single` entry, then every
      element of `list` when that is an array. */
  function Contribution(m: map<string, Json>, list: string, single: string): seq<Json>
  {
    (if TruthyField(m, single) then [m[single]] else [])
    + (if list in m && m[list].JArr? then m[list].elems else [])
  }

  function Contributions(docs: seq<map<string, Json>>, list: string, single: string): (r: seq<Json>)
    ensures forall x :: x in r <==> exists i :: 0 <= i < |docs| && x in Contribution(docs[i], list, single)
  {
    if docs == [] then []
    else
      var r := Contribution(docs[0], list, single) + Contributions(docs[1..], list, single);
      assert forall i :: 0 < i < |docs| ==> docs[i] == docs[1..][i - 1];
      r
  }

  /** The merged list `Array.from(set)`: every contribution once, in first-seen order,
      the target's first. */
  function MergedList(docs: seq<map<string, Json>>, list: string, single: string): seq<Json>
  {
    Seqs.Dedup(Contributions(docs, list, single))
  }

  /** The merged list holds each path of each member exactly once, and begins with the
      target's own paths in their order. */
  lemma MergedListContents(target: map<string, Json>, others: seq<map<string, Json>>, list: string, single: string)
    ensures var r := MergedList([target] + others, list, single);
            var own := Seqs.Dedup(Contribution(target, list, single));
            && Seqs.NoDups(r)
            && (forall x :: x in r <==>
                  (x in Contribution(target, list, single)
                   || exists i :: 0 <= i < |others| && x in Contribution(others[i], list, single)))
            && |own| <= |r| && r[..|own|] == own
  {
    var docs := [target] + others;
    var own := Contribution(target, list, single);
    assert Contributions(docs, list, single) == own + Contributions(others, list, single) by {
      assert docs[1..] == others;
    }
    Seqs.DedupIntoAppend([], own, Contributions(others, list, single));
    forall x ensures (exists i :: 0 <= i < |docs| && x in Contribution(docs[i], list, single))
                     <==> x in own || exists i :: 0 <= i < |others| && x in Contribution(others[i], list, single) {
      if exists i :: 0 <= i < |docs| && x in Contribution(docs[i], list, single) {
        var i :| 0 <= i < |docs| && x in Contribution(docs[i], list, single);
        if i > 0 {
          assert docs[i] == others[i - 1];
        }
      }
      if exists i :: 0 <= i < |others| && x in Contribution(others[i], list, single) {
        var i :| 0 <= i < |others| && x in Contribution(others[i], list, single);
        assert docs[i + 1] == others[i];
      }
    }
  }

  /** The first other document with a truthy `key`, if any. */
  function FirstWith(others: seq<map<string, Json>>, key: string): (i: int)
    ensures -1 <= i < |others|
    ensures i == -1 <==> forall j :: 0 <= j < |others| ==> !TruthyField(others[j], key)
    ensures i != -1 ==> TruthyField(others[i], key) && forall j :: 0 <= j < i ==> !TruthyField(others[j], key)
  {
    Seqs.FindIndex(others, (m: map<string, Json>) => TruthyField(m, key))
  }

  /** A falsy `key` of the target takes the first truthy value among the others. */
  function Fill(m: map<string, Json>, others: seq<map<string, Json>>, key: string): (r: map<string, Json>)
    ensures forall k :: k != key ==> (k in r <==> k in m) && (k in m ==> r[k] == m[k])
    ensures TruthyField(m, key) ==> r == m
    ensures !TruthyField(m, key) && FirstWith(others, key) == -1 ==> r == m
    ensures !TruthyField(m, key) && FirstWith(others, key) != -1 ==>
      key in r && r[key] == others[FirstWith(others, key)][key]
  {
    var i := FirstWith(others, key);
    if TruthyField(m, key) || i == -1 then m else m[key := others[i][key]]
  }

  /** A falsy `single` becomes the list's first element when there is one. */
  function DefaultTo(m: map<string, Json>, single: string, xs: seq<Json>): (r: map<string, Json>)
    ensures forall k :: k != single ==> (k in r <==> k in m) && (k in m ==> r[k] == m[k])
    ensures TruthyField(m, single) || xs == [] ==> r == m
    ensures !TruthyField(m, single) && xs != [] ==> single in r && r[single] == xs[0]
  {
    if !TruthyField(m, single) && xs != [] then m[single := xs[0]] else m
  }

  /** `files[key] = xs`. */
  function SetList(m: map<string, Json>, key: string, xs: seq<Json>): (r: map<string, Json>)
    ensures key in r && r[key] == JArr(xs)
    ensures forall k :: k != key ==> (k in r <==> k in m) && (k in m ==> r[k] == m[k])
  {
    m[key := JArr(xs)]
  }

  /** After the loop: both lists are written back, then the default sheet and lyric
      are set if missing. */
  function Finish(m: map<string, Json>, sheets: seq<Json>, lrcs: seq<Json>): (r: map<string, Json>)
  {
    DefaultTo(DefaultTo(SetList(SetList(m, "sheets", sheets), "lrcs", lrcs), "sheet", sheets), "lrc", lrcs)
  }

  /** The target's document after the merge: audio and image filled in from the others,
      then `Finish` with the merged lists. */
  function MergedDoc(target: map<string, Json>, others: seq<map<string, Json>>): map<string, Json>
  {
    Finish(Filled(target, others),
           MergedList([target] + others, "sheets", "sheet"),
           MergedList([target] + others, "lrcs", "lrc"))
  }

  /** The stored document of the target. An array passes `parseFiles`, but its named
      properties are lost when it is written back, so it is stored unchanged. */
  function MergeFiles(target: Json, others: seq<Json>): Json
  {
    if target.JArr? then target else JObj(MergedDoc(Props(target), PropsOf(others)))
  }

  function PropsOf(docs: seq<Json>): (r: seq<map<string, Json>>)
    ensures |r| == |docs|
    ensures forall i :: 0 <= i < |docs| ==> r[i] == Props(docs[i])
  {
    if docs == [] then [] else [Props(docs[0])] + PropsOf(docs[1..])
  }

  /** `Finish` writes both lists, sets each default only when it is missing and the list
      is not empty, and touches no other key. */
  lemma FinishContents(m: map<string, Json>, sheets: seq<Json>, lrcs: seq<Json>)
    ensures var r := Finish(m, sheets, lrcs);
            && "sheets" in r && r["sheets"] == JArr(sheets)
            && "lrcs" in r && r["lrcs"] == JArr(lrcs)
            && (TruthyField(m, "sheet") ==> "sheet" in r && r["sheet"] == m["sheet"])
            && (!TruthyField(m, "sheet") && sheets != [] ==> "sheet" in r && r["sheet"] == sheets[0])
            && (TruthyField(m, "lrc") ==> "lrc" in r && r["lrc"] == m["lrc"])
            && (!TruthyField(m, "lrc") && lrcs != [] ==> "lrc" in r && r["lrc"] == lrcs[0])
            && forall k :: k != "sheets" && k != "lrcs" && k != "sheet" && k != "lrc" ==>
                 (k in r <==> k in m) && (k in m ==> r[k] == m[k])
  {
    var m1 := SetList(m, "sheets", sheets);
    var m2 := SetList(m1, "lrcs", lrcs);
    var m3 := DefaultTo(m2, "sheet", sheets);
    assert TruthyField(m2, "sheet") == TruthyField(m, "sheet");
    assert TruthyField(m3, "lrc") == TruthyField(m, "lrc");
  }

  /** The merged document holds both merged lists, and each default is kept when the
      target has one and is otherwise the first of its list. */
  lemma MergedDocLists(target: map<string, Json>, others: seq<map<string, Json>>)
    ensures var r := MergedDoc(target, others);
            var sheets := MergedList([target] + others, "sheets", "sheet");
            var lrcs := MergedList([target] + others, "lrcs", "lrc");
            && "sheets" in r && r["sheets"] == JArr(sheets)
            && "lrcs" in r && r["lrcs"] == JArr(lrcs)
            && (TruthyField(target, "sheet") ==> "sheet" in r && r["sheet"] == target["sheet"])
            && (!TruthyField(target, "sheet") && sheets != [] ==> "sheet" in r && r["sheet"] == sheets[0])
            && (TruthyField(target, "lrc") ==> "lrc" in r && r["lrc"] == target["lrc"])
            && (!TruthyField(target, "lrc") && lrcs != [] ==> "lrc" in r && r["lrc"] == lrcs[0])
  {
    var sheets := MergedList([target] + others, "sheets", "sheet");
    var lrcs := MergedList([target] + others, "lrcs", "lrc");
    FinishContents(Filled(target, others), sheets, lrcs);
  }

  /** Every key other than the six file keys is as the target had it. */
  lemma MergedDocOtherKeys(target: map<string, Json>, others: seq<map<string, Json>>)
    ensures var r := MergedDoc(target, others);
            forall k :: k !in {"sheets", "lrcs", "sheet", "lrc", "audio", "image"} ==>
              (k in r <==> k in target) && (k in target ==> r[k] == target[k])
  {
    var sheets := MergedList([target] + others, "sheets", "sheet");
    var lrcs := MergedList([target] + others, "lrcs", "lrc");
    FinishContents(Filled(target, others), sheets, lrcs);
  }

  function Filled(target: map<string, Json>, others: seq<map<string, Json>>): (r: map<string, Json>)
    ensures forall k :: k != "audio" && k != "image" ==> (k in r <==> k in target) && (k in target ==> r[k] == target[k])
    ensures TruthyField(r, "sheet") == TruthyField(target, "sheet")
    ensures TruthyField(r, "lrc") == TruthyField(target, "lrc")
  {
    Fill(Fill(target, others, "audio"), others, "image")
  }

  /** The audio (and likewise the image) is the target's own when truthy; otherwise it
      is that of the first other member that has one. */
  lemma MergedDocAudio(target: map<string, Json>, others: seq<map<string, Json>>, key: string)
    requires key == "audio" || key == "image"
    ensures var r := MergedDoc(target, others);
            var i := FirstWith(others, key);
            && (TruthyField(target, key) ==> key in r && r[key] == target[key])
            && (!TruthyField(target, key) && i != -1 ==> key in r && r[key] == others[i][key])
            && (!TruthyField(target, key) && i == -1 ==> (key in r <==> key in target) && (key in target ==> r[key] == target[key]))
  {
    var filled := Filled(target, others);
    FinishContents(filled, MergedList([target] + others, "sheets", "sheet"), MergedList([target] + others, "lrcs", "lrc"));
  }

  // ------------------------------------------------------------------ the plan

  /** What the script does to one group: the target it keeps and the members it
      deletes, in the sorted order. */
  datatype Plan = Plan(target: Song, deleted: seq<Song>)

  function DocsOf(g: seq<Song>): (r: seq<Json>)
    ensures |r| == |g|
    ensures forall i :: 0 <= i < |g| ==> r[i] == ParseFiles(g[i].files)
  {
    if g == [] then [] else [ParseFiles(g[0].files)] + DocsOf(g[1..])
  }

  /** The document the script writes for the target. */
  function TargetFiles(p: Plan): Json
  {
    MergeFiles(ParseFiles(p.target.files), DocsOf(p.deleted))
  }

  /** A group of one is left alone; a larger group keeps its first song in the sorted
      order and deletes the others. */
  function PlanOf(g: seq<Song>): (r: Option<Plan>)
    ensures r.None? <==> |g| <= 1
    ensures r.Some? ==> multiset(r.value.deleted) + multiset{r.value.target} == multiset(g)
  {
    if |g| <= 1 then None
    else
      var sorted := SortGroup(g);
      assert sorted == [sorted[0]] + sorted[1..];
      Some(Plan(sorted[0], sorted[1..]))
  }

  /** The groups, in the order of their first songs. */
  function Groups(songs: seq<Song>): (gs: seq<seq<Song>>)
  {
    GroupsFor(songs, GroupKeys(songs))
  }

  function GroupsFor(songs: seq<Song>, ks: seq<GroupKey>): (gs: seq<seq<Song>>)
    ensures |gs| == |ks|
    ensures forall i :: 0 <= i < |ks| ==> gs[i] == Members(songs, ks[i])
  {
    if ks == [] then [] else [Members(songs, ks[0])] + GroupsFor(songs, ks[1..])
  }

  /** The present results of `f` over a list, in order. */
  function Collect<A, B>(xs: seq<A>, f: A -> Option<B>): seq<B>
  {
    if xs == [] then []
    else if f(xs[0]).Some? then [f(xs[0]).value] + Collect(xs[1..], f)
    else Collect(xs[1..], f)
  }

  lemma {:induction false} CollectMembers<A, B>(xs: seq<A>, f: A -> Option<B>)
    ensures forall y :: y in Collect(xs, f) ==> exists i :: 0 <= i < |xs| && f(xs[i]) == Some(y)
    ensures forall i :: 0 <= i < |xs| && f(xs[i]).Some? ==> f(xs[i]).value in Collect(xs, f)
  {
    if xs != [] {
      var rest := xs[1..];
      CollectMembers(rest, f);
      forall y | y in Collect(rest, f) ensures exists i :: 0 <= i < |xs| && f(xs[i]) == Some(y) {
        var j :| 0 <= j < |rest| && f(rest[j]) == Some(y);
        assert xs[j + 1] == rest[j];
      }
      forall i | 1 <= i < |xs| && f(xs[i]).Some? ensures f(xs[i]).value in Collect(rest, f) {
        assert xs[i] == rest[i - 1];
      }
    }
  }

  /** The plan of every group of two or more, in order. */
  function PlansOf(gs: seq<seq<Song>>): seq<Plan>
  {
    Collect(gs, PlanOf)
  }

  /** The plans are those of the groups of two or more, and every such group has its
      plan. */
  lemma PlansOfGroups(gs: seq<seq<Song>>)
    ensures forall p :: p in PlansOf(gs) ==> exists i :: 0 <= i < |gs| && PlanOf(gs[i]) == Some(p)
    ensures forall i :: 0 <= i < |gs| && |gs[i]| > 1 ==> PlanOf(gs[i]).value in PlansOf(gs)
  {
    CollectMembers(gs, PlanOf);
  }

  function Plans(songs: seq<Song>): seq<Plan>
  {
    PlansOf(Groups(songs))
  }

  /** A plan names exactly the songs of its group: each is the target or deleted. */
  lemma PlanCoversGroup(g: seq<Song>, p: Plan, x: Song)
    requires PlanOf(g) == Some(p)
    ensures x in g <==> x == p.target || x in p.deleted
  {
    assert x in g <==> x in multiset(g);
    assert x in p.deleted <==> x in multiset(p.deleted);
  }

  /** A song whose group holds no other song is neither kept as a target nor deleted. */
  lemma SingletonGroupUntouched(songs: seq<Song>, s: Song)
    requires s in songs && Members(songs, Key(s)) == [s]
    ensures forall p :: p in Plans(songs) ==> p.target != s && s !in p.deleted
  {
    var gs := Groups(songs);
    var ks := GroupKeys(songs);
    PlansOfGroups(gs);
    forall p | p in Plans(songs) ensures p.target != s && s !in p.deleted {
      var i :| 0 <= i < |gs| && PlanOf(gs[i]) == Some(p);
      assert gs[i] == Members(songs, ks[i]);
      NotInOtherPlan(songs, s, ks[i], p);
    }
  }

  lemma NotInOtherPlan(songs: seq<Song>, s: Song, k: GroupKey, p: Plan)
    requires Members(songs, Key(s)) == [s] && PlanOf(Members(songs, k)) == Some(p)
    ensures p.target != s && s !in p.deleted
  {
    assert k != Key(s);
    PlanCoversGroup(Members(songs, k), p, s);
  }

  /** Every song of a group of two or more is in that group's plan, as its target or
      among the deleted songs. */
  lemma EveryDuplicateIsPlanned(songs: seq<Song>, s: Song)
    requires s in songs && |Members(songs, Key(s))| > 1
    ensures exists p :: p in Plans(songs) && (p.target == s || s in p.deleted)
  {
    var ks := GroupKeys(songs);
    var gs := Groups(songs);
    assert Key(s) in ks;
    var i :| 0 <= i < |ks| && ks[i] == Key(s);
    var g := gs[i];
    assert g == Members(songs, Key(s));
    var p := PlanOf(g).value;
    PlansOfGroups(gs);
    assert p in Plans(songs);
    PlanCoversGroup(g, p, s);
  }
}

=== FILE: params_store.dfy ===
/** The presentation parameter store on the server: the stored JSON document
    `{items: id -> {top, bottom, hideBottom}, bgUrl, updatedAt, ...}` and the
    POST handler that merges one incoming payload into it.

    The merge is one level deep: for every transmitted item id, the fields the
    request sends replace the stored fields of that item and the fields it does
    not send keep their stored values. Field values are never looked into. */
module ParamsStore {
  import opened Js

  /** What the handler finds in the parameter file. */
  datatype Stored = Missing | Unreadable | Holds(doc: Json)

  /** The answer of a save: `{status:'ok', updatedAt}` (200) or `{status:'error'}` (500). */
  datatype SaveResponse = Saved(updatedAt: int) | Failed

  datatype SaveOutcome = SaveOutcome(response: SaveResponse, written: Option<map<string, Json>>)

  /** The GET answer: an HTTP status and a JSON body. */
  datatype GetResponse = GetResponse(status: int, body: Json)

  function StatusOf(r: SaveResponse): int
  {
    if r.Saved? then 200 else 500
  }

  /** The stored document as the POST handler sees it: anything it cannot read or
      parse is the empty object, and the spread copies only an object's properties. */
  function LoadExisting(f: Stored): (doc: map<string, Json>)
    ensures !f.Holds? ==> doc == map[]
    ensures f.Holds? && f.doc.JObj? ==> doc == f.doc.fields
  {
    if f.Holds? then Props(f.doc) else map[]
  }

  /** `merged.items || {}` spread: the stored items map. */
  function Items(doc: map<string, Json>): map<string, Json>
  {
    if "items" in doc then Props(doc["items"]) else map[]
  }

  /** The fields stored for one item id (none when the id is absent). */
  function ItemFields(doc: map<string, Json>, id: string): map<string, Json>
  {
    var items := Items(doc);
    if id in items then Props(items[id]) else map[]
  }

  /** `{...(stored || {}), ...incoming}` for one item. */
  function MergeItem(stored: map<string, Json>, id: string, incoming: Json): (fields: map<string, Json>)
    ensures fields.Keys == (if id in stored then Props(stored[id]).Keys else {}) + Props(incoming).Keys
  {
    (if id in stored then Props(stored[id]) else map[]) + Props(incoming)
  }

  function MergeItems(stored: map<string, Json>, incoming: map<string, Json>): (items: map<string, Json>)
    ensures items.Keys == stored.Keys + incoming.Keys
  {
    map k | k in stored.Keys + incoming.Keys ::
      if k in incoming then JObj(MergeItem(stored, k, incoming[k])) else stored[k]
  }

  /** The payload's own properties: an object's fields, an array's or a string's index keys,
      and none for any other value. */
  function Payload(incoming: Json): map<string, Json>
  {
    Props(incoming)
  }

  /** The merge of one payload into the stored document, stamped with `now`. */
  function Merge(existing: map<string, Json>, incoming: Json, now: int): (merged: map<string, Json>)
    // every top-level key of the stored document survives
    ensures existing.Keys <= merged.Keys
    ensures forall k :: k in existing && k != "items" && k != "bgUrl" && k != "updatedAt" ==>
      k in merged && merged[k] == existing[k]
    ensures merged.Keys <= existing.Keys + {"items", "bgUrl", "updatedAt"}
    // the document is stamped on every save
    ensures "updatedAt" in merged && merged["updatedAt"] == JNum(now as real)
    // a payload without items leaves the stored items alone
    ensures !TruthyField(Payload(incoming), "items") ==>
      ("items" in merged <==> "items" in existing) &&
      ("items" in existing ==> merged["items"] == existing["items"])
    // the background changes only to a truthy incoming value
    ensures TruthyField(Payload(incoming), "bgUrl") ==>
      "bgUrl" in merged && merged["bgUrl"] == Payload(incoming)["bgUrl"]
    ensures !TruthyField(Payload(incoming), "bgUrl") ==>
      ("bgUrl" in merged <==> "bgUrl" in existing) &&
      ("bgUrl" in existing ==> merged["bgUrl"] == existing["bgUrl"])
  {
    var inc := Payload(incoming);
    var withItems :=
      if TruthyField(inc, "items") then existing["items" := JObj(MergeItems(Items(existing), Props(inc["items"])))]
      else existing;
    var withBg := if TruthyField(inc, "bgUrl") then withItems["bgUrl" := inc["bgUrl"]] else withItems;
    withBg["updatedAt" := JNum(now as real)]
  }

  /** The ids a payload transmits. */
  function Transmitted(incoming: Json): set<string>
  {
    var inc := Payload(incoming);
    if TruthyField(inc, "items") then Props(inc["items"]).Keys else {}
  }

  /** A stored item whose id the request does not transmit is left exactly as it was. */
  lemma UntransmittedItemUnchanged(existing: map<string, Json>, incoming: Json, now: int, id: string)
    requires id in Items(existing) && id !in Transmitted(incoming)
    ensures id in Items(Merge(existing, incoming, now))
    ensures Items(Merge(existing, incoming, now))[id] == Items(existing)[id]
  {
  }

  /** One-level merge: for a transmitted id each field the request sends replaces the
      stored field wholesale, and each field it omits keeps its stored value. */
  lemma TransmittedItemFieldwise(existing: map<string, Json>, incoming: Json, now: int, id: string)
    requires id in Transmitted(incoming)
    ensures var sent := Props(Props(Payload(incoming)["items"])[id]);
            var after := ItemFields(Merge(existing, incoming, now), id);
            && after.Keys == ItemFields(existing, id).Keys + sent.Keys
            && (forall f :: f in sent ==> after[f] == sent[f])
            && (forall f :: f in ItemFields(existing, id) && f !in sent ==> after[f] == ItemFields(existing, id)[f])
  {
  }

  /** The items after a merge: the stored ones with the transmitted ones merged in. */
  lemma ItemsAfterMerge(existing: map<string, Json>, incoming: Json, now: int)
    ensures var inc := Payload(incoming);
            Items(Merge(existing, incoming, now)) ==
              if TruthyField(inc, "items") then MergeItems(Items(existing), Props(inc["items"]))
              else Items(existing)
  {
  }

  /** Merging the same items a second time changes nothing. */
  lemma {:induction false} MergeItemsIdempotent(stored: map<string, Json>, sent: map<string, Json>)
    ensures MergeItems(MergeItems(stored, sent), sent) == MergeItems(stored, sent)
  {
    var once := MergeItems(stored, sent);
    var twice := MergeItems(once, sent);
    forall k | k in twice
      ensures twice[k] == once[k]
    {
      if k in sent {
        MergeItemTwice(stored, sent[k], k);
      }
    }
  }

  /** One transmitted item merged a second time keeps the fields of the first merge. */
  lemma MergeItemTwice(stored: map<string, Json>, item: Json, k: string)
    ensures var once := stored[k := JObj(MergeItem(stored, k, item))];
            MergeItem(once, k, item) == MergeItem(stored, k, item)
  {
    var a := if k in stored then Props(stored[k]) else map[];
    var b := Props(item);
    assert (a + b) + b == a + b;
  }

  /** Applying the same payload twice gives the same items and background as once. */
  lemma {:induction false} MergeIdempotent(existing: map<string, Json>, incoming: Json, t1: int, t2: int)
    ensures var once := Merge(existing, incoming, t1);
            var twice := Merge(once, incoming, t2);
            && Items(twice) == Items(once)
            && ("bgUrl" in twice <==> "bgUrl" in once)
            && ("bgUrl" in once ==> twice["bgUrl"] == once["bgUrl"])
  {
    var once := Merge(existing, incoming, t1);
    ItemsAfterMerge(existing, incoming, t1);
    ItemsAfterMerge(once, incoming, t2);
    var inc := Payload(incoming);
    if TruthyField(inc, "items") {
      MergeItemsIdempotent(Items(existing), Props(inc["items"]));
    }
  }

  /** Two saves of disjoint items, one after the other, both survive (the property a
      serialised read-merge-write gives; the handler itself takes no lock). */
  lemma SequentialSavesBothSurvive(existing: map<string, Json>, first: Json, second: Json, t1: int, t2: int, a: string, b: string)
    requires a in Transmitted(first) && b in Transmitted(second) && a !in Transmitted(second)
    ensures var after := Merge(Merge(existing, first, t1), second, t2);
            a in Items(after) && b in Items(after)
            && Items(after)[a] == Items(Merge(existing, first, t1))[a]
  {
  }

  /** POST /api/presentation/params. `body` is `None` when the request body is not
      JSON; `writeOk` says whether writing the file succeeds. */
  function Post(body: Option<Json>, stored: Stored, now: int, writeOk: bool): (r: SaveOutcome)
    // a body that is not JSON (or is `null`) fails before anything is written
    ensures body.None? || body == Some(JNull) ==> r.response == Failed && r.written == None
    // a failed write answers 500 and writes nothing
    ensures !writeOk ==> r.response == Failed && r.written == None
    // on success the new stamp is written and echoed
    ensures r.response.Saved? ==>
      r.written.Some? && r.response.updatedAt == now &&
      "updatedAt" in r.written.value && r.written.value["updatedAt"] == JNum(now as real)
    ensures r.written.Some? <==> r.response.Saved?
  {
    if body.None? || body.value == JNull then SaveOutcome(Failed, None)
    else if !writeOk then SaveOutcome(Failed, None)
    else SaveOutcome(Saved(now), Some(Merge(LoadExisting(stored), body.value, now)))
  }

  /** A missing or unreadable stored file is merged into as the empty document. */
  lemma UnreadableStoreIsEmpty(body: Json, stored: Stored, now: int)
    requires body != JNull && !stored.Holds?
    ensures var r := Post(Some(body), stored, now, true);
            r.response == Saved(now) && r.written == Some(Merge(map[], body, now))
  {
  }

  /** GET /api/presentation/params: no file gives `{}`; an unreadable file gives 500. */
  function Get(stored: Stored): (r: GetResponse)
    ensures stored.Missing? ==> r == GetResponse(200, JObj(map[]))
    ensures stored.Unreadable? ==> r.status == 500
    ensures stored.Holds? ==> r == GetResponse(200, stored.doc)
  {
    match stored
    case Missing => GetResponse(200, JObj(map[]))
    case Unreadable => GetResponse(500, JObj(map[]))
    case Holds(doc) => GetResponse(200, doc)
  }
}

=== FILE: permissions.dfy ===
/** A user's permissions and the permission decision: a base set by role,
    overlaid with the user's custom permissions, and the answer for one action
    on one resource. */
module Permissions {
  import opened Js

  type Perms = map<string, Json>

  const DefaultPermissions: Perms := map[
    "upload" := JBool(true), "edit" := JBool(true), "delete" := JStr("self"),
    "download" := JBool(true), "view_private" := JBool(false), "admin_panel" := JBool(false)]

  const AdminPermissions: Perms := map[
    "upload" := JBool(true), "edit" := JBool(true), "delete" := JStr("all"),
    "download" := JBool(true), "view_private" := JBool(true), "admin_panel" := JBool(true)]

  /** The stored custom permissions: a string (empty when missing) with what
      `JSON.parse` makes of it (`None` when it throws), or an object. */
  datatype Custom = Text(text: string, parsed: Option<Json>) | Object(value: Json)

  function Base(role: string): Perms
  {
    if role == "admin" then AdminPermissions else DefaultPermissions
  }

  /** The custom permissions that are overlaid, if any. */
  function Overlay(custom: Custom): Option<Perms>
  {
    match custom
    case Text(t, parsed) =>
      if t == "" || t == "{}" || parsed.None? then None else Some(Props(parsed.value))
    case Object(v) => Some(Props(v))
  }

  /** `getUserPermissions`: custom keys win, and base keys the custom permissions do not
      mention are kept; without custom permissions the base is returned. */
  function UserPermissions(role: string, custom: Custom): (r: Perms)
    ensures Overlay(custom).None? ==> r == Base(role)
    ensures Overlay(custom).Some? ==>
      && r.Keys == Base(role).Keys + Overlay(custom).value.Keys
      && (forall k :: k in Overlay(custom).value ==> r[k] == Overlay(custom).value[k])
      && (forall k :: k in Base(role) && k !in Overlay(custom).value ==> r[k] == Base(role)[k])
  {
    match Overlay(custom)
    case None => Base(role)
    case Some(c) => Base(role) + c
  }

  /** The base set is the admin set exactly for the role `admin`. */
  lemma BaseByRole(role: string)
    ensures role == "admin" ==> UserPermissions(role, Text("", None)) == AdminPermissions
    ensures role != "admin" ==> UserPermissions(role, Text("", None)) == DefaultPermissions
  {
  }

  /** Empty, `{}` and unparsable custom permissions leave the base unchanged. */
  lemma NoOverlayKeepsBase(role: string, t: string, parsed: Option<Json>)
    requires t == "" || t == "{}" || parsed.None?
    ensures UserPermissions(role, Text(t, parsed)) == Base(role)
  {
  }

  /** The defaults let a user delete their own things only and see no private
      playlist or admin panel; the admin set allows everything. */
  lemma PermissionSets()
    ensures DefaultPermissions["delete"] == JStr("self")
    ensures DefaultPermissions["view_private"] == JBool(false) && DefaultPermissions["admin_panel"] == JBool(false)
    ensures AdminPermissions["delete"] == JStr("all")
    ensures AdminPermissions["view_private"] == JBool(true) && AdminPermissions["admin_panel"] == JBool(true)
    ensures DefaultPermissions.Keys == AdminPermissions.Keys
  {
  }

  // ------------------------------------------------------------- the decision

  datatype Action = Upload | Edit | Delete | AdminPanel

  function ActionKey(a: Action): string
  {
    match a
    case Upload => "upload"
    case Edit => "edit"
    case Delete => "delete"
    case AdminPanel => "admin_panel"
  }

  datatype User = User(role: string, permissions: Custom)

  /** What the permission says, read as `checkPermission` reads it. */
  function Decide(p: Option<Json>, a: Action, userId: string, creator: Option<string>): (r: bool)
  {
    if p.Some? && p.value.JBool? then p.value.b
    else if a == Delete && p == Some(JStr("all")) then true
    else if a == Delete && p == Some(JStr("none")) then false
    else if a == Delete && p == Some(JStr("self")) then creator.Some? && creator.value != "" && creator.value == userId
    else false
  }

  /** `checkPermission`: `user` is the row found for `userId`, if any; `creator` is the
      resource's creator id (`None` for null or undefined). */
  function CheckPermission(user: Option<User>, userId: string, a: Action, creator: Option<string>): (r: bool)
    ensures user.None? ==> !r
  {
    if user.None? then false
    else
      var perms := UserPermissions(user.value.role, user.value.permissions);
      Decide(if ActionKey(a) in perms then Some(perms[ActionKey(a)]) else None, a, userId, creator)
  }

  /** The permission a found user has for an action. */
  function PermissionOf(u: User, a: Action): Option<Json>
  {
    var perms := UserPermissions(u.role, u.permissions);
    if ActionKey(a) in perms then Some(perms[ActionKey(a)]) else None
  }

  /** The decision table: a boolean is the answer; for deleting, `all` allows, `none`
      denies and `self` allows exactly the resource's non-empty creator; anything else
      denies. */
  lemma DecisionTable(u: User, userId: string, a: Action, creator: Option<string>)
    ensures var p := PermissionOf(u, a);
            var r := CheckPermission(Some(u), userId, a, creator);
            && (p.Some? && p.value.JBool? ==> r == p.value.b)
            && (a == Delete && p == Some(JStr("all")) ==> r)
            && (a == Delete && p == Some(JStr("none")) ==> !r)
            && (a == Delete && p == Some(JStr("self")) ==> (r <==> creator == Some(userId) && userId != ""))
            && (r ==> (p.Some? && p.value.JBool?) || (a == Delete && (p == Some(JStr("all")) || p == Some(JStr("self")))))
  {
  }

  /** A user without custom permissions may delete exactly what they created; a null
      creator, as the batch delete passes, therefore denies them. */
  lemma DefaultUserDeletesOwn(role: string, userId: string, creator: Option<string>)
    requires role != "admin"
    ensures CheckPermission(Some(User(role, Text("", None))), userId, Delete, creator)
            <==> creator == Some(userId) && userId != ""
    ensures !CheckPermission(Some(User(role, Text("", None))), userId, Delete, None)
  {
    assert PermissionOf(User(role, Text("", None)), Delete) == Some(JStr("self"));
  }

  /** An admin without custom permissions may do every action on every resource. */
  lemma AdminMayDoAll(userId: string, a: Action, creator: Option<string>)
    ensures CheckPermission(Some(User("admin", Text("", None))), userId, a, creator)
  {
  }

  /** A custom boolean for an action decides it, for admins as for anyone. */
  lemma CustomBooleanDecides(role: string, fields: map<string, Json>, userId: string, a: Action, creator: Option<string>, b: bool)
    requires ActionKey(a) in fields && fields[ActionKey(a)] == JBool(b)
    ensures CheckPermission(Some(User(role, Object(JObj(fields)))), userId, a, creator) == b
  {
  }
}

=== FILE: player.dfy ===
/** The music player shared by the pages of one browser window: the playlist,
    the current song, play/pause, the three play modes with next/previous,
    the volume, and the messages other tabs send over the broadcast channel.
    The audio element itself is outside the model; where the player only
    rewinds it, the step reports that it restarts the song. */
module Player {
  import opened Js
  import Seqs

  datatype Song = Song(id: string, title: string, artist: string, src: Option<string>)

  datatype Mode = Sequence | Shuffle | Single

  datatype State = State(current: Option<Song>, playlist: seq<Song>, playing: bool, volume: real, mode: Mode)

  const Initial := State(None, [], false, 1.0, Sequence)

  /** Whether a song with this id is in the playlist (`find` / `findIndex` by id). */
  predicate Queued(playlist: seq<Song>, id: string)
  {
    exists i :: 0 <= i < |playlist| && playlist[i].id == id
  }

  predicate UniqueIds(playlist: seq<Song>)
  {
    forall i, j :: 0 <= i < j < |playlist| ==> playlist[i].id != playlist[j].id
  }

  /** The position of the song with this id, or -1. */
  function IndexOfId(playlist: seq<Song>, id: string): (r: int)
    ensures -1 <= r < |playlist|
    ensures r == -1 <==> !Queued(playlist, id)
    ensures r != -1 ==> playlist[r].id == id && forall i :: 0 <= i < r ==> playlist[i].id != id
  {
    Seqs.FindIndex(playlist, (s: Song) => s.id == id)
  }

  /** In a playlist without repeated ids, a song's position is found by its id. */
  lemma IndexOfIdUnique(playlist: seq<Song>, k: nat)
    requires UniqueIds(playlist) && k < |playlist|
    ensures IndexOfId(playlist, playlist[k].id) == k
  {
  }

  /** Appends the song unless a song with its id is queued (shared by `playSong`,
      `addToPlaylist` and the tab messages). */
  function Enqueue(playlist: seq<Song>, song: Song): (r: seq<Song>)
    ensures Queued(r, song.id)
    ensures Queued(playlist, song.id) ==> r == playlist
    ensures !Queued(playlist, song.id) ==> r == playlist + [song]
    ensures UniqueIds(playlist) ==> UniqueIds(r)
  {
    if IndexOfId(playlist, song.id) != -1 then playlist
    else
      assert (playlist + [song])[|playlist|] == song;
      playlist + [song]
  }

  /** `playSong`: queues the song if needed and plays it. */
  function PlaySong(s: State, song: Song): (t: State)
    ensures t.current == Some(song) && t.playing
    ensures Queued(t.playlist, song.id)
    ensures forall x :: x in s.playlist ==> x in t.playlist
    ensures Queued(s.playlist, song.id) ==> t.playlist == s.playlist
    ensures !Queued(s.playlist, song.id) ==> t.playlist == s.playlist + [song]
    ensures UniqueIds(s.playlist) ==> UniqueIds(t.playlist)
    ensures t.volume == s.volume && t.mode == s.mode
  {
    s.(playlist := Enqueue(s.playlist, song), current := Some(song), playing := true)
  }

  /** `addToPlaylist`: queues the song if needed; nothing else changes. */
  function AddToPlaylist(s: State, song: Song): (t: State)
    ensures Queued(t.playlist, song.id)
    ensures t.current == s.current && t.playing == s.playing
    ensures Queued(s.playlist, song.id) ==> t == s
    ensures !Queued(s.playlist, song.id) ==> t.playlist == s.playlist + [song]
    ensures t.volume == s.volume && t.mode == s.mode
  {
    s.(playlist := Enqueue(s.playlist, song))
  }

  /** `removeFromPlaylist`: drops the songs with this id; the current song keeps playing. */
  function RemoveFromPlaylist(s: State, id: string): (t: State)
    ensures !Queued(t.playlist, id)
    ensures forall x :: x in t.playlist <==> x in s.playlist && x.id != id
    ensures t.current == s.current && t.playing == s.playing
    ensures t.volume == s.volume && t.mode == s.mode
  {
    var r := Seqs.Filter(s.playlist, (x: Song) => x.id != id);
    assert !Queued(r, id) by {
      forall i | 0 <= i < |r| ensures r[i].id != id {
        assert r[i] in r;
      }
    }
    s.(playlist := r)
  }

  /** Removing works song by song in playlist order, so the remaining songs keep
      their order and their repeats: on a joined playlist it is the join of the
      removals, and a single song stays exactly when its id differs. */
  lemma {:induction false} RemoveFromPlaylistAppend(s: State, a: seq<Song>, b: seq<Song>, id: string)
    ensures RemoveFromPlaylist(s.(playlist := a + b), id).playlist ==
            RemoveFromPlaylist(s.(playlist := a), id).playlist + RemoveFromPlaylist(s.(playlist := b), id).playlist
    ensures forall x :: RemoveFromPlaylist(s.(playlist := [x]), id).playlist == if x.id != id then [x] else []
  {
    var p := (x: Song) => x.id != id;
    Seqs.FilterAppend(a, b, p);
    forall x ensures RemoveFromPlaylist(s.(playlist := [x]), id).playlist == if x.id != id then [x] else [] {
      Seqs.FilterSingle(x, p);
    }
  }

  /** Adding a song that was not queued and then removing its id gives the state back. */
  lemma RemoveUndoesAdd(s: State, song: Song)
    requires !Queued(s.playlist, song.id)
    ensures RemoveFromPlaylist(AddToPlaylist(s, song), song.id) == s
  {
    var p := (x: Song) => x.id != song.id;
    Seqs.FilterAppend(s.playlist, [song], p);
    Seqs.FilterSingle(song, p);
    assert forall i :: 0 <= i < |s.playlist| ==> p(s.playlist[i]);
    Seqs.FilterAll(s.playlist, p);
  }

  /** Playing a song queues it exactly as adding it does; it then plays. */
  lemma PlaySongQueuesLikeAdd(s: State, song: Song)
    ensures PlaySong(s, song).playlist == AddToPlaylist(s, song).playlist
    ensures RemoveFromPlaylist(PlaySong(s, song), song.id).playlist ==
            RemoveFromPlaylist(s, song.id).playlist
  {
    var p := (x: Song) => x.id != song.id;
    if !Queued(s.playlist, song.id) {
      Seqs.FilterAppend(s.playlist, [song], p);
      Seqs.FilterSingle(song, p);
    }
  }

  /** `replacePlaylist`: the new list, playing its first song, or stopped when empty. */
  function ReplacePlaylist(s: State, songs: seq<Song>): (t: State)
    ensures t.playlist == songs
    ensures |songs| > 0 ==> t.current == Some(songs[0]) && t.playing
    ensures |songs| == 0 ==> t.current == None && !t.playing
  {
    if |songs| > 0 then s.(playlist := songs, current := Some(songs[0]), playing := true)
    else s.(playlist := songs, current := None, playing := false)
  }

  /** `clearPlaylist`. */
  function ClearPlaylist(s: State): (t: State)
    ensures t.playlist == [] && t.current == None && !t.playing
    ensures t.volume == s.volume && t.mode == s.mode
  {
    s.(playlist := [], current := None, playing := false)
  }

  /** Clearing is replacing with the empty list. */
  lemma ClearIsReplaceWithNothing(s: State)
    ensures ClearPlaylist(s) == ReplacePlaylist(s, [])
  {
  }

  /** `togglePlay`: flips the playing flag (the audio element follows it). */
  function TogglePlay(s: State): (t: State)
    ensures t.playing != s.playing
    ensures t.(playing := s.playing) == s
  {
    s.(playing := !s.playing)
  }

  /** `togglePlayMode`: sequence, then shuffle, then single, then sequence again. */
  function NextMode(m: Mode): (r: Mode)
    ensures r != m
  {
    match m
    case Sequence => Shuffle
    case Shuffle => Single
    case Single => Sequence
  }

  /** Three presses of the mode button come back to the starting mode. */
  lemma ModeCycle(m: Mode)
    ensures NextMode(NextMode(NextMode(m))) == m
    ensures NextMode(m) != NextMode(NextMode(m))
  {
  }

  /** One step of `playNext` or `playPrev`: the new state and whether the single
      mode restarts the current song from its beginning. */
  datatype Step = Step(state: State, restarted: bool)

  /** `playNext`. `draw` is the value `Math.random()` returns for a shuffle. */
  function PlayNext(s: State, draw: real): (r: Step)
    requires 0.0 <= draw < 1.0
    ensures s.current.None? || |s.playlist| == 0 ==> r == Step(s, false)
    ensures r.restarted ==> r.state == s && s.mode == Single
    ensures r.state != s ==> r.state.current.Some? && r.state.current.value in s.playlist && r.state.playing
    ensures r.state.playlist == s.playlist && r.state.mode == s.mode && r.state.volume == s.volume
  {
    if s.current.None? || |s.playlist| == 0 then Step(s, false)
    else if s.mode == Single then Step(s, true)
    else
      var n := |s.playlist|;
      var i := if s.mode == Shuffle then RandomIndex(draw, n)
               else JsRem(IndexOfId(s.playlist, s.current.value.id) + 1, n);
      Step(s.(current := Some(s.playlist[i]), playing := true), false)
  }

  /** `playPrev`. */
  function PlayPrev(s: State, draw: real): (r: Step)
    requires 0.0 <= draw < 1.0
    ensures s.current.None? || |s.playlist| == 0 ==> r == Step(s, false)
    ensures r.restarted ==> r.state == s && s.mode == Single
    ensures r.state != s ==> r.state.current.Some? && r.state.current.value in s.playlist && r.state.playing
    ensures r.state.playlist == s.playlist && r.state.mode == s.mode && r.state.volume == s.volume
  {
    if s.current.None? || |s.playlist| == 0 then Step(s, false)
    else if s.mode == Single then Step(s, true)
    else
      var n := |s.playlist|;
      // the index is -1 when the current song is no longer queued; -0 reads element 0
      var i := if s.mode == Shuffle then RandomIndex(draw, n)
               else var k := JsRem(IndexOfId(s.playlist, s.current.value.id) - 1 + n, n);
                    if k < 0 then 0 else k;
      Step(s.(current := Some(s.playlist[i]), playing := true), false)
  }

  /** In sequence mode, a current song that is not queued is followed by the first song. */
  lemma NextOfUnqueuedIsFirst(s: State, draw: real)
    requires 0.0 <= draw < 1.0
    requires s.mode == Sequence && s.current.Some? && |s.playlist| > 0 && !Queued(s.playlist, s.current.value.id)
    ensures PlayNext(s, draw).state.current == Some(s.playlist[0])
  {
  }

  /** In sequence mode, next steps to the following song, wrapping around. */
  lemma NextInSequence(s: State, draw: real, k: nat)
    requires 0.0 <= draw < 1.0
    requires s.mode == Sequence && UniqueIds(s.playlist) && k < |s.playlist|
    requires s.current == Some(s.playlist[k])
    ensures PlayNext(s, draw).state.current == Some(s.playlist[(k + 1) % |s.playlist|])
  {
    IndexOfIdUnique(s.playlist, k);
  }

  /** In sequence mode, previous steps to the preceding song, wrapping around. */
  lemma PrevInSequence(s: State, draw: real, k: nat)
    requires 0.0 <= draw < 1.0
    requires s.mode == Sequence && UniqueIds(s.playlist) && k < |s.playlist|
    requires s.current == Some(s.playlist[k])
    ensures PlayPrev(s, draw).state.current == Some(s.playlist[(k - 1 + |s.playlist|) % |s.playlist|])
  {
    IndexOfIdUnique(s.playlist, k);
  }

  /** In sequence mode, previous after next comes back to the same song. */
  lemma PrevUndoesNext(s: State, u: real, v: real, k: nat)
    requires 0.0 <= u < 1.0 && 0.0 <= v < 1.0
    requires s.mode == Sequence && UniqueIds(s.playlist) && k < |s.playlist|
    requires s.current == Some(s.playlist[k])
    ensures PlayPrev(PlayNext(s, u).state, v).state.current == s.current
  {
    var n := |s.playlist|;
    NextInSequence(s, u, k);
    var j := (k + 1) % n;
    var t := PlayNext(s, u).state;
    assert t.mode == Sequence && t.playlist == s.playlist;
    PrevInSequence(t, v, j);
    WrapBack(k, n);
  }

  lemma WrapBack(k: nat, n: nat)
    requires k < n
    ensures ((k + 1) % n - 1 + n) % n == k
  {
    if k + 1 == n {
      assert (k + 1) % n == 0;
      assert (n - 1) % n == k;
    } else {
      assert (k + 1) % n == k + 1;
      assert (k + n) % n == k;
    }
  }

  /** `setVolume`: the volume is clamped into [0, 1]. */
  function SetVolume(s: State, v: real): (t: State)
    ensures 0.0 <= t.volume <= 1.0
    ensures 0.0 <= v <= 1.0 ==> t.volume == v
    ensures v < 0.0 ==> t.volume == 0.0
    ensures v > 1.0 ==> t.volume == 1.0
    ensures t.(volume := s.volume) == s
  {
    s.(volume := if v < 0.0 then 0.0 else if v > 1.0 then 1.0 else v)
  }

  /** Setting the volume again to the volume it was set to changes nothing. */
  lemma SetVolumeIdempotent(s: State, v: real)
    ensures SetVolume(SetVolume(s, v), SetVolume(s, v).volume) == SetVolume(s, v)
  {
  }

  /** The messages other tabs post on the player channel. `ReplaceMsg` carries `None`
      when its `songs` property is not an array. */
  datatype Message = Ping | PlayMsg(song: Song) | QueueMsg(song: Song) | ReplaceMsg(songs: Option<seq<Song>>) | OtherMsg

  datatype Reply = NoReply | Pong

  /** The channel's message handler. */
  function OnMessage(s: State, m: Message): (r: (State, Reply))
    ensures r.1 == Pong <==> m.Ping?
    ensures m.Ping? || m.OtherMsg? ==> r.0 == s
    // a song sent to play is queued, and plays unless another song is playing
    ensures m.PlayMsg? ==> Queued(r.0.playlist, m.song.id)
    ensures m.PlayMsg? && s.current.Some? && s.playing ==> r.0.current == s.current && r.0.playing
    ensures m.PlayMsg? && (s.current.None? || !s.playing) ==> r.0.current == Some(m.song) && r.0.playing
    // a queued song plays only when there is no current song
    ensures m.QueueMsg? ==> Queued(r.0.playlist, m.song.id)
    ensures m.QueueMsg? && s.current.Some? ==> r.0.current == s.current && r.0.playing == s.playing
    ensures m.QueueMsg? && s.current.None? ==> r.0.current == Some(m.song) && r.0.playing
    ensures m.ReplaceMsg? && m.songs.None? ==> r.0 == s
    ensures m.ReplaceMsg? && m.songs.Some? ==> r.0 == ReplacePlaylist(s, m.songs.value)
  {
    match m
    case Ping => (s, Pong)
    case PlayMsg(song) =>
      var pl := Enqueue(s.playlist, song);
      if s.current.None? || !s.playing then (s.(playlist := pl, current := Some(song), playing := true), NoReply)
      else (s.(playlist := pl), NoReply)
    case QueueMsg(song) =>
      var pl := Enqueue(s.playlist, song);
      if s.current.None? then (s.(playlist := pl, current := Some(song), playing := true), NoReply)
      else (s.(playlist := pl), NoReply)
    case ReplaceMsg(songs) =>
      if songs.Some? then (ReplacePlaylist(s, songs.value), NoReply) else (s, NoReply)
    case OtherMsg => (s, NoReply)
  }

  /** Every operation keeps the playlist free of repeated ids, given the songs of a
      replacement list are. */
  lemma OnMessageKeepsUnique(s: State, m: Message)
    requires UniqueIds(s.playlist)
    requires m.ReplaceMsg? && m.songs.Some? ==> UniqueIds(m.songs.value)
    ensures UniqueIds(OnMessage(s, m).0.playlist)
  {
  }
}

=== FILE: playlist_access.dfy ===
/** The playlist API: which playlists a listing shows to whom, and what a new
    playlist is created with. The token is decoded outside the model; a valid
    token's user is an input, and the playlist table is a value. */
module PlaylistAccess {
  import opened Text
  import opened Js
  import Seqs

  const DefaultCover := "/images/default_cover.png"

  /** The user a valid token names. */
  datatype TokenUser = TokenUser(id: string, role: string)

  /** The fields of a playlist row the listing filters on. */
  datatype Playlist = Playlist(id: string, status: string, creatorId: Option<string>)

  // ------------------------------------------------------------------ listing

  /** One alternative of the `OR` list. */
  datatype Alternative = IsPublic | CreatedBy(userId: string)

  /** The `where` object: a status every row must have, if set, and a list of
      alternatives of which one must hold, if set. */
  datatype Where = Where(status: Option<string>, anyOf: Option<seq<Alternative>>)

  predicate IsAdmin(viewer: Option<TokenUser>)
  {
    viewer.Some? && viewer.value.role == "admin"
  }

  /** A query parameter that is present and non-empty. */
  predicate Given(param: Option<string>)
  {
    param.Some? && param.value != ""
  }

  /** The `where` built for the listing: an admin asking with `admin_view=true` gets
      only the status filter; anyone else gets `public` or, when signed in, their own,
      with the status filter on top. */
  function BuildWhere(viewer: Option<TokenUser>, status: Option<string>, adminView: Option<string>): Where
  {
    var statusFilter := if Given(status) then status else None;
    if IsAdmin(viewer) && adminView == Some("true") then Where(statusFilter, None)
    else
      var own := if viewer.Some? && viewer.value.id != "" then [CreatedBy(viewer.value.id)] else [];
      Where(statusFilter, Some([IsPublic] + own))
  }

  predicate Holds(a: Alternative, p: Playlist)
  {
    match a
    case IsPublic => p.status == "public"
    case CreatedBy(u) => p.creatorId == Some(u)
  }

  /** How the database reads a `where` object. */
  predicate Satisfies(w: Where, p: Playlist)
  {
    && (w.status.None? || p.status == w.status.value)
    && (w.anyOf.None? || exists i :: 0 <= i < |w.anyOf.value| && Holds(w.anyOf.value[i], p))
  }

  function VisibleTo(viewer: Option<TokenUser>, status: Option<string>, adminView: Option<string>): Playlist -> bool
  {
    (p: Playlist) => Satisfies(BuildWhere(viewer, status, adminView), p)
  }

  /** `GET`: the rows, in the database's newest-first order, that the `where` admits. */
  function List(viewer: Option<TokenUser>, status: Option<string>, adminView: Option<string>,
                table: seq<Playlist>): (r: seq<Playlist>)
    ensures forall p :: p in r <==> p in table && Satisfies(BuildWhere(viewer, status, adminView), p)
  {
    Seqs.Filter(table, VisibleTo(viewer, status, adminView))
  }

  /** An admin asking for the admin view sees every playlist, narrowed only by a given
      status. */
  lemma AdminViewSeesAll(viewer: Option<TokenUser>, status: Option<string>, p: Playlist)
    requires IsAdmin(viewer)
    ensures Satisfies(BuildWhere(viewer, status, Some("true")), p)
            <==> !Given(status) || p.status == status.value
  {
  }

  /** Everyone else sees exactly the public playlists and, when signed in, their own,
      with a given status ANDed on. */
  lemma RegularVisibility(viewer: Option<TokenUser>, status: Option<string>, adminView: Option<string>, p: Playlist)
    requires !(IsAdmin(viewer) && adminView == Some("true"))
    ensures Satisfies(BuildWhere(viewer, status, adminView), p)
            <==> (p.status == "public"
                  || (viewer.Some? && viewer.value.id != "" && p.creatorId == Some(viewer.value.id)))
                 && (!Given(status) || p.status == status.value)
  {
    var w := BuildWhere(viewer, status, adminView);
    if viewer.Some? && viewer.value.id != "" && p.creatorId == Some(viewer.value.id) {
      assert Holds(w.anyOf.value[1], p);
    }
    if p.status == "public" {
      assert Holds(w.anyOf.value[0], p);
    }
  }

  /** A non-admin never gets another user's non-public playlist, whatever they ask for. */
  lemma NonAdminNeverSeesOthersPrivate(viewer: Option<TokenUser>, status: Option<string>, adminView: Option<string>, p: Playlist)
    requires !IsAdmin(viewer)
    requires p.status != "public"
    requires viewer.None? || p.creatorId != Some(viewer.value.id)
    ensures !Satisfies(BuildWhere(viewer, status, adminView), p)
  {
    RegularVisibility(viewer, status, adminView, p);
  }

  // ----------------------------------------------------------------- creation

  /** What a new playlist is created with. */
  datatype Created = Created(title: string, description: string, tags: string, cover: string,
                             creatorId: string, status: string, songIds: seq<string>)

  datatype PostResult = Unauthorized | MissingTitle | Failed | Saved(playlist: Created)

  /** The id a `songs` entry stands for: a string is itself, otherwise its `id`; `null`
      throws, and an id that is not a string is refused by the database (`None`). */
  function SongIdOf(s: Json): Option<string>
  {
    match s
    case JStr(id) => Some(id)
    case JObj(m) => StrField(m, "id")
    case _ => None
  }

  /** The ids for the entries, or `None` when one of them fails. */
  function SongIds(songs: seq<Json>): (r: Option<seq<string>>)
    ensures r.None? <==> exists i :: 0 <= i < |songs| && SongIdOf(songs[i]).None?
    ensures r.Some? ==> |r.value| == |songs|
    ensures r.Some? ==> forall i :: 0 <= i < |songs| ==> Some(r.value[i]) == SongIdOf(songs[i])
  {
    if songs == [] then Some([])
    else
      assert forall i :: 0 < i < |songs| ==> songs[i] == songs[1..][i - 1];
      var rest := SongIds(songs[1..]);
      if SongIdOf(songs[0]).None? || rest.None? then None
      else Some([SongIdOf(songs[0]).value] + rest.value)
  }

  /** `v || d` for a text column: a missing or falsy value gives the default; a value
      that is not a string is refused by the database (`None`). */
  function TextOr(m: map<string, Json>, k: string, d: string): (r: Option<string>)
    ensures !TruthyField(m, k) ==> r == Some(d)
    ensures TruthyField(m, k) && m[k].JStr? ==> r == Some(m[k].s)
    ensures TruthyField(m, k) && !m[k].JStr? ==> r.None?
  {
    if !TruthyField(m, k) then Some(d)
    else if m[k].JStr? then Some(m[k].s)
    else None
  }

  /** The `songs` entries: none when missing or falsy; `None` when truthy but not an
      array (it has no `map`). */
  function SongsField(m: map<string, Json>): Option<seq<Json>>
  {
    if !TruthyField(m, "songs") then Some([])
    else if m["songs"].JArr? then Some(m["songs"].elems)
    else None
  }

  function StatusFor(user: TokenUser): string
  {
    if user.role == "admin" then "public" else "private"
  }

  /** `POST`: a body that does not parse, or is `null`, fails. */
  function Post(user: Option<TokenUser>, body: Option<Json>): (r: PostResult)
    ensures user.None? ==> r == Unauthorized
    ensures r.Saved? ==> user.Some? && r.playlist.creatorId == user.value.id
                         && r.playlist.status == StatusFor(user.value) && r.playlist.title != ""
  {
    if user.None? then Unauthorized
    else if body.None? || body.value.JNull? then Failed
    else
      var m := Props(body.value);
      if !TruthyField(m, "title") then MissingTitle
      else if !m["title"].JStr? then Failed
      else
        var songs := SongsField(m);
        var ids := if songs.Some? then SongIds(songs.value) else None;
        var description := TextOr(m, "description", "");
        var tags := TextOr(m, "tags", "");
        var cover := TextOr(m, "cover", DefaultCover);
        if ids.None? || description.None? || tags.None? || cover.None? then Failed
        else Saved(Created(m["title"].s, description.value, tags.value, cover.value,
                           user.value.id, StatusFor(user.value), ids.value))
  }

  /** A signed-in request without a truthy title is a 400. */
  lemma TitleRequired(user: TokenUser, fields: map<string, Json>)
    requires !TruthyField(fields, "title")
    ensures Post(Some(user), Some(JObj(fields))) == MissingTitle
  {
  }

  /** The defaults of a saved playlist: empty description and tags, the default cover,
      and the ids of the given songs in order. */
  lemma CreatedDefaults(user: TokenUser, fields: map<string, Json>, songs: seq<Json>, ids: seq<string>)
    requires "title" in fields && fields["title"].JStr? && fields["title"].s != ""
    requires "songs" in fields && fields["songs"] == JArr(songs) && SongIds(songs) == Some(ids)
    requires "description" !in fields && "tags" !in fields && "cover" !in fields
    ensures Post(Some(user), Some(JObj(fields)))
            == Saved(Created(fields["title"].s, "", "", DefaultCover, user.id, StatusFor(user), ids))
  {
  }

  /** A string entry is its own id and an object entry gives its `id`. */
  lemma SongIdsMapping(songs: seq<Json>, ids: seq<string>, i: nat)
    requires SongIds(songs) == Some(ids) && i < |songs|
    ensures songs[i].JStr? ==> ids[i] == songs[i].s
    ensures songs[i].JObj? ==> "id" in songs[i].fields && songs[i].fields["id"] == JStr(ids[i])
  {
  }

  /** A playlist a non-admin creates is private: no other non-admin sees it. */
  lemma NewPlaylistOfUserHidden(user: TokenUser, body: Json, id: string, viewer: Option<TokenUser>,
                                status: Option<string>, adminView: Option<string>)
    requires user.role != "admin" && Post(Some(user), Some(body)).Saved?
    requires !IsAdmin(viewer) && (viewer.None? || viewer.value.id != user.id)
    ensures !Satisfies(BuildWhere(viewer, status, adminView),
                       Playlist(id, Post(Some(user), Some(body)).playlist.status, Some(user.id)))
  {
    var p := Playlist(id, Post(Some(user), Some(body)).playlist.status, Some(user.id));
    NonAdminNeverSeesOthersPrivate(viewer, status, adminView, p);
  }
}

=== FILE: playlist_client.dfy ===
/** The playlist page in the browser: the category filter over playlists, the
    song search of the create dialog, the selection of songs, and the request a
    new playlist is created with. `toLowerCase` is a parameter. */
module PlaylistClient {
  import opened Text
  import opened Js
  import Seqs
  import PlaylistAccess

  /** A playlist's `tags`: the list the page splits from the stored text, or the
      stored text itself for a playlist just created (the API returns it unsplit), or
      none. */
  datatype Tags = TagList(list: seq<string>) | TagText(text: string) | NoTags

  datatype Playlist = Playlist(id: string, title: string, tags: Tags)

  /** A song offered in the dialog; `image` is `files.image`, if any. */
  datatype Song = Song(id: string, title: string, artist: string, image: Option<string>)

  /** `p.tags?.includes(cat)`: list membership, or a substring test on text. */
  predicate TagsInclude(t: Tags, cat: string)
  {
    match t
    case TagList(xs) => cat in xs
    case TagText(s) => Contains(s, cat)
    case NoTags => false
  }

  function Tagged(cat: string): Playlist -> bool
  {
    (p: Playlist) => TagsInclude(p.tags, cat)
  }

  /** `filteredPlaylists`: every playlist without a `cat`, otherwise those tagged with it. */
  function FilteredPlaylists(ps: seq<Playlist>, cat: Option<string>): (r: seq<Playlist>)
    ensures cat.None? || cat.value == "" ==> r == ps
    ensures cat.Some? && cat.value != "" ==>
      forall p :: p in r <==> p in ps && TagsInclude(p.tags, cat.value)
  {
    if cat.None? || cat.value == "" then ps else Seqs.Filter(ps, Tagged(cat.value))
  }

  /** With split tags, a category selects the playlists with exactly that tag: a tag that
      merely contains it does not count. */
  lemma CategoryIsExact(ps: seq<Playlist>, cat: string, p: Playlist)
    requires cat != "" && p in ps && p.tags.TagList?
    ensures p in FilteredPlaylists(ps, Some(cat)) <==> exists i :: 0 <= i < |p.tags.list| && p.tags.list[i] == cat
  {
  }

  predicate SongMatches(lower: string -> string, q: string, s: Song)
  {
    Contains(lower(s.title), lower(q)) || Contains(lower(s.artist), lower(q))
  }

  function Searching(lower: string -> string, q: string): Song -> bool
  {
    (s: Song) => SongMatches(lower, q, s)
  }

  /** `filteredSongs`. */
  function FilteredSongs(songs: seq<Song>, lower: string -> string, q: string): (r: seq<Song>)
    ensures forall s :: s in r <==> s in songs && SongMatches(lower, q, s)
  {
    Seqs.Filter(songs, Searching(lower, q))
  }

  /** An empty query keeps every song, in order. */
  lemma EmptyQueryKeepsAll(songs: seq<Song>, lower: string -> string)
    requires lower("") == ""
    ensures FilteredSongs(songs, lower, "") == songs
  {
    forall i | 0 <= i < |songs| ensures SongMatches(lower, "", songs[i]) {
      assert OccursAt(lower(songs[i].title), "", 0);
    }
    Seqs.FilterAll(songs, Searching(lower, ""));
  }

  /** With ASCII lower-casing the search ignores the case of the query's letters. */
  lemma SongSearchIgnoresCase(songs: seq<Song>, q: string, q': string)
    requires Lower(q) == Lower(q')
    ensures FilteredSongs(songs, Lower, q) == FilteredSongs(songs, Lower, q')
  {
    Seqs.FilterSame(songs, Searching(Lower, q), Searching(Lower, q'));
  }

  // ---------------------------------------------------------------- selection

  function Other(id: string): string -> bool
  {
    (x: string) => x != id
  }

  /** `toggleSongSelection`: a selected id is removed, any other is appended. */
  function Toggle(sel: seq<string>, id: string): (r: seq<string>)
    ensures id in r <==> id !in sel
    ensures forall x :: x != id ==> (x in r <==> x in sel)
    ensures Seqs.NoDups(sel) ==> Seqs.NoDups(r)
  {
    if id in sel then
      assert Seqs.NoDups(sel) ==> Seqs.NoDups(Seqs.Filter(sel, Other(id))) by {
        if Seqs.NoDups(sel) {
          Seqs.FilterNoDups(sel, Other(id));
        }
      }
      Seqs.Filter(sel, Other(id))
    else
      var r := sel + [id];
      assert Seqs.NoDups(sel) ==> Seqs.NoDups(r);
      r
  }

  /** Toggling twice restores membership, and restores the list itself when the id was
      not selected. */
  lemma ToggleTwice(sel: seq<string>, id: string)
    ensures forall x :: x in Toggle(Toggle(sel, id), id) <==> x in sel
    ensures id !in sel ==> Toggle(Toggle(sel, id), id) == sel
  {
    if id !in sel {
      Seqs.FilterAppend(sel, [id], Other(id));
      Seqs.FilterAll(sel, Other(id));
      Seqs.FilterSingle(id, Other(id));
    }
  }

  // ----------------------------------------------------------------- creation

  const DefaultCover := "/images/default_cover.png"

  /** The request body the dialog sends. */
  datatype Payload = Payload(title: string, songs: seq<Song>, cover: string)

  function Selected(sel: seq<string>): Song -> bool
  {
    (s: Song) => s.id in sel
  }

  /** The songs sent: those selected, in the order of all songs. */
  function Submitted(sel: seq<string>, allSongs: seq<Song>): (r: seq<Song>)
    ensures forall s :: s in r <==> s in allSongs && s.id in sel
  {
    Seqs.Filter(allSongs, Selected(sel))
  }

  /** The songs sent keep the order of all songs, not the order they were picked: the
      songs sent from two lists joined are those of each list joined, and a single song
      is sent exactly when it is selected. */
  lemma {:induction false} SubmittedInListOrder(sel: seq<string>, a: seq<Song>, b: seq<Song>)
    ensures Submitted(sel, a + b) == Submitted(sel, a) + Submitted(sel, b)
    ensures forall s :: Submitted(sel, [s]) == if s.id in sel then [s] else []
  {
    Seqs.FilterAppend(a, b, Selected(sel));
    forall s ensures Submitted(sel, [s]) == if s.id in sel then [s] else [] {
      Seqs.FilterSingle(s, Selected(sel));
    }
  }

  /** Picking the same songs in another order sends the same list. */
  lemma SubmittedIgnoresPickOrder(sel: seq<string>, sel': seq<string>, allSongs: seq<Song>)
    requires forall id :: id in sel <==> id in sel'
    ensures Submitted(sel, allSongs) == Submitted(sel', allSongs)
  {
    Seqs.FilterSame(allSongs, Selected(sel), Selected(sel'));
  }

  /** The cover: the first song's image under `/api/file`, or the default. */
  function CoverOf(songs: seq<Song>): (c: string)
    ensures c != DefaultCover <==> |songs| > 0 && songs[0].image.Some? && songs[0].image.value != ""
    ensures c != DefaultCover ==> c == "/api/file" + songs[0].image.value
  {
    if |songs| > 0 && songs[0].image.Some? && songs[0].image.value != "" then
      FileUrlIsNotDefault(songs[0].image.value);
      "/api/file" + songs[0].image.value
    else DefaultCover
  }

  lemma FileUrlIsNotDefault(path: string)
    ensures "/api/file" + path != DefaultCover
  {
    assert ("/api/file" + path)[1] == 'a';
    assert DefaultCover[1] == 'i';
  }

  /** `handleCreatePlaylist`: a blank title is refused before any request (`None`);
      otherwise the selected songs, in the order of all songs, and their cover: the
      first song's image under `/api/file` when it has one, the default cover when not. */
  function Create(title: string, sel: seq<string>, allSongs: seq<Song>): (r: Option<Payload>)
    ensures r.None? <==> Trim(title) == ""
    ensures r.Some? ==> r.value.title == title
                        && forall s :: s in r.value.songs <==> s in allSongs && s.id in sel
    ensures r.Some? ==>
      (r.value.cover != DefaultCover <==>
         |r.value.songs| > 0 && r.value.songs[0].image.Some? && r.value.songs[0].image.value != "")
    ensures r.Some? && r.value.cover != DefaultCover ==> r.value.cover == "/api/file" + r.value.songs[0].image.value
  {
    if Trim(title) == "" then None
    else
      var songs := Submitted(sel, allSongs);
      Some(Payload(title, songs, CoverOf(songs)))
  }

  /** The cover comes from the first selected song in the order of all songs, whatever
      order the songs were picked in. */
  lemma CoverFromFirstSelected(title: string, sel: seq<string>, allSongs: seq<Song>, i: nat)
    requires Trim(title) != ""
    requires i < |allSongs| && allSongs[i].id in sel
    requires forall j :: 0 <= j < i ==> allSongs[j].id !in sel
    ensures Create(title, sel, allSongs).value.cover == CoverOf([allSongs[i]])
  {
    var p := Selected(sel);
    Seqs.FilterAroundKept(allSongs, p, i);
    Seqs.FilterNone(allSongs[..i], p);
  }

  /** With nothing selected the cover is the default. */
  lemma NothingSelectedDefaultCover(title: string, sel: seq<string>, allSongs: seq<Song>)
    requires Trim(title) != ""
    requires forall j :: 0 <= j < |allSongs| ==> allSongs[j].id !in sel
    ensures Create(title, sel, allSongs).value.cover == DefaultCover
  {
    Seqs.FilterNone(allSongs, Selected(sel));
  }

  /** The songs as JSON objects, as the request body carries them. */
  function SongJson(s: Song): Json
  {
    JObj(map["id" := JStr(s.id), "title" := JStr(s.title), "artist" := JStr(s.artist)])
  }

  function SongsJson(songs: seq<Song>): (r: seq<Json>)
    ensures |r| == |songs| && forall i :: 0 <= i < |songs| ==> r[i] == SongJson(songs[i])
  {
    if songs == [] then [] else [SongJson(songs[0])] + SongsJson(songs[1..])
  }

  function Ids(songs: seq<Song>): (r: seq<string>)
    ensures |r| == |songs| && forall i :: 0 <= i < |songs| ==> r[i] == songs[i].id
  {
    if songs == [] then [] else [songs[0].id] + Ids(songs[1..])
  }

  /** The server reads the submitted songs back as their ids, in the same order. */
  lemma ServerReadsIds(songs: seq<Song>)
    ensures PlaylistAccess.SongIds(SongsJson(songs)) == Some(Ids(songs))
  {
    var js := SongsJson(songs);
    assert forall i :: 0 <= i < |js| ==> PlaylistAccess.SongIdOf(js[i]) == Some(songs[i].id);
    var r := PlaylistAccess.SongIds(js);
    assert r.Some?;
    assert r.value == Ids(songs);
  }
}

=== FILE: presentation_list.dfy ===
/** The list of sheets queued for a presentation, kept in the browser: adding
    an item at most once per id, removing by id, clearing, and moving one item
    to another position by drag and drop. */
module PresentationList {
  import Seqs

  datatype Item = Item(id: string, title: string, sheetUrl: string)

  /** `isInList`: some queued item has this id. */
  predicate IsInList(xs: seq<Item>, id: string)
  {
    exists i :: 0 <= i < |xs| && xs[i].id == id
  }

  /** No two queued items share an id. */
  predicate UniqueIds(xs: seq<Item>)
  {
    forall i, j :: 0 <= i < j < |xs| ==> xs[i].id != xs[j].id
  }

  /** `addItem`: appends the item unless an item with its id is queued already. */
  function AddItem(xs: seq<Item>, item: Item): (r: seq<Item>)
    ensures IsInList(r, item.id)
    ensures IsInList(xs, item.id) ==> r == xs
    ensures !IsInList(xs, item.id) ==> r == xs + [item]
    ensures UniqueIds(xs) ==> UniqueIds(r)
  {
    if IsInList(xs, item.id) then xs
    else
      assert (xs + [item])[|xs|] == item;
      xs + [item]
  }

  /** `removeItem`: drops every item with this id and keeps the others in order. */
  function RemoveItem(xs: seq<Item>, id: string): (r: seq<Item>)
    ensures !IsInList(r, id)
    ensures forall x :: x in r <==> x in xs && x.id != id
    ensures !IsInList(xs, id) ==> r == xs
  {
    var r := Seqs.Filter(xs, (x: Item) => x.id != id);
    assert !IsInList(r, id) by {
      forall i | 0 <= i < |r| ensures r[i].id != id {
        assert r[i] in r;
      }
    }
    if !IsInList(xs, id) then
      Seqs.FilterAll(xs, (x: Item) => x.id != id);
      r
    else r
  }

  /** Removing from two lists joined is removing from each and joining the results, and
      a single item stays exactly when its id differs: together these fix the result,
      the other items in their order and with their repeats. */
  lemma {:induction false} RemoveItemAppend(ys: seq<Item>, zs: seq<Item>, id: string)
    ensures RemoveItem(ys + zs, id) == RemoveItem(ys, id) + RemoveItem(zs, id)
    ensures forall x :: RemoveItem([x], id) == if x.id != id then [x] else []
  {
    var p := (x: Item) => x.id != id;
    Seqs.FilterAppend(ys, zs, p);
    forall x ensures RemoveItem([x], id) == if x.id != id then [x] else [] {
      Seqs.FilterSingle(x, p);
    }
  }

  /** Adding an item that was not queued and removing it again gives the list back. */
  lemma RemoveUndoesAdd(xs: seq<Item>, item: Item)
    requires !IsInList(xs, item.id)
    ensures RemoveItem(AddItem(xs, item), item.id) == xs
  {
    var p := (x: Item) => x.id != item.id;
    Seqs.FilterAppend(xs, [item], p);
    Seqs.FilterAll(xs, p);
  }

  /** Adding twice is adding once. */
  lemma AddIdempotent(xs: seq<Item>, item: Item)
    ensures AddItem(AddItem(xs, item), item) == AddItem(xs, item)
  {
  }

  /** Removing keeps ids unique. */
  lemma RemoveKeepsUnique(xs: seq<Item>, id: string)
    requires UniqueIds(xs)
    ensures UniqueIds(RemoveItem(xs, id))
  {
    var p := (x: Item) => x.id != id;
    FilterKeepsUnique(xs, p);
  }

  lemma {:induction false} FilterKeepsUnique(xs: seq<Item>, p: Item -> bool)
    requires UniqueIds(xs)
    ensures UniqueIds(Seqs.Filter(xs, p))
  {
    if xs != [] {
      FilterKeepsUnique(xs[1..], p);
      var rest := Seqs.Filter(xs[1..], p);
      forall x | x in rest ensures x.id != xs[0].id {
        var k :| 0 <= k < |xs[1..]| && xs[1..][k] == x;
        assert xs[k + 1] == x;
      }
      if p(xs[0]) {
        var r := [xs[0]] + rest;
        forall i, j | 0 <= i < j < |r| ensures r[i].id != r[j].id {
          if i == 0 {
            assert r[j] == rest[j - 1];
            assert rest[j - 1] in rest;
          } else {
            assert r[i] == rest[i - 1] && r[j] == rest[j - 1];
          }
        }
      }
    }
  }

  /** `clearList`. */
  function ClearList(xs: seq<Item>): (r: seq<Item>)
    ensures forall id :: !IsInList(r, id)
  {
    []
  }

  /** The list without the element at index `i`. */
  function RemoveAt<T>(xs: seq<T>, i: nat): (r: seq<T>)
    requires i < |xs|
    ensures |r| == |xs| - 1
    ensures forall k :: 0 <= k < i ==> r[k] == xs[k]
    ensures forall k :: i <= k < |r| ==> r[k] == xs[k + 1]
  {
    xs[..i] + xs[i + 1..]
  }

  /** The position in the old list of the element that lands at `i` after moving
      the element at `from` to `to`. */
  function Source(from: nat, to: nat, i: nat): nat
  {
    if i == to then from
    else
      var j := if i < to then i else i - 1;
      if j < from then j else j + 1
  }

  /** `reorderList(from, to)`: removes the element at `from` and inserts it at `to` of
      the shortened list (both indices lie within the list, as the drag handler passes). */
  function Reorder<T>(xs: seq<T>, from: nat, to: nat): (r: seq<T>)
    requires from < |xs| && to < |xs|
    ensures |r| == |xs|
    ensures r[to] == xs[from]
    ensures RemoveAt(r, to) == RemoveAt(xs, from)
  {
    var rest := RemoveAt(xs, from);
    var r := rest[..to] + [xs[from]] + rest[to..];
    assert RemoveAt(r, to) == rest;
    r
  }

  /** Every element of the moved list comes from its own position of the old list. */
  lemma ReorderSource<T>(xs: seq<T>, from: nat, to: nat)
    requires from < |xs| && to < |xs|
    ensures forall i :: 0 <= i < |xs| ==>
      Source(from, to, i) < |xs| && Reorder(xs, from, to)[i] == xs[Source(from, to, i)]
  {
    var r := Reorder(xs, from, to);
    var rest := RemoveAt(xs, from);
    forall i | 0 <= i < |xs|
      ensures Source(from, to, i) < |xs| && r[i] == xs[Source(from, to, i)]
    {
      if i < to {
        assert r[i] == RemoveAt(r, to)[i];
      } else if i > to {
        assert r[i] == RemoveAt(r, to)[i - 1];
      }
    }
  }

  /** Moving an element permutes the list. */
  lemma ReorderPermutes<T>(xs: seq<T>, from: nat, to: nat)
    requires from < |xs| && to < |xs|
    ensures multiset(Reorder(xs, from, to)) == multiset(xs)
  {
    var r := Reorder(xs, from, to);
    var rest := RemoveAt(xs, from);
    assert r == r[..to] + [r[to]] + r[to + 1..];
    assert RemoveAt(r, to) == r[..to] + r[to + 1..];
    assert xs == xs[..from] + [xs[from]] + xs[from + 1..];
    assert multiset(r) == multiset(RemoveAt(r, to)) + multiset([xs[from]]);
    assert multiset(xs) == multiset(rest) + multiset([xs[from]]);
  }

  /** Moving an element back undoes the move. */
  lemma ReorderInverse<T>(xs: seq<T>, from: nat, to: nat)
    requires from < |xs| && to < |xs|
    ensures Reorder(Reorder(xs, from, to), to, from) == xs
  {
    var once := Reorder(xs, from, to);
    var twice := Reorder(once, to, from);
    assert RemoveAt(twice, from) == RemoveAt(xs, from);
    forall i | 0 <= i < |xs| ensures twice[i] == xs[i] {
      if i < from {
        assert twice[i] == RemoveAt(twice, from)[i];
      } else if i > from {
        assert twice[i] == RemoveAt(twice, from)[i - 1];
      }
    }
  }

  lemma SourceInjective(from: nat, to: nat, i: nat, j: nat)
    requires i != j
    ensures Source(from, to, i) != Source(from, to, j)
  {
  }

  /** Moving an item keeps ids unique. */
  lemma ReorderKeepsUnique(xs: seq<Item>, from: nat, to: nat)
    requires from < |xs| && to < |xs| && UniqueIds(xs)
    ensures UniqueIds(Reorder(xs, from, to))
  {
    var r := Reorder(xs, from, to);
    ReorderSource(xs, from, to);
    forall i, j | 0 <= i < j < |r| ensures r[i].id != r[j].id {
      SourceInjective(from, to, i, j);
    }
  }
}

=== FILE: presentation_sync.dfy ===
/** The presentation parameters on their way between the page and the server:
    the JSON shape of one item's parameters, the save payload the page sends,
    and what the page reads back from the stored document. */
module PresentationSync {
  import opened Js
  import ParamsStore
  import opened PresentationView

  function EncodeHalf(h: Half): Json
  {
    JObj(map["offsetVh" := JNum(h.offsetVh), "zoom" := JNum(h.zoom)])
  }

  /** `{top, bottom, hideBottom?}`: the flag is written only when it is set. */
  function Encode(p: SongParams): (j: Json)
    ensures j.JObj? && "top" in j.fields && "bottom" in j.fields
    ensures "hideBottom" in j.fields <==> p.hideBottom.Some?
  {
    var halves := map["top" := EncodeHalf(p.top), "bottom" := EncodeHalf(p.bottom)];
    JObj(if p.hideBottom.Some? then halves["hideBottom" := JBool(p.hideBottom.value)] else halves)
  }

  function DecodeHalf(j: Json): Option<Half>
  {
    var f := Props(j);
    if j.JObj? && "offsetVh" in f && f["offsetVh"].JNum? && "zoom" in f && f["zoom"].JNum? then
      Some(Half(f["offsetVh"].n, f["zoom"].n))
    else None
  }

  /** Reads one item's parameters back; anything not of that shape is `None`. */
  function Decode(j: Json): (r: Option<SongParams>)
    ensures r.Some? ==> j.JObj? && "top" in j.fields && "bottom" in j.fields
  {
    var f := Props(j);
    if !(j.JObj? && "top" in f && "bottom" in f) then None
    else
      var top := DecodeHalf(f["top"]);
      var bottom := DecodeHalf(f["bottom"]);
      if top.None? || bottom.None? then None
      else if "hideBottom" !in f then Some(SongParams(top.value, bottom.value, None))
      else if f["hideBottom"].JBool? then Some(SongParams(top.value, bottom.value, Some(f["hideBottom"].b)))
      else None
  }

  /** Decoding an encoded item gives the item back. */
  lemma DecodeEncode(p: SongParams)
    ensures Decode(Encode(p)) == Some(p)
  {
  }

  function EncodeCache(c: Cache): (j: Json)
    ensures j.JObj? && j.fields.Keys == c.Keys
  {
    JObj(map k | k in c :: Encode(c[k]))
  }

  /** The items of a stored document the page can use: those of the expected shape. */
  function DecodeCache(items: map<string, Json>): (c: Cache)
    ensures c.Keys <= items.Keys
    ensures forall k :: k in c ==> Decode(items[k]) == Some(c[k])
    ensures forall k :: k in items && Decode(items[k]).Some? ==> k in c
  {
    map k | k in items && Decode(items[k]).Some? :: Decode(items[k]).value
  }

  /** `handleSaveParams`: `{items: paramsData, bgUrl: bgUrl || undefined}`, where an
      `undefined` property is dropped by `JSON.stringify`. */
  function SavePayload(c: Cache, bg: string): (j: Json)
    ensures j.JObj? && "items" in j.fields && j.fields["items"] == EncodeCache(c)
    ensures "bgUrl" in j.fields <==> bg != ""
    ensures bg != "" ==> j.fields["bgUrl"] == JStr(bg)
  {
    var m := map["items" := EncodeCache(c)];
    JObj(if bg != "" then m["bgUrl" := JStr(bg)] else m)
  }

  /** The items the page overlays after fetching the document (`if (data.items)`). */
  function ServerItems(doc: map<string, Json>): (r: Option<Cache>)
    ensures r.Some? <==> TruthyField(doc, "items")
  {
    if TruthyField(doc, "items") then Some(DecodeCache(Props(doc["items"]))) else None
  }

  /** The background the page takes from the fetched document (`if (data.bgUrl)`). */
  function ServerBackground(doc: map<string, Json>): (r: Option<string>)
    ensures r.Some? ==> r.value != ""
  {
    if "bgUrl" in doc && doc["bgUrl"].JStr? && doc["bgUrl"].s != "" then Some(doc["bgUrl"].s) else None
  }

  /** An encoded item laid over any stored fields decodes to the item's halves, and to
      the whole item when its flag is set. */
  lemma DecodeOverlay(stored: map<string, Json>, p: SongParams)
    ensures var r := Decode(JObj(stored + Encode(p).fields));
            && (p.hideBottom.Some? ==> r == Some(p))
            && (r.Some? ==> r.value.top == p.top && r.value.bottom == p.bottom)
  {
    var f := stored + Encode(p).fields;
    assert f["top"] == EncodeHalf(p.top);
    assert f["bottom"] == EncodeHalf(p.bottom);
    if p.hideBottom.Some? {
      assert f["hideBottom"] == JBool(p.hideBottom.value);
    }
  }

  /** The stored item for `id` after a save: the saved encoding laid over the fields the
      store held before. */
  lemma StoredItemAfterSave(existing: map<string, Json>, c: Cache, bg: string, now: int, id: string)
    requires id in c
    ensures var doc := ParamsStore.Merge(existing, SavePayload(c, bg), now);
            && TruthyField(doc, "items")
            && id in Props(doc["items"])
            && Props(doc["items"])[id] == JObj(ParamsStore.ItemFields(existing, id) + Encode(c[id]).fields)
  {
    var payload := SavePayload(c, bg);
    ParamsStore.ItemsAfterMerge(existing, payload, now);
    assert ParamsStore.Payload(payload)["items"] == EncodeCache(c);
    assert Props(EncodeCache(c))[id] == Encode(c[id]);
  }

  /** Saving the page's cache and reading the stored document back gives every saved
      item whose flag was set exactly as it was saved, whatever the store held before.
      An item whose flag was never set keeps its halves but may pick up a flag the
      store held already. */
  lemma SaveThenLoad(existing: map<string, Json>, c: Cache, bg: string, now: int, id: string)
    requires id in c
    ensures var doc := ParamsStore.Merge(existing, SavePayload(c, bg), now);
            var server := ServerItems(doc);
            && server.Some?
            && (c[id].hideBottom.Some? ==> id in server.value && server.value[id] == c[id])
            && (id in server.value ==> server.value[id].top == c[id].top && server.value[id].bottom == c[id].bottom)
  {
    StoredItemAfterSave(existing, c, bg, now, id);
    DecodeOverlay(ParamsStore.ItemFields(existing, id), c[id]);
  }

  /** The background saved by the page is the one the page reads back. */
  lemma SavedBackgroundReadBack(existing: map<string, Json>, c: Cache, bg: string, now: int)
    requires bg != ""
    ensures ServerBackground(ParamsStore.Merge(existing, SavePayload(c, bg), now)) == Some(bg)
  {
  }

  /** A page that starts empty, has no local copy and loads after a save shows the
      saved parameters of every item whose flag was set. */
  lemma FreshPageSeesSavedParams(existing: map<string, Json>, c: Cache, bg: string, now: int, id: string)
    requires id in c && c[id].hideBottom.Some?
    ensures var doc := ParamsStore.Merge(existing, SavePayload(c, bg), now);
            var loaded := LoadParams(map[], ServerItems(doc), None);
            id in loaded && loaded[id] == c[id]
  {
    SaveThenLoad(existing, c, bg, now, id);
  }
}

=== FILE: presentation_view.dfy ===
/** The presentation page in the browser: the per-item parameter cache with its
    per-half defaults, the slide navigator over (index, half), the keyboard and
    button edits of offset and zoom, and the precedence used when the cache is
    loaded. Offsets and zooms are JavaScript numbers, modelled as reals. */
module PresentationView {
  import opened Js

  /** One half of a sheet: vertical offset (in vh) and zoom factor. */
  datatype Half = Half(offsetVh: real, zoom: real)

  /** The stored parameters of one item; `hideBottom` is an optional field. */
  datatype SongParams = SongParams(top: Half, bottom: Half, hideBottom: Option<bool>)

  /** Which half of the current sheet is on screen (0 is the top, 1 the bottom). */
  datatype Side = Top | Bottom

  /** A partial update of one half: only the given fields change. */
  datatype HalfUpdate = HalfUpdate(offsetVh: Option<real>, zoom: Option<real>)

  type Cache = map<string, SongParams>

  const DefaultHalf := Half(0.0, 1.0)
  const DefaultParams := SongParams(DefaultHalf, DefaultHalf, None)

  const ZoomStep: real := 0.01
  const ZoomMax: real := 5.0
  const ZoomMin: real := 0.1
  const KeyOffsetStep: real := 0.5
  const ButtonOffsetStep: real := 0.25
  const DefaultBackground := "/bj.jpg"

  function ParamsOf(cache: Cache, id: string): SongParams
  {
    if id in cache then cache[id] else DefaultParams
  }

  function HalfOf(p: SongParams, side: Side): Half
  {
    if side == Top then p.top else p.bottom
  }

  /** `getParams`: the cached half, or offset 0 and zoom 1 for an unknown item. */
  function GetParams(cache: Cache, id: string, side: Side): (h: Half)
    ensures id !in cache ==> h == Half(0.0, 1.0)
    ensures id in cache && side == Top ==> h == cache[id].top
    ensures id in cache && side == Bottom ==> h == cache[id].bottom
  {
    HalfOf(ParamsOf(cache, id), side)
  }

  function ApplyUpdate(h: Half, u: HalfUpdate): Half
  {
    Half(if u.offsetVh.Some? then u.offsetVh.value else h.offsetVh,
         if u.zoom.Some? then u.zoom.value else h.zoom)
  }

  /** `updateParams`: changes the chosen half of the chosen item and nothing else. */
  function UpdateParams(cache: Cache, id: string, side: Side, u: HalfUpdate): (c: Cache)
    ensures c.Keys == cache.Keys + {id}
    ensures forall k :: k in cache && k != id ==> c[k] == cache[k]
    ensures c[id].hideBottom == ParamsOf(cache, id).hideBottom
    ensures side == Top ==> c[id].bottom == ParamsOf(cache, id).bottom
    ensures side == Bottom ==> c[id].top == ParamsOf(cache, id).top
    ensures u.offsetVh.Some? ==> GetParams(c, id, side).offsetVh == u.offsetVh.value
    ensures u.offsetVh.None? ==> GetParams(c, id, side).offsetVh == GetParams(cache, id, side).offsetVh
    ensures u.zoom.Some? ==> GetParams(c, id, side).zoom == u.zoom.value
    ensures u.zoom.None? ==> GetParams(c, id, side).zoom == GetParams(cache, id, side).zoom
  {
    var p := ParamsOf(cache, id);
    var p' := if side == Top then p.(top := ApplyUpdate(p.top, u)) else p.(bottom := ApplyUpdate(p.bottom, u));
    cache[id := p']
  }

  /** Whether an item's bottom half is hidden (a missing flag is falsy). */
  predicate Hidden(cache: Cache, id: string)
  {
    id in cache && cache[id].hideBottom == Some(true)
  }

  datatype View = View(index: nat, side: Side)

  /** A view the navigator can show: an index into the list, and never a hidden bottom half. */
  predicate ValidView(items: seq<string>, cache: Cache, v: View)
  {
    v.index < |items| && (v.side == Bottom ==> !Hidden(cache, items[v.index]))
  }

  /** `nextSlide`. */
  function NextSlide(items: seq<string>, cache: Cache, v: View): (w: View)
    requires v.index < |items|
    ensures ValidView(items, cache, w)
    ensures w.side == Bottom ==> w.index == v.index
    ensures w.side == Top ==> w.index == (v.index + 1) % |items|
  {
    if v.side == Top then
      if Hidden(cache, items[v.index]) then View((v.index + 1) % |items|, Top)
      else View(v.index, Bottom)
    else View((v.index + 1) % |items|, Top)
  }

  /** `prevSlide`. */
  function PrevSlide(items: seq<string>, cache: Cache, v: View): (w: View)
    requires v.index < |items|
    ensures ValidView(items, cache, w)
    ensures v.side == Bottom ==> w == View(v.index, Top)
    ensures v.side == Top ==> w.index == (v.index - 1 + |items|) % |items|
  {
    if v.side == Bottom then View(v.index, Top)
    else
      var i := (v.index - 1 + |items|) % |items|;
      if Hidden(cache, items[i]) then View(i, Top) else View(i, Bottom)
  }

  /** Going forward then back returns to the same slide, for every slide the navigator can show. */
  lemma PrevUndoesNext(items: seq<string>, cache: Cache, v: View)
    requires ValidView(items, cache, v)
    ensures PrevSlide(items, cache, NextSlide(items, cache, v)) == v
  {
    if v.side == Bottom || Hidden(cache, items[v.index]) {
      BackAfterForward(v.index, |items|);
      var w := NextSlide(items, cache, v);
      assert w == View((v.index + 1) % |items|, Top);
    }
  }

  /** Stepping forward around the ring and then back lands where it started. */
  lemma BackAfterForward(i: nat, n: nat)
    requires i < n
    ensures ((i + 1) % n - 1 + n) % n == i
  {
    var a := (i + 1) % n;
    if i + 1 < n {
      ModBelow(i + 1, n);
      assert a - 1 + n == i + n;
      ModAbove(i, n);
    } else {
      ModAbove(0, n);
      assert a == 0;
      ModBelow(n - 1, n);
    }
  }

  /** Stepping back around the ring and then forward lands where it started. */
  lemma ForwardAfterBack(i: nat, n: nat)
    requires i < n
    ensures ((i - 1 + n) % n + 1) % n == i
  {
    var a := (i - 1 + n) % n;
    if i == 0 {
      ModBelow(n - 1, n);
      assert a + 1 == n;
      ModAbove(0, n);
    } else {
      ModAbove(i - 1, n);
      assert a + 1 == i;
      ModBelow(i, n);
    }
  }

  lemma ModBelow(x: int, n: int)
    requires 0 <= x < n
    ensures x % n == x
  {
  }

  lemma ModAbove(x: int, n: int)
    requires 0 <= x < n
    ensures (x + n) % n == x
  {
  }

  /** Going back then forward returns to the same slide. */
  lemma NextUndoesPrev(items: seq<string>, cache: Cache, v: View)
    requires ValidView(items, cache, v)
    ensures NextSlide(items, cache, PrevSlide(items, cache, v)) == v
  {
    if v.side == Top {
      ForwardAfterBack(v.index, |items|);
    }
  }

  /** `toggleHideBottom`: flips the current item's flag and shows its top half; with no
      current item it does nothing. */
  function ToggleHideBottom(items: seq<string>, cache: Cache, v: View): (r: (Cache, View))
    ensures v.index >= |items| ==> r == (cache, v)
    ensures v.index < |items| ==>
            var (c, w) := r;
            var id := items[v.index];
            && w == View(v.index, Top)
            && (Hidden(c, id) <==> !Hidden(cache, id))
            && c.Keys == cache.Keys + {id}
            && (forall k :: k in cache && k != id ==> c[k] == cache[k])
            && c[id].top == ParamsOf(cache, id).top && c[id].bottom == ParamsOf(cache, id).bottom
  {
    if v.index >= |items| then (cache, v)
    else
      var id := items[v.index];
      var p := ParamsOf(cache, id);
      (cache[id := p.(hideBottom := Some(!Hidden(cache, id)))], View(v.index, Top))
  }

  /** Toggling twice restores whether the bottom half is hidden; with no current item
      both toggles leave everything alone. */
  lemma ToggleTwice(items: seq<string>, cache: Cache, v: View)
    ensures var (c1, w1) := ToggleHideBottom(items, cache, v);
            var (c2, w2) := ToggleHideBottom(items, c1, w1);
            && (v.index < |items| ==> (Hidden(c2, items[v.index]) <==> Hidden(cache, items[v.index])))
            && (v.index >= |items| ==> c2 == cache && w2 == v)
  {
  }

  // ------------------------------------------------------------ edits

  /** `Math.min(zoom + 0.01, 5)`: one step up, stopping at the cap. */
  function ZoomIn(z: real): (r: real)
    ensures r <= ZoomMax
    ensures z + ZoomStep <= ZoomMax ==> r == z + ZoomStep
    ensures z + ZoomStep >= ZoomMax ==> r == ZoomMax
  {
    if z + ZoomStep < ZoomMax then z + ZoomStep else ZoomMax
  }

  /** `Math.max(zoom - 0.01, 0.1)`: one step down, stopping at the floor. */
  function ZoomOut(z: real): (r: real)
    ensures r >= ZoomMin
    ensures z - ZoomStep >= ZoomMin ==> r == z - ZoomStep
    ensures z - ZoomStep <= ZoomMin ==> r == ZoomMin
  {
    if z - ZoomStep > ZoomMin then z - ZoomStep else ZoomMin
  }

  /** Away from the bounds a step in and a step out cancel, in either order; at a bound
      the step stays there. */
  lemma ZoomStepsCancel(z: real)
    ensures ZoomMin <= z <= ZoomMax - ZoomStep ==> ZoomOut(ZoomIn(z)) == z
    ensures ZoomMin + ZoomStep <= z <= ZoomMax ==> ZoomIn(ZoomOut(z)) == z
    ensures ZoomIn(ZoomMax) == ZoomMax && ZoomOut(ZoomMin) == ZoomMin
  {
  }

  /** Both steps keep the order of zoom values, and a zoom inside the bounds stays
      inside them. */
  lemma ZoomStepsMonotone(y: real, z: real)
    requires y <= z
    ensures ZoomIn(y) <= ZoomIn(z) && ZoomOut(y) <= ZoomOut(z)
    ensures ZoomMin <= z <= ZoomMax ==> ZoomMin <= ZoomIn(z) <= ZoomMax && ZoomMin <= ZoomOut(z) <= ZoomMax
  {
  }

  /** The state of the page the key handler works on. */
  datatype Screen = Screen(items: seq<string>, cache: Cache, view: View)

  /** Effects the key handler has outside the cache and the view. */
  datatype Effect = NoEffect | LeaveFullscreenOrGoBack | ToggleFullscreen | SaveToServer

  datatype KeyEvent = KeyEvent(key: string, ctrl: bool, meta: bool)

  /** An edit of the current half. */
  function EditCurrent(s: Screen, u: HalfUpdate): Screen
    requires s.view.index < |s.items|
  {
    s.(cache := UpdateParams(s.cache, s.items[s.view.index], s.view.side, u))
  }

  function Current(s: Screen): Half
    requires s.view.index < |s.items|
  {
    GetParams(s.cache, s.items[s.view.index], s.view.side)
  }

  /** The key handler as written: its branches are tried in order, so a Ctrl/Cmd+S
      press is taken by the plain `'s'` branch, and the space bar (whose key is `" "`)
      matches no branch. */
  function HandleKeyAsWritten(s: Screen, e: KeyEvent): (r: (Screen, Effect))
  {
    if s.view.index >= |s.items| then (s, NoEffect)
    else if e.key == "ArrowRight" || e.key == "Space" then
      (s.(view := NextSlide(s.items, s.cache, s.view)), NoEffect)
    else if e.key == "ArrowLeft" then (s.(view := PrevSlide(s.items, s.cache, s.view)), NoEffect)
    else if e.key == "Escape" then (s, LeaveFullscreenOrGoBack)
    else if e.key == "f" then (s, ToggleFullscreen)
    else if e.key == "ArrowUp" || e.key == "w" then
      (EditCurrent(s, HalfUpdate(Some(Current(s).offsetVh + KeyOffsetStep), None)), NoEffect)
    else if e.key == "ArrowDown" || e.key == "s" then
      (EditCurrent(s, HalfUpdate(Some(Current(s).offsetVh - KeyOffsetStep), None)), NoEffect)
    else if e.key == "=" || e.key == "+" then
      (EditCurrent(s, HalfUpdate(None, Some(ZoomIn(Current(s).zoom)))), NoEffect)
    else if e.key == "-" then
      (EditCurrent(s, HalfUpdate(None, Some(ZoomOut(Current(s).zoom)))), NoEffect)
    else if e.key == "0" || e.key == "r" then
      (EditCurrent(s, HalfUpdate(Some(0.0), Some(1.0))), NoEffect)
    else if (e.ctrl || e.meta) && e.key == "s" then (s, SaveToServer)
    else (s, NoEffect)
  }

  /** Ctrl+S never saves as written: it moves the current half down by half a vh. */
  lemma CtrlSMovesDownInsteadOfSaving(s: Screen)
    requires s.view.index < |s.items|
    ensures var (s', eff) := HandleKeyAsWritten(s, KeyEvent("s", true, false));
            && eff == NoEffect
            && Current(s').offsetVh == Current(s).offsetVh - 0.5
  {
  }

  /** The space bar does nothing as written. */
  lemma SpaceBarDoesNothing(s: Screen)
    ensures HandleKeyAsWritten(s, KeyEvent(" ", false, false)) == (s, NoEffect)
  {
  }

  /** The key handler with the save shortcut placed before the plain `'s'` branch and
      the space bar advancing like the right arrow. */
  function HandleKey(s: Screen, e: KeyEvent): (r: (Screen, Effect))
    ensures r.0.items == s.items
    ensures s.view.index < |s.items| ==> r.0.view.index < |s.items|
    // Ctrl/Cmd+S saves and changes nothing else
    ensures (e.ctrl || e.meta) && e.key == "s" && s.view.index < |s.items| ==> r == (s, SaveToServer)
    // navigation keeps the view valid
    ensures s.view.index < |s.items| && e.key in {"ArrowRight", " ", "ArrowLeft"} ==>
      ValidView(s.items, s.cache, r.0.view) && r.0.cache == s.cache
    // zooming stays within its bounds
    ensures s.view.index < |s.items| && e.key in {"=", "+"} && !e.ctrl && !e.meta ==> Current(r.0).zoom <= ZoomMax
    ensures s.view.index < |s.items| && e.key == "-" && !e.ctrl && !e.meta ==> Current(r.0).zoom >= ZoomMin
    // without a current item nothing happens
    ensures s.view.index >= |s.items| ==> r == (s, NoEffect)
  {
    if s.view.index < |s.items| && (e.ctrl || e.meta) && e.key == "s" then (s, SaveToServer)
    else if e.key == " " then HandleKeyAsWritten(s, KeyEvent("ArrowRight", e.ctrl, e.meta))
    else HandleKeyAsWritten(s, e)
  }

  /** Every other key behaves as written. */
  lemma HandleKeyAgreesElsewhere(s: Screen, e: KeyEvent)
    requires e.key != " " && !((e.ctrl || e.meta) && e.key == "s")
    ensures HandleKey(s, e) == HandleKeyAsWritten(s, e)
  {
  }

  /** The on-screen adjustment buttons. */
  datatype Button = MoveUp | MoveDown | ResetOffset | ZoomInButton | ZoomOutButton

  function PressButton(s: Screen, b: Button): (s': Screen)
    requires s.view.index < |s.items|
    ensures s'.items == s.items && s'.view == s.view
    ensures b == MoveUp ==> Current(s').offsetVh == Current(s).offsetVh + 0.25 && Current(s').zoom == Current(s).zoom
    ensures b == MoveDown ==> Current(s').offsetVh == Current(s).offsetVh - 0.25 && Current(s').zoom == Current(s).zoom
    ensures b == ResetOffset ==> Current(s').offsetVh == 0.0 && Current(s').zoom == Current(s).zoom
    ensures b == ZoomInButton ==> Current(s').zoom <= ZoomMax && Current(s').offsetVh == Current(s).offsetVh
    ensures b == ZoomOutButton ==> Current(s').zoom >= ZoomMin && Current(s').offsetVh == Current(s).offsetVh
  {
    var h := Current(s);
    match b
    case MoveUp => EditCurrent(s, HalfUpdate(Some(h.offsetVh + ButtonOffsetStep), None))
    case MoveDown => EditCurrent(s, HalfUpdate(Some(h.offsetVh - ButtonOffsetStep), None))
    case ResetOffset => EditCurrent(s, HalfUpdate(Some(0.0), None))
    case ZoomInButton => EditCurrent(s, HalfUpdate(None, Some(ZoomIn(h.zoom))))
    case ZoomOutButton => EditCurrent(s, HalfUpdate(None, Some(ZoomOut(h.zoom))))
  }

  /** The reset key puts the current half back to offset 0 and zoom 1. */
  lemma ResetKeyRestoresDefaults(s: Screen)
    requires s.view.index < |s.items|
    ensures Current(HandleKey(s, KeyEvent("r", false, false)).0) == DefaultHalf
    ensures Current(HandleKey(s, KeyEvent("0", false, false)).0) == DefaultHalf
  {
  }

  // ------------------------------------------------------------ loading

  /** The cache after loading: the server's items overlay what is in memory, then the
      locally stored items fill in only the ids not present yet. */
  function LoadParams(memory: Cache, server: Option<Cache>, local: Option<Cache>): (c: Cache)
    ensures server.Some? ==> forall k :: k in server.value ==> k in c && c[k] == server.value[k]
    ensures forall k :: k in memory && (server.None? || k !in server.value) ==> k in c && c[k] == memory[k]
    ensures local.Some? ==> forall k :: k in local.value && k !in memory && (server.None? || k !in server.value) ==>
      k in c && c[k] == local.value[k]
    ensures forall k :: k in c ==> k in memory || (server.Some? && k in server.value) || (local.Some? && k in local.value)
  {
    var afterServer := if server.Some? then memory + server.value else memory;
    if local.Some? then local.value + afterServer else afterServer
  }

  /** The background after loading: a stored local background beats the server's,
      which beats the built-in default. */
  function LoadBackground(server: Option<string>, local: Option<string>): (bg: string)
    ensures local.Some? && local.value != "" ==> bg == local.value
    ensures (local.None? || local.value == "") && server.Some? && server.value != "" ==> bg == server.value
    ensures (local.None? || local.value == "") && (server.None? || server.value == "") ==> bg == DefaultBackground
  {
    var afterServer := if server.Some? && server.value != "" then server.value else DefaultBackground;
    if local.Some? && local.value != "" then local.value else afterServer
  }
}

=== FILE: random_songs.dfy ===
/** The random songs route: every song, shuffled by Fisher–Yates, cut to the
    requested number, with each song's `files` text parsed. `Math.random` is
    an oracle: `draw(k)` is the k-th value it returns, in [0, 1). */
module RandomSongs {
  import opened Text
  import opened Js

  /** A song row with what `JSON.parse` makes of its `files` text (`None` when it
      throws). */
  datatype Song = Song(id: string, title: string, files: string, parsed: Option<Json>)

  /** A song of the response: the row with `files` replaced by the parsed value. */
  datatype Out = Out(song: Song, files: Json)

  ghost predicate Draws(draw: nat -> real)
  {
    forall k :: 0.0 <= draw(k) < 1.0
  }

  /** Exchanging two positions. */
  function Swap(xs: seq<Song>, i: nat, j: nat): (r: seq<Song>)
    requires i < |xs| && j < |xs|
    ensures |r| == |xs|
  {
    xs[i := xs[j]][j := xs[i]]
  }

  /** The two positions trade their songs and every other position keeps its own. */
  lemma SwapElements(xs: seq<Song>, i: nat, j: nat)
    requires i < |xs| && j < |xs|
    ensures Swap(xs, i, j)[i] == xs[j] && Swap(xs, i, j)[j] == xs[i]
    ensures forall k :: 0 <= k < |xs| && k != i && k != j ==> Swap(xs, i, j)[k] == xs[k]
  {
  }

  /** A swap keeps every song, as often as it was there. */
  lemma SwapPermutes(xs: seq<Song>, i: nat, j: nat)
    requires i < |xs| && j < |xs|
    ensures multiset(Swap(xs, i, j)) == multiset(xs)
  {
  }

  /** The loop from position `i` down to 1, the `k`-th draw choosing the partner of `i`
      among positions 0..i. */
  function ShuffleDown(xs: seq<Song>, draw: nat -> real, i: int, k: nat): (r: seq<Song>)
    requires Draws(draw) && i < |xs|
    ensures |r| == |xs|
    decreases i
  {
    if i <= 0 then xs
    else ShuffleDown(Swap(xs, i, RandomIndex(draw(k), i + 1)), draw, i - 1, k + 1)
  }

  /** Fisher–Yates as written: for i from n-1 down to 1, swap position i with
      `floor(random * (i + 1))`. */
  function Shuffle(xs: seq<Song>, draw: nat -> real): seq<Song>
    requires Draws(draw)
  {
    ShuffleDown(xs, draw, |xs| - 1, 0)
  }

  /** The shuffle as the route runs it: one swap per step, from the last position down
      to position 1. */
  method FisherYates(songs: seq<Song>, draw: nat -> real) returns (r: seq<Song>)
    requires Draws(draw)
    ensures r == Shuffle(songs, draw)
    ensures multiset(r) == multiset(songs)
  {
    r := songs;
    var i := |songs| - 1;
    var k: nat := 0;
    while i > 0
      invariant -1 <= i < |songs| && |r| == |songs|
      invariant ShuffleDown(r, draw, i, k) == Shuffle(songs, draw)
    {
      var j := RandomIndex(draw(k), i + 1);
      r := Swap(r, i, j);
      i := i - 1;
      k := k + 1;
    }
    ShufflePermutes(songs, draw, |songs| - 1, 0);
  }

  /** The shuffle only reorders: every song stays, as often as it was there. */
  lemma {:induction false} ShufflePermutes(xs: seq<Song>, draw: nat -> real, i: int, k: nat)
    requires Draws(draw) && i < |xs|
    ensures multiset(ShuffleDown(xs, draw, i, k)) == multiset(xs)
    decreases i
  {
    if i > 0 {
      var j := RandomIndex(draw(k), i + 1);
      var ys := Swap(xs, i, j);
      SwapPermutes(xs, i, j);
      assert ShuffleDown(xs, draw, i, k) == ShuffleDown(ys, draw, i - 1, k + 1);
      ShufflePermutes(ys, draw, i - 1, k + 1);
    }
  }

  /** Each step leaves the positions above `i` alone and fixes position `i` for good. */
  lemma {:induction false} ShuffleKeepsTop(xs: seq<Song>, draw: nat -> real, i: int, k: nat, p: nat)
    requires Draws(draw) && i < p < |xs|
    ensures ShuffleDown(xs, draw, i, k)[p] == xs[p]
    decreases i
  {
    if i > 0 {
      var j := RandomIndex(draw(k), i + 1);
      SwapElements(xs, i, j);
      ShuffleKeepsTop(Swap(xs, i, j), draw, i - 1, k + 1, p);
    }
  }

  /** The last position receives the song the first draw picks. */
  lemma LastPicksFirstDraw(xs: seq<Song>, draw: nat -> real)
    requires Draws(draw) && |xs| >= 2
    ensures Shuffle(xs, draw)[|xs| - 1] == xs[RandomIndex(draw(0), |xs|)]
  {
    var n := |xs|;
    var ys := Swap(xs, n - 1, RandomIndex(draw(0), n));
    SwapElements(xs, n - 1, RandomIndex(draw(0), n));
    ShuffleKeepsTop(ys, draw, n - 2, 1, n - 1);
  }

  // ------------------------------------------------------------------ limit

  predicate IsHexDigit(c: char)
  {
    IsAsciiDigit(c) || 'a' <= c <= 'f' || 'A' <= c <= 'F'
  }

  function HexValue(c: char): nat
    requires IsHexDigit(c)
  {
    if IsAsciiDigit(c) then DigitValue(c)
    else if 'a' <= c <= 'f' then c as int - 'a' as int + 10
    else c as int - 'A' as int + 10
  }

  /** The longest prefix of hexadecimal digits. */
  function HexPrefix(s: string): (r: string)
    ensures |r| <= |s| && r == s[..|r|]
    ensures forall i :: 0 <= i < |r| ==> IsHexDigit(r[i])
  {
    if s == [] || !IsHexDigit(s[0]) then [] else [s[0]] + HexPrefix(s[1..])
  }

  function HexDigitsValue(s: string): nat
    requires forall i :: 0 <= i < |s| ==> IsHexDigit(s[i])
  {
    if s == [] then 0 else 16 * HexDigitsValue(s[..|s| - 1]) + HexValue(s[|s| - 1])
  }

  predicate HexMarked(s: string)
  {
    |s| >= 2 && s[0] == '0' && (s[1] == 'x' || s[1] == 'X')
  }

  /** `parseInt(s)` without a radix: as with radix 10, except that digits after `0x` or
      `0X` are read in base 16. */
  function ParseIntAnyRadix(s: string): (r: Option<int>)
    ensures !HexMarked(if |TrimStart(s)| > 0 && TrimStart(s)[0] in "+-" then TrimStart(s)[1..] else TrimStart(s))
            ==> r == ParseInt(s)
  {
    var t := TrimStart(s);
    var neg := |t| > 0 && t[0] == '-';
    var body := if |t| > 0 && t[0] in "+-" then t[1..] else t;
    if !HexMarked(body) then ParseInt(s)
    else
      var ds := HexPrefix(body[2..]);
      if ds == [] then None
      else if neg then Some(-(HexDigitsValue(ds) as int))
      else Some(HexDigitsValue(ds))
  }

  /** A hexadecimal digit written in lower case. */
  function HexChar(d: nat): (c: char)
    requires d < 16
    ensures IsHexDigit(c) && HexValue(c) == d
  {
    if d < 10 then DigitChar(d) else ('a' as int + (d - 10)) as char
  }

  /** A number written in hexadecimal digits, most significant first. */
  function ShowHex(n: nat): (r: string)
    ensures |r| > 0 && forall i :: 0 <= i < |r| ==> IsHexDigit(r[i])
    decreases n
  {
    if n < 16 then [HexChar(n)] else ShowHex(n / 16) + [HexChar(n % 16)]
  }

  lemma {:induction false} ShowHexValue(n: nat)
    ensures HexDigitsValue(ShowHex(n)) == n
    decreases n
  {
    if n >= 16 {
      var s := ShowHex(n);
      assert s[..|s| - 1] == ShowHex(n / 16);
      ShowHexValue(n / 16);
    }
  }

  lemma {:induction false} HexPrefixOfHex(s: string)
    requires forall i :: 0 <= i < |s| ==> IsHexDigit(s[i])
    ensures HexPrefix(s) == s
  {
    if s != [] {
      HexPrefixOfHex(s[1..]);
    }
  }

  /** Any number written after `0x` is read back in base 16: the limit `0x10` asks for
      sixteen songs, `0x32` for fifty. */
  lemma HexRoundTrip(n: nat)
    ensures ParseIntAnyRadix("0x" + ShowHex(n)) == Some(n)
  {
    var h := ShowHex(n);
    HexPrefixOfHex(h);
    ShowHexValue(n);
    HexBodyRead("0x" + h, h);
  }

  /** `0x` followed by hex digits `h` marks base 16, and the digits read are `h`. */
  lemma HexBodyRead(body: string, h: string)
    requires h != [] && HexPrefix(h) == h
    requires body == "0x" + h
    ensures ParseIntAnyRadix(body) == Some(HexDigitsValue(h) as int)
  {
    HexBodyMarked(body, h);
    assert !IsSpace(body[0]);
    assert TrimStart(body) == body;
  }

  lemma HexBodyMarked(body: string, h: string)
    requires body == "0x" + h
    ensures HexMarked(body) && body[2..] == h
  {
    assert body[0] == '0' && body[1] == 'x';
  }

  /** Hex digits after `-0x` read as the negation of their value. */
  lemma HexSignedRead(s: string, h: string)
    requires h != [] && forall i :: 0 <= i < |h| ==> IsHexDigit(h[i])
    requires s == "-0x" + h
    ensures ParseIntAnyRadix(s) == Some(-(HexDigitsValue(h) as int))
  {
    HexPrefixOfHex(h);
    assert s[0] == '-' && !IsSpace(s[0]);
    assert TrimStart(s) == s;
    var body := s[1..];
    assert body[0] == '0' && body[1] == 'x';
    assert HexMarked(body);
    assert body[2..] == h;
    var ds := HexPrefix(body[2..]);
    assert ds == h;
  }

  /** The files of a response song: the parsed value, or `{}` when parsing throws. */
  function FilesOf(s: Song): (j: Json)
    ensures s.parsed.Some? ==> j == s.parsed.value
    ensures s.parsed.None? ==> j == JObj(map[])
  {
    if s.parsed.Some? then s.parsed.value else JObj(map[])
  }

  function Process(xs: seq<Song>): (r: seq<Out>)
    ensures |r| == |xs| && forall i :: 0 <= i < |xs| ==> r[i] == Out(xs[i], FilesOf(xs[i]))
  {
    if xs == [] then [] else [Out(xs[0], FilesOf(xs[0]))] + Process(xs[1..])
  }

  function SongsOf(r: seq<Out>): (xs: seq<Song>)
    ensures |xs| == |r| && forall i :: 0 <= i < |r| ==> xs[i] == r[i].song
  {
    if r == [] then [] else [r[0].song] + SongsOf(r[1..])
  }

  /** The limit as `parseInt` reads it, 50 when missing or empty. */
  function LimitOf(limit: Option<string>): Option<int>
  {
    ParseIntAnyRadix(if limit.None? || limit.value == "" then "50" else limit.value)
  }

  /** The first `n` songs, each of them from the list. */
  function Prefix(xs: seq<Song>, n: nat): (t: seq<Song>)
    requires n <= |xs|
    ensures |t| == n && multiset(t) <= multiset(xs)
  {
    assert xs == xs[..n] + xs[n..];
    xs[..n]
  }

  /** Processing keeps the songs, in order. */
  lemma SongsOfProcess(xs: seq<Song>)
    ensures SongsOf(Process(xs)) == xs
  {
  }

  /** `GET`: the first `limit` shuffled songs, each with its parsed files. */
  method Get(songs: seq<Song>, draw: nat -> real, limit: Option<string>) returns (r: seq<Out>)
    requires Draws(draw)
    ensures |r| == SliceStop(|songs|, LimitOf(limit))
    ensures forall i :: 0 <= i < |r| ==> r[i].files == FilesOf(r[i].song)
    ensures multiset(SongsOf(r)) <= multiset(songs)
  {
    var shuffled := FisherYates(songs, draw);
    var taken := Prefix(shuffled, SliceStop(|shuffled|, LimitOf(limit)));
    r := Process(taken);
    SongsOfProcess(taken);
  }
}

=== FILE: sanitize.dfy ===
/** The two sanitisers the upload routes apply before anything touches the disk:
    one for folder names (the song's or video's storage id and the fixed
    directory names) and one for the base name of an uploaded file. */
module Sanitize {
  import opened Text

  const FolderLimit := 80
  const FileLimit := 180
  const DefaultFolder := "default"
  const DefaultFile := "file"

  /** The characters a folder name may keep: `[a-zA-Z0-9._-]`. */
  predicate IsFolderChar(c: char)
  {
    IsAsciiLetter(c) || IsAsciiDigit(c) || c == '.' || c == '_' || c == '-'
  }

  /** The characters the file-name rule replaces: NUL, `/`, `\`, `%`, `?` and `#`. */
  predicate IsUnsafeFileChar(c: char)
  {
    c == '\0' || c == '/' || c == '\\' || c == '%' || c == '?' || c == '#'
  }

  /** A global character-class replacement with `_`. */
  function Underscore(s: string, bad: char -> bool): (r: string)
    ensures |r| == |s|
    ensures forall i :: 0 <= i < |s| ==> r[i] == if bad(s[i]) then '_' else s[i]
  {
    if s == [] then [] else [if bad(s[0]) then '_' else s[0]] + Underscore(s[1..], bad)
  }

  /** `slice(0, n)`. */
  function Take(s: string, n: nat): (r: string)
    ensures |r| == if |s| <= n then |s| else n
    ensures r == s[..|r|]
  {
    if |s| <= n then s else s[..n]
  }

  /** `^\.+` removed: the leading run of dots. */
  function StripLeadingDots(s: string): (r: string)
    ensures |r| <= |s| && r == s[|s| - |r|..]
    ensures r == [] || r[0] != '.'
    ensures forall i :: 0 <= i < |s| - |r| ==> s[i] == '.'
  {
    if s == [] || s[0] != '.' then s else StripLeadingDots(s[1..])
  }

  function NotFolderChar(): char -> bool
  {
    c => !IsFolderChar(c)
  }

  /** `sanitizeFolderName`: every character outside `[a-zA-Z0-9._-]` becomes `_`, the
      result is cut to 80 characters, and an empty result becomes `default`. */
  function FolderName(v: string): (r: string)
    ensures 0 < |r| <= FolderLimit
    ensures forall i :: 0 <= i < |r| ==> IsFolderChar(r[i])
    ensures v == [] ==> r == DefaultFolder
    ensures v != [] ==> |r| == (if |v| <= FolderLimit then |v| else FolderLimit)
    ensures v != [] ==> forall i :: 0 <= i < |r| ==> (IsFolderChar(v[i]) ==> r[i] == v[i]) && (!IsFolderChar(v[i]) ==> r[i] == '_')
  {
    var cleaned := Take(Underscore(v, NotFolderChar()), FolderLimit);
    if |cleaned| > 0 then cleaned else DefaultFolder
  }

  /** A name that is already a folder name is kept as it is. */
  lemma FolderNameFixed(v: string)
    requires 0 < |v| <= FolderLimit
    requires forall i :: 0 <= i < |v| ==> IsFolderChar(v[i])
    ensures FolderName(v) == v
  {
  }

  /** Sanitising a folder name twice is sanitising it once. */
  lemma FolderNameIdempotent(v: string)
    ensures FolderName(FolderName(v)) == FolderName(v)
  {
    FolderNameFixed(FolderName(v));
  }

  function Unsafe(): char -> bool
  {
    c => IsUnsafeFileChar(c)
  }

  /** `sanitizeFileName` applied to a base name (the part after the last `/`): the unsafe
      characters become `_`, the leading dots are dropped, white space is trimmed, the
      result is cut to 180 characters, and an empty result becomes `file`. The two
      replacements of the source, `[\0/\\]` and `[%?#]`, are one pass here. */
  function FileName(base: string): (r: string)
    ensures 0 < |r| <= FileLimit
    ensures AllSafe(r)
  {
    var cleaned := Cleaned(base);
    CleanedIsSafe(base);
    DefaultFileIsSafe();
    if |cleaned| > 0 then cleaned else DefaultFile
  }

  /** The steps of the file-name rule before the fallback to `file`. */
  function Cleaned(base: string): string
  {
    Take(Trim(StripLeadingDots(Underscore(base, Unsafe()))), FileLimit)
  }

  lemma DefaultFileIsSafe()
    ensures AllSafe(DefaultFile) && DefaultFile[0] != '.' && !IsSpace(DefaultFile[0])
  {
  }

  /** No character the file-name rule replaces. */
  predicate AllSafe(s: string)
  {
    forall i :: 0 <= i < |s| ==> !IsUnsafeFileChar(s[i])
  }

  lemma SafeSlice(s: string, lo: nat, hi: nat)
    requires lo <= hi <= |s| && AllSafe(s)
    ensures AllSafe(s[lo..hi])
  {
    assert forall i :: 0 <= i < hi - lo ==> s[lo..hi][i] == s[lo + i];
  }

  /** Each step after the replacement keeps a part of its input, so no unsafe character
      comes back. */
  lemma CleanedIsSafe(base: string)
    ensures AllSafe(Cleaned(base))
  {
    var u := Underscore(base, Unsafe());
    UnderscoreIsSafe(base);
    SafeAfterDots(u);
    var d := StripLeadingDots(u);
    SafeAfterTrim(d);
    SafeAfterTake(Trim(d));
  }

  lemma UnderscoreIsSafe(base: string)
    ensures AllSafe(Underscore(base, Unsafe()))
  {
  }

  lemma SafeAfterDots(u: string)
    requires AllSafe(u)
    ensures AllSafe(StripLeadingDots(u))
  {
    var d := StripLeadingDots(u);
    SafeSlice(u, |u| - |d|, |u|);
  }

  lemma SafeAfterTrim(d: string)
    requires AllSafe(d)
    ensures AllSafe(Trim(d))
  {
    var t := TrimStart(d);
    SafeSlice(d, |d| - |t|, |d|);
    SafeSlice(t, 0, |TrimEnd(t)|);
  }

  lemma SafeAfterTake(e: string)
    requires AllSafe(e)
    ensures AllSafe(Take(e, FileLimit))
  {
    SafeSlice(e, 0, |Take(e, FileLimit)|);
  }

  /** A blank name is sanitised to `file`. */
  lemma FileNameOfBlank(base: string)
    requires IsBlank(base)
    ensures FileName(base) == DefaultFile
  {
    assert Underscore(base, Unsafe()) == base by {
      forall i | 0 <= i < |base| ensures !IsUnsafeFileChar(base[i]) {
        assert IsSpace(base[i]);
      }
    }
    assert base == [] || base[0] != '.' by {
      if base != [] {
        assert IsSpace(base[0]);
      }
    }
    TrimEmptyIffBlank(base);
  }

  /** A name without unsafe characters, leading dot or surrounding white space, and of
      at most 180 characters, is kept as it is. */
  lemma FileNameFixed(base: string)
    requires 0 < |base| <= FileLimit
    requires forall i :: 0 <= i < |base| ==> !IsUnsafeFileChar(base[i])
    requires base[0] != '.' && !IsSpace(base[0]) && !IsSpace(base[|base| - 1])
    ensures FileName(base) == base
  {
    assert Underscore(base, Unsafe()) == base;
    assert StripLeadingDots(base) == base;
    assert TrimStart(base) == base;
    assert TrimEnd(base) == base;
  }

  /** The dots are stripped before the white space is trimmed, so a name that starts with
      white space keeps the dots behind it: ` ..` is sanitised to `..`. */
  lemma SpaceBeforeDotsKeepsThem()
    ensures FileName(" ..") == ".."
  {
    var u := Underscore(" ..", Unsafe());
    assert u == " .." by {
      assert |u| == 3 && u[0] == ' ' && u[1] == '.' && u[2] == '.';
    }
    assert StripLeadingDots(u) == " .." by {
      assert u[0] != '.';
    }
    assert TrimStart(" ..") == ".." by {
      assert IsSpace(' ');
      assert " .."[1..] == "..";
      assert TrimStart("..") == "..";
    }
    assert TrimEnd("..") == "..";
  }

  /** The leading characters that are dots or white space. */
  function StripLeadingDotsAndSpace(s: string): (r: string)
    ensures |r| <= |s| && r == s[|s| - |r|..]
    ensures r == [] || (r[0] != '.' && !IsSpace(r[0]))
    ensures forall i :: 0 <= i < |s| - |r| ==> s[i] == '.' || IsSpace(s[i])
  {
    if s == [] || (s[0] != '.' && !IsSpace(s[0])) then s else StripLeadingDotsAndSpace(s[1..])
  }

  /** The file-name rule with the leading dots and white space removed together, so the
      result never starts with a dot. */
  function SafeFileName(base: string): (r: string)
    ensures 0 < |r| <= FileLimit
    ensures AllSafe(r)
    ensures r[0] != '.' && !IsSpace(r[0])
  {
    var cleaned := SafeCleaned(base);
    SafeCleanedFacts(base);
    DefaultFileIsSafe();
    if |cleaned| > 0 then cleaned else DefaultFile
  }

  /** The steps of the corrected rule before the fallback to `file`. */
  function SafeCleaned(base: string): string
  {
    Take(TrimEnd(StripLeadingDotsAndSpace(Underscore(base, Unsafe()))), FileLimit)
  }

  /** The corrected steps keep no unsafe character and leave no dot or white space in
      front. */
  lemma SafeCleanedFacts(base: string)
    ensures var c := SafeCleaned(base);
            && |c| <= FileLimit && AllSafe(c)
            && (c != [] ==> c[0] != '.' && !IsSpace(c[0]))
  {
    var u := Underscore(base, Unsafe());
    UnderscoreIsSafe(base);
    var d := StripLeadingDotsAndSpace(u);
    SafeSlice(u, |u| - |d|, |u|);
    var e := TrimEnd(d);
    SafeSlice(d, 0, |e|);
    SafeAfterTake(e);
    if e != [] {
      assert e[0] == d[0];
    }
  }

  /** The corrected rule gives the source's result exactly when that result does not
      start with a dot. */
  lemma SafeFileNameAgrees(base: string)
    ensures SafeFileName(base) == FileName(base) <==> FileName(base)[0] != '.'
  {
    if FileName(base)[0] != '.' {
      AgreeWithoutDot(base);
    } else {
      var x := SafeFileName(base);
      assert x[0] != '.';
    }
  }

  lemma AgreeWithoutDot(base: string)
    requires FileName(base)[0] != '.'
    ensures SafeFileName(base) == FileName(base)
  {
    var u := Underscore(base, Unsafe());
    FirstOfFileName(base);
    StripBothIsTrimmed(u);
  }

  /** The first character of a sanitised name that did not fall back to `file`. */
  lemma FirstOfFileName(base: string)
    ensures var t := TrimStart(StripLeadingDots(Underscore(base, Unsafe())));
            t != [] ==> FileName(base)[0] == t[0]
  {
    var t := TrimStart(StripLeadingDots(Underscore(base, Unsafe())));
    if t != [] {
      var e := TrimEnd(t);
      assert e != [] && e[0] == t[0] by {
        assert !IsSpace(t[0]);
      }
      var c := Take(e, FileLimit);
      assert c == Cleaned(base);
      assert c[0] == e[0];
    }
  }

  /** When the source's steps leave a name that does not start with a dot, removing dots
      and white space together removes exactly the same prefix. */
  lemma StripBothIsTrimmed(u: string)
    requires var t := TrimStart(StripLeadingDots(u)); t == [] || t[0] != '.'
    ensures StripLeadingDotsAndSpace(u) == TrimStart(StripLeadingDots(u))
  {
    var t := TrimStart(StripLeadingDots(u));
    DotsThenSpace(u);
    var k := |u| - |t|;
    assert t == u[k..];
    if t != [] {
      assert u[k] == t[0];
    }
    StripBothOfPrefix(u, k);
  }

  /** What the source's two steps remove from the front is a run of dots and white space. */
  lemma DotsThenSpace(u: string)
    ensures var t := TrimStart(StripLeadingDots(u));
            && t == u[|u| - |t|..]
            && forall i :: 0 <= i < |u| - |t| ==> u[i] == '.' || IsSpace(u[i])
  {
    var d := StripLeadingDots(u);
    var t := TrimStart(d);
    forall i | 0 <= i < |u| - |t| ensures u[i] == '.' || IsSpace(u[i]) {
      if i >= |u| - |d| {
        assert u[i] == d[i - (|u| - |d|)];
      }
    }
  }

  /** Removing a prefix of dots and white space that stops at another character. */
  lemma {:induction false} StripBothOfPrefix(s: string, k: nat)
    requires k <= |s|
    requires forall i :: 0 <= i < k ==> s[i] == '.' || IsSpace(s[i])
    requires k == |s| || (s[k] != '.' && !IsSpace(s[k]))
    ensures StripLeadingDotsAndSpace(s) == s[k..]
  {
    if k > 0 {
      StripBothOfPrefix(s[1..], k - 1);
      assert s[1..][k - 1..] == s[k..];
    }
  }
}

=== FILE: search.dfy ===
/** The search page: the songs a query matches, split by the files they have
    into the song, sheet and lyric tabs, and the count shown on every tab.
    `toLowerCase` is a parameter: the model holds for any lower-casing. */
module Search {
  import opened Text
  import opened Js
  import Seqs

  /** A song as the page receives it; `album` is `-` when the song has none. */
  datatype Song = Song(id: string, title: string, artist: string, album: string, files: map<string, Json>)

  /** The three lists with results; the artist, album, video and playlist lists are
      always empty. */
  datatype Results = Results(songs: seq<Song>, sheets: seq<Song>, lyrics: seq<Song>)

  /** The query occurs, lower-cased, in the lower-cased title, artist or non-empty
      album. */
  predicate Matches(lower: string -> string, q: string, s: Song)
  {
    || Contains(lower(s.title), lower(q))
    || Contains(lower(s.artist), lower(q))
    || (s.album != "" && Contains(lower(s.album), lower(q)))
  }

  function Matching(lower: string -> string, q: string): Song -> bool
  {
    (s: Song) => Matches(lower, q, s)
  }

  function Having(key: string): Song -> bool
  {
    (s: Song) => TruthyField(s.files, key)
  }

  /** `results`: nothing for an empty query; otherwise the matched songs with a truthy
      `audio`, `sheet` and `lrc` file respectively. */
  function Find(songs: seq<Song>, lower: string -> string, q: string): (r: Results)
    ensures q == "" ==> r == Results([], [], [])
  {
    if q == "" then Results([], [], [])
    else
      var matched := Seqs.Filter(songs, Matching(lower, q));
      Results(Seqs.Filter(matched, Having("audio")), Seqs.Filter(matched, Having("sheet")),
              Seqs.Filter(matched, Having("lrc")))
  }

  /** A song is in a tab exactly when it matches and has that tab's file. */
  lemma TabMembership(songs: seq<Song>, lower: string -> string, q: string, s: Song)
    requires q != ""
    ensures var r := Find(songs, lower, q);
            && (s in r.songs <==> s in songs && Matches(lower, q, s) && TruthyField(s.files, "audio"))
            && (s in r.sheets <==> s in songs && Matches(lower, q, s) && TruthyField(s.files, "sheet"))
            && (s in r.lyrics <==> s in songs && Matches(lower, q, s) && TruthyField(s.files, "lrc"))
  {
    assert Matching(lower, q)(s) == Matches(lower, q, s);
  }

  /** Each tab keeps the input order: it is the input filtered once by the match and
      the file together. */
  lemma TabsKeepOrder(songs: seq<Song>, lower: string -> string, q: string)
    requires q != ""
    ensures var r := Find(songs, lower, q);
            && r.songs == Seqs.Filter(songs, Seqs.Both(Matching(lower, q), Having("audio")))
            && r.sheets == Seqs.Filter(songs, Seqs.Both(Matching(lower, q), Having("sheet")))
            && r.lyrics == Seqs.Filter(songs, Seqs.Both(Matching(lower, q), Having("lrc")))
  {
    Seqs.FilterFilter(songs, Matching(lower, q), Having("audio"));
    Seqs.FilterFilter(songs, Matching(lower, q), Having("sheet"));
    Seqs.FilterFilter(songs, Matching(lower, q), Having("lrc"));
  }

  /** With ASCII lower-casing, a query matches the same songs whatever the case of its
      letters. */
  lemma CaseInsensitive(songs: seq<Song>, q: string, q': string)
    requires q != "" && q' != "" && Lower(q) == Lower(q')
    ensures Find(songs, Lower, q) == Find(songs, Lower, q')
  {
    Seqs.FilterSame(songs, Matching(Lower, q), Matching(Lower, q'));
  }

  /** The empty-album marker is matched like any other text: a query `-` finds every
      song without an album. */
  lemma DashFindsAlbumless(lower: string -> string, s: Song)
    requires s.album == "-" && lower("-") == "-"
    ensures Matches(lower, "-", s)
  {
    assert OccursAt(lower(s.album), lower("-"), 0);
  }

  datatype Tab = Tab(id: string, count: nat)

  /** The tabs in display order, each counting its list; lists the page never fills
      count zero. */
  function Tabs(r: Results): (ts: seq<Tab>)
    ensures |ts| == 7
    ensures ts[0] == Tab("song", |r.songs|) && ts[4] == Tab("lyric", |r.lyrics|) && ts[5] == Tab("sheet", |r.sheets|)
    ensures forall i :: i in {1, 2, 3, 6} ==> ts[i].count == 0
  {
    [Tab("song", |r.songs|), Tab("artist", 0), Tab("album", 0), Tab("mv", 0),
     Tab("lyric", |r.lyrics|), Tab("sheet", |r.sheets|), Tab("playlist", 0)]
  }

  /** An empty query shows zero on every tab. */
  lemma EmptyQueryCountsZero(songs: seq<Song>, lower: string -> string)
    ensures forall i :: 0 <= i < 7 ==> Tabs(Find(songs, lower, ""))[i].count == 0
  {
  }
}

=== FILE: seqs.dfy ===
/** Generic sequence helpers: filtering, duplicate-freedom, and the
    first-occurrence de-duplication that JavaScript's
    `Array.from(new Set(xs))` performs. */
module Seqs {

  /** `xs.filter(p)`: the elements satisfying `p`, in their original order. */
  function Filter<T(!new)>(xs: seq<T>, p: T -> bool): (r: seq<T>)
    ensures |r| <= |xs|
    ensures forall i :: 0 <= i < |r| ==> p(r[i])
    ensures forall x :: x in r <==> x in xs && p(x)
  {
    if xs == [] then []
    else if p(xs[0]) then [xs[0]] + Filter(xs[1..], p)
    else Filter(xs[1..], p)
  }

  lemma FilterAppend<T(!new)>(a: seq<T>, b: seq<T>, p: T -> bool)
    ensures Filter(a + b, p) == Filter(a, p) + Filter(b, p)
  {
    if a == [] {
      assert a + b == b;
    } else {
      assert (a + b)[1..] == a[1..] + b;
      FilterAppend(a[1..], b, p);
    }
  }

  lemma FilterAppend3<T(!new)>(a: seq<T>, b: seq<T>, c: seq<T>, p: T -> bool)
    ensures Filter(a + b + c, p) == Filter(a, p) + Filter(b, p) + Filter(c, p)
  {
    FilterAppend(a + b, c, p);
    FilterAppend(a, b, p);
  }

  /** A list is its part before `i`, its element at `i` and its part after. */
  lemma SplitAt<T>(xs: seq<T>, i: nat)
    requires i < |xs|
    ensures xs == xs[..i] + [xs[i]] + xs[i + 1..]
  {
  }

  /** Filtering a list is filtering the part before position `i`, the element at `i`
      and the part after it. */
  lemma FilterAround<T(!new)>(xs: seq<T>, p: T -> bool, i: nat)
    requires i < |xs|
    ensures Filter(xs, p) == Filter(xs[..i], p) + Filter([xs[i]], p) + Filter(xs[i + 1..], p)
  {
    SplitAt(xs, i);
    FilterAppend3(xs[..i], [xs[i]], xs[i + 1..], p);
  }

  lemma FilterSingle<T(!new)>(x: T, p: T -> bool)
    ensures Filter([x], p) == if p(x) then [x] else []
  {
    assert [x][1..] == [];
  }

  lemma EmptyMiddle<T>(a: seq<T>, c: seq<T>)
    ensures a + [] + c == a + c
  {
  }

  /** Filtering around an element the predicate rejects. */
  lemma FilterAroundDropped<T(!new)>(xs: seq<T>, p: T -> bool, i: nat)
    requires i < |xs| && !p(xs[i])
    ensures Filter(xs, p) == Filter(xs[..i], p) + Filter(xs[i + 1..], p)
  {
    FilterAround(xs, p, i);
    FilterSingle(xs[i], p);
    EmptyMiddle(Filter(xs[..i], p), Filter(xs[i + 1..], p));
  }

  /** Filtering around an element the predicate accepts. */
  lemma FilterAroundKept<T(!new)>(xs: seq<T>, p: T -> bool, i: nat)
    requires i < |xs| && p(xs[i])
    ensures Filter(xs, p) == Filter(xs[..i], p) + [xs[i]] + Filter(xs[i + 1..], p)
  {
    FilterAround(xs, p, i);
    FilterSingle(xs[i], p);
  }

  /** Filtering keeps everything exactly when every element satisfies the predicate. */
  lemma FilterAll<T(!new)>(xs: seq<T>, p: T -> bool)
    requires forall i :: 0 <= i < |xs| ==> p(xs[i])
    ensures Filter(xs, p) == xs
  {
  }

  /** Filtering drops everything when no element satisfies the predicate. */
  lemma FilterNone<T(!new)>(xs: seq<T>, p: T -> bool)
    requires forall i :: 0 <= i < |xs| ==> !p(xs[i])
    ensures Filter(xs, p) == []
  {
  }

  /** The conjunction of two tests. */
  function Both<T>(p: T -> bool, q: T -> bool): T -> bool
  {
    x => p(x) && q(x)
  }

  /** Filtering twice is filtering once by both tests. */
  lemma {:induction false} FilterFilter<T(!new)>(xs: seq<T>, p: T -> bool, q: T -> bool)
    ensures Filter(Filter(xs, p), q) == Filter(xs, Both(p, q))
  {
    if xs != [] {
      FilterFilter(xs[1..], p, q);
    }
  }

  /** Tests that agree everywhere filter alike. */
  lemma {:induction false} FilterSame<T(!new)>(xs: seq<T>, p: T -> bool, q: T -> bool)
    requires forall x :: p(x) == q(x)
    ensures Filter(xs, p) == Filter(xs, q)
  {
    if xs != [] {
      FilterSame(xs[1..], p, q);
    }
  }

  predicate NoDups<T(==,!new)>(xs: seq<T>)
  {
    forall i, j :: 0 <= i < j < |xs| ==> xs[i] != xs[j]
  }

  /** Filtering a list without duplicates gives one without duplicates. */
  lemma {:induction false} FilterNoDups<T(!new)>(xs: seq<T>, p: T -> bool)
    requires NoDups(xs)
    ensures NoDups(Filter(xs, p))
  {
    if xs != [] {
      var t := xs[1..];
      assert NoDups(t) by {
        assert forall i :: 0 <= i < |t| ==> t[i] == xs[i + 1];
      }
      FilterNoDups(t, p);
      assert xs[0] !in t;
    }
  }

  /** Appends the elements of `xs` not yet seen, in first-occurrence order. */
  function DedupInto<T(==,!new)>(seen: seq<T>, xs: seq<T>): (r: seq<T>)
    ensures |seen| <= |r|
    ensures r[..|seen|] == seen
    ensures NoDups(seen) ==> NoDups(r)
    ensures forall x :: x in r <==> x in seen || x in xs
    decreases |xs|
  {
    if xs == [] then seen
    else if xs[0] in seen then DedupInto(seen, xs[1..])
    else DedupInto(seen + [xs[0]], xs[1..])
  }

  /** `Array.from(new Set(xs))`. */
  function Dedup<T(==,!new)>(xs: seq<T>): (r: seq<T>)
    ensures NoDups(r)
    ensures forall x :: x in r <==> x in xs
  {
    DedupInto([], xs)
  }

  lemma {:induction false} DedupIntoAppend<T(!new)>(seen: seq<T>, a: seq<T>, b: seq<T>)
    ensures DedupInto(seen, a + b) == DedupInto(DedupInto(seen, a), b)
    decreases |a|
  {
    if a == [] {
      assert a + b == b;
    } else {
      assert (a + b)[0] == a[0];
      assert (a + b)[1..] == a[1..] + b;
      if a[0] in seen {
        DedupIntoAppend(seen, a[1..], b);
      } else {
        DedupIntoAppend(seen + [a[0]], a[1..], b);
      }
    }
  }

  /** A duplicate-free prefix survives de-duplication unchanged: the result is the
      prefix followed by the new elements of the rest, each once, in first-seen order. */
  lemma {:induction false} DedupIntoNoDups<T(!new)>(seen: seq<T>, xs: seq<T>)
    requires NoDups(seen + xs)
    ensures DedupInto(seen, xs) == seen + xs
    decreases |xs|
  {
    if xs != [] {
      assert (seen + xs)[|seen|] == xs[0];
      assert xs[0] !in seen by {
        forall i | 0 <= i < |seen| ensures seen[i] != xs[0] {
          assert (seen + xs)[i] == seen[i];
        }
      }
      assert seen + xs == (seen + [xs[0]]) + xs[1..];
      DedupIntoNoDups(seen + [xs[0]], xs[1..]);
    }
  }

  lemma DedupOfNoDups<T(!new)>(xs: seq<T>)
    requires NoDups(xs)
    ensures Dedup(xs) == xs
  {
    assert [] + xs == xs;
    DedupIntoNoDups([], xs);
  }

  /** De-duplicating twice is de-duplicating once. */
  lemma DedupIdempotent<T(!new)>(xs: seq<T>)
    ensures Dedup(Dedup(xs)) == Dedup(xs)
  {
    DedupOfNoDups(Dedup(xs));
  }

  /** `Array.from(new Set([...existing, ...added]))` keeps a duplicate-free `existing`
      as its prefix, and is otherwise made of the elements of `added`. */
  lemma MergedListKeepsExisting<T(!new)>(existing: seq<T>, added: seq<T>)
    requires NoDups(existing)
    ensures |existing| <= |Dedup(existing + added)|
    ensures Dedup(existing + added)[..|existing|] == existing
    ensures forall x :: x in Dedup(existing + added) <==> x in existing || x in added
  {
    DedupIntoAppend([], existing, added);
    DedupOfNoDups(existing);
  }

  /** The position of the first element satisfying `p`, or -1 (`findIndex`). */
  function FindIndex<T>(xs: seq<T>, p: T -> bool): (r: int)
    ensures -1 <= r < |xs|
    ensures r == -1 <==> forall i :: 0 <= i < |xs| ==> !p(xs[i])
    ensures r != -1 ==> p(xs[r]) && forall i :: 0 <= i < r ==> !p(xs[i])
  {
    if xs == [] then -1
    else if p(xs[0]) then 0
    else var k := FindIndex(xs[1..], p); if k == -1 then -1 else k + 1
  }
}

=== FILE: sheet_category.dfy ===
/** Sheet categories: the category guessed from a file name by keyword, and the
    normalisation of a stored category to the names the site shows. */
module SheetCategory {
  import opened Text
  import opened Js

  const Staff := "五线谱"
  const Guitar := "吉他谱"
  const Chord := "和弦谱"
  const Bass := "贝斯谱"
  const Drum := "鼓谱"
  const Piano := "钢琴谱"
  const Numbered := "简谱"
  const Official := "官方谱"

  /** One test of the detector: a Chinese keyword or a Latin one (stored lower-case,
      matched without regard to ASCII case), and the category it gives. */
  datatype Rule = Rule(cn: string, latin: string, category: string)

  /** The tests in the order they run. */
  const Rules: seq<Rule> := [
    Rule("五线", "staff", Staff),
    Rule("吉他", "guitar", Guitar),
    Rule("钢琴", "piano", Staff),
    Rule("和弦", "chord", Chord),
    Rule("贝斯", "bass", Bass),
    Rule("鼓", "drum", Drum),
    Rule("官方", "official", Chord)]

  /** `/cn|Latin/i` matches the name. The `i` flag folds ASCII letters only; the
      Chinese keywords are unaffected by lower-casing. */
  predicate Hits(name: string, r: Rule)
  {
    Contains(Lower(name), r.cn) || Contains(Lower(name), r.latin)
  }

  /** The category of the first rule that matches, or the empty string. */
  function DetectWith(name: string, rules: seq<Rule>): (c: string)
    requires forall i :: 0 <= i < |rules| ==> rules[i].category != []
    ensures c == [] <==> forall i :: 0 <= i < |rules| ==> !Hits(name, rules[i])
    ensures c != [] ==> exists i :: 0 <= i < |rules| && Hits(name, rules[i]) && c == rules[i].category
                                    && forall j :: 0 <= j < i ==> !Hits(name, rules[j])
  {
    if rules == [] then []
    else if Hits(name, rules[0]) then rules[0].category
    else
      assert forall i :: 0 < i < |rules| ==> rules[i] == rules[1..][i - 1];
      var c := DetectWith(name, rules[1..]);
      assert c != [] ==> exists i :: 0 <= i < |rules| && Hits(name, rules[i]) && c == rules[i].category
                                    && forall j :: 0 <= j < i ==> !Hits(name, rules[j]) by {
        if c != [] {
          var i :| 0 <= i < |rules[1..]| && Hits(name, rules[1..][i]) && c == rules[1..][i].category
                   && forall j :: 0 <= j < i ==> !Hits(name, rules[1..][j]);
          assert Hits(name, rules[i + 1]);
          assert forall j :: 0 <= j < i + 1 ==> !Hits(name, rules[j]);
        }
      }
      c
  }

  /** `detectCategoryFromFilename`. */
  function Detect(name: string): (c: string)
    ensures c in {Staff, Guitar, Chord, Bass, Drum, ""}
  {
    RulesHaveCategories();
    var c := DetectWith(name, Rules);
    assert forall i :: 0 <= i < |Rules| ==> Rules[i].category in {Staff, Guitar, Chord, Bass, Drum};
    c
  }

  /** Every rule gives a category. */
  lemma RulesHaveCategories()
    ensures forall i :: 0 <= i < |Rules| ==> Rules[i].category != []
  {
  }

  /** The first matching rule wins: a name with both 吉他 and 五线 is a staff sheet. */
  lemma FirstRuleWins(name: string, i: nat)
    requires i < |Rules| && Hits(name, Rules[i])
    requires forall j :: 0 <= j < i ==> !Hits(name, Rules[j])
    ensures Detect(name) == Rules[i].category
  {
    RulesHaveCategories();
    var c := DetectWith(name, Rules);
    var k :| 0 <= k < |Rules| && Hits(name, Rules[k]) && c == Rules[k].category
             && forall j :: 0 <= j < k ==> !Hits(name, Rules[j]);
    assert k == i;
  }

  /** A name with no keyword gives the empty string, and only such a name does. */
  lemma NoKeywordIsEmpty(name: string)
    ensures Detect(name) == [] <==> forall i :: 0 <= i < |Rules| ==> !Hits(name, Rules[i])
  {
    RulesHaveCategories();
  }

  /** Names that agree up to ASCII case get the same category. */
  lemma DetectIgnoresCase(a: string, b: string)
    requires Lower(a) == Lower(b)
    ensures Detect(a) == Detect(b)
  {
    assert forall r :: Hits(a, r) == Hits(b, r);
    RulesHaveCategories();
    DetectSameHits(a, b, Rules);
  }

  lemma {:induction false} DetectSameHits(a: string, b: string, rules: seq<Rule>)
    requires forall i :: 0 <= i < |rules| ==> rules[i].category != []
    requires forall r :: Hits(a, r) == Hits(b, r)
    ensures DetectWith(a, rules) == DetectWith(b, rules)
  {
    if rules != [] {
      DetectSameHits(a, b, rules[1..]);
    }
  }

  // ------------------------------------------------------------ normalisation

  /** `normalizeCategory`: a missing or empty category is a chord sheet, a piano sheet is
      a staff sheet, and numbered and official sheets are chord sheets. */
  function Normalize(cat: Option<string>): (r: string)
    ensures r != []
    ensures r != Piano && r != Numbered && r != Official
    ensures cat.Some? && cat.value !in {"", Piano, Numbered, Official} ==> r == cat.value
  {
    if cat.None? || cat.value == "" then Chord
    else if cat.value == Piano then Staff
    else if cat.value == Numbered || cat.value == Official then Chord
    else cat.value
  }

  /** The categories `Normalize` leaves alone are exactly those it can return. */
  lemma NormalizeFixedPoints(c: string)
    ensures Normalize(Some(c)) == c <==> c !in {"", Piano, Numbered, Official}
  {
  }

  lemma NormalizeIdempotent(cat: Option<string>)
    ensures Normalize(Some(Normalize(cat))) == Normalize(cat)
  {
    NormalizeFixedPoints(Normalize(cat));
  }

  /** A detected category, normalised, is never empty: no keyword means a chord sheet. */
  lemma DetectedNormalizedIsNamed(name: string)
    ensures Normalize(Some(Detect(name))) in {Staff, Guitar, Chord, Bass, Drum}
    ensures Detect(name) == [] ==> Normalize(Some(Detect(name))) == Chord
  {
  }
}

=== FILE: sheet_index.dfy ===
/** The sheet page's query: the songs whose files hold a sheet, each with the
    index letter its section is filed under. */
module SheetIndex {
  import opened Text
  import opened Js

  /** A song row; `files` is what `JSON.parse` makes of the stored document, `None`
      when it throws. */
  datatype Row = Row(id: string, title: string, files: Option<Json>)

  /** A row as the page hands it on: with its index letter and its parsed files. */
  datatype Sheet = Sheet(id: string, title: string, index: string, files: map<string, Json>)

  const OtherIndex := "#"

  /** `files.sheet || (files.sheets && files.sheets.length > 0)`; reading a property of
      `null` throws, and the row is then dropped. */
  predicate HasSheet(files: Option<Json>)
  {
    && files.Some? && files.value.JObj?
    && var m := files.value.fields;
       || TruthyField(m, "sheet")
       || ("sheets" in m && Truthy(m["sheets"]) && JsLength(m["sheets"]).Some? && JsLength(m["sheets"]).value > 0)
  }

  /** `[一-龥]`: the CJK unified ideographs the page converts to pinyin. */
  predicate IsCjk(c: char)
  {
    '\U{4E00}' <= c <= '\U{9FA5}'
  }

  /** The index of a title: the upper-cased first character of the trimmed title when
      it is an ASCII letter; for a CJK character the upper-cased first letter of its
      pinyin, when that is a letter; `#` otherwise. `pinyin` is the converter. */
  function IndexLetter(title: string, pinyin: string -> string): (r: string)
    ensures r == OtherIndex || (|r| == 1 && IsAsciiUpper(r[0]))
  {
    var t := Trim(title);
    if t == [] then OtherIndex
    else if IsAsciiLetter(t[0]) then [UpperChar(t[0])]
    else if IsCjk(t[0]) then
      var py := pinyin([t[0]]);
      if py != [] && IsAsciiLetter(py[0]) then [UpperChar(py[0])] else OtherIndex
    else OtherIndex
  }

  /** A title gets a letter exactly when its trimmed form starts with an ASCII letter,
      or with a CJK character whose pinyin starts with one; the letter is that letter
      upper-cased. */
  lemma IndexLetterIff(title: string, pinyin: string -> string)
    ensures var t := Trim(title);
            && (IndexLetter(title, pinyin) != OtherIndex <==>
                  t != [] && (IsAsciiLetter(t[0])
                              || (IsCjk(t[0]) && pinyin([t[0]]) != [] && IsAsciiLetter(pinyin([t[0]])[0]))))
            && (t != [] && IsAsciiLetter(t[0]) ==> IndexLetter(title, pinyin) == [UpperChar(t[0])])
  {
  }

  /** The pinyin converter is consulted only for CJK characters. */
  lemma PinyinOnlyForCjk(title: string, p: string -> string, q: string -> string)
    requires Trim(title) == [] || !IsCjk(Trim(title)[0])
    ensures IndexLetter(title, p) == IndexLetter(title, q)
  {
  }

  function ToSheet(r: Row, pinyin: string -> string): Sheet
    requires HasSheet(r.files)
  {
    Sheet(r.id, r.title, IndexLetter(r.title, pinyin), r.files.value.fields)
  }

  /** `getSheets`: the rows with a sheet, in order, each with its index. */
  function Sheets(rows: seq<Row>, pinyin: string -> string): (r: seq<Sheet>)
    ensures |r| <= |rows|
    ensures forall s :: s in r ==> s.index == OtherIndex || (|s.index| == 1 && IsAsciiUpper(s.index[0]))
    ensures forall s :: s in r ==> exists row :: row in rows && HasSheet(row.files) && s == ToSheet(row, pinyin)
    ensures forall row :: row in rows && HasSheet(row.files) ==> ToSheet(row, pinyin) in r
  {
    if rows == [] then []
    else
      var rest := Sheets(rows[1..], pinyin);
      assert forall row :: row in rows[1..] ==> row in rows;
      assert forall row :: row in rows ==> row == rows[0] || row in rows[1..];
      if HasSheet(rows[0].files) then [ToSheet(rows[0], pinyin)] + rest else rest
  }
}

=== FILE: sheet_list.dfy ===
/** The sheet list in the browser: songs with several sheets are split into one
    entry per sheet, entries are numbered in title order and grouped by index
    letter, a part's id leads back to its song, and an entry can be queued for
    or taken off the presentation. */
module SheetList {
  import opened Text
  import opened Js
  import Seqs
  import Titles
  import Artists
  import PresentationList

  datatype Entry = Entry(id: string, title: string, index: string, files: map<string, Json>)

  // ---------------------------------------------------------------- flattening

  /** `path.split('/').pop()`: what follows the last `/`. */
  function LastSegment(p: string): string
  {
    p[LastIndexOfChar(p, '/') + 1..]
  }

  /** The last segment is a suffix of the path without `/`, preceded by a `/` unless it
      is the whole path. */
  lemma LastSegmentShape(p: string)
    ensures var r := LastSegment(p);
            && (forall i :: 0 <= i < |r| ==> r[i] != '/')
            && EndsWith(p, r)
            && (|r| < |p| ==> p[|p| - |r| - 1] == '/')
  {
  }

  /** The title of one part: the decoded path's last segment without its extension.
      `decode` is `decodeURIComponent` applied to the path (and its string form). */
  function PartTitle(path: Json, decode: Json -> string): string
  {
    Titles.StripExt(LastSegment(decode(path)))
  }

  /** The entry for sheet `idx` of a song: id `${id}_${idx}`, the part's title, the
      song's index, and files whose one sheet is this path. */
  function Part(e: Entry, path: Json, idx: nat, decode: Json -> string): Entry
  {
    Entry(e.id + "_" + ShowNat(idx), PartTitle(path, decode), e.index, (e.files - {"sheets"})["sheet" := path])
  }

  function Parts(e: Entry, paths: seq<Json>, decode: Json -> string): (r: seq<Entry>)
    ensures |r| == |paths|
    ensures forall i :: 0 <= i < |paths| ==> r[i] == Part(e, paths[i], i, decode)
  {
    if paths == [] then []
    else
      var init := Parts(e, paths[..|paths| - 1], decode);
      init + [Part(e, paths[|paths| - 1], |paths| - 1, decode)]
  }

  /** The song's sheets are split when `files.sheets.length > 1`. */
  predicate Splits(e: Entry)
  {
    "sheets" in e.files && Truthy(e.files["sheets"])
    && JsLength(e.files["sheets"]).Some? && JsLength(e.files["sheets"]).value > 1
  }

  /** One song's entries; `None` when `forEach` is called on a string. */
  function FlattenOne(e: Entry, decode: Json -> string): (r: Option<seq<Entry>>)
    ensures !Splits(e) ==> r == Some([e])
    ensures Splits(e) && e.files["sheets"].JArr? ==> r.Some? && |r.value| == |e.files["sheets"].elems|
    ensures Splits(e) && !e.files["sheets"].JArr? ==> r.None?
  {
    if !Splits(e) then Some([e])
    else if e.files["sheets"].JArr? then Some(Parts(e, e.files["sheets"].elems, decode))
    else None
  }

  /** `flattenedSheets`. */
  function Flatten(es: seq<Entry>, decode: Json -> string): Option<seq<Entry>>
  {
    if es == [] then Some([])
    else
      var head := FlattenOne(es[0], decode);
      var rest := Flatten(es[1..], decode);
      if head.None? || rest.None? then None else Some(head.value + rest.value)
  }

  /** Rendering fails exactly when some song's `sheets` is a string of two or more
      characters. */
  lemma {:induction false} FlattenFails(es: seq<Entry>, decode: Json -> string)
    ensures Flatten(es, decode).None? <==> exists i :: 0 <= i < |es| && FlattenOne(es[i], decode).None?
  {
    if es != [] {
      FlattenFails(es[1..], decode);
      assert forall i :: 0 < i < |es| ==> es[i] == es[1..][i - 1];
    }
  }

  /** A song with several sheets in a list becomes one entry per sheet, in order; its
      `k`-th entry has id `${id}_${k}`, shows the `k`-th path as its one sheet and the
      song's index. */
  lemma SplitEntries(e: Entry, decode: Json -> string, k: nat)
    requires Splits(e) && e.files["sheets"].JArr? && k < |e.files["sheets"].elems|
    ensures var p := FlattenOne(e, decode).value[k];
            && p.id == e.id + "_" + ShowNat(k)
            && p.files["sheet"] == e.files["sheets"].elems[k]
            && "sheets" !in p.files
            && p.index == e.index
            && p.title == Titles.StripExt(LastSegment(decode(e.files["sheets"].elems[k])))
  {
  }

  /** Flattening appends each song's entries in the order of the songs. */
  lemma {:induction false} FlattenAppends(a: seq<Entry>, b: seq<Entry>, decode: Json -> string)
    requires Flatten(a, decode).Some? && Flatten(b, decode).Some?
    ensures Flatten(a + b, decode) == Some(Flatten(a, decode).value + Flatten(b, decode).value)
  {
    if a == [] {
      assert a + b == b;
      assert [] + Flatten(b, decode).value == Flatten(b, decode).value;
    } else {
      assert (a + b)[0] == a[0];
      assert (a + b)[1..] == a[1..] + b;
      var h := FlattenOne(a[0], decode).value;
      assert Flatten(a[1..], decode).Some?;
      FlattenAppends(a[1..], b, decode);
      var x := Flatten(a[1..], decode).value;
      var y := Flatten(b, decode).value;
      assert h + x + y == h + (x + y);
    }
  }

  // ------------------------------------------------------------ global numbers

  predicate UniqueIds(xs: seq<Entry>)
  {
    forall i, j :: 0 <= i < j < |xs| ==> xs[i].id != xs[j].id
  }

  /** `globalIndices` over the entries in title order: each id is given its position,
      counted from 1, and a later entry with the same id overwrites an earlier one. */
  function Numbers(xs: seq<Entry>): map<string, nat>
  {
    if xs == [] then map[] else Numbers(xs[..|xs| - 1])[xs[|xs| - 1].id := |xs|]
  }

  /** The ids numbered are exactly the entries' ids. */
  lemma {:induction false} NumbersDomain(xs: seq<Entry>)
    ensures forall id :: id in Numbers(xs) <==> exists i :: 0 <= i < |xs| && xs[i].id == id
  {
    if xs != [] {
      var init := xs[..|xs| - 1];
      NumbersDomain(init);
      assert forall i :: 0 <= i < |init| ==> init[i] == xs[i];
      forall id | exists i :: 0 <= i < |xs| && xs[i].id == id ensures id in Numbers(xs) {
        var i :| 0 <= i < |xs| && xs[i].id == id;
        if i < |xs| - 1 {
          assert init[i].id == id;
        }
      }
    }
  }

  /** Each id is numbered with the position of its last entry, counted from 1. */
  lemma {:induction false} NumbersLast(xs: seq<Entry>)
    ensures forall id :: id in Numbers(xs) ==> 1 <= Numbers(xs)[id] <= |xs| && xs[Numbers(xs)[id] - 1].id == id
    ensures forall id, j :: id in Numbers(xs) && Numbers(xs)[id] <= j < |xs| ==> xs[j].id != id
  {
    if xs != [] {
      var init := xs[..|xs| - 1];
      NumbersLast(init);
      assert forall i :: 0 <= i < |init| ==> init[i] == xs[i];
    }
  }

  /** With distinct ids the numbering is a bijection from the ids onto 1..N that follows
      the title order. */
  lemma NumbersBijective(xs: seq<Entry>)
    requires UniqueIds(xs)
    ensures forall i :: 0 <= i < |xs| ==> xs[i].id in Numbers(xs) && Numbers(xs)[xs[i].id] == i + 1
    ensures forall a, b :: a in Numbers(xs) && b in Numbers(xs) && Numbers(xs)[a] == Numbers(xs)[b] ==> a == b
  {
    NumbersPositions(xs);
    NumbersInjective(xs);
  }

  lemma NumbersPositions(xs: seq<Entry>)
    requires UniqueIds(xs)
    ensures forall i :: 0 <= i < |xs| ==> xs[i].id in Numbers(xs) && Numbers(xs)[xs[i].id] == i + 1
  {
    NumbersDomain(xs);
    NumbersLast(xs);
    var m := Numbers(xs);
    forall i | 0 <= i < |xs| ensures xs[i].id in m && m[xs[i].id] == i + 1 {
      var id := xs[i].id;
      assert id in m;
      var k := m[id] - 1;
      assert 0 <= k < |xs| && xs[k].id == id;
    }
  }

  lemma NumbersInjective(xs: seq<Entry>)
    ensures forall a, b :: a in Numbers(xs) && b in Numbers(xs) && Numbers(xs)[a] == Numbers(xs)[b] ==> a == b
  {
    NumbersLast(xs);
  }

  // ------------------------------------------------------------------ grouping

  const OtherGroup := "#"

  /** `song.index || '#'`. */
  function KeyOf(e: Entry): (k: string)
    ensures k != []
  {
    if e.index == [] then OtherGroup else e.index
  }

  function InGroup(k: string): Entry -> bool
  {
    e => KeyOf(e) == k
  }

  /** One group: its entries in title order. */
  function Group(sorted: seq<Entry>, k: string): seq<Entry>
  {
    Seqs.Filter(sorted, InGroup(k))
  }

  function Keys(xs: seq<Entry>): (ks: seq<string>)
    ensures forall k :: k in ks <==> exists e :: e in xs && KeyOf(e) == k
  {
    if xs == [] then []
    else
      var rest := Keys(xs[1..]);
      assert forall e :: e in xs <==> e == xs[0] || e in xs[1..];
      [KeyOf(xs[0])] + rest
  }

  predicate IsLetterKey(k: string)
  {
    k != OtherGroup
  }

  /** The letter keys, each once, in code-unit order (which is the order
      `localeCompare` gives the letters A–Z). */
  function LetterKeys(sorted: seq<Entry>): (ks: seq<string>)
    ensures Artists.StrictlySorted(ks) && Seqs.NoDups(ks)
    ensures forall k :: k in ks <==> k != OtherGroup && exists e :: e in sorted && KeyOf(e) == k
  {
    var ks := Artists.Sort(Seqs.Dedup(Seqs.Filter(Keys(sorted), IsLetterKey)));
    Artists.SortedHasNoDups(ks);
    ks
  }

  /** The group keys in display order: the letter keys, then `#`. */
  function GroupKeys(sorted: seq<Entry>): seq<string>
  {
    LetterKeys(sorted) + if OtherGroup in Keys(sorted) then [OtherGroup] else []
  }

  /** Each key of an entry is shown once. */
  lemma GroupKeysComplete(sorted: seq<Entry>)
    ensures Seqs.NoDups(GroupKeys(sorted))
    ensures forall k :: k in GroupKeys(sorted) <==> exists e :: e in sorted && KeyOf(e) == k
  {
  }

  /** The letter keys come in order and `#`, when shown, comes last. */
  lemma GroupKeysOrder(sorted: seq<Entry>)
    ensures var ks := GroupKeys(sorted);
            && (OtherGroup in ks ==> ks[|ks| - 1] == OtherGroup)
            && Artists.StrictlySorted(Seqs.Filter(ks, IsLetterKey))
  {
    var letters := LetterKeys(sorted);
    var tail := if OtherGroup in Keys(sorted) then [OtherGroup] else [];
    Seqs.FilterAppend(letters, tail, IsLetterKey);
    Seqs.FilterAll(letters, IsLetterKey);
    Seqs.FilterNone(tail, IsLetterKey);
  }

  /** Every entry is in exactly one group, the one of its index or `#`, and that group
      is shown. */
  lemma EachEntryInOneGroup(sorted: seq<Entry>, e: Entry, k: string)
    requires e in sorted
    ensures KeyOf(e) in GroupKeys(sorted)
    ensures e in Group(sorted, k) <==> k == KeyOf(e)
  {
    GroupKeysComplete(sorted);
    assert InGroup(k)(e) <==> k == KeyOf(e);
  }

  // ------------------------------------------------------------- back to a song

  /** `id.split('_')[0]`: the text before the first `_`. */
  function BeforeUnderscore(s: string): (r: string)
    ensures |r| <= |s| && r == s[..|r|]
    ensures forall i :: 0 <= i < |r| ==> r[i] != '_'
    ensures |r| < |s| ==> s[|r|] == '_'
  {
    if s == [] || s[0] == '_' then [] else [s[0]] + BeforeUnderscore(s[1..])
  }

  /** The song an entry belongs to, as deleting and editing find it. */
  function RealId(id: string): string
  {
    if '_' in id then BeforeUnderscore(id) else id
  }

  /** A part leads back to its song exactly when the song's id holds no `_`. */
  lemma RealIdOfPart(songId: string, idx: nat)
    ensures RealId(songId + "_" + ShowNat(idx)) == songId <==> '_' !in songId
  {
    var id := songId + "_" + ShowNat(idx);
    assert id[|songId|] == '_';
    var r := BeforeUnderscore(id);
    if '_' !in songId {
      assert r == songId;
    } else {
      var j :| 0 <= j < |songId| && songId[j] == '_';
      assert id[j] == '_';
    }
  }

  /** An id without `_` is its own song. */
  lemma RealIdOfSong(id: string)
    requires '_' !in id
    ensures RealId(id) == id
  {
  }

  // ------------------------------------------------------------ presentation

  /** The presentation list's entry for a sheet, `/api/file` + the sheet path. */
  function ItemOf(e: Entry): PresentationList.Item
  {
    PresentationList.Item(e.id, e.title, "/api/file" + (if "sheet" in e.files && e.files["sheet"].JStr? then e.files["sheet"].s else ""))
  }

  /** `togglePresentation`: a queued entry is taken off; otherwise it is queued when it
      has a sheet. */
  function Toggle(list: seq<PresentationList.Item>, e: Entry): (r: seq<PresentationList.Item>)
    ensures PresentationList.IsInList(list, e.id) ==> !PresentationList.IsInList(r, e.id)
    ensures !PresentationList.IsInList(list, e.id) && TruthyField(e.files, "sheet") ==> r == list + [ItemOf(e)]
    ensures !PresentationList.IsInList(list, e.id) && !TruthyField(e.files, "sheet") ==> r == list
  {
    if PresentationList.IsInList(list, e.id) then PresentationList.RemoveItem(list, e.id)
    else if TruthyField(e.files, "sheet") then PresentationList.AddItem(list, ItemOf(e))
    else list
  }

  /** Toggling a sheet entry twice gives the list back when it was not queued. */
  lemma ToggleTwice(list: seq<PresentationList.Item>, e: Entry)
    requires !PresentationList.IsInList(list, e.id) && TruthyField(e.files, "sheet")
    ensures Toggle(Toggle(list, e), e) == list
  {
    PresentationList.RemoveUndoesAdd(list, ItemOf(e));
  }
}

=== FILE: song_batch.dfy ===
/** The batch delete of songs: who may call it, which `ids` it accepts, which
    stored files it unlinks for each song, and the count it answers with. The
    song table is a value passed in and the rows left are part of the result;
    unlinking is recorded as the set of storage paths it is attempted on. */
module SongBatch {
  import opened Text
  import opened Js
  import Seqs
  import Permissions

  /** A song row: its id and its `files` column, with what `JSON.parse` makes of the
      column (`None` when it throws). */
  datatype Row = Row(id: string, files: string, parsed: Option<Json>)

  datatype Response = Unauthorized | Forbidden | InvalidIds | ServerError | Deleted(count: nat)

  /** The response, the storage-relative paths unlinking is attempted on, and the rows
      left in the table. */
  datatype Outcome = Outcome(response: Response, unlinked: set<string>, rows: seq<Row>)

  predicate UniqueIds(table: seq<Row>)
  {
    forall i, j :: 0 <= i < j < |table| ==> table[i].id != table[j].id
  }

  // ----------------------------------------------------------- the file paths

  /** `relativePath.replace(/^\//, '')`. */
  function StripSlash(s: string): string
  {
    if |s| > 0 && s[0] == '/' then s[1..] else s
  }

  /** What one key contributes: the elements of an array, otherwise the value itself. */
  function Candidates(v: Json): seq<Json>
  {
    if v.JArr? then v.elems else [v]
  }

  /** The non-empty strings among the values, one leading slash removed. */
  function PathsOf(vs: seq<Json>): (r: set<string>)
    ensures forall p :: p in r <==>
      exists i :: 0 <= i < |vs| && vs[i].JStr? && vs[i].s != "" && p == StripSlash(vs[i].s)
  {
    if vs == [] then {}
    else
      var rest := PathsOf(vs[1..]);
      assert forall i :: 0 < i < |vs| ==> vs[i] == vs[1..][i - 1];
      if vs[0].JStr? && vs[0].s != "" then {StripSlash(vs[0].s)} + rest else rest
  }

  /** The values `files[key]` that `for (const key in files)` visits: an object's
      properties other than `category`, an array's elements, a string's characters;
      other values have no keys. */
  function KeyValues(files: Json): set<Json>
  {
    match files
    case JObj(m) => set k | k in m && k != "category" :: m[k]
    case JArr(xs) => set i | 0 <= i < |xs| :: xs[i]
    case JStr(s) => set i | 0 <= i < |s| :: JStr([s[i]])
    case _ => {}
  }

  /** The paths unlinked for one song: none when `files` is empty or does not parse. */
  function SongPaths(row: Row): set<string>
  {
    if row.files == "" || row.parsed.None? then {}
    else set v, p | v in KeyValues(row.parsed.value) && p in PathsOf(Candidates(v)) :: p
  }

  function AllPaths(rows: seq<Row>): (r: set<string>)
    ensures forall i :: 0 <= i < |rows| ==> SongPaths(rows[i]) <= r
    ensures forall p :: p in r ==> exists i :: 0 <= i < |rows| && p in SongPaths(rows[i])
  {
    if rows == [] then {}
    else
      assert forall i :: 0 < i < |rows| ==> rows[i] == rows[1..][i - 1];
      SongPaths(rows[0]) + AllPaths(rows[1..])
  }

  /** For an object: a path is unlinked exactly when some key other than `category` holds
      it, or an array holding it, as a non-empty string, less one leading slash. */
  lemma ObjectPaths(id: string, text: string, m: map<string, Json>, p: string)
    requires text != ""
    ensures p in SongPaths(Row(id, text, Some(JObj(m)))) <==>
      exists k, s :: k in m && k != "category" && s != "" && p == StripSlash(s)
                     && (m[k] == JStr(s) || (m[k].JArr? && JStr(s) in m[k].elems))
  {
    var row := Row(id, text, Some(JObj(m)));
    if p in SongPaths(row) {
      var v :| v in KeyValues(JObj(m)) && p in PathsOf(Candidates(v));
      var k :| k in m && k != "category" && m[k] == v;
      var i :| 0 <= i < |Candidates(v)| && Candidates(v)[i].JStr? && Candidates(v)[i].s != ""
               && p == StripSlash(Candidates(v)[i].s);
      var s := Candidates(v)[i].s;
      assert m[k] == JStr(s) || (m[k].JArr? && JStr(s) in m[k].elems);
    }
    if exists k, s :: k in m && k != "category" && s != "" && p == StripSlash(s)
                      && (m[k] == JStr(s) || (m[k].JArr? && JStr(s) in m[k].elems)) {
      var k, s :| k in m && k != "category" && s != "" && p == StripSlash(s)
                  && (m[k] == JStr(s) || (m[k].JArr? && JStr(s) in m[k].elems));
      var v := m[k];
      assert v in KeyValues(JObj(m));
      if v == JStr(s) {
        assert Candidates(v)[0] == JStr(s);
      } else {
        var i :| 0 <= i < |v.elems| && v.elems[i] == JStr(s);
        assert Candidates(v)[i] == JStr(s);
      }
      assert p in PathsOf(Candidates(v));
    }
  }

  /** The `category` key never contributes a path, whatever it holds. */
  lemma CategoryIgnored(id: string, text: string, m: map<string, Json>, c: Json)
    ensures SongPaths(Row(id, text, Some(JObj(m["category" := c]))))
            == SongPaths(Row(id, text, Some(JObj(m - {"category"}))))
  {
    var a := m["category" := c];
    var b := m - {"category"};
    forall v | v in KeyValues(JObj(a)) ensures v in KeyValues(JObj(b)) {
      var k :| k in a && k != "category" && a[k] == v;
      assert k in b && b[k] == v;
    }
    forall v | v in KeyValues(JObj(b)) ensures v in KeyValues(JObj(a)) {
      var k :| k in b && k != "category" && b[k] == v;
      assert k in a && a[k] == v;
    }
    assert KeyValues(JObj(a)) == KeyValues(JObj(b));
  }

  /** Exactly one leading slash is removed: `//a` becomes `/a`. */
  lemma StripsOneSlash(s: string)
    ensures StripSlash("/" + s) == s
    ensures |StripSlash(s)| >= |s| - 1
  {
  }

  // -------------------------------------------------------------- the request

  /** `const { ids } = body`: `undefined` unless the body is an object with that key. */
  function IdsField(body: Json): Option<Json>
  {
    if body.JObj? && "ids" in body.fields then Some(body.fields["ids"]) else None
  }

  /** `!ids || !Array.isArray(ids) || ids.length === 0` fails. */
  predicate ValidIds(ids: Option<Json>)
  {
    ids.Some? && ids.value.JArr? && |ids.value.elems| > 0
  }

  /** The ids as strings; `None` when one is not a string, which the database rejects. */
  function IdStrings(xs: seq<Json>): (r: Option<seq<string>>)
    ensures r.None? <==> exists i :: 0 <= i < |xs| && !xs[i].JStr?
    ensures r.Some? ==> |r.value| == |xs| && forall i :: 0 <= i < |xs| ==> xs[i] == JStr(r.value[i])
  {
    if xs == [] then Some([])
    else
      assert forall i :: 0 < i < |xs| ==> xs[i] == xs[1..][i - 1];
      var rest := IdStrings(xs[1..]);
      if !xs[0].JStr? || rest.None? then None else Some([xs[0].s] + rest.value)
  }

  function Doomed(keys: seq<string>): Row -> bool
  {
    (r: Row) => r.id in keys
  }

  function Spared(keys: seq<string>): Row -> bool
  {
    (r: Row) => r.id !in keys
  }

  /** Deleting the rows whose id is one of the keys; the count is the number of rows
      deleted. */
  function Remove(table: seq<Row>, keys: seq<string>): Outcome
  {
    var doomed := Seqs.Filter(table, Doomed(keys));
    Outcome(Deleted(|doomed|), AllPaths(doomed), Seqs.Filter(table, Spared(keys)))
  }

  /** `POST`: the caller must be signed in and allowed to delete a resource without a
      creator; a body that does not parse, or is `null`, fails. */
  function Post(authId: Option<string>, user: Option<Permissions.User>, body: Option<Json>,
                table: seq<Row>): (o: Outcome)
    ensures !o.response.Deleted? ==> o.unlinked == {} && o.rows == table
    ensures o.response.Deleted? ==> authId.Some? && body.Some? && ValidIds(IdsField(body.value))
  {
    if authId.None? then Outcome(Unauthorized, {}, table)
    else if !Permissions.CheckPermission(user, authId.value, Permissions.Delete, None) then Outcome(Forbidden, {}, table)
    else if body.None? || body.value.JNull? then Outcome(ServerError, {}, table)
    else
      var ids := IdsField(body.value);
      if !ValidIds(ids) then Outcome(InvalidIds, {}, table)
      else match IdStrings(ids.value.elems)
        case None => Outcome(ServerError, {}, table)
        case Some(keys) => Remove(table, keys)
  }

  /** A missing, non-array or empty `ids` is a 400 for a caller who may delete. */
  lemma InvalidIdsRejected(authId: string, user: Permissions.User, body: Json, table: seq<Row>)
    requires Permissions.CheckPermission(Some(user), authId, Permissions.Delete, None)
    requires !body.JNull? && !ValidIds(IdsField(body))
    ensures Post(Some(authId), Some(user), Some(body), table).response == InvalidIds
  {
  }

  /** A permitted caller with string ids deletes exactly the rows those ids name. */
  lemma ValidRequestDeletes(authId: string, user: Permissions.User, body: Json, table: seq<Row>, keys: seq<string>)
    requires Permissions.CheckPermission(Some(user), authId, Permissions.Delete, None)
    requires ValidIds(IdsField(body)) && IdStrings(IdsField(body).value.elems) == Some(keys)
    ensures Post(Some(authId), Some(user), Some(body), table) == Remove(table, keys)
  {
  }

  /** A user with the default permissions may delete only their own songs, and the batch
      delete names no creator, so it is refused to them. */
  lemma DefaultUserRefused(authId: string, role: string, body: Option<Json>, table: seq<Row>)
    requires role != "admin"
    ensures Post(Some(authId), Some(Permissions.User(role, Permissions.Text("", None))), body, table).response
            == Forbidden
  {
    Permissions.DefaultUserDeletesOwn(role, authId, None);
  }

  /** What a delete does: the rows left are those whose id is not a key, in order; the
      count and the rows left add up to the table; the paths are those of the deleted
      rows. */
  lemma RemoveEffect(table: seq<Row>, keys: seq<string>)
    ensures var o := Remove(table, keys);
            && o.response.count + |o.rows| == |table|
            && (forall r :: r in o.rows <==> r in table && r.id !in keys)
            && (forall r :: r in table && r.id in keys ==> SongPaths(r) <= o.unlinked)
            && (forall p :: p in o.unlinked ==> exists r :: r in table && r.id in keys && p in SongPaths(r))
  {
    FilterSplits(table, keys);
    var doomed := Seqs.Filter(table, Doomed(keys));
    forall r | r in table && r.id in keys ensures SongPaths(r) <= AllPaths(doomed) {
      var i :| 0 <= i < |doomed| && doomed[i] == r;
    }
  }

  lemma {:induction false} FilterSplits(table: seq<Row>, keys: seq<string>)
    ensures |Seqs.Filter(table, Doomed(keys))| + |Seqs.Filter(table, Spared(keys))| == |table|
  {
    if table != [] {
      FilterSplits(table[1..], keys);
    }
  }

  /** A song whose `files` does not parse is still deleted; it only adds no path. */
  lemma UnparsableStillDeleted(table: seq<Row>, keys: seq<string>, r: Row)
    requires r in table && r.id in keys && r.parsed.None?
    ensures r !in Remove(table, keys).rows
    ensures SongPaths(r) == {}
  {
  }

  /** With unique row ids the count is at most the number of ids, and strictly less when
      some id names no row. */
  lemma CountAtMostIds(table: seq<Row>, keys: seq<string>)
    requires UniqueIds(table)
    ensures Remove(table, keys).response.count <= |keys|
    ensures (exists k :: k in keys && forall r :: r in table ==> r.id != k) ==>
            Remove(table, keys).response.count < |keys|
  {
    var K := set k | k in keys;
    SetOfSeqSize(keys);
    CountBound(table, keys, K);
    if exists k :: k in keys && forall r :: r in table ==> r.id != k {
      var k :| k in keys && forall r :: r in table ==> r.id != k;
      CountBound(table, keys, K - {k});
    }
  }

  lemma {:induction false} SetOfSeqSize(xs: seq<string>)
    ensures |set x | x in xs| <= |xs|
  {
    if xs != [] {
      SetOfSeqSize(xs[1..]);
      assert (set x | x in xs) == {xs[0]} + (set x | x in xs[1..]);
    }
  }

  lemma {:induction false} CountBound(table: seq<Row>, keys: seq<string>, K: set<string>)
    requires UniqueIds(table)
    requires forall i :: 0 <= i < |table| && table[i].id in keys ==> table[i].id in K
    ensures |Seqs.Filter(table, Doomed(keys))| <= |K|
  {
    if table != [] {
      var t := table[1..];
      assert UniqueIds(t) by {
        assert forall i :: 0 <= i < |t| ==> t[i] == table[i + 1];
      }
      if table[0].id in keys {
        assert forall i :: 0 <= i < |t| ==> t[i].id != table[0].id by {
          assert forall i :: 0 <= i < |t| ==> t[i] == table[i + 1];
        }
        CountBound(t, keys, K - {table[0].id});
      } else {
        CountBound(t, keys, K);
      }
    }
  }
}

=== FILE: song_upload.dfy ===
/** The song upload route: form fields and their defaults, the match against an
    existing song, the conflict report, saving the files, and the `files`
    document of an updated or a new song. The database rows are a list; each
    uploaded file comes with the disk's answers to its write attempts. */
module SongUpload {
  import opened Text
  import opened Js
  import Seqs
  import opened Titles
  import opened StoredFiles

  const UnknownArtist := "未知歌手"
  const DefaultCategory := "简谱"

  /** A song row; `files` is the parsed `files` column, `None` when it does not parse. */
  datatype Song = Song(id: string, title: string, uuid: string, artistName: string,
                       albumName: Option<string>, files: Option<Json>)

  /** The form: text fields as sent (`None` when absent) and the files. */
  datatype Form = Form(title: Option<string>, artist: Option<string>, album: Option<string>,
                       category: Option<string>, force: bool,
                       audio: Option<Sent>, image: Option<Sent>, lrcs: seq<Sent>, sheets: seq<Sent>)

  datatype Response =
    | Unauthorized
    | Forbidden
    | BadRequest
    | Conflict(conflicts: seq<string>, uploadedTypes: seq<string>, existingId: string)
    | Success(song: Song)
    | ServerError

  /** The response, the song rows afterwards, the files the request leaves on disk and
      the files it wrote and removed again. */
  datatype Outcome = Outcome(response: Response, rows: seq<Song>, kept: seq<string>, removed: seq<string>)

  // ------------------------------------------------------------------ fields

  /** A blank artist is the unknown artist. */
  function ArtistName(v: Option<string>): (r: string)
    ensures r != []
    ensures FieldText(v) != [] ==> r == FieldText(v)
  {
    var a := FieldText(v);
    if a == [] then UnknownArtist else a
  }

  /** `albumName || null`. */
  function AlbumKey(album: string): (r: Option<string>)
    ensures r.None? <==> album == []
  {
    if album == [] then None else Some(album)
  }

  // ------------------------------------------------------------- the match

  predicate IsMatch(s: Song, artist: string, album: string, normTitle: string)
  {
    s.artistName == artist && s.albumName == AlbumKey(album) && NormalizeTitle(s.title) == normTitle
  }

  function Matches(artist: string, album: string, normTitle: string): Song -> bool
  {
    (s: Song) => IsMatch(s, artist, album, normTitle)
  }

  /** The candidates with this artist and album, searched for the first whose normalised
      title equals the normalised input title. */
  function FindExisting(rows: seq<Song>, artist: string, album: string, normTitle: string): (r: int)
    ensures -1 <= r < |rows|
    ensures r == -1 <==> forall i :: 0 <= i < |rows| ==> !IsMatch(rows[i], artist, album, normTitle)
    ensures r != -1 ==> IsMatch(rows[r], artist, album, normTitle)
                        && forall i :: 0 <= i < r ==> !IsMatch(rows[i], artist, album, normTitle)
  {
    Seqs.FindIndex(rows, Matches(artist, album, normTitle))
  }

  // ------------------------------------------------------ the conflict report

  /** `parseJsonObject`: a stored document that is not an object reads as `{}`. */
  function FilesObject(parsed: Option<Json>): (m: map<string, Json>)
    ensures parsed.Some? && parsed.value.JObj? ==> m == parsed.value.fields
    ensures !(parsed.Some? && parsed.value.JObj?) ==> m == map[]
  {
    if parsed.Some? && parsed.value.JObj? then parsed.value.fields else map[]
  }

  /** A non-empty list under `list`, or a truthy `single`. */
  predicate HasList(files: map<string, Json>, list: string, single: string)
  {
    (list in files && files[list].JArr? && |files[list].elems| > 0) || TruthyField(files, single)
  }

  /** The song already holds a file of this type. */
  predicate Present(files: map<string, Json>, t: string)
  {
    if t == "audio" then TruthyField(files, "audio")
    else if t == "sheet" then HasList(files, "sheets", "sheet")
    else if t == "lrc" then HasList(files, "lrcs", "lrc")
    else TruthyField(files, "image")
  }

  function PresentIn(files: map<string, Json>): string -> bool
  {
    t => Present(files, t)
  }

  /** A one-element list when `c` holds. */
  function Opt(c: bool, t: string): seq<string>
  {
    if c then [t] else []
  }

  /** The types the form uploads, in the order audio, sheet, lrc, image. */
  function UploadedTypes(f: Form): seq<string>
  {
    Opt(f.audio.Some?, "audio") + Opt(|f.sheets| > 0, "sheet")
    + Opt(|f.lrcs| > 0, "lrc") + Opt(f.image.Some?, "image")
  }

  /** The uploaded types the song already holds. */
  function Conflicts(f: Form, files: map<string, Json>): seq<string>
  {
    Opt(f.audio.Some? && Present(files, "audio"), "audio")
    + Opt(|f.sheets| > 0 && Present(files, "sheet"), "sheet")
    + Opt(|f.lrcs| > 0 && Present(files, "lrc"), "lrc")
    + Opt(f.image.Some? && Present(files, "image"), "image")
  }

  lemma FilterOpt(c: bool, t: string, p: string -> bool)
    ensures Seqs.Filter(Opt(c, t), p) == Opt(c && p(t), t)
  {
    if c {
      Seqs.FilterSingle(t, p);
    }
  }

  lemma FilterOpts(c1: bool, c2: bool, c3: bool, c4: bool, t1: string, t2: string, t3: string, t4: string, p: string -> bool)
    ensures Seqs.Filter(Opt(c1, t1) + Opt(c2, t2) + Opt(c3, t3) + Opt(c4, t4), p)
            == Opt(c1 && p(t1), t1) + Opt(c2 && p(t2), t2) + Opt(c3 && p(t3), t3) + Opt(c4 && p(t4), t4)
  {
    Seqs.FilterAppend(Opt(c1, t1) + Opt(c2, t2) + Opt(c3, t3), Opt(c4, t4), p);
    Seqs.FilterAppend3(Opt(c1, t1), Opt(c2, t2), Opt(c3, t3), p);
    FilterOpt(c1, t1, p);
    FilterOpt(c2, t2, p);
    FilterOpt(c3, t3, p);
    FilterOpt(c4, t4, p);
  }

  lemma ConflictsAsFilter(f: Form, files: map<string, Json>)
    ensures Conflicts(f, files) == Seqs.Filter(UploadedTypes(f), PresentIn(files))
  {
    var p := PresentIn(files);
    assert p("audio") == Present(files, "audio");
    assert p("sheet") == Present(files, "sheet");
    assert p("lrc") == Present(files, "lrc");
    assert p("image") == Present(files, "image");
    FilterOpts(f.audio.Some?, |f.sheets| > 0, |f.lrcs| > 0, f.image.Some?, "audio", "sheet", "lrc", "image", p);
  }

  /** The conflicts are exactly the uploaded types the song already holds, in the same
      order: a type is a conflict only if it was uploaded and is present. */
  lemma ConflictsAreUploadedAndPresent(f: Form, files: map<string, Json>)
    ensures Conflicts(f, files) == Seqs.Filter(UploadedTypes(f), PresentIn(files))
    ensures forall t :: t in Conflicts(f, files) <==> t in UploadedTypes(f) && Present(files, t)
  {
    ConflictsAsFilter(f, files);
    var c := Conflicts(f, files);
    var u := UploadedTypes(f);
    forall t ensures t in c <==> t in u && Present(files, t) {
      assert PresentIn(files)(t) == Present(files, t);
    }
  }

  // ------------------------------------------------------------------ saving

  function SaveOne(s: Sent, k: Kind, uuid: string): SaveResult
  {
    SaveFile(s.file, [KindDir(k)], uuid, s.write, s.clock)
  }

  function SaveAll(xs: seq<Sent>, k: Kind, uuid: string): (rs: seq<SaveResult>)
    ensures |rs| == |xs|
    ensures forall i :: 0 <= i < |xs| ==> rs[i] == SaveOne(xs[i], k, uuid)
  {
    if xs == [] then [] else [SaveOne(xs[0], k, uuid)] + SaveAll(xs[1..], k, uuid)
  }

  function SaveOpt(x: Option<Sent>, k: Kind, uuid: string): seq<SaveResult>
  {
    if x.Some? then [SaveOne(x.value, k, uuid)] else []
  }

  /** The saves in the order the route makes them: audio, image, lrcs, sheets. */
  function Attempts(f: Form, uuid: string): seq<SaveResult>
  {
    SaveOpt(f.audio, Audio, uuid) + SaveOpt(f.image, Images, uuid)
    + SaveAll(f.lrcs, Lrc, uuid) + SaveAll(f.sheets, Sheets, uuid)
  }

  predicate AnyFailed(rs: seq<SaveResult>)
  {
    exists i :: 0 <= i < |rs| && rs[i].Failed?
  }

  /** The paths of the saved files, in order (skipped files give none). */
  function SavedUrls(rs: seq<SaveResult>): (us: seq<string>)
    ensures |us| <= |rs|
    ensures forall u :: u in us <==> exists i :: 0 <= i < |rs| && rs[i].Saved? && rs[i].url == u
  {
    if rs == [] then []
    else
      var rest := SavedUrls(rs[1..]);
      assert forall i :: 1 <= i < |rs| ==> rs[i] == rs[1..][i - 1];
      if rs[0].Saved? then [rs[0].url] + rest else rest
  }

  /** The position of the first failed save. */
  function FirstFailed(rs: seq<SaveResult>): (j: nat)
    requires AnyFailed(rs)
    ensures j < |rs| && rs[j].Failed?
    ensures forall i :: 0 <= i < j ==> !rs[i].Failed?
  {
    if rs[0].Failed? then 0
    else
      assert AnyFailed(rs[1..]) by {
        var i :| 0 <= i < |rs| && rs[i].Failed?;
        assert rs[1..][i - 1].Failed?;
      }
      1 + FirstFailed(rs[1..])
  }

  /** The files written, one save after the other, until a save throws: what the error
      handler removes. With no failure these are all the saved files; with one, the
      files saved before the first failure. */
  function WrittenBeforeFailure(rs: seq<SaveResult>): (us: seq<string>)
    ensures !AnyFailed(rs) ==> us == SavedUrls(rs)
    ensures AnyFailed(rs) ==> us == SavedUrls(rs[..FirstFailed(rs)])
  {
    if rs == [] then []
    else if rs[0].Failed? then []
    else
      assert AnyFailed(rs) <==> AnyFailed(rs[1..]) by {
        if AnyFailed(rs[1..]) {
          var i :| 0 <= i < |rs[1..]| && rs[1..][i].Failed?;
          assert rs[i + 1].Failed?;
        }
        if AnyFailed(rs) {
          var i :| 0 <= i < |rs| && rs[i].Failed?;
          assert rs[1..][i - 1].Failed?;
        }
      }
      var rest := WrittenBeforeFailure(rs[1..]);
      assert AnyFailed(rs) ==> rs[..FirstFailed(rs)][1..] == rs[1..][..FirstFailed(rs[1..])];
      if rs[0].Saved? then [rs[0].url] + rest else rest
  }

  /** What `savedFiles` holds: for a single file, whether the form held one and the path
      it was saved under (`null` when skipped); for lists, the saved paths. */
  datatype SavedFiles = SavedFiles(audio: Option<Option<string>>, image: Option<Option<string>>,
                                   lrcs: seq<string>, sheets: seq<string>)

  function UrlOf(r: SaveResult): Option<string>
  {
    if r.Saved? then Some(r.url) else None
  }

  function Saved(f: Form, uuid: string): SavedFiles
  {
    SavedFiles(
      if f.audio.Some? then Some(UrlOf(SaveOne(f.audio.value, Audio, uuid))) else None,
      if f.image.Some? then Some(UrlOf(SaveOne(f.image.value, Images, uuid))) else None,
      SavedUrls(SaveAll(f.lrcs, Lrc, uuid)),
      SavedUrls(SaveAll(f.sheets, Sheets, uuid)))
  }

  // ---------------------------------------------------------- the files document

  function Strs(xs: seq<string>): (r: seq<Json>)
    ensures |r| == |xs|
    ensures forall i :: 0 <= i < |xs| ==> r[i] == JStr(xs[i])
  {
    if xs == [] then [] else [JStr(xs[0])] + Strs(xs[1..])
  }

  /** The characters of a string, each as a one-character string. */
  function Chars(s: string): (r: seq<Json>)
    ensures |r| == |s|
    ensures forall i :: 0 <= i < |s| ==> r[i] == JStr([s[i]])
  {
    if s == [] then [] else [JStr([s[0]])] + Chars(s[1..])
  }

  function Lookup(m: map<string, Json>, k: string): Option<Json>
  {
    if k in m then Some(m[k]) else None
  }

  /** `(v as string[]) || []` spread into an array: a missing or falsy value gives
      nothing, an array its elements, a string its characters, and any other value
      throws because it is not iterable. */
  function SpreadList(v: Option<Json>): (r: Option<seq<Json>>)
    ensures v.None? ==> r == Some([])
    ensures v.Some? && v.value.JArr? ==> r == Some(v.value.elems)
    ensures v.Some? && v.value.JStr? ==> r == Some(Chars(v.value.s))
    ensures r.None? <==> v.Some? && Truthy(v.value) && !v.value.JArr? && !v.value.JStr?
  {
    if v.None? || !Truthy(v.value) then Some([])
    else match v.value
      case JArr(es) => Some(es)
      case JStr(s) => Some(Chars(s))
      case _ => None
  }

  /** Adding to the list under `list` throws because the stored value cannot be spread. */
  predicate BadList(m: map<string, Json>, list: string, added: seq<string>)
  {
    |added| > 0 && SpreadList(Lookup(m, list)).None?
  }

  /** The keys of the files document the route writes. */
  predicate IsFileKey(k: string)
  {
    k == "audio" || k == "image" || k == "lrcs" || k == "lrc" || k == "sheets" || k == "sheet" || k == "category"
  }

  /** `if (saved) files[key] = saved`: only this key changes. */
  function SetSaved(m: map<string, Json>, key: string, v: Option<Option<string>>): (r: map<string, Json>)
    ensures forall k :: k in m ==> k in r
    ensures forall k :: k in r && k != key ==> k in m && r[k] == m[k]
    ensures v.Some? && v.value.Some? ==> key in r && r[key] == JStr(v.value.value)
    ensures !(v.Some? && v.value.Some?) ==> r == m
  {
    if v.Some? && v.value.Some? then m[key := JStr(v.value.value)] else m
  }

  /** When files were added, the list under `list` becomes the stored entries followed by
      the new paths with repeats dropped, and `single` becomes the first new path; only
      these two keys change. */
  function MergeList(m: map<string, Json>, list: string, single: string, added: seq<string>): (r: Option<map<string, Json>>)
    requires list != single
    ensures r.None? <==> BadList(m, list, added)
    ensures |added| == 0 ==> r == Some(m)
    ensures r.Some? ==> forall k :: k in m ==> k in r.value
    ensures r.Some? ==> forall k :: k in r.value && k != list && k != single ==> k in m && r.value[k] == m[k]
    ensures r.Some? && |added| > 0 ==>
      && single in r.value && r.value[single] == JStr(added[0])
      && list in r.value && r.value[list] == JArr(Seqs.Dedup(SpreadList(Lookup(m, list)).value + Strs(added)))
  {
    if |added| == 0 then Some(m)
    else
      var existing := SpreadList(Lookup(m, list));
      if existing.None? then None
      else Some(m[list := JArr(Seqs.Dedup(existing.value + Strs(added)))][single := JStr(added[0])])
  }

  /** `if (category) files.category = category`. */
  function SetCategory(m: map<string, Json>, category: string): (r: map<string, Json>)
    ensures forall k :: k in m ==> k in r
    ensures forall k :: k in r && k != "category" ==> k in m && r[k] == m[k]
    ensures category != [] ==> "category" in r && r["category"] == JStr(category)
    ensures category == [] ==> r == m
  {
    if category != [] then m["category" := JStr(category)] else m
  }

  /** The `files` document of an updated song. */
  function UpdateFiles(current: map<string, Json>, saved: SavedFiles, category: string): (r: Option<map<string, Json>>)
    ensures r.None? <==> BadList(current, "lrcs", saved.lrcs) || BadList(current, "sheets", saved.sheets)
    ensures r.Some? ==> forall k :: k in current ==> k in r.value
    ensures r.Some? ==> forall k :: k in r.value && !IsFileKey(k) ==> k in current && r.value[k] == current[k]
  {
    var a := SetSaved(current, "audio", saved.audio);
    var b := SetSaved(a, "image", saved.image);
    var c := MergeList(b, "lrcs", "lrc", saved.lrcs);
    if c.None? then None
    else
      assert Lookup(c.value, "sheets") == Lookup(current, "sheets");
      var d := MergeList(c.value, "sheets", "sheet", saved.sheets);
      if d.None? then None
      else Some(SetCategory(d.value, category))
  }

  /** The `files` document of a new song: the saved files and the category, `简谱` when
      none is given. A file field sent empty is stored as `null`. */
  function NewFiles(saved: SavedFiles, category: string): (m: map<string, Json>)
    ensures "category" in m && m["category"] == JStr(if category != [] then category else DefaultCategory)
    ensures "audio" in m <==> saved.audio.Some?
    ensures "image" in m <==> saved.image.Some?
    ensures "lrcs" in m <==> |saved.lrcs| > 0
    ensures "sheets" in m <==> |saved.sheets| > 0
    ensures forall k :: k in m ==> IsFileKey(k)
  {
    var a: map<string, Json> := if saved.audio.Some? then map["audio" := if saved.audio.value.Some? then JStr(saved.audio.value.value) else JNull] else map[];
    var b := if saved.image.Some? then a["image" := if saved.image.value.Some? then JStr(saved.image.value.value) else JNull] else a;
    var c := if |saved.lrcs| > 0 then b["lrcs" := JArr(Strs(saved.lrcs))]["lrc" := JStr(saved.lrcs[0])] else b;
    var d := if |saved.sheets| > 0 then c["sheets" := JArr(Strs(saved.sheets))]["sheet" := JStr(saved.sheets[0])] else c;
    d["category" := JStr(if category != [] then category else DefaultCategory)]
  }

  /** What the new document holds under each file key: the saved path, `null` for a
      field sent empty, and the first lyric and sheet besides the lists. */
  lemma NewFilesValues(saved: SavedFiles, category: string)
    ensures var m := NewFiles(saved, category);
            && (saved.audio.Some? ==> m["audio"] == if saved.audio.value.Some? then JStr(saved.audio.value.value) else JNull)
            && (saved.image.Some? ==> m["image"] == if saved.image.value.Some? then JStr(saved.image.value.value) else JNull)
            && (|saved.lrcs| > 0 ==> m["lrcs"] == JArr(Strs(saved.lrcs)) && "lrc" in m && m["lrc"] == JStr(saved.lrcs[0]))
            && (|saved.sheets| > 0 ==> m["sheets"] == JArr(Strs(saved.sheets)) && "sheet" in m && m["sheet"] == JStr(saved.sheets[0]))
  {
  }

  // ------------------------------------------------------------------- the route

  /** The trimmed text fields, with the unknown artist for a blank artist and the
      normalised title. */
  datatype Fields = Fields(title: string, norm: string, artist: string, album: string, category: string)

  function ReadFields(f: Form): (d: Fields)
    ensures d.title == FieldText(f.title) && d.norm == NormalizeTitle(d.title)
    ensures d.artist == ArtistName(f.artist) && d.album == FieldText(f.album) && d.category == FieldText(f.category)
  {
    var title := FieldText(f.title);
    Fields(title, NormalizeTitle(title), ArtistName(f.artist), FieldText(f.album), FieldText(f.category))
  }

  /** The song the upload matches, or -1. */
  function MatchOf(f: Form, rows: seq<Song>): (i: int)
    ensures -1 <= i < |rows|
    ensures var d := ReadFields(f);
            i == -1 <==> forall j :: 0 <= j < |rows| ==> !IsMatch(rows[j], d.artist, d.album, d.norm)
    ensures var d := ReadFields(f);
            i != -1 ==> IsMatch(rows[i], d.artist, d.album, d.norm)
                        && forall j :: 0 <= j < i ==> !IsMatch(rows[j], d.artist, d.album, d.norm)
  {
    var d := ReadFields(f);
    FindExisting(rows, d.artist, d.album, d.norm)
  }

  /** The folder the files of an accepted upload go to: the matched song's storage id
      when it has one, a fresh one otherwise. */
  function StorageId(rows: seq<Song>, i: int, newUuid: string): string
    requires -1 <= i < |rows|
  {
    if i != -1 && rows[i].uuid != [] then rows[i].uuid else newUuid
  }

  /** `POST /api/upload`. `newId` and `newUuid` are the identifiers the database and
      `uuidv4` would hand out. */
  function Post(user: Option<string>, canUpload: bool, f: Form, rows: seq<Song>, newId: string, newUuid: string): (o: Outcome)
    ensures user.None? ==> o == Outcome(Unauthorized, rows, [], [])
    ensures user.Some? && !canUpload ==> o == Outcome(Forbidden, rows, [], [])
    ensures !o.response.Success? ==> o.rows == rows && o.kept == []
    ensures o.response.Success? ==> o.removed == []
  {
    if user.None? then Outcome(Unauthorized, rows, [], [])
    else if !canUpload then Outcome(Forbidden, rows, [], [])
    else
      var d := ReadFields(f);
      if d.title == [] then Outcome(BadRequest, rows, [], [])
      else
        var i := MatchOf(f, rows);
        if i != -1 && !f.force then
          Outcome(Conflict(Conflicts(f, FilesObject(rows[i].files)), UploadedTypes(f), rows[i].id), rows, [], [])
        else Store(f, d, rows, i, newId, newUuid)
  }

  /** The accepted upload: save the files, then update the matched song or create one. */
  function Store(f: Form, d: Fields, rows: seq<Song>, i: int, newId: string, newUuid: string): (o: Outcome)
    requires -1 <= i < |rows|
    ensures o.response.Success? || o.response == ServerError
    ensures !o.response.Success? ==> o.rows == rows && o.kept == []
    ensures o.response.Success? ==> o.removed == []
  {
    var uuid := StorageId(rows, i, newUuid);
    var rs := Attempts(f, uuid);
    if AnyFailed(rs) then Outcome(ServerError, rows, [], WrittenBeforeFailure(rs))
    else
      var saved := Saved(f, uuid);
      if i != -1 then
        var files := UpdateFiles(FilesObject(rows[i].files), saved, d.category);
        if files.None? then Outcome(ServerError, rows, [], SavedUrls(rs))
        else
          var song := rows[i].(title := d.norm, uuid := uuid, files := Some(JObj(files.value)),
                               artistName := d.artist, albumName := AlbumKey(d.album));
          Outcome(Success(song), rows[i := song], SavedUrls(rs), [])
      else
        var song := Song(newId, d.norm, newUuid, d.artist, AlbumKey(d.album), Some(JObj(NewFiles(saved, d.category))));
        Outcome(Success(song), rows + [song], SavedUrls(rs), [])
  }

  // ------------------------------------------------------------ route properties

  predicate Authorized(user: Option<string>, canUpload: bool)
  {
    user.Some? && canUpload
  }

  /** A title that is blank after trimming is rejected before anything is written. */
  lemma BlankTitleRejected(user: Option<string>, canUpload: bool, f: Form, rows: seq<Song>, newId: string, newUuid: string)
    requires Authorized(user, canUpload) && FieldText(f.title) == []
    ensures Post(user, canUpload, f, rows, newId, newUuid) == Outcome(BadRequest, rows, [], [])
  {
  }

  /** A conflict is reported exactly when the upload is not forced and a song with the
      same artist, album and normalised title exists. */
  lemma ConflictIff(user: Option<string>, canUpload: bool, f: Form, rows: seq<Song>, newId: string, newUuid: string)
    requires Authorized(user, canUpload) && FieldText(f.title) != []
    ensures Post(user, canUpload, f, rows, newId, newUuid).response.Conflict? <==> !f.force && MatchOf(f, rows) != -1
  {
    if !f.force && MatchOf(f, rows) != -1 {
      ConflictOutcome(user, canUpload, f, rows, newId, newUuid);
    } else {
      AcceptedIsNoConflict(user, canUpload, f, rows, newId, newUuid);
    }
  }

  lemma AcceptedIsNoConflict(user: Option<string>, canUpload: bool, f: Form, rows: seq<Song>, newId: string, newUuid: string)
    requires Authorized(user, canUpload) && FieldText(f.title) != []
    requires f.force || MatchOf(f, rows) == -1
    ensures !Post(user, canUpload, f, rows, newId, newUuid).response.Conflict?
  {
    AcceptedIsStored(user, canUpload, f, rows, newId, newUuid);
    StoreNeverConflicts(f, ReadFields(f), rows, MatchOf(f, rows), newId, newUuid);
  }

  lemma StoreNeverConflicts(f: Form, d: Fields, rows: seq<Song>, i: int, newId: string, newUuid: string)
    requires -1 <= i < |rows|
    ensures !Store(f, d, rows, i, newId, newUuid).response.Conflict?
  {
    var o := Store(f, d, rows, i, newId, newUuid);
    assert o.response.Success? || o.response == ServerError;
  }

  /** The report names the first matching song and lists the uploaded types it already
      holds; nothing is written and no row changes. */
  lemma ConflictReported(user: Option<string>, canUpload: bool, f: Form, rows: seq<Song>, newId: string, newUuid: string)
    requires Authorized(user, canUpload) && FieldText(f.title) != []
    requires !f.force && MatchOf(f, rows) != -1
    ensures var o := Post(user, canUpload, f, rows, newId, newUuid);
            var i := MatchOf(f, rows);
            && o.response.Conflict?
            && o.response.existingId == rows[i].id
            && o.response.uploadedTypes == UploadedTypes(f)
            && (forall t :: t in o.response.conflicts <==> t in UploadedTypes(f) && Present(FilesObject(rows[i].files), t))
            && o.rows == rows && o.kept == [] && o.removed == []
  {
    ConflictOutcome(user, canUpload, f, rows, newId, newUuid);
    ConflictsAreUploadedAndPresent(f, FilesObject(rows[MatchOf(f, rows)].files));
  }

  lemma ConflictOutcome(user: Option<string>, canUpload: bool, f: Form, rows: seq<Song>, newId: string, newUuid: string)
    requires Authorized(user, canUpload) && FieldText(f.title) != []
    requires !f.force && MatchOf(f, rows) != -1
    ensures var i := MatchOf(f, rows);
            Post(user, canUpload, f, rows, newId, newUuid)
              == Outcome(Conflict(Conflicts(f, FilesObject(rows[i].files)), UploadedTypes(f), rows[i].id), rows, [], [])
  {
  }

  /** Past the checks, the upload is stored: under the matched song, or as a new one. */
  lemma AcceptedIsStored(user: Option<string>, canUpload: bool, f: Form, rows: seq<Song>, newId: string, newUuid: string)
    requires Authorized(user, canUpload) && FieldText(f.title) != []
    requires f.force || MatchOf(f, rows) == -1
    ensures Post(user, canUpload, f, rows, newId, newUuid) == Store(f, ReadFields(f), rows, MatchOf(f, rows), newId, newUuid)
  {
  }

  /** When a save fails, the request answers 500, leaves the rows alone and removes the
      files saved before the failure. */
  lemma FailedSaveRollsBack(f: Form, d: Fields, rows: seq<Song>, i: int, newId: string, newUuid: string)
    requires -1 <= i < |rows|
    requires AnyFailed(Attempts(f, StorageId(rows, i, newUuid)))
    ensures var rs := Attempts(f, StorageId(rows, i, newUuid));
            Store(f, d, rows, i, newId, newUuid) == Outcome(ServerError, rows, [], SavedUrls(rs[..FirstFailed(rs)]))
  {
  }

  /** Storing onto an existing song replaces that row only: same id, the normalised
      title, the storage id kept when it had one, and the merged files. When the stored
      lists cannot be merged, the saved files are removed again. */
  lemma ForcedUploadUpdates(f: Form, d: Fields, rows: seq<Song>, i: int, newId: string, newUuid: string)
    requires 0 <= i < |rows|
    requires !AnyFailed(Attempts(f, StorageId(rows, i, newUuid)))
    ensures var o := Store(f, d, rows, i, newId, newUuid);
            var uuid := StorageId(rows, i, newUuid);
            var files := UpdateFiles(FilesObject(rows[i].files), Saved(f, uuid), d.category);
            && (files.None? ==> o == Outcome(ServerError, rows, [], SavedUrls(Attempts(f, uuid))))
            && (files.Some? ==>
                  && o.response.Success?
                  && |o.rows| == |rows|
                  && o.rows[i] == o.response.song
                  && (forall j :: 0 <= j < |rows| && j != i ==> o.rows[j] == rows[j])
                  && o.response.song.id == rows[i].id
                  && o.response.song.title == d.norm
                  && (rows[i].uuid != [] ==> o.response.song.uuid == rows[i].uuid)
                  && o.response.song.files == Some(JObj(files.value))
                  && o.kept == SavedUrls(Attempts(f, uuid)))
  {
  }

  /** An upload that matches no song appends one new row with the defaults filled in. */
  lemma NewSongCreated(user: Option<string>, canUpload: bool, f: Form, rows: seq<Song>, newId: string, newUuid: string)
    requires Authorized(user, canUpload) && FieldText(f.title) != []
    requires MatchOf(f, rows) == -1
    requires !AnyFailed(Attempts(f, newUuid))
    ensures var o := Post(user, canUpload, f, rows, newId, newUuid);
            var category := FieldText(f.category);
            && o.response.Success?
            && o.rows == rows + [o.response.song]
            && o.response.song.uuid == newUuid
            && o.response.song.title == NormalizeTitle(FieldText(f.title))
            && (FieldText(f.artist) == [] ==> o.response.song.artistName == UnknownArtist)
            && (FieldText(f.album) == [] ==> o.response.song.albumName.None?)
            && o.response.song.files.Some? && o.response.song.files.value.JObj?
            && "category" in o.response.song.files.value.fields
            && o.response.song.files.value.fields["category"] == JStr(if category != [] then category else DefaultCategory)
            && o.kept == SavedUrls(Attempts(f, newUuid)) && o.removed == []
  {
    AcceptedIsStored(user, canUpload, f, rows, newId, newUuid);
  }

  /** Updating a song's lrc files keeps a duplicate-free stored list as the prefix of the
      new list, adds each new path once, and makes the first new path the default. */
  lemma UpdateMergesLrcs(current: map<string, Json>, saved: SavedFiles, category: string)
    requires |saved.lrcs| > 0 && UpdateFiles(current, saved, category).Some?
    requires "lrcs" in current && current["lrcs"].JArr? && Seqs.NoDups(current["lrcs"].elems)
    ensures var r := UpdateFiles(current, saved, category).value;
            var existing := current["lrcs"].elems;
            && "lrcs" in r && r["lrcs"].JArr?
            && |existing| <= |r["lrcs"].elems|
            && r["lrcs"].elems[..|existing|] == existing
            && Seqs.NoDups(r["lrcs"].elems)
            && (forall x :: x in r["lrcs"].elems <==> x in existing || x in Strs(saved.lrcs))
            && "lrc" in r && r["lrc"] == JStr(saved.lrcs[0])
  {
    var existing := current["lrcs"].elems;
    var a := SetSaved(current, "audio", saved.audio);
    var b := SetSaved(a, "image", saved.image);
    assert Lookup(b, "lrcs") == Some(current["lrcs"]);
    var c := MergeList(b, "lrcs", "lrc", saved.lrcs);
    assert c.value["lrcs"] == JArr(Seqs.Dedup(existing + Strs(saved.lrcs)));
    Seqs.MergedListKeepsExisting(existing, Strs(saved.lrcs));
  }

  /** Updating a song's sheets follows the same rule as its lrc files. */
  lemma UpdateMergesSheets(current: map<string, Json>, saved: SavedFiles, category: string)
    requires |saved.sheets| > 0 && UpdateFiles(current, saved, category).Some?
    requires "sheets" in current && current["sheets"].JArr? && Seqs.NoDups(current["sheets"].elems)
    ensures var r := UpdateFiles(current, saved, category).value;
            var existing := current["sheets"].elems;
            && "sheets" in r && r["sheets"].JArr?
            && |existing| <= |r["sheets"].elems|
            && r["sheets"].elems[..|existing|] == existing
            && Seqs.NoDups(r["sheets"].elems)
            && (forall x :: x in r["sheets"].elems <==> x in existing || x in Strs(saved.sheets))
            && "sheet" in r && r["sheet"] == JStr(saved.sheets[0])
  {
    var existing := current["sheets"].elems;
    var a := SetSaved(current, "audio", saved.audio);
    var b := SetSaved(a, "image", saved.image);
    var c := MergeList(b, "lrcs", "lrc", saved.lrcs);
    assert Lookup(c.value, "sheets") == Some(current["sheets"]);
    var d := MergeList(c.value, "sheets", "sheet", saved.sheets);
    assert d.value["sheets"] == JArr(Seqs.Dedup(existing + Strs(saved.sheets)));
    Seqs.MergedListKeepsExisting(existing, Strs(saved.sheets));
  }

  /** A saved audio or cover replaces the stored one, a given category replaces the
      stored one, and an absent category leaves it. */
  lemma UpdateReplacesSingles(current: map<string, Json>, saved: SavedFiles, category: string)
    requires UpdateFiles(current, saved, category).Some?
    ensures var r := UpdateFiles(current, saved, category).value;
            && (saved.audio.Some? && saved.audio.value.Some? ==> "audio" in r && r["audio"] == JStr(saved.audio.value.value))
            && (!(saved.audio.Some? && saved.audio.value.Some?) && "audio" in current ==> r["audio"] == current["audio"])
            && (saved.image.Some? && saved.image.value.Some? ==> "image" in r && r["image"] == JStr(saved.image.value.value))
            && (category != [] ==> "category" in r && r["category"] == JStr(category))
            && (category == [] && "category" in current ==> r["category"] == current["category"])
  {
    var a := SetSaved(current, "audio", saved.audio);
    var b := SetSaved(a, "image", saved.image);
    var c := MergeList(b, "lrcs", "lrc", saved.lrcs).value;
    var d := MergeList(c, "sheets", "sheet", saved.sheets).value;
    assert UpdateFiles(current, saved, category).value == SetCategory(d, category);
    assert "audio" in a ==> "audio" in d && d["audio"] == a["audio"];
    assert "image" in b ==> "image" in d && d["image"] == b["image"];
    assert "category" in current ==> "category" in d && d["category"] == current["category"];
  }
}

=== FILE: stored_files.dfy ===
/** `saveFile` of the two upload routes: where an uploaded file is written, the
    names it tries when a name is taken, and the URL path it returns. The disk
    is an oracle that answers each write attempt; the clock gives the
    millisecond timestamp of each attempt. */
module StoredFiles {
  import opened Text
  import opened Js
  import opened Sanitize

  const MaxAttempts := 5

  /** An uploaded file: its base name and its size in bytes. */
  datatype Upload = Upload(name: string, size: nat)

  /** What the disk answers to an exclusive write (`flag: 'wx'`). */
  datatype WriteResult = Written | Exists | WriteError

  /** An uploaded file with the disk's answer to each write attempt and the clock at
      each attempt. */
  datatype Sent = Sent(file: Upload, write: nat -> WriteResult, clock: nat -> nat)

  /** `null` for an empty file, the URL path and the attempt that wrote it, or a thrown
      error. */
  datatype SaveResult = Skipped | Saved(url: string, attempt: nat) | Failed

  /** `path.parse(name)` for a name without `/`: the extension starts at the last dot,
      unless that dot is the first character or the name is `..`. */
  function SplitExt(f: string): (r: (string, string))
    ensures r.0 + r.1 == f
    ensures r.1 == [] || r.1[0] == '.'
  {
    var i := LastIndexOfChar(f, '.');
    if i <= 0 || f == ".." then (f, [])
    else
      assert f == f[..i] + f[i..];
      (f[..i], f[i..])
  }

  /** The name tried at an attempt: the file name first, then
      `${name}_${timestamp}_${attempt}${ext}`. */
  function Candidate(fileName: string, attempt: nat, now: nat): (r: string)
    ensures attempt == 0 ==> r == fileName
    ensures attempt > 0 ==> var (name, ext) := SplitExt(fileName);
      r == name + "_" + ShowNat(now) + "_" + ShowNat(attempt) + ext
  {
    if attempt == 0 then fileName
    else
      var (name, ext) := SplitExt(fileName);
      name + "_" + ShowNat(now) + "_" + ShowNat(attempt) + ext
  }

  /** The URL path returned for a file written under the given directories and group:
      `/` + sanitised directories joined by `/` + `/` + sanitised group + `/` + name. */
  function UrlPath(dirParts: seq<string>, groupId: string, candidate: string): string
  {
    "/" + Join(FolderNames(dirParts), "/") + "/" + FolderName(groupId) + "/" + candidate
  }

  function FolderNames(parts: seq<string>): (r: seq<string>)
    ensures |r| == |parts|
    ensures forall i :: 0 <= i < |parts| ==> r[i] == FolderName(parts[i])
  {
    if parts == [] then [] else [FolderName(parts[0])] + FolderNames(parts[1..])
  }

  /** The attempts from `k` on: a taken name moves on to the next attempt, any other
      error is thrown, and after five attempts the save fails. */
  function TryFrom(k: nat, fileName: string, dirParts: seq<string>, groupId: string,
                   write: nat -> WriteResult, clock: nat -> nat): (r: SaveResult)
    ensures r.Saved? ==> k <= r.attempt < MaxAttempts && write(r.attempt) == Written
    ensures r.Saved? ==> forall j :: k <= j < r.attempt ==> write(j) == Exists
    ensures r.Saved? ==> r.url == UrlPath(dirParts, groupId, Candidate(fileName, r.attempt, clock(r.attempt)))
    ensures r.Failed? <==> !r.Saved?
    ensures r.Failed? ==> (forall j :: k <= j < MaxAttempts ==> write(j) == Exists)
                          || (exists j :: k <= j < MaxAttempts && write(j) == WriteError
                                && forall i :: k <= i < j ==> write(i) == Exists)
    decreases MaxAttempts - k
  {
    if k >= MaxAttempts then Failed
    else match write(k)
      case Written => Saved(UrlPath(dirParts, groupId, Candidate(fileName, k, clock(k))), k)
      case WriteError => Failed
      case Exists => TryFrom(k + 1, fileName, dirParts, groupId, write, clock)
  }

  /** `saveFile`: an empty file is not written; otherwise the sanitised name is tried
      first, and the returned path names the attempt that was written. The name is
      sanitised by the corrected rule `SafeFileName`, which never keeps a leading dot. */
  function SaveFile(file: Upload, dirParts: seq<string>, groupId: string,
                    write: nat -> WriteResult, clock: nat -> nat): (r: SaveResult)
    ensures file.size == 0 <==> r.Skipped?
    ensures file.size > 0 && write(0) == Written ==>
      r == Saved(UrlPath(dirParts, groupId, SafeFileName(file.name)), 0)
    ensures r.Saved? ==> r.attempt < MaxAttempts && write(r.attempt) == Written
                         && forall j :: 0 <= j < r.attempt ==> write(j) == Exists
  {
    if file.size == 0 then Skipped
    else TryFrom(0, SafeFileName(file.name), dirParts, groupId, write, clock)
  }

  /** Five taken names in a row make the save fail: there is no sixth attempt. */
  lemma AtMostFiveAttempts(file: Upload, dirParts: seq<string>, groupId: string,
                           write: nat -> WriteResult, clock: nat -> nat)
    requires file.size > 0
    requires forall j :: 0 <= j < MaxAttempts ==> write(j) == Exists
    ensures SaveFile(file, dirParts, groupId, write, clock) == Failed
  {
  }

  /** A write error other than a taken name is not retried. */
  lemma OtherErrorsAreThrown(file: Upload, dirParts: seq<string>, groupId: string,
                             write: nat -> WriteResult, clock: nat -> nat, k: nat)
    requires file.size > 0 && k < MaxAttempts && write(k) == WriteError
    requires forall j :: 0 <= j < k ==> write(j) == Exists
    ensures SaveFile(file, dirParts, groupId, write, clock) == Failed
  {
    TriesUpTo(0, k, SafeFileName(file.name), dirParts, groupId, write, clock);
  }

  lemma {:induction false} TriesUpTo(k: nat, m: nat, fileName: string, dirParts: seq<string>, groupId: string,
                                     write: nat -> WriteResult, clock: nat -> nat)
    requires k <= m < MaxAttempts && write(m) == WriteError
    requires forall j :: k <= j < m ==> write(j) == Exists
    ensures TryFrom(k, fileName, dirParts, groupId, write, clock) == Failed
    decreases m - k
  {
    if k < m {
      TriesUpTo(k + 1, m, fileName, dirParts, groupId, write, clock);
    }
  }

  predicate NoSlash(s: string)
  {
    forall i :: 0 <= i < |s| ==> s[i] != '/'
  }

  lemma ShowNatNoSlash(n: nat)
    ensures NoSlash(ShowNat(n))
  {
    ShowNatValue(n);
  }

  /** No attempted name holds a `/`. */
  lemma CandidateNoSlash(fileName: string, attempt: nat, now: nat)
    requires NoSlash(fileName)
    ensures NoSlash(Candidate(fileName, attempt, now))
  {
    if attempt > 0 {
      var (name, ext) := SplitExt(fileName);
      assert NoSlash(name) && NoSlash(ext) by {
        assert forall i :: 0 <= i < |name| ==> name[i] == fileName[i];
        assert forall i :: 0 <= i < |ext| ==> ext[i] == fileName[|name| + i];
      }
      ShowNatNoSlash(now);
      ShowNatNoSlash(attempt);
    }
  }

  lemma SafeFileNameNoSlash(base: string)
    ensures NoSlash(SafeFileName(base))
  {
  }

  predicate IsDirChar(c: char)
  {
    IsFolderChar(c) || c == '/'
  }

  predicate AllDirChars(s: string)
  {
    forall i :: 0 <= i < |s| ==> IsDirChar(s[i])
  }

  lemma {:induction false} JoinedFolderNames(parts: seq<string>)
    ensures AllDirChars(Join(FolderNames(parts), "/"))
  {
    if |parts| == 1 {
      assert Join(FolderNames(parts), "/") == FolderName(parts[0]);
    } else if |parts| > 1 {
      JoinedFolderNames(parts[1..]);
      assert FolderNames(parts)[1..] == FolderNames(parts[1..]);
      var head := FolderName(parts[0]);
      var rest := Join(FolderNames(parts[1..]), "/");
      assert AllDirChars(rest);
      var s := head + "/" + rest;
      assert Join(FolderNames(parts), "/") == s;
      forall i | 0 <= i < |s| ensures IsDirChar(s[i]) {
        if i < |head| {
          assert s[i] == head[i];
        } else if i > |head| {
          assert s[i] == rest[i - |head| - 1];
        } else {
          assert s[i] == '/';
        }
      }
    }
  }

  /** The file name can be read back from a returned path: it is what follows the last
      `/`, and everything before it is made of folder characters and `/`. */
  lemma UrlPathShape(dirParts: seq<string>, groupId: string, candidate: string)
    requires NoSlash(candidate)
    ensures var url := UrlPath(dirParts, groupId, candidate);
            var cut := |url| - |candidate| - 1;
            && 0 <= cut && url[cut] == '/'
            && url[cut + 1..] == candidate
            && LastIndexOfChar(url, '/') == cut
            && forall i :: 0 <= i < cut ==> IsDirChar(url[i])
  {
    var url := UrlPath(dirParts, groupId, candidate);
    var dirs := Join(FolderNames(dirParts), "/");
    var group := FolderName(groupId);
    var front := "/" + dirs + "/" + group;
    assert url == front + "/" + candidate;
    var cut := |front|;
    JoinedFolderNames(dirParts);
    forall i | 0 <= i < cut ensures IsDirChar(url[i]) {
      assert url[i] == front[i];
      if 1 <= i <= |dirs| {
        assert front[i] == dirs[i - 1];
      } else if i > |dirs| + 1 {
        assert front[i] == group[i - |dirs| - 2];
      } else {
        assert front[i] == '/';
      }
    }
    forall j | cut < j < |url| ensures url[j] != '/' {
      assert url[j] == candidate[j - cut - 1];
    }
    LastSlashAt(url, cut);
  }

  lemma LastSlashAt(s: string, k: nat)
    requires k < |s| && s[k] == '/'
    requires forall j :: k < j < |s| ==> s[j] != '/'
    ensures LastIndexOfChar(s, '/') == k
  {
  }

  /** A saved file's URL ends with the name that was written. */
  lemma SavedUrlNamesTheFile(file: Upload, dirParts: seq<string>, groupId: string,
                             write: nat -> WriteResult, clock: nat -> nat)
    requires SaveFile(file, dirParts, groupId, write, clock).Saved?
    ensures var r := SaveFile(file, dirParts, groupId, write, clock);
            var name := Candidate(SafeFileName(file.name), r.attempt, clock(r.attempt));
            && NoSlash(name)
            && r.url[LastIndexOfChar(r.url, '/') + 1..] == name
  {
    var r := SaveFile(file, dirParts, groupId, write, clock);
    SafeFileNameNoSlash(file.name);
    CandidateNoSlash(SafeFileName(file.name), r.attempt, clock(r.attempt));
    UrlPathShape(dirParts, groupId, Candidate(SafeFileName(file.name), r.attempt, clock(r.attempt)));
  }

  /** The kinds of file the song upload stores, and their directories. */
  datatype Kind = Audio | Images | Lrc | Sheets

  function KindDir(k: Kind): string
  {
    match k
    case Audio => "audio"
    case Images => "images"
    case Lrc => "lrc"
    case Sheets => "sheets"
  }

  /** The song route's path `/${type}/${folder(groupId)}/${name}` is the general rule
      with the one directory `type`, which sanitising leaves unchanged. */
  lemma SongPathIsOneDirectory(k: Kind, groupId: string, candidate: string)
    ensures UrlPath([KindDir(k)], groupId, candidate)
            == "/" + KindDir(k) + "/" + FolderName(groupId) + "/" + candidate
  {
    FolderNameFixed(KindDir(k));
  }
}

=== FILE: text.dfy ===
/** Character and string helpers shared by the model: ASCII case mapping,
    JavaScript's notion of white space, prefix/suffix/substring tests and
    first-occurrence search and replacement. Strings are `seq<char>`. */
module Text {

  predicate IsAsciiUpper(c: char) { 'A' <= c <= 'Z' }

  predicate IsAsciiLower(c: char) { 'a' <= c <= 'z' }

  predicate IsAsciiLetter(c: char) { IsAsciiUpper(c) || IsAsciiLower(c) }

  predicate IsAsciiDigit(c: char) { '0' <= c <= '9' }

  function LowerChar(c: char): (r: char)
    ensures IsAsciiUpper(c) ==> IsAsciiLower(r)
    ensures !IsAsciiUpper(c) ==> r == c
  {
    if IsAsciiUpper(c) then (c as int + 32) as char else c
  }

  function UpperChar(c: char): (r: char)
    ensures IsAsciiLower(c) ==> IsAsciiUpper(r)
    ensures !IsAsciiLower(c) ==> r == c
  {
    if IsAsciiLower(c) then (c as int - 32) as char else c
  }

  /** Lower-casing of the ASCII letters; every other character is kept. */
  function Lower(s: string): (r: string)
    ensures |r| == |s|
    ensures forall i :: 0 <= i < |s| ==> r[i] == LowerChar(s[i])
  {
    if s == [] then [] else [LowerChar(s[0])] + Lower(s[1..])
  }

  /** The characters JavaScript's `\s`, `trim()` and `parseInt` treat as white space. */
  predicate IsSpace(c: char)
  {
    || c == ' ' || c == '\t' || c == '\n' || c == '\r'
    || c == '\U{000B}' || c == '\U{000C}' || c == '\U{00A0}' || c == '\U{1680}'
    || ('\U{2000}' <= c <= '\U{200A}')
    || c == '\U{2028}' || c == '\U{2029}' || c == '\U{202F}' || c == '\U{205F}'
    || c == '\U{3000}' || c == '\U{FEFF}'
  }

  /** The characters a regular-expression `.` does not match. */
  predicate IsLineBreak(c: char)
  {
    c == '\n' || c == '\r' || c == '\U{2028}' || c == '\U{2029}'
  }

  predicate StartsWith(s: string, p: string)
  {
    |p| <= |s| && s[..|p|] == p
  }

  predicate EndsWith(s: string, p: string)
  {
    |p| <= |s| && s[|s| - |p|..] == p
  }

  predicate OccursAt(s: string, p: string, i: int)
  {
    0 <= i && i + |p| <= |s| && s[i..i + |p|] == p
  }

  predicate Contains(s: string, p: string)
  {
    exists i :: 0 <= i <= |s| - |p| && OccursAt(s, p, i)
  }

  /** Position of the first occurrence of `p` in `s`, searching from `from`. */
  function IndexOfFrom(s: string, p: string, from: nat): (r: int)
    requires from <= |s|
    ensures r == -1 || from <= r <= |s| - |p|
    ensures r == -1 <==> forall j :: from <= j <= |s| - |p| ==> !OccursAt(s, p, j)
    ensures r != -1 ==> OccursAt(s, p, r) && forall j :: from <= j < r ==> !OccursAt(s, p, j)
    decreases |s| - from
  {
    if from + |p| > |s| then -1
    else if s[from..from + |p|] == p then assert OccursAt(s, p, from); from
    else if from == |s| then -1
    else IndexOfFrom(s, p, from + 1)
  }

  function IndexOf(s: string, p: string): (r: int)
    ensures r == -1 <==> !Contains(s, p)
    ensures r != -1 ==> OccursAt(s, p, r) && forall j :: 0 <= j < r ==> !OccursAt(s, p, j)
  {
    IndexOfFrom(s, p, 0)
  }

  /** Position of the last occurrence of the character `c`, or -1. */
  function LastIndexOfChar(s: string, c: char): (r: int)
    ensures -1 <= r < |s|
    ensures r != -1 ==> s[r] == c
    ensures forall j :: r < j < |s| ==> s[j] != c
  {
    if s == [] then -1
    else if s[|s| - 1] == c then |s| - 1
    else LastIndexOfChar(s[..|s| - 1], c)
  }

  /** `s.replace(p, q)` with a string pattern: only the first occurrence is replaced. */
  function ReplaceFirst(s: string, p: string, q: string): (r: string)
  {
    var i := IndexOf(s, p);
    if i == -1 then s else s[..i] + q + s[i + |p|..]
  }

  /** Removes the leading white space. */
  function TrimStart(s: string): (r: string)
    ensures |r| <= |s| && r == s[|s| - |r|..]
    ensures r == [] || !IsSpace(r[0])
    ensures forall i :: 0 <= i < |s| - |r| ==> IsSpace(s[i])
  {
    if s == [] || !IsSpace(s[0]) then s else TrimStart(s[1..])
  }

  /** Removes the trailing white space. */
  function TrimEnd(s: string): (r: string)
    ensures |r| <= |s| && r == s[..|r|]
    ensures r == [] || !IsSpace(r[|r| - 1])
    ensures forall i :: |r| <= i < |s| ==> IsSpace(s[i])
  {
    if s == [] || !IsSpace(s[|s| - 1]) then s else TrimEnd(s[..|s| - 1])
  }

  /** `String.prototype.trim`. */
  function Trim(s: string): (r: string)
    ensures r == [] || (!IsSpace(r[0]) && !IsSpace(r[|r| - 1]))
    ensures |r| <= |s|
  {
    TrimEnd(TrimStart(s))
  }

  predicate IsBlank(s: string)
  {
    forall i :: 0 <= i < |s| ==> IsSpace(s[i])
  }

  /** Trimming removes white space only: the result is what is left between the
      leading and the trailing white space, and it is empty exactly for blank strings. */
  lemma {:induction false} TrimEmptyIffBlank(s: string)
    ensures Trim(s) == [] <==> IsBlank(s)
  {
    var t := TrimStart(s);
    if !IsBlank(s) {
      var k :| 0 <= k < |s| && !IsSpace(s[k]);
      assert t[k - (|s| - |t|)] == s[k];
    }
  }

  lemma TrimIdempotent(s: string)
    ensures Trim(Trim(s)) == Trim(s)
  {
    var r := Trim(s);
    assert TrimStart(r) == r;
    assert TrimEnd(r) == r;
  }

  /** Joins the parts with the separator between consecutive parts. */
  function Join(parts: seq<string>, sep: string): (r: string)
    ensures parts == [] ==> r == []
    ensures |parts| == 1 ==> r == parts[0]
  {
    if parts == [] then []
    else if |parts| == 1 then parts[0]
    else parts[0] + sep + Join(parts[1..], sep)
  }
}

=== FILE: titles.dfy ===
/** `normalizeTitle`, shared by the song upload route and the duplicate merge
    script: a trailing extension is removed, then a trailing bracketed remark
    (with the white space before it), then the white space around the rest.
    Each regular-expression replacement is modelled by where its leftmost
    match starts. */
module Titles {
  import opened Text

  /** Opening brackets `( [ { （ 【`. */
  predicate IsOpen(c: char)
  {
    c == '(' || c == '[' || c == '{' || c == '\U{FF08}' || c == '\U{3010}'
  }

  /** Closing brackets `) ] } ） 】`; any closing bracket ends any opening one. */
  predicate IsClose(c: char)
  {
    c == ')' || c == ']' || c == '}' || c == '\U{FF09}' || c == '\U{3011}'
  }

  // ------------------------------------------------------------------ extension

  /** `\.[^/.]+$` matches at a dot followed by at least one character up to the end,
      none of them `/` or `.`. */
  predicate ExtAt(s: string, p: nat)
  {
    p < |s| - 1 && s[p] == '.' && forall i :: p < i < |s| ==> s[i] != '/' && s[i] != '.'
  }

  /** Removes the trailing extension: the match can only start at the last dot. */
  function StripExt(s: string): (r: string)
    ensures (exists p :: 0 <= p < |s| && ExtAt(s, p)) ==> |r| < |s| && ExtAt(s, |r|) && r == s[..|r|]
    ensures (forall p :: 0 <= p < |s| ==> !ExtAt(s, p)) ==> r == s
  {
    var i := LastIndexOfChar(s, '.');
    if i != -1 && ExtAt(s, i) then s[..i]
    else
      assert forall p :: 0 <= p < |s| ==> !ExtAt(s, p) by {
        forall p | 0 <= p < |s| && ExtAt(s, p) ensures false {
        }
      }
      s
  }

  // ------------------------------------------------------------ bracketed remark

  /** Where `\s*` starting at `p` stops: the first non-space at or after `p`. */
  function SpaceRunEnd(s: string, p: nat): (q: nat)
    requires p <= |s|
    ensures p <= q <= |s|
    ensures forall i :: p <= i < q ==> IsSpace(s[i])
    ensures q == |s| || !IsSpace(s[q])
    decreases |s| - p
  {
    if p == |s| || !IsSpace(s[p]) then p else SpaceRunEnd(s, p + 1)
  }

  /** `\s*[(…].*?[)…]$` matches from `p`: after the white space comes an opening
      bracket, then characters other than line breaks, and the last character closes. */
  predicate RemarkAt(s: string, p: nat)
    requires p <= |s|
  {
    var q := SpaceRunEnd(s, p);
    && q < |s| - 1
    && IsOpen(s[q])
    && IsClose(s[|s| - 1])
    && forall i :: q < i < |s| - 1 ==> !IsLineBreak(s[i])
  }

  /** The leftmost start of a match at or after `p`, or -1. */
  function RemarkFrom(s: string, p: nat): (r: int)
    requires p <= |s|
    ensures r == -1 || (p <= r <= |s| && RemarkAt(s, r))
    ensures r == -1 ==> forall k :: p <= k <= |s| ==> !RemarkAt(s, k)
    ensures r != -1 ==> forall k :: p <= k < r ==> !RemarkAt(s, k)
    decreases |s| - p
  {
    if RemarkAt(s, p) then p
    else if p == |s| then -1
    else RemarkFrom(s, p + 1)
  }

  /** Removes the trailing bracketed remark and the white space before it. */
  function StripRemark(s: string): (r: string)
    ensures |r| <= |s| && r == s[..|r|]
  {
    var p := RemarkFrom(s, 0);
    if p == -1 then s else s[..p]
  }

  /** `normalizeTitle`. */
  function NormalizeTitle(title: string): (r: string)
    ensures r == [] || (!IsSpace(r[0]) && !IsSpace(r[|r| - 1]))
  {
    Trim(StripRemark(StripExt(title)))
  }

  // ------------------------------------------------ reading on one-line titles

  predicate OneLine(s: string)
  {
    forall i :: 0 <= i < |s| ==> !IsLineBreak(s[i])
  }

  /** The first opening bracket before the last character, or -1. */
  function FirstOpen(s: string): (o: int)
    ensures -1 <= o < |s|
    ensures o != -1 ==> o < |s| - 1 && IsOpen(s[o])
    ensures forall i :: 0 <= i < |s| - 1 && (o == -1 || i < o) ==> !IsOpen(s[i])
  {
    if |s| < 2 then -1
    else
      var o := FirstOpenFrom(s, 0);
      o
  }

  function FirstOpenFrom(s: string, k: nat): (o: int)
    requires 1 <= |s| && k <= |s| - 1
    ensures o == -1 || (k <= o < |s| - 1 && IsOpen(s[o]))
    ensures forall i :: k <= i < |s| - 1 && (o == -1 || i < o) ==> !IsOpen(s[i])
    decreases |s| - k
  {
    if k == |s| - 1 then -1
    else if IsOpen(s[k]) then k
    else FirstOpenFrom(s, k + 1)
  }

  /** Where the run of white space that ends at `o` starts. */
  function SpaceRunStart(s: string, o: nat): (p: nat)
    requires o <= |s|
    ensures p <= o
    ensures forall i :: p <= i < o ==> IsSpace(s[i])
    ensures p == 0 || !IsSpace(s[p - 1])
  {
    if o == 0 || !IsSpace(s[o - 1]) then o else SpaceRunStart(s, o - 1)
  }

  /** On a title without line breaks, the remark is cut exactly when the title ends in
      a closing bracket and holds an opening bracket before it: everything from the
      first such opening bracket, and from the white space just before it, is removed. */
  function CutAtFirstOpen(s: string): string
  {
    var o := FirstOpen(s);
    if o == -1 || !IsClose(s[|s| - 1]) then s else s[..SpaceRunStart(s, o)]
  }

  lemma StripRemarkOneLine(s: string)
    requires OneLine(s)
    ensures StripRemark(s) == CutAtFirstOpen(s)
  {
    var o := FirstOpen(s);
    if o != -1 && IsClose(s[|s| - 1]) {
      var p := SpaceRunStart(s, o);
      RunEndFromStart(s, p, o);
      assert RemarkAt(s, p);
      forall k | 0 <= k < p ensures !RemarkAt(s, k) {
        NoRemarkBefore(s, k, p, o);
      }
      RemarkIsFirst(s, p);
    } else {
      forall k | 0 <= k <= |s| ensures !RemarkAt(s, k) {
        var q := SpaceRunEnd(s, k);
        if q < |s| - 1 && IsClose(s[|s| - 1]) {
          assert !IsOpen(s[q]);
        }
      }
      NoRemark(s);
    }
  }

  lemma RunEndFromStart(s: string, p: nat, o: nat)
    requires p <= o < |s| && !IsSpace(s[o])
    requires forall i :: p <= i < o ==> IsSpace(s[i])
    ensures SpaceRunEnd(s, p) == o
    decreases o - p
  {
    if p < o {
      RunEndFromStart(s, p + 1, o);
    }
  }

  lemma NoRemarkBefore(s: string, k: nat, p: nat, o: nat)
    requires k < p <= o && o == FirstOpen(s) && p == SpaceRunStart(s, o)
    ensures !RemarkAt(s, k)
  {
    var q := SpaceRunEnd(s, k);
    assert !IsSpace(s[p - 1]);
    assert q <= p - 1;
  }

  lemma RemarkIsFirst(s: string, p: nat)
    requires p <= |s| && RemarkAt(s, p)
    requires forall k :: 0 <= k < p ==> !RemarkAt(s, k)
    ensures RemarkFrom(s, 0) == p
  {
    var r := RemarkFrom(s, 0);
    assert r != -1;
  }

  lemma NoRemark(s: string)
    requires forall k :: 0 <= k <= |s| ==> !RemarkAt(s, k)
    ensures RemarkFrom(s, 0) == -1
  {
  }

  /** A title without line breaks normalises to its cut, trimmed. */
  lemma NormalizeOneLine(title: string)
    requires OneLine(title)
    ensures NormalizeTitle(title) == Trim(CutAtFirstOpen(StripExt(title)))
  {
    var s := StripExt(title);
    assert OneLine(s) by {
      forall i | 0 <= i < |s| ensures !IsLineBreak(s[i]) {
        assert s[i] == title[i];
      }
    }
    StripRemarkOneLine(s);
  }
}

=== FILE: upload_groups.dfy ===
/** The batch and album upload page: files picked together are sorted into
    song groups by their base name, groups can be merged, selected and
    removed, and a batch upload settles every group once.

    The regular expression that strips sequence and key suffixes from a base
    name is a parameter of the model (`Context.stripSuffix`), and so are the
    album-mode defaults and the clock. */
module UploadGroups {
  import opened Text
  import opened Js
  import Seqs

  datatype File = File(name: string, mime: string)

  datatype Status = Pending | Uploading | Success | Failure(message: string)

  datatype Group = Group(id: string, title: string, artist: string, album: string, status: Status,
                         audio: Option<File>, sheets: seq<File>, lrcs: seq<File>, image: Option<File>)

  /** What grouping takes from its surroundings: the suffix stripper, the default
      artist and album, and the time stamp that makes group ids unique. */
  datatype Context = Context(stripSuffix: string -> string, artist: string, album: string, now: nat)

  const Uncategorised := "未分类歌手"
  const AudioExts := ["mp3", "m4a", "wav", "flac", "aac"]
  const ImageExts := ["jpg", "jpeg", "png", "webp"]
  const LyricExts := ["lrc", "txt"]

  /** `name.split('.').pop().toLowerCase()`: the lower-cased text after the last dot,
      or the whole name when it has no dot. */
  function Extension(name: string): (e: string)
    ensures |e| <= |name|
    ensures forall j :: 0 <= j < |e| ==> e[j] != '.'
  {
    var i := LastIndexOfChar(name, '.');
    Lower(name[i + 1..])
  }

  /** `name.replace(/\.[^/.]+$/, "")`: drops a final dot and the non-empty run after it,
      provided that run holds no `/` (and, being after the last dot, no dot). */
  function NameWithoutExt(name: string): (r: string)
    ensures StartsWith(name, r)
    ensures r != name ==>
      && |r| < |name| - 1 && name[|r|] == '.'
      && forall j :: |r| < j < |name| ==> name[j] != '.' && name[j] != '/'
  {
    var i := LastIndexOfChar(name, '.');
    if i != -1 && i < |name| - 1 && (forall j :: i < j < |name| ==> name[j] != '/') then name[..i]
    else name
  }

  /** The cover markers `_封面` and `-封面`: when the base name ends in one, the first
      occurrence of that marker is removed. */
  function StripCoverMarker(key: string): (r: string)
    ensures !EndsWith(key, "_封面") && !EndsWith(key, "-封面") ==> r == key
    ensures EndsWith(key, "_封面") ==> |r| == |key| - 3
    ensures !EndsWith(key, "_封面") && EndsWith(key, "-封面") ==> |r| == |key| - 3
  {
    if EndsWith(key, "_封面") then ReplaceFirstFound(key, "_封面")
    else if EndsWith(key, "-封面") then ReplaceFirstFound(key, "-封面")
    else key
  }

  /** Removing the first occurrence of a marker the key is known to end with. */
  function ReplaceFirstFound(key: string, m: string): (r: string)
    requires EndsWith(key, m)
    ensures |r| == |key| - |m|
    ensures r == ReplaceFirst(key, m, "")
  {
    assert OccursAt(key, m, |key| - |m|);
    var i := IndexOf(key, m);
    assert i != -1 && i + |m| <= |key|;
    assert key[..i] + "" == key[..i];
    key[..i] + key[i + |m|..]
  }

  /** When the marker occurs only at the end, the marker alone is cut off. */
  lemma CoverMarkerCutAtEnd(key: string, m: string)
    requires m == "_封面" || m == "-封面"
    requires EndsWith(key, m) && IndexOf(key, m) == |key| - |m|
    requires m == "-封面" ==> !EndsWith(key, "_封面")
    ensures StripCoverMarker(key) == key[..|key| - |m|]
  {
  }

  predicate IsCoverName(name: string)
  {
    var lower := Lower(name);
    Contains(lower, "cover") || Contains(lower, "folder") || Contains(lower, "_封面") || Contains(lower, "-封面")
  }

  /** Where a file goes in its group. */
  datatype Slot = AudioSlot | CoverSlot | SheetSlot | LyricSlot | NoSlot

  function SlotOf(f: File): Slot
  {
    var ext := Extension(f.name);
    if ext in AudioExts || StartsWith(f.mime, "audio/") then AudioSlot
    else if ext in ImageExts || StartsWith(f.mime, "image/") then
      (if IsCoverName(f.name) then CoverSlot else SheetSlot)
    else if ext in LyricExts then LyricSlot
    else NoSlot
  }

  /** The group key of a file: the base name without its cover marker and suffix. */
  function Key(ctx: Context, f: File): string
  {
    ctx.stripSuffix(StripCoverMarker(NameWithoutExt(f.name)))
  }

  function KeyFn(ctx: Context): File -> string
  {
    (f: File) => Key(ctx, f)
  }

  function NewGroup(ctx: Context, k: string): (g: Group)
    ensures g.title == k && g.status == Pending
    ensures g.audio.None? && g.image.None? && g.sheets == [] && g.lrcs == []
    ensures g.artist == if ctx.artist != "" then ctx.artist else Uncategorised
  {
    Group(k + "_" + ShowNat(ctx.now), k, if ctx.artist != "" then ctx.artist else Uncategorised,
          ctx.album, Pending, None, [], [], None)
  }

  // The grouping below is stated for any key and slot functions; `GroupFiles` applies
  // it to `Key` and `SlotOf`.

  /** Puts one file into its slot: audio and cover replace, sheets and lyrics append. */
  function Place(slot: File -> Slot, g: Group, f: File): Group
  {
    match slot(f)
    case AudioSlot => g.(audio := Some(f))
    case CoverSlot => g.(image := Some(f))
    case SheetSlot => g.(sheets := g.sheets + [f])
    case LyricSlot => g.(lrcs := g.lrcs + [f])
    case NoSlot => g
  }

  function IndexOfTitle(gs: seq<Group>, k: string): (r: int)
    ensures -1 <= r < |gs|
    ensures r == -1 <==> forall i :: 0 <= i < |gs| ==> gs[i].title != k
    ensures r != -1 ==> gs[r].title == k
  {
    Seqs.FindIndex(gs, (g: Group) => g.title == k)
  }

  /** One step of the `forEach`: the file joins the group of its key, created on first use. */
  function AddFile(ctx: Context, key: File -> string, slot: File -> Slot, gs: seq<Group>, f: File): seq<Group>
  {
    var k := key(f);
    var i := IndexOfTitle(gs, k);
    if i == -1 then gs + [Place(slot, NewGroup(ctx, k), f)] else gs[i := Place(slot, gs[i], f)]
  }

  /** All groups, in the order their keys first appear. */
  function Collect(ctx: Context, key: File -> string, slot: File -> Slot, files: seq<File>): seq<Group>
    decreases |files|
  {
    if files == [] then []
    else AddFile(ctx, key, slot, Collect(ctx, key, slot, files[..|files| - 1]), files[|files| - 1])
  }

  predicate HasContent(g: Group)
  {
    g.audio.Some? || |g.sheets| > 0 || |g.lrcs| > 0
  }

  /** `groupFiles`: the collected groups holding audio, a sheet or a lyric. */
  function GroupFiles(ctx: Context, files: seq<File>): (r: seq<Group>)
    ensures forall g :: g in r ==> HasContent(g)
    ensures forall g :: g in r <==> g in Collect(ctx, KeyFn(ctx), SlotOf, files) && HasContent(g)
  {
    Seqs.Filter(Collect(ctx, KeyFn(ctx), SlotOf, files), HasContent)
  }

  // ---------------------------------------------------- reference grouping

  function KeyList(key: File -> string, files: seq<File>): (ks: seq<string>)
    ensures |ks| == |files|
    ensures forall i :: 0 <= i < |files| ==> ks[i] == key(files[i])
    decreases |files|
  {
    if files == [] then [] else KeyList(key, files[..|files| - 1]) + [key(files[|files| - 1])]
  }

  function Matches(key: File -> string, slot: File -> Slot, k: string, s: Slot): File -> bool
  {
    (f: File) => key(f) == k && slot(f) == s
  }

  /** The last file of this key and slot. */
  function LastIn(key: File -> string, slot: File -> Slot, files: seq<File>, k: string, s: Slot): (r: Option<File>)
    ensures r.Some? ==> r.value in files && key(r.value) == k && slot(r.value) == s
    ensures r.None? <==> forall f :: f in files ==> !(key(f) == k && slot(f) == s)
    decreases |files|
  {
    if files == [] then None
    else if key(files[|files| - 1]) == k && slot(files[|files| - 1]) == s then Some(files[|files| - 1])
    else
      assert files == files[..|files| - 1] + [files[|files| - 1]];
      LastIn(key, slot, files[..|files| - 1], k, s)
  }

  /** The group of key `k` described directly from the whole file list: the last audio,
      the last cover, and every sheet and lyric of that key in picking order. */
  function RefGroup(ctx: Context, key: File -> string, slot: File -> Slot, files: seq<File>, k: string): Group
  {
    NewGroup(ctx, k).(audio := LastIn(key, slot, files, k, AudioSlot),
                      sheets := Seqs.Filter(files, Matches(key, slot, k, SheetSlot)),
                      lrcs := Seqs.Filter(files, Matches(key, slot, k, LyricSlot)),
                      image := LastIn(key, slot, files, k, CoverSlot))
  }

  function Reference(ctx: Context, key: File -> string, slot: File -> Slot, files: seq<File>): seq<Group>
  {
    var ks := Seqs.Dedup(KeyList(key, files));
    seq(|ks|, i requires 0 <= i < |ks| => RefGroup(ctx, key, slot, files, ks[i]))
  }

  lemma RefGroupOther(ctx: Context, key: File -> string, slot: File -> Slot, files: seq<File>, f: File, k: string)
    requires key(f) != k
    ensures RefGroup(ctx, key, slot, files + [f], k) == RefGroup(ctx, key, slot, files, k)
  {
    var all := files + [f];
    assert all[..|all| - 1] == files;
    Seqs.FilterAppend(files, [f], Matches(key, slot, k, SheetSlot));
    Seqs.FilterAppend(files, [f], Matches(key, slot, k, LyricSlot));
  }

  lemma RefGroupSame(ctx: Context, key: File -> string, slot: File -> Slot, files: seq<File>, f: File)
    ensures RefGroup(ctx, key, slot, files + [f], key(f)) == Place(slot, RefGroup(ctx, key, slot, files, key(f)), f)
  {
    var k := key(f);
    var all := files + [f];
    assert all[..|all| - 1] == files;
    Seqs.FilterAppend(files, [f], Matches(key, slot, k, SheetSlot));
    Seqs.FilterAppend(files, [f], Matches(key, slot, k, LyricSlot));
  }

  lemma RefGroupAbsent(ctx: Context, key: File -> string, slot: File -> Slot, files: seq<File>, k: string)
    requires k !in KeyList(key, files)
    ensures RefGroup(ctx, key, slot, files, k) == NewGroup(ctx, k)
  {
    forall f | f in files ensures key(f) != k {
      var i :| 0 <= i < |files| && files[i] == f;
      assert KeyList(key, files)[i] == key(f);
    }
    if Seqs.Filter(files, Matches(key, slot, k, SheetSlot)) != [] { assert false; }
    if Seqs.Filter(files, Matches(key, slot, k, LyricSlot)) != [] { assert false; }
  }

  /** The reference groups are titled by the distinct keys, in first-seen order. */
  lemma ReferenceTitles(ctx: Context, key: File -> string, slot: File -> Slot, files: seq<File>)
    ensures var ks := Seqs.Dedup(KeyList(key, files));
            var ref := Reference(ctx, key, slot, files);
            |ref| == |ks| && forall i :: 0 <= i < |ks| ==> ref[i].title == ks[i]
  {
  }

  /** The keys of a longer list: the old keys, then the new key if it is new. */
  lemma KeysAppend(key: File -> string, files: seq<File>, f: File)
    ensures var ks := Seqs.Dedup(KeyList(key, files));
            Seqs.Dedup(KeyList(key, files + [f])) == if key(f) in ks then ks else ks + [key(f)]
  {
    var all := files + [f];
    assert all[..|all| - 1] == files;
    assert KeyList(key, all) == KeyList(key, files) + [key(f)];
    Seqs.DedupIntoAppend([], KeyList(key, files), [key(f)]);
  }

  /** Adding a file leaves the reference groups of the other keys as they were. */
  lemma RefOthers(ctx: Context, key: File -> string, slot: File -> Slot, pre: seq<File>, f: File)
    ensures var ks := Seqs.Dedup(KeyList(key, pre));
            var before := Reference(ctx, key, slot, pre);
            var after := Reference(ctx, key, slot, pre + [f]);
            && |before| == |ks| && |ks| <= |after|
            && forall j :: 0 <= j < |ks| && ks[j] != key(f) ==> after[j] == before[j]
  {
    var ks := Seqs.Dedup(KeyList(key, pre));
    KeysAppend(key, pre, f);
    var after := Reference(ctx, key, slot, pre + [f]);
    forall j | 0 <= j < |ks| && ks[j] != key(f) ensures after[j] == Reference(ctx, key, slot, pre)[j] {
      RefGroupOther(ctx, key, slot, pre, f, ks[j]);
    }
  }

  /** In the reference groups a key is found at its position among the distinct keys. */
  lemma RefIndexOfTitle(ctx: Context, key: File -> string, slot: File -> Slot, pre: seq<File>, k: string)
    ensures var ks := Seqs.Dedup(KeyList(key, pre));
            var r := IndexOfTitle(Reference(ctx, key, slot, pre), k);
            && (k !in ks ==> r == -1)
            && (k in ks ==> 0 <= r < |ks| && ks[r] == k)
  {
    ReferenceTitles(ctx, key, slot, pre);
  }

  /** A file with a new key adds one group at the end: a new group holding just that file. */
  lemma RefNewLast(ctx: Context, key: File -> string, slot: File -> Slot, pre: seq<File>, f: File)
    requires key(f) !in Seqs.Dedup(KeyList(key, pre))
    ensures var ks := Seqs.Dedup(KeyList(key, pre));
            var ref := Reference(ctx, key, slot, pre + [f]);
            |ref| == |ks| + 1 && ref[|ks|] == Place(slot, NewGroup(ctx, key(f)), f)
  {
    KeysAppend(key, pre, f);
    RefGroupAbsent(ctx, key, slot, pre, key(f));
    RefGroupSame(ctx, key, slot, pre, f);
  }

  /** A file whose key has a group already joins that group. */
  lemma AddToKnownGroup(ctx: Context, key: File -> string, slot: File -> Slot, pre: seq<File>, gs: seq<Group>, f: File, i: nat)
    requires gs == Reference(ctx, key, slot, pre)
    requires var ks := Seqs.Dedup(KeyList(key, pre)); i < |ks| && ks[i] == key(f)
    ensures AddFile(ctx, key, slot, gs, f) == Reference(ctx, key, slot, pre + [f])
  {
    var ks := Seqs.Dedup(KeyList(key, pre));
    var k := key(f);
    RefIndexOfTitle(ctx, key, slot, pre, k);
    assert IndexOfTitle(gs, k) == i;
    KeysAppend(key, pre, f);
    var ref := Reference(ctx, key, slot, pre + [f]);
    ReferenceTitles(ctx, key, slot, pre);
    RefGroupSame(ctx, key, slot, pre, f);
    RefOthers(ctx, key, slot, pre, f);
    var next := gs[i := Place(slot, gs[i], f)];
    assert |next| == |ref|;
    forall j | 0 <= j < |ref| ensures next[j] == ref[j] {
      if j != i {
        assert ks[j] != k;
      }
    }
  }

  /** A file with a new key opens a new group at the end. */
  lemma AddToNewGroup(ctx: Context, key: File -> string, slot: File -> Slot, pre: seq<File>, gs: seq<Group>, f: File)
    requires gs == Reference(ctx, key, slot, pre)
    requires key(f) !in Seqs.Dedup(KeyList(key, pre))
    ensures AddFile(ctx, key, slot, gs, f) == Reference(ctx, key, slot, pre + [f])
  {
    var ks := Seqs.Dedup(KeyList(key, pre));
    var k := key(f);
    RefIndexOfTitle(ctx, key, slot, pre, k);
    var next := gs + [Place(slot, NewGroup(ctx, k), f)];
    assert AddFile(ctx, key, slot, gs, f) == next;
    var ref := Reference(ctx, key, slot, pre + [f]);
    RefNewLast(ctx, key, slot, pre, f);
    RefOthers(ctx, key, slot, pre, f);
    forall j | 0 <= j < |ref| ensures next[j] == ref[j] {
      if j < |ks| {
        assert ks[j] != k;
      }
    }
  }

  /** Grouping file by file builds exactly the reference groups. */
  lemma {:induction false} CollectIsReference(ctx: Context, key: File -> string, slot: File -> Slot, files: seq<File>)
    ensures Collect(ctx, key, slot, files) == Reference(ctx, key, slot, files)
    decreases |files|
  {
    if files != [] {
      var pre := files[..|files| - 1];
      var f := files[|files| - 1];
      assert files == pre + [f];
      CollectIsReference(ctx, key, slot, pre);
      var ks := Seqs.Dedup(KeyList(key, pre));
      if key(f) in ks {
        var i :| 0 <= i < |ks| && ks[i] == key(f);
        AddToKnownGroup(ctx, key, slot, pre, Collect(ctx, key, slot, pre), f, i);
      } else {
        AddToNewGroup(ctx, key, slot, pre, Collect(ctx, key, slot, pre), f);
      }
    }
  }

  /** Group titles are distinct, and every file's key has its group. */
  lemma GroupsCoverKeys(ctx: Context, key: File -> string, slot: File -> Slot, files: seq<File>)
    ensures var gs := Collect(ctx, key, slot, files);
            && (forall i, j :: 0 <= i < j < |gs| ==> gs[i].title != gs[j].title)
            && (forall f :: f in files ==> exists i :: 0 <= i < |gs| && gs[i].title == key(f))
  {
    var ks := Seqs.Dedup(KeyList(key, files));
    var gs := Collect(ctx, key, slot, files);
    assert |gs| == |ks| && forall i :: 0 <= i < |ks| ==> gs[i].title == ks[i] by {
      CollectIsReference(ctx, key, slot, files);
      ReferenceTitles(ctx, key, slot, files);
    }
    forall f | f in files ensures exists i :: 0 <= i < |gs| && gs[i].title == key(f) {
      var n :| 0 <= n < |files| && files[n] == f;
      assert key(f) in ks by {
        assert KeyList(key, files)[n] == key(f);
      }
      var i :| 0 <= i < |ks| && ks[i] == key(f);
      assert gs[i].title == key(f);
    }
  }

  /** Each sheet and lyric file sits in the group of its own key and in no other; the
      group's audio and cover are the last audio and cover file of its key. */
  lemma FilesLandInTheirGroup(ctx: Context, key: File -> string, slot: File -> Slot, files: seq<File>, i: nat)
    requires i < |Collect(ctx, key, slot, files)|
    ensures var g := Collect(ctx, key, slot, files)[i];
            && (forall f :: f in g.sheets <==> f in files && key(f) == g.title && slot(f) == SheetSlot)
            && (forall f :: f in g.lrcs <==> f in files && key(f) == g.title && slot(f) == LyricSlot)
            && g.audio == LastIn(key, slot, files, g.title, AudioSlot)
            && g.image == LastIn(key, slot, files, g.title, CoverSlot)
  {
    CollectIsReference(ctx, key, slot, files);
  }

  /** A group holding only a cover is not offered for upload. */
  lemma CoverOnlyGroupDropped(ctx: Context, files: seq<File>, g: Group)
    requires g in Collect(ctx, KeyFn(ctx), SlotOf, files) && g.audio.None? && g.sheets == [] && g.lrcs == []
    ensures g !in GroupFiles(ctx, files)
  {
  }

  // ------------------------------------------------------ selection, removal

  /** `toggleGroupSelection`. */
  function ToggleSelection(selected: set<string>, id: string): (r: set<string>)
    ensures id in r <==> id !in selected
    ensures forall x :: x != id ==> (x in r <==> x in selected)
  {
    if id in selected then selected - {id} else selected + {id}
  }

  lemma ToggleTwice(selected: set<string>, id: string)
    ensures ToggleSelection(ToggleSelection(selected, id), id) == selected
  {
  }

  /** `removeGroup`: the id leaves both the list and the selection. */
  function RemoveGroup(gs: seq<Group>, selected: set<string>, id: string): (r: (seq<Group>, set<string>))
    ensures forall g :: g in r.0 <==> g in gs && g.id != id
    ensures r.1 == selected - {id}
  {
    (Seqs.Filter(gs, (g: Group) => g.id != id), selected - {id})
  }

  /** Removing works group by group in list order, so the remaining groups keep their
      order and their repeats: on a joined list it is the join of the removals, and a
      single group stays exactly when its id differs. */
  lemma {:induction false} RemoveGroupAppend(a: seq<Group>, b: seq<Group>, selected: set<string>, id: string)
    ensures RemoveGroup(a + b, selected, id).0 == RemoveGroup(a, selected, id).0 + RemoveGroup(b, selected, id).0
    ensures forall g :: RemoveGroup([g], selected, id).0 == if g.id != id then [g] else []
  {
    var p := (g: Group) => g.id != id;
    Seqs.FilterAppend(a, b, p);
    forall g ensures RemoveGroup([g], selected, id).0 == if g.id != id then [g] else [] {
      Seqs.FilterSingle(g, p);
    }
  }

  // ------------------------------------------------------------------ merge

  function Picked(selected: set<string>): Group -> bool
  {
    (g: Group) => g.id in selected
  }

  function Kept(selected: set<string>): Group -> bool
  {
    (g: Group) => g.id !in selected
  }

  /** The first selected group with audio, else the first selected group. */
  function Primary(sel: seq<Group>): (p: Group)
    requires |sel| > 0
    ensures p in sel
    ensures (exists g :: g in sel && g.audio.Some?) ==> p.audio.Some?
  {
    var i := Seqs.FindIndex(sel, (g: Group) => g.audio.Some?);
    if i == -1 then sel[0] else sel[i]
  }

  function AllSheets(gs: seq<Group>): seq<File>
  {
    if gs == [] then [] else gs[0].sheets + AllSheets(gs[1..])
  }

  function AllLrcs(gs: seq<Group>): seq<File>
  {
    if gs == [] then [] else gs[0].lrcs + AllLrcs(gs[1..])
  }

  function FirstAudio(gs: seq<Group>): Option<File>
  {
    if gs == [] then None else if gs[0].audio.Some? then gs[0].audio else FirstAudio(gs[1..])
  }

  function FirstImage(gs: seq<Group>): Option<File>
  {
    if gs == [] then None else if gs[0].image.Some? then gs[0].image else FirstImage(gs[1..])
  }

  /** Takes another group's files into the merged group. */
  function Absorb(acc: Group, g: Group): Group
  {
    acc.(audio := if acc.audio.None? && g.audio.Some? then g.audio else acc.audio,
         sheets := acc.sheets + g.sheets,
         lrcs := acc.lrcs + g.lrcs,
         image := if acc.image.None? && g.image.Some? then g.image else acc.image)
  }

  function Others(sel: seq<Group>, pid: string): seq<Group>
  {
    Seqs.Filter(sel, (g: Group) => g.id != pid)
  }

  /** Absorbs every group whose id is not the primary's, in list order. */
  function AbsorbAll(acc: Group, gs: seq<Group>, pid: string): (r: Group)
    ensures r.(audio := acc.audio, sheets := acc.sheets, lrcs := acc.lrcs, image := acc.image) == acc
    ensures r.sheets == acc.sheets + AllSheets(Others(gs, pid))
    ensures r.lrcs == acc.lrcs + AllLrcs(Others(gs, pid))
    ensures r.audio == if acc.audio.Some? then acc.audio else FirstAudio(Others(gs, pid))
    ensures r.image == if acc.image.Some? then acc.image else FirstImage(Others(gs, pid))
    decreases |gs|
  {
    if gs == [] then acc
    else
      assert gs == [gs[0]] + gs[1..];
      Seqs.FilterAppend([gs[0]], gs[1..], (g: Group) => g.id != pid);
      AbsorbAll(if gs[0].id == pid then acc else Absorb(acc, gs[0]), gs[1..], pid)
  }

  /** The merged group: the primary's title, artist, album and status under a fresh id,
      with the other selected groups' files absorbed. */
  function Merged(sel: seq<Group>, now: nat): (m: Group)
    requires |sel| > 0
    ensures var p := Primary(sel);
            && m.id == "merged_" + ShowNat(now)
            && m.title == p.title && m.artist == p.artist && m.album == p.album && m.status == p.status
            && m.sheets == p.sheets + AllSheets(Others(sel, p.id))
            && m.lrcs == p.lrcs + AllLrcs(Others(sel, p.id))
            && m.audio == (if p.audio.Some? then p.audio else FirstAudio(Others(sel, p.id)))
            && m.image == (if p.image.Some? then p.image else FirstImage(Others(sel, p.id)))
  {
    var p := Primary(sel);
    AbsorbAll(p.(id := "merged_" + ShowNat(now)), sel, p.id)
  }

  /** The merged group has audio exactly when some selected group has, and then it is the
      first selected group's audio. */
  lemma MergedAudio(sel: seq<Group>, now: nat)
    requires |sel| > 0
    ensures Merged(sel, now).audio == FirstAudio(sel)
  {
    var p := Primary(sel);
    var i := Seqs.FindIndex(sel, (g: Group) => g.audio.Some?);
    FirstAudioIsFound(sel);
    if i == -1 {
      NoAudioAnywhere(Others(sel, p.id));
    }
  }

  lemma {:induction false} FirstAudioIsFound(gs: seq<Group>)
    ensures var i := Seqs.FindIndex(gs, (g: Group) => g.audio.Some?);
            FirstAudio(gs) == if i == -1 then None else gs[i].audio
  {
    if gs != [] {
      FirstAudioIsFound(gs[1..]);
      assert Seqs.FindIndex(gs, (g: Group) => g.audio.Some?) ==
        (if gs[0].audio.Some? then 0
         else var k := Seqs.FindIndex(gs[1..], (g: Group) => g.audio.Some?); if k == -1 then -1 else k + 1);
    }
  }

  lemma {:induction false} NoAudioAnywhere(gs: seq<Group>)
    requires forall g :: g in gs ==> g.audio.None?
    ensures FirstAudio(gs) == None
  {
    if gs != [] {
      assert forall g :: g in gs[1..] ==> g in gs;
      NoAudioAnywhere(gs[1..]);
    }
  }

  /** The merged list: groups before the first selected one, the merged group, then the
      unselected groups after it. */
  function Collapse(gs: seq<Group>, selected: set<string>, m: Group, inserted: bool): seq<Group>
    decreases |gs|
  {
    if gs == [] then []
    else if gs[0].id in selected then
      (if inserted then Collapse(gs[1..], selected, m, true) else [m] + Collapse(gs[1..], selected, m, true))
    else [gs[0]] + Collapse(gs[1..], selected, m, inserted)
  }

  /** Once the merged group is placed, the selected groups are dropped. */
  lemma {:induction false} CollapseInserted(gs: seq<Group>, selected: set<string>, m: Group)
    ensures Collapse(gs, selected, m, true) == Seqs.Filter(gs, Kept(selected))
    decreases |gs|
  {
    if gs != [] {
      CollapseInserted(gs[1..], selected, m);
    }
  }

  /** The merged group takes the place of the first selected group. */
  lemma CollapseFirst(gs: seq<Group>, selected: set<string>, m: Group)
    ensures var i := Seqs.FindIndex(gs, Picked(selected));
            Collapse(gs, selected, m, false)
            == if i == -1 then gs else gs[..i] + [m] + Seqs.Filter(gs[i + 1..], Kept(selected))
  {
    var i := Seqs.FindIndex(gs, Picked(selected));
    if i == -1 {
      CollapseNone(gs, selected, m);
    } else {
      CollapseAt(gs, selected, m, i);
    }
  }

  /** With no group selected the list is unchanged. */
  lemma {:induction false} CollapseNone(gs: seq<Group>, selected: set<string>, m: Group)
    requires forall j :: 0 <= j < |gs| ==> gs[j].id !in selected
    ensures Collapse(gs, selected, m, false) == gs
    decreases |gs|
  {
    if gs != [] {
      var t := gs[1..];
      assert forall j :: 0 <= j < |t| ==> t[j] == gs[j + 1];
      CollapseNone(t, selected, m);
      assert gs == [gs[0]] + t;
    }
  }

  /** The merged group takes the place of the first selected group, at `i`. */
  lemma {:induction false} CollapseAt(gs: seq<Group>, selected: set<string>, m: Group, i: nat)
    requires i < |gs| && gs[i].id in selected
    requires forall j :: 0 <= j < i ==> gs[j].id !in selected
    ensures Collapse(gs, selected, m, false) == gs[..i] + [m] + Seqs.Filter(gs[i + 1..], Kept(selected))
    decreases i
  {
    var t := gs[1..];
    if i == 0 {
      CollapseInserted(t, selected, m);
    } else {
      assert forall j :: 0 <= j < i - 1 ==> t[j] == gs[j + 1];
      CollapseAt(t, selected, m, i - 1);
      ConsShift(gs, i - 1, m, Seqs.Filter(t[i..], Kept(selected)));
    }
  }

  lemma ConsShift<T>(xs: seq<T>, k: nat, m: T, tail: seq<T>)
    requires k + 2 <= |xs|
    ensures [xs[0]] + (xs[1..][..k] + [m] + tail) == xs[..k + 1] + [m] + tail
    ensures xs[k + 2..] == xs[1..][k + 1..]
  {
    assert xs[..k + 1] == [xs[0]] + xs[1..][..k];
  }

  lemma {:induction false} FilterSplit(gs: seq<Group>, selected: set<string>)
    ensures |Seqs.Filter(gs, Picked(selected))| + |Seqs.Filter(gs, Kept(selected))| == |gs|
  {
    if gs != [] {
      FilterSplit(gs[1..], selected);
    }
  }

  /** `mergeSelectedGroups`: the new list and the new selection. */
  function MergeSelected(gs: seq<Group>, selected: set<string>, now: nat): (r: (seq<Group>, set<string>))
    ensures |selected| < 2 ==> r == (gs, selected)
    ensures r.1 == {} || r == (gs, selected)
    ensures var sel := Seqs.Filter(gs, Picked(selected));
            var i := Seqs.FindIndex(gs, Picked(selected));
            |selected| >= 2 && sel != [] ==>
              && i != -1
              && r.0 == gs[..i] + [Merged(sel, now)] + Seqs.Filter(gs[i + 1..], Kept(selected))
              && r.1 == {}
  {
    if |selected| < 2 then (gs, selected)
    else
      var sel := Seqs.Filter(gs, Picked(selected));
      if sel == [] then (gs, selected)
      else
        assert sel[0] in sel;
        CollapseFirst(gs, selected, Merged(sel, now));
        (Collapse(gs, selected, Merged(sel, now), false), {})
  }

  /** Splitting the list at its first selected group. */
  lemma SplitAtFirstPicked(gs: seq<Group>, selected: set<string>)
    requires Seqs.Filter(gs, Picked(selected)) != []
    ensures var i := Seqs.FindIndex(gs, Picked(selected));
            && 0 <= i < |gs|
            && Seqs.Filter(gs, Kept(selected)) == gs[..i] + Seqs.Filter(gs[i + 1..], Kept(selected))
            && |Seqs.Filter(gs, Picked(selected))| + |Seqs.Filter(gs[i + 1..], Kept(selected))| == |gs| - i
  {
    var i := Seqs.FindIndex(gs, Picked(selected));
    assert i != -1 by {
      var z := Seqs.Filter(gs, Picked(selected));
      assert z[0] in z;
    }
    KeptAround(gs, selected, i);
    PickedAround(gs, selected, i);
    FilterSplit(gs[i + 1..], selected);
  }

  /** The unselected groups are those before position `i` followed by the unselected
      ones after it. */
  lemma KeptAround(gs: seq<Group>, selected: set<string>, i: nat)
    requires i < |gs| && i == Seqs.FindIndex(gs, Picked(selected))
    ensures Seqs.Filter(gs, Kept(selected)) == gs[..i] + Seqs.Filter(gs[i + 1..], Kept(selected))
  {
    Seqs.FilterAroundDropped(gs, Kept(selected), i);
    Seqs.FilterAll(gs[..i], Kept(selected));
  }

  /** The selected groups are the one at `i` followed by the selected ones after it. */
  lemma PickedAround(gs: seq<Group>, selected: set<string>, i: nat)
    requires i < |gs| && i == Seqs.FindIndex(gs, Picked(selected))
    ensures |Seqs.Filter(gs, Picked(selected))| == 1 + |Seqs.Filter(gs[i + 1..], Picked(selected))|
  {
    Seqs.FilterAroundKept(gs, Picked(selected), i);
    Seqs.FilterNone(gs[..i], Picked(selected));
  }

  lemma KeptPickedAppend(a: seq<Group>, b: seq<Group>, selected: set<string>)
    ensures Seqs.Filter(a + b, Kept(selected)) == Seqs.Filter(a, Kept(selected)) + Seqs.Filter(b, Kept(selected))
    ensures Seqs.Filter(a + b, Picked(selected)) == Seqs.Filter(a, Picked(selected)) + Seqs.Filter(b, Picked(selected))
  {
    Seqs.FilterAppend(a, b, Kept(selected));
    Seqs.FilterAppend(a, b, Picked(selected));
  }

  lemma CollapseShape(gs: seq<Group>, selected: set<string>, m: Group)
    requires Seqs.Filter(gs, Picked(selected)) != []
    ensures var r := Collapse(gs, selected, m, false);
            var i := Seqs.FindIndex(gs, Picked(selected));
            && |r| == |gs| - |Seqs.Filter(gs, Picked(selected))| + 1
            && 0 <= i < |r|
            && r[..i] + r[i + 1..] == Seqs.Filter(gs, Kept(selected))
  {
    SplitAtFirstPicked(gs, selected);
    var i := Seqs.FindIndex(gs, Picked(selected));
    var keptTail := Seqs.Filter(gs[i + 1..], Kept(selected));
    var r := Collapse(gs, selected, m, false);
    CollapseFirst(gs, selected, m);
    assert r == gs[..i] + [m] + keptTail;
    assert r[..i] == gs[..i];
    assert r[i + 1..] == keptTail;
  }

  /** A merge of k selected groups out of n leaves n - k + 1 groups: the merged group at
      the first selected position and the unselected ones around it in their order. */
  lemma MergeLength(gs: seq<Group>, selected: set<string>, now: nat)
    requires |selected| >= 2 && Seqs.Filter(gs, Picked(selected)) != []
    ensures var r := MergeSelected(gs, selected, now).0;
            var i := Seqs.FindIndex(gs, Picked(selected));
            && |r| == |gs| - |Seqs.Filter(gs, Picked(selected))| + 1
            && 0 <= i < |r|
            && r[..i] + r[i + 1..] == Seqs.Filter(gs, Kept(selected))
  {
    var sel := Seqs.Filter(gs, Picked(selected));
    CollapseShape(gs, selected, Merged(sel, now));
  }

  // ----------------------------------------------------------------- upload

  datatype UploadResult = Uploaded | Rejected(message: string)

  /** What one group's turn in the batch leaves: a group already uploaded is skipped. */
  function Settle(g: Group, o: UploadResult): (h: Group)
    ensures h.status.Success? || h.status.Failure?
    ensures g.status.Success? ==> h == g
    ensures h.(status := g.status) == g
  {
    if g.status.Success? then g
    else match o
      case Uploaded => g.(status := Success)
      case Rejected(msg) => g.(status := Failure(msg))
  }

  function CountSuccess(gs: seq<Group>): (n: nat)
    ensures n <= |gs|
  {
    if gs == [] then 0 else (if gs[0].status.Success? then 1 else 0) + CountSuccess(gs[1..])
  }

  lemma CountSuccessAppend(a: seq<Group>, b: seq<Group>)
    ensures CountSuccess(a + b) == CountSuccess(a) + CountSuccess(b)
  {
    if a == [] {
      assert a + b == b;
    } else {
      assert (a + b)[1..] == a[1..] + b;
      CountSuccessAppend(a[1..], b);
    }
  }

  /** `handleBatchUpload`: every group is settled in order; `outcome[i]` is what the
      server answers for group `i` when it is sent. Groups already uploaded are counted
      as successes, so the two counts add up to the number of groups. */
  method BatchUpload(groups: seq<Group>, outcome: seq<UploadResult>) returns (out: seq<Group>, successes: nat, failures: nat)
    requires |outcome| == |groups|
    ensures |out| == |groups|
    ensures forall i :: 0 <= i < |groups| ==> out[i] == Settle(groups[i], outcome[i])
    ensures successes == CountSuccess(out)
    ensures successes + failures == |groups|
  {
    out := [];
    successes := 0;
    failures := 0;
    var i := 0;
    while i < |groups|
      invariant 0 <= i <= |groups|
      invariant |out| == i
      invariant forall j :: 0 <= j < i ==> out[j] == Settle(groups[j], outcome[j])
      invariant successes == CountSuccess(out)
      invariant successes + failures == i
    {
      var g := Settle(groups[i], outcome[i]);
      CountSuccessAppend(out, [g]);
      if g.status.Success? {
        successes := successes + 1;
      } else {
        failures := failures + 1;
      }
      out := out + [g];
      i := i + 1;
    }
  }
}

=== FILE: video_list.dfy ===
/** The video listing: the page size read from the query, the filters the
    query asks for, the newest-first order, and the shape of each item. The
    database's `contains` test is a parameter. */
module VideoList {
  import opened Text
  import opened Js
  import Seqs

  const DefaultLimit := 50
  const MaxLimit := 200

  /** The magnitude from which a parsed integer rounds to an infinite double:
      2^1024 - 2^970, halfway between the largest double and 2^1024. */
  const NumberLimit: int := 179769313486231580793728971405303415079934132710037826936173778980444968292764750946649017977587207096330286416692887910946555547851940402630657488671505820681908902000708383676273854845817711531764475730270069855571366959622842914819860834936475292719074168444365510704342711559699508093042880177904174497792

  /** `Number.isFinite` of what `parseInt` returns for an exact integer value. */
  predicate Finite(v: int)
  {
    -NumberLimit < v < NumberLimit
  }

  /** `limit`: `parseInt(param || '50', 10)`, clamped to [1, 200] when finite, and 50
      otherwise (`NaN` or an infinite value). */
  function Limit(param: Option<string>): (n: int)
    ensures 1 <= n <= MaxLimit
  {
    var text := if param.None? || param.value == "" then "50" else param.value;
    match ParseInt(text)
    case None => DefaultLimit
    case Some(v) =>
      if !Finite(v) then DefaultLimit
      else if v < 1 then 1
      else if v > MaxLimit then MaxLimit
      else v
  }

  /** A missing or empty `limit` is 50, and so is one with no leading digits. */
  lemma LimitDefault(param: Option<string>)
    requires param.None? || param.value == "" || ParseInt(param.value).None?
    ensures Limit(param) == DefaultLimit
  {
    if param.None? || param.value == "" {
      ParseFifty();
    }
  }

  lemma ParseFifty()
    ensures ParseInt("50") == Some(50)
  {
    var s := "50";
    assert !IsSpace(s[0]) && s[0] != '-' && s[0] != '+';
    assert TrimStart(s) == s;
    assert AllDigits(s);
    DigitPrefixOfDigits(s);
    assert s[..1] == "5";
    assert DigitsValue(s) == 10 * DigitsValue("5") + 0;
  }

  /** A finite parsed value is clamped into [1, 200]; values already inside are kept. */
  lemma LimitClamps(param: string, v: int)
    requires param != "" && ParseInt(param) == Some(v) && Finite(v)
    ensures Limit(Some(param)) == if v < 1 then 1 else if v > MaxLimit then MaxLimit else v
  {
  }

  /** A number too large for a double is infinite and falls back to 50, not 200. */
  lemma HugeLimitFallsBack(param: string)
    requires param != "" && ParseInt(param).Some? && ParseInt(param).value >= NumberLimit
    ensures Limit(Some(param)) == DefaultLimit
  {
  }

  // ------------------------------------------------------------------ filters

  /** A video row with its related artist's and song's fields. */
  datatype Video = Video(id: string, title: string, artistId: Option<string>, artistName: Option<string>,
                         songId: Option<string>, createdAt: int,
                         artistRowName: Option<string>, songTitle: Option<string>)

  /** The query: `artistId` and `songId` when given and non-empty, and the trimmed `q`. */
  datatype Query = Query(artistId: Option<string>, songId: Option<string>, q: string)

  function Param(v: Option<string>): Option<string>
  {
    if v.Some? && v.value != "" then v else None
  }

  function QueryOf(artistId: Option<string>, songId: Option<string>, q: Option<string>): (r: Query)
    ensures r.artistId.Some? ==> r.artistId.value != ""
    ensures r.songId.Some? ==> r.songId.value != ""
  {
    Query(Param(artistId), Param(songId), Trim(if q.Some? then q.value else ""))
  }

  /** A nullable column contains the text. */
  predicate ColumnHas(contains: (string, string) -> bool, col: Option<string>, q: string)
  {
    col.Some? && contains(col.value, q)
  }

  /** The `where` object: each given filter must hold, and a non-empty `q` must occur in
      the title, the artist name or the song's title. */
  predicate Admits(contains: (string, string) -> bool, query: Query, v: Video)
  {
    && (query.artistId.None? || v.artistId == query.artistId)
    && (query.songId.None? || v.songId == query.songId)
    && (query.q == "" || contains(v.title, query.q) || ColumnHas(contains, v.artistName, query.q)
        || ColumnHas(contains, v.songTitle, query.q))
  }

  function Admitted(contains: (string, string) -> bool, query: Query): Video -> bool
  {
    (v: Video) => Admits(contains, query, v)
  }

  // -------------------------------------------------------------- the order

  predicate NewestFirst(vs: seq<Video>)
  {
    forall i, j :: 0 <= i < j < |vs| ==> vs[i].createdAt >= vs[j].createdAt
  }

  /** One step of the ordering: the video goes in front of the first video that is not
      newer than it. */
  function InsertByDate(v: Video, vs: seq<Video>): (r: seq<Video>)
    ensures |r| == |vs| + 1
  {
    if vs == [] || v.createdAt >= vs[0].createdAt then [v] + vs
    else [vs[0]] + InsertByDate(v, vs[1..])
  }

  /** Inserting adds the video and keeps every other one. */
  lemma {:induction false} InsertByDateKeeps(v: Video, vs: seq<Video>)
    ensures multiset(InsertByDate(v, vs)) == multiset(vs) + multiset{v}
  {
    if vs != [] && v.createdAt < vs[0].createdAt {
      InsertByDateKeeps(v, vs[1..]);
      assert vs == [vs[0]] + vs[1..];
    }
  }

  /** Inserting into a newest-first list keeps it newest first. */
  lemma {:induction false} InsertByDateSorted(v: Video, vs: seq<Video>)
    requires NewestFirst(vs)
    ensures NewestFirst(InsertByDate(v, vs))
  {
    if vs == [] || v.createdAt >= vs[0].createdAt {
      forall w | w in vs ensures w.createdAt <= v.createdAt {
        var k :| 0 <= k < |vs| && vs[k] == w;
        assert k == 0 || vs[0].createdAt >= vs[k].createdAt;
      }
      ConsNewestFirst(v, vs);
    } else {
      var t := vs[1..];
      assert NewestFirst(t) by {
        assert forall i :: 0 <= i < |t| ==> t[i] == vs[i + 1];
      }
      InsertByDateSorted(v, t);
      InsertByDateKeeps(v, t);
      var rest := InsertByDate(v, t);
      forall w | w in rest ensures w.createdAt <= vs[0].createdAt {
        assert w in multiset(rest);
        if w != v {
          assert w in t;
          var k :| 0 <= k < |t| && t[k] == w;
          assert vs[k + 1] == w;
        }
      }
      ConsNewestFirst(vs[0], rest);
    }
  }

  /** `orderBy: { createdAt: 'desc' }`. */
  function ByDate(vs: seq<Video>): (r: seq<Video>)
    ensures NewestFirst(r)
    ensures multiset(r) == multiset(vs)
  {
    if vs == [] then []
    else
      var rest := ByDate(vs[1..]);
      InsertByDateSorted(vs[0], rest);
      InsertByDateKeeps(vs[0], rest);
      assert vs == [vs[0]] + vs[1..];
      InsertByDate(vs[0], rest)
  }

  lemma {:induction false} FilterNewestFirst(vs: seq<Video>, p: Video -> bool)
    requires NewestFirst(vs)
    ensures NewestFirst(Seqs.Filter(vs, p))
  {
    if vs != [] {
      var t := vs[1..];
      assert NewestFirst(t) by {
        assert forall i :: 0 <= i < |t| ==> t[i] == vs[i + 1];
      }
      FilterNewestFirst(t, p);
      var f := Seqs.Filter(t, p);
      assert forall w :: w in f ==> w.createdAt <= vs[0].createdAt by {
        forall w | w in f ensures w.createdAt <= vs[0].createdAt {
          var k :| 0 <= k < |t| && t[k] == w;
          assert vs[k + 1] == w;
        }
      }
      if p(vs[0]) {
        assert Seqs.Filter(vs, p) == [vs[0]] + f;
        ConsNewestFirst(vs[0], f);
      } else {
        assert Seqs.Filter(vs, p) == f;
      }
    }
  }

  /** A video no older than any of a newest-first list can go in front of it. */
  lemma ConsNewestFirst(v: Video, vs: seq<Video>)
    requires NewestFirst(vs) && forall w :: w in vs ==> w.createdAt <= v.createdAt
    ensures NewestFirst([v] + vs)
  {
    var r := [v] + vs;
    forall i, j | 0 <= i < j < |r| ensures r[i].createdAt >= r[j].createdAt {
      assert r[j] == vs[j - 1];
      if i > 0 {
        assert r[i] == vs[i - 1];
      } else {
        assert vs[j - 1] in vs;
      }
    }
  }

  // ----------------------------------------------------------------- listing

  /** An item of the response; the artist name falls back to the artist's name, then to
      the empty string, and the song title to `null`. */
  datatype Item = Item(id: string, title: string, artistName: string, songTitle: Option<string>)

  function Present(v: Video): (it: Item)
    ensures v.artistName.Some? && v.artistName.value != "" ==> it.artistName == v.artistName.value
    ensures it.artistName != "" ==> Some(it.artistName) == v.artistName || Some(it.artistName) == v.artistRowName
    ensures (v.artistName.None? || v.artistName.value == "") && v.artistRowName.Some? && v.artistRowName.value != "" ==>
              it.artistName == v.artistRowName.value
    ensures it.artistName == "" <==> (v.artistName.None? || v.artistName.value == "") &&
                                     (v.artistRowName.None? || v.artistRowName.value == "")
    ensures it.songTitle.Some? ==> it.songTitle.value != ""
    ensures v.songTitle.Some? && v.songTitle.value != "" ==> it.songTitle == v.songTitle
    ensures it.id == v.id && it.title == v.title
  {
    var name :=
      if v.artistName.Some? && v.artistName.value != "" then v.artistName.value
      else if v.artistRowName.Some? && v.artistRowName.value != "" then v.artistRowName.value
      else "";
    var song := if v.songTitle.Some? && v.songTitle.value != "" then v.songTitle else None;
    Item(v.id, v.title, name, song)
  }

  function PresentAll(vs: seq<Video>): (r: seq<Item>)
    ensures |r| == |vs| && forall i :: 0 <= i < |vs| ==> r[i] == Present(vs[i])
  {
    if vs == [] then [] else [Present(vs[0])] + PresentAll(vs[1..])
  }

  /** Listing is done video by video: listing two joined lists joins their listings, and
      the listed ids are the videos' ids in order. */
  lemma {:induction false} PresentAllAppend(a: seq<Video>, b: seq<Video>)
    ensures PresentAll(a + b) == PresentAll(a) + PresentAll(b)
    ensures forall i :: 0 <= i < |a + b| ==> PresentAll(a + b)[i].id == (a + b)[i].id
    decreases |a|
  {
    if a == [] {
      assert a + b == b;
    } else {
      assert (a + b)[1..] == a[1..] + b;
      PresentAllAppend(a[1..], b);
    }
  }

  /** The admitted videos, newest first. */
  function Admissible(table: seq<Video>, contains: (string, string) -> bool, query: Query): (m: seq<Video>)
    ensures NewestFirst(m)
    ensures multiset(m) == multiset(Seqs.Filter(table, Admitted(contains, query)))
  {
    var sorted := ByDate(table);
    FilterNewestFirst(sorted, Admitted(contains, query));
    FilterPermutes(sorted, table, Admitted(contains, query));
    Seqs.Filter(sorted, Admitted(contains, query))
  }

  function Take(m: seq<Video>, limit: nat): (r: seq<Video>)
    ensures |r| == if limit < |m| then limit else |m|
    ensures r == m[..|r|]
  {
    m[..if limit < |m| then limit else |m|]
  }

  /** The videos returned: the admitted ones, newest first, at most `limit` of them. */
  function Chosen(table: seq<Video>, contains: (string, string) -> bool, query: Query, limit: nat): seq<Video>
  {
    Take(Admissible(table, contains, query), limit)
  }

  /** `GET`. */
  function Get(table: seq<Video>, contains: (string, string) -> bool,
               artistId: Option<string>, songId: Option<string>, q: Option<string>,
               limit: Option<string>): seq<Item>
  {
    PresentAll(Chosen(table, contains, QueryOf(artistId, songId, q), Limit(limit)))
  }

  /** As many videos come back as the limit allows, each of them in the table and
      admitted, newest first. */
  lemma ChosenAdmitted(table: seq<Video>, contains: (string, string) -> bool, query: Query, limit: nat)
    ensures var r := Chosen(table, contains, query, limit);
            var admitted := Seqs.Filter(table, Admitted(contains, query));
            && |r| == (if limit < |admitted| then limit else |admitted|)
            && NewestFirst(r)
            && forall v :: v in r ==> v in table && Admits(contains, query, v)
  {
    var m := Admissible(table, contains, query);
    var admitted := Seqs.Filter(table, Admitted(contains, query));
    assert |m| == |multiset(m)| == |multiset(admitted)| == |admitted|;
    var r := Take(m, limit);
    forall v | v in r ensures v in table && Admits(contains, query, v) {
      assert v in m;
      assert v in multiset(admitted);
    }
  }

  /** The admitted videos left out are none of them newer than any video returned. */
  lemma ChosenAreNewest(table: seq<Video>, contains: (string, string) -> bool, query: Query, limit: nat)
    ensures var m := Admissible(table, contains, query);
            var r := Chosen(table, contains, query, limit);
            && r == m[..|r|]
            && forall v, w :: v in r && w in m[|r|..] ==> w.createdAt <= v.createdAt
  {
    var m := Admissible(table, contains, query);
    var r := Take(m, limit);
    forall v, w | v in r && w in m[|r|..] ensures w.createdAt <= v.createdAt {
      var j :| 0 <= j < |m[|r|..]| && m[|r|..][j] == w;
      var i :| 0 <= i < |r| && r[i] == v;
      assert m[|r| + j] == w && m[i] == v;
    }
  }

  /** Filtering lists with the same elements gives lists with the same elements. */
  lemma {:induction false} FilterPermutes(a: seq<Video>, b: seq<Video>, p: Video -> bool)
    requires multiset(a) == multiset(b)
    ensures multiset(Seqs.Filter(a, p)) == multiset(Seqs.Filter(b, p))
  {
    FilterMultiset(a, p);
    FilterMultiset(b, p);
  }

  /** The elements kept by a filter, counted: each element of the list as often as it
      occurs, if it passes. */
  lemma {:induction false} FilterMultiset(a: seq<Video>, p: Video -> bool)
    ensures forall v :: multiset(Seqs.Filter(a, p))[v] == if p(v) then multiset(a)[v] else 0
  {
    if a != [] {
      FilterMultiset(a[1..], p);
      assert a == [a[0]] + a[1..];
    }
  }
}

=== FILE: video_upload.dfy ===
/** The video upload route: required fields, the optional song link, saving the
    video and its cover, and the decision between conflict, update in place and
    creation. */
module VideoUpload {
  import opened Text
  import opened Js
  import opened Sanitize
  import opened StoredFiles
  import opened Artists
  import Seqs

  const MissingFields := "Missing required fields"
  const SongNotFound := "Song not found"
  const NoVideo := "No video uploaded"

  const VideoDirs := ["videos"]
  const CoverDirs := ["images", "videos"]

  /** A video row; `cover` is `None` for a missing cover. */
  datatype Video = Video(id: string, title: string, uuid: string, artistId: string, artistName: string,
                         songId: Option<string>, src: string, cover: Option<string>)

  /** The form: text fields as sent (`None` when absent), the video and the cover. */
  datatype Form = Form(title: Option<string>, artist: Option<string>, songId: Option<string>, force: bool,
                       video: Option<Sent>, cover: Option<Sent>)

  /** The rows the route reads and writes: artists, videos, and the ids of the songs. */
  datatype Db = Db(artists: seq<Artist>, videos: seq<Video>, songIds: set<string>)

  /** The identifiers the route would create: the storage id, and the ids of a new
      artist row and a new video row. */
  datatype NewIds = NewIds(uuid: string, artistId: string, videoId: string)

  datatype Response =
    | Unauthorized
    | Forbidden
    | BadRequest(error: string)
    | Conflict(existingId: string, existingTitle: string)
    | Success(video: Video)
    | ServerError

  /** The response, the rows afterwards, the files left on disk and the files written
      and removed again. */
  datatype Outcome = Outcome(response: Response, db: Db, kept: seq<string>, removed: seq<string>)

  predicate SameVideo(v: Video, title: string, artistId: string, songId: Option<string>)
  {
    v.title == title && v.artistId == artistId && v.songId == songId
  }

  /** The first video with this title, artist and song, or -1. */
  function FindVideo(videos: seq<Video>, title: string, artistId: string, songId: Option<string>): (i: int)
    ensures -1 <= i < |videos|
    ensures i == -1 <==> forall j :: 0 <= j < |videos| ==> !SameVideo(videos[j], title, artistId, songId)
    ensures i != -1 ==> SameVideo(videos[i], title, artistId, songId)
  {
    Seqs.FindIndex(videos, (v: Video) => SameVideo(v, title, artistId, songId))
  }

  /** `POST /api/video/upload`. `pinyin` is the converter used to index a new artist. */
  function Post(user: Option<string>, canUpload: bool, f: Form, db: Db, ids: NewIds,
                pinyin: Option<char -> string>): (o: Outcome)
    ensures user.None? ==> o == Outcome(Unauthorized, db, [], [])
    ensures user.Some? && !canUpload ==> o == Outcome(Forbidden, db, [], [])
    ensures !o.response.Success? ==> o.db.videos == db.videos && o.kept == []
    ensures o.response.Success? ==> o.removed == []
  {
    if user.None? then Outcome(Unauthorized, db, [], [])
    else if !canUpload then Outcome(Forbidden, db, [], [])
    else
      var title := FieldText(f.title);
      var artist := FieldText(f.artist);
      var songId := FieldText(f.songId);
      if title == [] || artist == [] || f.video.None? then Outcome(BadRequest(MissingFields), db, [], [])
      else if songId != [] && songId !in db.songIds then Outcome(BadRequest(SongNotFound), db, [], [])
      else Accept(f, db, ids, pinyin)
  }

  /** Past the field checks: save the video, then the cover, then record. */
  function Accept(f: Form, db: Db, ids: NewIds, pinyin: Option<char -> string>): (o: Outcome)
    requires f.video.Some?
    ensures !o.response.Success? ==> o.db.videos == db.videos && o.kept == []
    ensures o.response.Success? ==> o.removed == []
  {
    var src := VideoSave(f, ids);
    if src.Failed? then Outcome(ServerError, db, [], [])
    else if src.Skipped? then Outcome(BadRequest(NoVideo), db, [], [])
    else
      var cover := CoverSave(f, ids);
      if cover.Failed? then Outcome(ServerError, db, [], [src.url])
      else Record(FieldText(f.title), FieldText(f.artist), SongKey(FieldText(f.songId)), f.force,
                  src.url, SavedCover(cover), Written(src, cover), db, ids, pinyin)
  }

  function VideoSave(f: Form, ids: NewIds): SaveResult
    requires f.video.Some?
  {
    SaveFile(f.video.value.file, VideoDirs, ids.uuid, f.video.value.write, f.video.value.clock)
  }

  /** `coverFile ? saveFile(…) : null`. */
  function CoverSave(f: Form, ids: NewIds): SaveResult
  {
    if f.cover.Some? then SaveFile(f.cover.value.file, CoverDirs, ids.uuid, f.cover.value.write, f.cover.value.clock) else Skipped
  }

  /** `songId || null`. */
  function SongKey(songId: string): (r: Option<string>)
    ensures r.None? <==> songId == []
  {
    if songId != [] then Some(songId) else None
  }

  function SavedCover(cover: SaveResult): Option<string>
  {
    if cover.Saved? then Some(cover.url) else None
  }

  /** The files the request wrote, in order. */
  function Written(src: SaveResult, cover: SaveResult): seq<string>
    requires src.Saved?
  {
    [src.url] + (if cover.Saved? then [cover.url] else [])
  }

  /** The transaction: find or create the artist, then report a conflict, update the
      matching video in place, or create a new one. */
  function Record(title: string, artist: string, songId: Option<string>, force: bool, src: string,
                  savedCover: Option<string>, written: seq<string>, db: Db, ids: NewIds,
                  pinyin: Option<char -> string>): (o: Outcome)
    ensures o.response.Conflict? || o.response.Success?
    ensures o.db.songIds == db.songIds
    ensures o.db.artists == FindOrCreate(db.artists, artist, ids.artistId, pinyin).0
    ensures o.response.Conflict? ==> o.db.videos == db.videos && o.kept == [] && o.removed == written
    ensures o.response.Success? ==> o.kept == written && o.removed == []
  {
    var found := FindOrCreate(db.artists, artist, ids.artistId, pinyin);
    var artists := found.0;
    var artistId := found.1;
    var i := FindVideo(db.videos, title, artistId, songId);
    if i != -1 && !force then
      Outcome(Conflict(db.videos[i].id, db.videos[i].title), db.(artists := artists), [], written)
    else if i != -1 then
      var prev := db.videos[i];
      var updated := prev.(title := title, uuid := if prev.uuid != [] then prev.uuid else ids.uuid,
                          artistId := artistId, artistName := artist, songId := songId, src := src,
                          cover := if savedCover.Some? then savedCover else prev.cover);
      Outcome(Success(updated), db.(artists := artists, videos := db.videos[i := updated]), written, [])
    else
      var created := Video(ids.videoId, title, ids.uuid, artistId, artist, songId, src, savedCover);
      Outcome(Success(created), db.(artists := artists, videos := db.videos + [created]), written, [])
  }

  // ------------------------------------------------------------ route properties

  /** A missing title, artist or video file is rejected before anything is written. */
  lemma MissingFieldsRejected(user: Option<string>, canUpload: bool, f: Form, db: Db, ids: NewIds,
                              pinyin: Option<char -> string>)
    requires user.Some? && canUpload
    requires FieldText(f.title) == [] || FieldText(f.artist) == [] || f.video.None?
    ensures Post(user, canUpload, f, db, ids, pinyin) == Outcome(BadRequest(MissingFields), db, [], [])
  {
  }

  /** A song id that names no song is rejected before anything is written. */
  lemma UnknownSongRejected(user: Option<string>, canUpload: bool, f: Form, db: Db, ids: NewIds,
                            pinyin: Option<char -> string>)
    requires user.Some? && canUpload
    requires FieldText(f.title) != [] && FieldText(f.artist) != [] && f.video.Some?
    requires FieldText(f.songId) != [] && FieldText(f.songId) !in db.songIds
    ensures Post(user, canUpload, f, db, ids, pinyin) == Outcome(BadRequest(SongNotFound), db, [], [])
  {
  }

  /** Once the fields pass the checks, the upload is accepted. */
  lemma ChecksPassed(user: Option<string>, canUpload: bool, f: Form, db: Db, ids: NewIds,
                     pinyin: Option<char -> string>)
    requires user.Some? && canUpload
    requires FieldText(f.title) != [] && FieldText(f.artist) != [] && f.video.Some?
    requires FieldText(f.songId) == [] || FieldText(f.songId) in db.songIds
    ensures Post(user, canUpload, f, db, ids, pinyin) == Accept(f, db, ids, pinyin)
  {
  }

  /** When saving the video fails nothing was written; when saving the cover fails the
      saved video is removed. Either way no row changes. */
  lemma FailedSaveRollsBack(f: Form, db: Db, ids: NewIds, pinyin: Option<char -> string>)
    requires f.video.Some?
    ensures var o := Accept(f, db, ids, pinyin);
            && (VideoSave(f, ids).Failed? ==> o == Outcome(ServerError, db, [], []))
            && (VideoSave(f, ids).Saved? && CoverSave(f, ids).Failed? ==>
                  o == Outcome(ServerError, db, [], [VideoSave(f, ids).url]))
  {
  }

  /** An empty video file is not saved, and the request is rejected. */
  lemma EmptyVideoRejected(f: Form, db: Db, ids: NewIds, pinyin: Option<char -> string>)
    requires f.video.Some? && f.video.value.file.size == 0
    ensures Accept(f, db, ids, pinyin) == Outcome(BadRequest(NoVideo), db, [], [])
  {
  }

  /** Once the video is saved, the request is recorded with the saved paths. */
  lemma SavedUploadIsRecorded(f: Form, db: Db, ids: NewIds, pinyin: Option<char -> string>)
    requires f.video.Some? && VideoSave(f, ids).Saved? && !CoverSave(f, ids).Failed?
    ensures Accept(f, db, ids, pinyin)
              == Record(FieldText(f.title), FieldText(f.artist), SongKey(FieldText(f.songId)), f.force,
                        VideoSave(f, ids).url, SavedCover(CoverSave(f, ids)),
                        Written(VideoSave(f, ids), CoverSave(f, ids)), db, ids, pinyin)
  {
    var src := VideoSave(f, ids);
    var cover := CoverSave(f, ids);
    assert !src.Failed? && !src.Skipped? && !cover.Failed?;
  }

  /** A video with the same title, artist and song, and no `force`, is a conflict: every
      file this request wrote is removed and no video changes. */
  lemma ConflictRemovesWrittenFiles(title: string, artist: string, songId: Option<string>, src: string,
                                    savedCover: Option<string>, written: seq<string>, db: Db, ids: NewIds,
                                    pinyin: Option<char -> string>)
    ensures var artistId := FindOrCreate(db.artists, artist, ids.artistId, pinyin).1;
            var o := Record(title, artist, songId, false, src, savedCover, written, db, ids, pinyin);
            && (o.response.Conflict? <==> FindVideo(db.videos, title, artistId, songId) != -1)
            && (o.response.Conflict? ==>
                  && o.db.videos == db.videos && o.removed == written && o.kept == []
                  && o.response.existingId == db.videos[FindVideo(db.videos, title, artistId, songId)].id)
  {
  }

  /** With `force`, a matching video is updated in place: it keeps its id, its storage id
      when it had one, and its cover when no new cover was saved. */
  lemma ForceUpdatesInPlace(title: string, artist: string, songId: Option<string>, src: string,
                            savedCover: Option<string>, written: seq<string>, db: Db, ids: NewIds,
                            pinyin: Option<char -> string>)
    requires FindVideo(db.videos, title, FindOrCreate(db.artists, artist, ids.artistId, pinyin).1, songId) != -1
    ensures var artistId := FindOrCreate(db.artists, artist, ids.artistId, pinyin).1;
            var i := FindVideo(db.videos, title, artistId, songId);
            var prev := db.videos[i];
            var o := Record(title, artist, songId, true, src, savedCover, written, db, ids, pinyin);
            && o.response.Success?
            && |o.db.videos| == |db.videos|
            && o.db.videos[i] == o.response.video
            && (forall j :: 0 <= j < |db.videos| && j != i ==> o.db.videos[j] == db.videos[j])
            && o.response.video.id == prev.id
            && (prev.uuid != [] ==> o.response.video.uuid == prev.uuid)
            && (prev.uuid == [] ==> o.response.video.uuid == ids.uuid)
            && o.response.video.src == src
            && (savedCover.None? ==> o.response.video.cover == prev.cover)
            && (savedCover.Some? ==> o.response.video.cover == savedCover)
            && o.kept == written
  {
  }

  /** Without a match, a new video is appended with the new ids and exactly the saved
      files. */
  lemma NewVideoCreated(title: string, artist: string, songId: Option<string>, force: bool, src: string,
                        savedCover: Option<string>, written: seq<string>, db: Db, ids: NewIds,
                        pinyin: Option<char -> string>)
    requires FindVideo(db.videos, title, FindOrCreate(db.artists, artist, ids.artistId, pinyin).1, songId) == -1
    ensures var o := Record(title, artist, songId, force, src, savedCover, written, db, ids, pinyin);
            && o.response.Success?
            && o.db.videos == db.videos + [o.response.video]
            && o.response.video.id == ids.videoId && o.response.video.uuid == ids.uuid
            && o.response.video.title == title && o.response.video.artistName == artist
            && o.response.video.songId == songId
            && o.response.video.src == src && o.response.video.cover == savedCover
  {
  }

  /** The recorded video belongs to the artist with the sent name. */
  lemma VideoArtistHasTheName(title: string, artist: string, songId: Option<string>, force: bool, src: string,
                              savedCover: Option<string>, written: seq<string>, db: Db, ids: NewIds,
                              pinyin: Option<char -> string>)
    ensures var o := Record(title, artist, songId, force, src, savedCover, written, db, ids, pinyin);
            o.response.Success? ==>
              exists j :: 0 <= j < |o.db.artists| && o.db.artists[j].id == o.response.video.artistId
                          && o.db.artists[j].name == artist
  {
  }

  /** A saved video's path: `/videos/<storage id>/<name>`. */
  lemma VideoPath(groupId: string, name: string)
    ensures UrlPath(VideoDirs, groupId, name) == "/" + "videos" + "/" + FolderName(groupId) + "/" + name
  {
    FolderNameFixed("videos");
    assert FolderNames(VideoDirs) == ["videos"];
  }

  /** A saved cover's path: `/images/videos/<storage id>/<name>`. */
  lemma CoverPath(groupId: string, name: string)
    ensures UrlPath(CoverDirs, groupId, name) == "/" + ("images" + "/" + "videos") + "/" + FolderName(groupId) + "/" + name
  {
    FolderNameFixed("videos");
    FolderNameFixed("images");
    var parts := FolderNames(CoverDirs);
    assert parts == ["images", "videos"];
    assert parts[1..] == ["videos"];
    assert Join(parts, "/") == "images" + "/" + "videos";
  }
}
